=== FILE: README.md ===
# char-rnn-java, modelled in Dafny

This project models the core of char-rnn-java, a character-level recurrent neural network. It covers:

- the training engine: dense matrices and the vector rules of their operators, a categorical choice, and the RNN layer with its forward pass, backward pass and Adagrad update;
- the layer stack and the single-layer network, with training and sampling;
- the training driver that walks a text window by window;
- the alphabet that numbers the characters of a text;
- the character-level adapter, and the validation of the application options.

The model is functional:

- Every Java class becomes a datatype.
- Every method that mutates an object returns the object's next state together with its result or exception. This is the `Step(next, out)` of module `Outcomes`.
- Every exception class becomes a constructor of `Error`. A nullable reference becomes an `Option`.
- Matrix entries are exact `real`s.

Transcendental functions are left abstract:

- `exp`, `tanh`, `log` and `sqrt` are function values passed in (`Kernel.Transcendentals`).
- The model assumes only that exp is positive and sqrt non-negative.
- So softmax is still provably a probability distribution, and the Adagrad denominator is never zero.

Randomness is an explicit input:

- Gaussian weights are read from a stream `gauss: nat -> real` at a cursor, in the row-major order the Java code fills a matrix in.
- Every categorical choice gets its uniform draw as a parameter.

Modules follow the Java sources:

| module | file | models |
|---|---|---|
| `Outcomes` | outcomes.dfy | the exceptions, `Option`, `Result`, `Step` |
| `Tolerance` | tolerance.dfy | `Math.close`, `Math.eps` |
| `Kernel` | kernel.dfy | the transcendental functions |
| `ArrayUtils` | arrays.dfy | `math/Utils.java` |
| `Matrices`, `VectorAlgebra` | matrix.dfy, vectors.dfy | `math/Matrix.java` |
| `Activations` | softmax.dfy | `Math.softmax` |
| `Random` | random.dfy | `math/Random.java` |
| `Alphabets` | alphabet.dfy | `net/Alphabet.java` |
| `TrainingSets` | trainingset.dfy | `net/StringTrainingSet.java` |
| `Layers`, `LayerTraining`, `LayerSampling` | layer.dfy, backward.dfy, sampling.dfy | `net/RNNLayer.java` |
| `Network`, `NetworkTraining`, `NetworkSampling` | stack.dfy, stacktrain.dfy, stacksample.dfy | `net/MultiLayerRNN.java` |
| `Trainers` | trainer.dfy | `net/RNNTrainer.java` |
| `SingleLayer` | single.dfy | `net/SingleLayerRNN.java` |
| `CharLevel` | charlevel.dfy | `net/CharLevelRNN.java`, `net/MultiLayerCharLevelRNN.java` |
| `Options` | options.dfy | `Options.java` |

Where the code does something its own comments, messages or callers show was not meant, the model keeps both versions:

- The as-written version is named `…AsWritten`. A lemma exhibits the difference on a concrete input.
- The corrected version has the intended property proved, and the rest of the model is built on it.
- See "## Findings".

A note on how the character-level adapter binds to the network:

- `CharLevelRNN.sampleString` calls a three-argument `sampleIndices(n, seed, advance)`.
- Neither that class nor the interfaces it implements declare such a method.
- The model binds the call to the network's `MultiLayerRNN.sampleIndices(n, seed, advance)`. A single seed character becomes a one-index seed, as the network's own single-seed overload does.

## Model

| member | source | states |
|---|---|---|
| Tolerance.Eps | src/io/github/garstka/rnn/math/Math.java:6-24 | the tolerance is 1e-6, and `close(a, b, eps())` agrees with the two-argument `close(a, b)` on every pair |
| Tolerance.CloseIff | src/io/github/garstka/rnn/math/Math.java:10-13 | `close(a, b)` holds exactly when a − b lies in [−1e-6, 1e-6] |
| Tolerance.CloseSymmetric | src/io/github/garstka/rnn/math/Math.java:10-13 | closeness does not depend on the order of the arguments |
| Tolerance.CloseReflexive | src/io/github/garstka/rnn/math/Math.java:10-13 | every value is close to itself |
| Tolerance.ZeroAndOneApart | src/io/github/garstka/rnn/math/Math.java:10-13 | no value is close to both 0 and 1, so the two tests of the one-hot decoder exclude each other |
| ArrayUtils.DeepCopyOf | src/io/github/garstka/rnn/math/Utils.java:13-24 | null stays null; otherwise the copy has the same number of rows, null rows stay null and every other row has the same entries |
| ArrayUtils.ArrayRows | src/io/github/garstka/rnn/math/Utils.java:28-33 | a null array counts as 0 rows, otherwise the outer length |
| ArrayUtils.ArrayCols | src/io/github/garstka/rnn/math/Utils.java:37-54 | null gives 0 and an empty array fails reading row 0. Otherwise it succeeds exactly when every later row is non-null with row 0's width, returning that width. A failure with no null row is NotRectangularArrayException |
| ArrayUtils.CheckRows | src/io/github/garstka/rnn/math/Utils.java:49-53 | the loop from row i succeeds exactly when every row from i on is non-null with the expected width; a null row is NotRectangular when the width is non-zero, otherwise a NullPointerException |
| ArrayUtils.RectangularHasCols | src/io/github/garstka/rnn/math/Utils.java:44-53 | a non-empty array whose rows all have width n has `arrayCols` n |
| Matrices.Zeros | src/io/github/garstka/rnn/math/Matrix.java:84-91 | succeeds exactly for positive dimensions, with an M x N matrix of zeros; otherwise IllegalArgumentException |
| Matrices.ZerosVector | src/io/github/garstka/rnn/math/Matrix.java:94-101 | succeeds exactly for k > 0, with a 1 x k row of zeros |
| Matrices.ZerosLike | src/io/github/garstka/rnn/math/Matrix.java:105-112 | a matrix of zeros with the argument's shape |
| Matrices.Ones | src/io/github/garstka/rnn/math/Matrix.java:115-122 | succeeds exactly for positive dimensions, with an M x N matrix of ones |
| Matrices.OnesVector | src/io/github/garstka/rnn/math/Matrix.java:125-132 | succeeds exactly for k > 0, with a 1 x k row of ones |
| Matrices.OnesLike | src/io/github/garstka/rnn/math/Matrix.java:135-142 | a matrix of ones with the argument's shape |
| Matrices.OneHot | src/io/github/garstka/rnn/math/Matrix.java:146-155 | succeeds exactly when 0 <= i < k, with a 1 x k row that is 1 at i and 0 elsewhere; otherwise IllegalArgumentException |
| Matrices.FromRaw | src/io/github/garstka/rnn/math/Matrix.java:34-52 | succeeds exactly for a non-null, non-empty array whose row 0 has positive width and whose rows all have that width, and then holds the array's rows. Null is IllegalArgumentException; an empty array fails reading row 0 |
| Matrices.Transpose | src/io/github/garstka/rnn/math/Matrix.java:190-199 | the shape is swapped and entry (j, i) of the result is entry (i, j) of the argument |
| Matrices.TransposeInvolution | src/io/github/garstka/rnn/math/Matrix.java:190-199 | transposing twice gives back the matrix |
| Matrices.Dot | src/io/github/garstka/rnn/math/Matrix.java:158-187 | succeeds exactly when a.N == b.M, when both are column vectors, or when b is a row as wide as a. These give the product, the outer product a b^T, and the product with b transposed, each entry stated. Any other shape pair is the incompatible-shapes RuntimeException |
| Matrices.AddScalar | src/io/github/garstka/rnn/math/Matrix.java:204-210 | same shape, x added to every entry |
| Matrices.MulScalar | src/io/github/garstka/rnn/math/Matrix.java:242-248 | same shape, every entry multiplied by x |
| Matrices.DivScalar | src/io/github/garstka/rnn/math/Matrix.java:285-291 | same shape; every entry of the result times x is the original entry |
| Matrices.Neg | src/io/github/garstka/rnn/math/Matrix.java:279-282 | same shape; every entry of the result added to the original is 0 |
| Matrices.Apply | src/io/github/garstka/rnn/math/Matrix.java:359-365 | same shape, f applied to every entry |
| Matrices.Exp | src/io/github/garstka/rnn/math/Matrix.java:322-328 | same shape, each entry exp of the matching entry of the input, hence every entry positive |
| Matrices.Tanh | src/io/github/garstka/rnn/math/Matrix.java:331-337 | same shape, tanh of every entry |
| Matrices.Zip | src/io/github/garstka/rnn/math/Matrix.java:214-239 | the pairing shared by the element-wise operators. It succeeds exactly for equal shapes, or for a column and a row of equal length. The result keeps the receiver's shape and combines entry (i, j) with the other's (i, j), or its (j, i) after the implicit transpose |
| Matrices.Add | src/io/github/garstka/rnn/math/Matrix.java:214-239 | element-wise sum under the pairing rule, receiver's shape kept, other shapes rejected |
| Matrices.Mul | src/io/github/garstka/rnn/math/Matrix.java:251-276 | element-wise product under the pairing rule, receiver's shape kept, other shapes rejected |
| Matrices.Div | src/io/github/garstka/rnn/math/Matrix.java:294-319 | element-wise quotient under the pairing rule: each result entry times the paired divisor entry is the receiver's entry |
| Matrices.Clip | src/io/github/garstka/rnn/math/Matrix.java:340-356 | succeeds exactly when lo < hi. Then every entry lies in [lo, hi], entries already inside are kept, entries below become lo and entries above become hi |
| Matrices.ClipIdempotent | src/io/github/garstka/rnn/math/Matrix.java:340-356 | clipping a clipped matrix to the same bounds changes nothing |
| Matrices.SumPositive | src/io/github/garstka/rnn/math/Matrix.java:370-378 | the sum of a matrix of positive entries is positive |
| Matrices.SumIsFlatSum | src/io/github/garstka/rnn/math/Matrix.java:370-378 | `sum()` adds every entry exactly once: it equals the sum of the row-major flattening `unravel()` |
| Matrices.Unravel | src/io/github/garstka/rnn/math/Matrix.java:398-407 | the flattening has M * N entries with entry (i, j) stored at row start i plus j |
| Matrices.UnravelIndex | src/io/github/garstka/rnn/math/Matrix.java:398-407 | entry (i, j) sits at position N * i + j of the flattening |
| Matrices.UnravelVector | src/io/github/garstka/rnn/math/Matrix.java:398-415 | a vector flattens to its entries in index order, whichever its orientation |
| Matrices.GetK | src/io/github/garstka/rnn/math/Matrix.java:469-477 | succeeds exactly for a vector, with its length, which is also M * N; otherwise NotAVectorException |
| Matrices.At | src/io/github/garstka/rnn/math/Matrix.java:482-494 | a non-vector is NotAVectorException. For a vector it succeeds exactly for indices inside its length, with that entry, and is IndexOutOfBoundsException otherwise |
| Matrices.AtCell | src/io/github/garstka/rnn/math/Matrix.java:497-504 | succeeds exactly inside the shape, with entry (i, j) |
| Matrices.SetAt | src/io/github/garstka/rnn/math/Matrix.java:518-531 | same checks as `at(i)`; on success the shape is kept and the entries are the old ones with entry i replaced by x |
| Matrices.SetAtCell | src/io/github/garstka/rnn/math/Matrix.java:534-541 | succeeds exactly inside the shape; entry (i, j) becomes x and no other entry changes |
| Matrices.SetThenAt | src/io/github/garstka/rnn/math/Matrix.java:482-531 | writing entry i then reading it gives the written value; reading any other index gives what it gave before |
| Matrices.ScanOneHot | src/io/github/garstka/rnn/math/Matrix.java:424-449 | the scan from a position succeeds only on a tolerant one-hot vector and then finds its index. Near-zeros from the start give AllZeros; a second near-1 among near-0/1 entries gives MultipleOnes |
| Matrices.OneHotIndex | src/io/github/garstka/rnn/math/Matrix.java:419-452 | fails on a non-vector. Otherwise it returns i exactly when entry i is within 1e-6 of 1 and every other entry within 1e-6 of 0. All near-zeros give AllZeros, and two near-ones among near-0/1 entries give MultipleOnes |
| Matrices.OneHotIndexErrors | src/io/github/garstka/rnn/math/Matrix.java:425-449 | on a vector, each error is decided by the scan order. NotZeroOrOne exactly when an entry near neither 0 nor 1 comes before any second near-1. MultipleOnes exactly when a second near-1 comes before any such entry. AllZeros exactly when every entry is near 0 |
| Matrices.ScanNeitherIff | src/io/github/garstka/rnn/math/Matrix.java:427-445 | from any point of the loop, NotZeroOrOne is thrown exactly at an entry near neither 0 nor 1 that the loop reaches |
| Matrices.ScanOnesIff | src/io/github/garstka/rnn/math/Matrix.java:427-442 | from any point of the loop, MultipleOnes is thrown exactly at a second near-1 entry that the loop reaches |
| Matrices.ScanZerosIff | src/io/github/garstka/rnn/math/Matrix.java:425-449 | from any point of the loop, AllZeros is thrown exactly when no 1 was found and every remaining entry is near 0 |
| Matrices.AtHot | src/io/github/garstka/rnn/math/Matrix.java:508-515 | a null index is NullPointerException, and the decoder's failure propagates. Otherwise it is NotAVectorException on a non-vector, IndexOutOfBoundsException for a decoded index at or past the length, and the entry at the decoded index for one below it |
| Matrices.SetAtHot | src/io/github/garstka/rnn/math/Matrix.java:545-548 | a null index is NullPointerException, and the decoder's failure propagates. Otherwise, as `setAt(i, x)`: NotAVectorException on a non-vector, IndexOutOfBoundsException for a decoded index at or past the length, and for one below it a matrix of the same shape with exactly that entry replaced |
| Matrices.OneHotRoundTrip | src/io/github/garstka/rnn/math/Matrix.java:419-452 | decoding `oneHot(k, i)` gives back i |
| VectorAlgebra.DotMatVec | src/io/github/garstka/rnn/math/Matrix.java:158-187 | a matrix times a vector of its width, in either orientation, is a column holding the matrix-vector product |
| VectorAlgebra.AddVectors | src/io/github/garstka/rnn/math/Matrix.java:214-239 | two vectors of equal length, in any orientations, add entry by entry |
| VectorAlgebra.MulVectors | src/io/github/garstka/rnn/math/Matrix.java:251-276 | two vectors of equal length, in any orientations, multiply entry by entry |
| VectorAlgebra.OuterProduct | src/io/github/garstka/rnn/math/Matrix.java:158-187 | a column times a transposed vector is the outer product, entry (i, j) = u[i] * v[j] |
| Activations.Softmax | src/io/github/garstka/rnn/math/Math.java:29-34 | same shape, every entry positive, entries summing to 1, and each entry is exp of the input entry divided by the common normaliser |
| Activations.SoftmaxNormaliser | src/io/github/garstka/rnn/math/Math.java:29-34 | the normaliser is the sum of exp over the whole input: entry (i, j) is exp(y[i][j]) / sum(exp(y)) |
| Activations.NormalisedSumIsOne | src/io/github/garstka/rnn/math/Math.java:31-32 | dividing by a positive sum leaves entries that sum to 1 |
| Random.Randn | src/io/github/garstka/rnn/math/Random.java:21-30 | succeeds exactly for positive dimensions, with an M x N matrix whose entries are consecutive draws in row-major order |
| Random.RandnDrawsDistinct | src/io/github/garstka/rnn/math/Random.java:27-28 | distinct entries read distinct draws, all within the M * N draws after the cursor |
| Random.RandnVector | src/io/github/garstka/rnn/math/Random.java:35-42 | succeeds exactly for k > 0, with a 1 x k row of consecutive draws |
| Random.RandomLike | src/io/github/garstka/rnn/math/Random.java:47-53 | null is NullPointerException; otherwise a Gaussian matrix of the argument's shape |
| Random.RandomChoice | src/io/github/garstka/rnn/math/Random.java:60-76 | null is NullPointerException. With draw r the result is the first index whose running total exceeds r; if none does, the last index (−1 for an empty array). For a non-empty array the result is in range |
| Random.ChoiceOfOneHot | src/io/github/garstka/rnn/math/Random.java:60-76 | a distribution that is 1 at j is sampled as j for every draw in [0, 1) |
| Random.ChosenHasMass | src/io/github/garstka/rnn/math/Random.java:66-74 | an index chosen because its total exceeds a non-negative draw has positive probability |
| Alphabets.Insert | src/io/github/garstka/rnn/net/Alphabet.java:27-31 | adding to a sorted distinct set keeps it sorted and distinct and adds exactly the new character |
| Alphabets.Collect | src/io/github/garstka/rnn/net/Alphabet.java:27-31 | the collected set is sorted, distinct, and holds exactly the characters of the data |
| Alphabets.FromString | src/io/github/garstka/rnn/net/Alphabet.java:17-48 | the alphabet holds exactly the characters of the data, and none for null |
| Alphabets.IncreasingUnique | src/io/github/garstka/rnn/net/Alphabet.java:27-40 | two sorted distinct sequences with the same characters are equal, so the alphabet depends only on the set of characters |
| Alphabets.FromStringIsSortedDistinct | src/io/github/garstka/rnn/net/Alphabet.java:27-40 | `indexToChar` is the one sorted distinct sequence of the data's characters |
| Alphabets.SizeIsDistinctCount | src/io/github/garstka/rnn/net/Alphabet.java:17-54 | `size()` is the number of distinct characters of the data |
| Alphabets.CharToIndex | src/io/github/garstka/rnn/net/Alphabet.java:57-65 | succeeds exactly for a character of the alphabet, with the index that holds it; otherwise CharacterNotInAlphabetException |
| Alphabets.IndexToChar | src/io/github/garstka/rnn/net/Alphabet.java:69-75 | succeeds exactly for 0 <= i < size(), with the i-th character of the alphabet; otherwise IndexOutOfBoundsException |
| Alphabets.IndexRoundTrip | src/io/github/garstka/rnn/net/Alphabet.java:57-75 | `charToIndex(indexToChar(i)) == i` for every valid i |
| Alphabets.CharRoundTrip | src/io/github/garstka/rnn/net/Alphabet.java:57-75 | `indexToChar(charToIndex(c)) == c` for every character of the data |
| Alphabets.IndicesToChars | src/io/github/garstka/rnn/net/Alphabet.java:78-89 | null is NullPointerException. It succeeds exactly when every index is in range; the result has one character per index, the one the index stands for |
| Alphabets.CharsToIndices | src/io/github/garstka/rnn/net/Alphabet.java:92-104 | null is NullPointerException. It succeeds exactly when every character is in the alphabet; the result has one index per character, the one that stands for it |
| Alphabets.SpellsUnique | src/io/github/garstka/rnn/net/Alphabet.java:78-104 | two index sequences that spell the same string are equal |
| Alphabets.IndicesRoundTrip | src/io/github/garstka/rnn/net/Alphabet.java:78-104 | indices to characters and back gives the indices |
| Alphabets.CharsRoundTrip | src/io/github/garstka/rnn/net/Alphabet.java:78-104 | characters to indices and back gives the characters |
| TrainingSets.FromString | src/io/github/garstka/rnn/net/StringTrainingSet.java:20-27 | null data reads as the empty string, and the alphabet holds exactly the data's characters |
| TrainingSets.VocabularyIsDistinctCount | src/io/github/garstka/rnn/net/StringTrainingSet.java:110-119 | `vocabularySize()` is the number of distinct characters of the data |
| TrainingSets.Window | src/io/github/garstka/rnn/net/StringTrainingSet.java:76-92 | inside the data, the loop cannot hit the alphabet-mismatch exception. It yields the inputs for the characters at lb .. lb+len−1 and the targets for those one position later |
| TrainingSets.CheckArguments | src/io/github/garstka/rnn/net/StringTrainingSet.java:61-69 | null arrays are NullPointerException; unequal lengths or a negative bound are IllegalArgumentException, in that order |
| TrainingSets.ExtractAsWritten | src/io/github/garstka/rnn/net/StringTrainingSet.java:56-93 | the argument errors come first. Then it succeeds exactly when lb + len + 1 < data length, with the window at lb |
| TrainingSets.Extract | src/io/github/garstka/rnn/net/StringTrainingSet.java:56-93 | the argument errors come first. Then it succeeds exactly when the window fits, lb + len + 1 <= data length, and otherwise throws NoMoreTrainingDataException |
| TrainingSets.WindowUnique | src/io/github/garstka/rnn/net/StringTrainingSet.java:77-86 | two windows of the same length at the same place are equal |
| TrainingSets.WindowShifts | src/io/github/garstka/rnn/net/StringTrainingSet.java:77-86 | every target but the last is the next input, iy[t] == ix[t + 1] |
| TrainingSets.AsWrittenAgreesWhenOk | src/io/github/garstka/rnn/net/StringTrainingSet.java:72-74 | where the code as written extracts, the intended version extracts the same window; they differ only when the window ends at the last character |
| TrainingSets.AsWrittenMissesLastWindow | src/io/github/garstka/rnn/net/StringTrainingSet.java:72-74 | on "ab" the window of length 1 at 0 exists, inputs [0] and targets [1], but the code as written reports exhaustion |
| Layers.NewLayerAsWritten | src/io/github/garstka/rnn/net/RNNLayer.java:59-65 | the default constructor as written: input size 50 (the output default), hidden size 100, output size 0, not initialized |
| Layers.NewLayer | src/io/github/garstka/rnn/net/RNNLayer.java:59-65 | the default constructor as intended: every size and the rate at its default, not initialized |
| Layers.NewLayerWith | src/io/github/garstka/rnn/net/RNNLayer.java:68-75 | the sizes and rate as given, unchecked, not initialized |
| Layers.SetInputSize | src/io/github/garstka/rnn/net/RNNLayer.java:78-87 | the layer is de-initialized even when the size is rejected. It succeeds exactly for a positive size, which it stores, and changes nothing else |
| Layers.SetHiddenSize | src/io/github/garstka/rnn/net/RNNLayer.java:90-99 | the layer is de-initialized even when the size is rejected. It succeeds exactly for a positive size, which it stores, and changes nothing else |
| Layers.SetOutputSize | src/io/github/garstka/rnn/net/RNNLayer.java:102-111 | the layer is de-initialized even when the size is rejected. It succeeds exactly for a positive size, which it stores, and changes nothing else |
| Layers.SetLearningRate | src/io/github/garstka/rnn/net/RNNLayer.java:113-119 | any rate is stored and the layer is de-initialized |
| Layers.Initialize | src/io/github/garstka/rnn/net/RNNLayer.java:122-146 | succeeds exactly for positive sizes. The result is initialized with weights and accumulators of the configured shapes and zero biases and accumulators. The hidden state is a 1 x H row, and nothing else changes. Exactly H·In + H·H + Out·H + H draws are consumed |
| Layers.AsWrittenDefaultCannotInitialize | src/io/github/garstka/rnn/net/RNNLayer.java:59-65 | `initialize()` on the layer the default constructor builds as written fails with IllegalArgumentException |
| Layers.DefaultLayerInitializes | src/io/github/garstka/rnn/net/RNNLayer.java:59-65 | the layer the default constructor builds as intended initializes |
| Layers.SettersShapeInitialize | src/io/github/garstka/rnn/net/RNNLayer.java:78-146 | sizes set through the setters are the shapes `initialize` gives the weights |
| Layers.IxToX | src/io/github/garstka/rnn/net/RNNLayer.java:155-169 | null is NullPointerException; an empty sequence or an index outside [0, inputSize) is IllegalArgumentException. Otherwise there is one one-hot row of the input size per index, at that index |
| Layers.IxToXSingle | src/io/github/garstka/rnn/net/RNNLayer.java:172-178 | succeeds exactly for an index in [0, inputSize), with its one-hot row |
| Layers.CheckVectors | src/io/github/garstka/rnn/net/RNNLayer.java:218-224 | the per-slot check: it succeeds exactly when every slot is present and a vector of the given length. A missing or wrong-length slot is IllegalArgumentException and a non-vector NotAVectorException |
| Layers.StepHiddenColumn | src/io/github/garstka/rnn/net/RNNLayer.java:238-240 | with configured shapes one step succeeds and the new hidden state is the column tanh(Wxh x + Whh h + bh) |
| Layers.OutputColumn | src/io/github/garstka/rnn/net/RNNLayer.java:243-244 | with configured shapes the output is the output-size column Why h + by |
| Layers.RunFollows | src/io/github/garstka/rnn/net/RNNLayer.java:230-256 | the forward loop on inputs of the input size succeeds. Every step follows h[t+1] = tanh(Wxh x[t] + Whh h[t] + bh), y[t] = Why h[t+1] + by and p[t] = softmax(y[t]) |
| Layers.Forward | src/io/github/garstka/rnn/net/RNNLayer.java:207-262 | an uninitialized layer is IllegalStateException and null or empty input is IllegalArgumentException, then the slot check. On success it records the inputs, the old hidden state in slot 0, and each step's state, output and probabilities. The hidden state becomes the last one and nothing else changes |
| Layers.ForwardFollows | src/io/github/garstka/rnn/net/RNNLayer.java:207-262 | on a layer satisfying its invariant, a pass over valid inputs succeeds and every recorded step follows the recurrence |
| Layers.ForwardKeepsInv | src/io/github/garstka/rnn/net/RNNLayer.java:207-262 | a forward pass keeps the layer invariant and leaves a record of the prescribed shapes |
| Layers.ForwardOne | src/io/github/garstka/rnn/net/RNNLayer.java:265-273 | null is rejected; otherwise it is a one-step pass on that input |
| Layers.RunFirst | src/io/github/garstka/rnn/net/RNNLayer.java:230-256 | step 1 of a pass depends only on the first input and the starting state |
| Layers.FirstStepAgrees | src/io/github/garstka/rnn/net/RNNLayer.java:207-262 | two passes of one layer whose first inputs agree record the same output and probabilities at step 1 |
| LayerTraining.CheckTargets | src/io/github/garstka/rnn/net/RNNLayer.java:286-298 | the shared checks of `getLoss` and `getdy`: initialized, and one target per step of the last pass, each in [0, outputSize) |
| LayerTraining.GetLoss | src/io/github/garstka/rnn/net/RNNLayer.java:284-306 | IllegalStateException before initialization, IllegalArgumentException for bad targets, and succeeds only past both checks |
| LayerTraining.LossIsCrossEntropy | src/io/github/garstka/rnn/net/RNNLayer.java:284-306 | on a fitting record, `getLoss` succeeds exactly for valid targets and is the sum of −log of the probability each step gave its target |
| LayerTraining.GetY | src/io/github/garstka/rnn/net/RNNLayer.java:310-316 | IllegalStateException before initialization; otherwise the recorded outputs |
| LayerTraining.GetP | src/io/github/garstka/rnn/net/RNNLayer.java:320-326 | IllegalStateException before initialization; otherwise the recorded probabilities |
| LayerTraining.ProbabilitiesAreSoftmax | src/io/github/garstka/rnn/net/RNNLayer.java:248-250 | after a forward pass the probabilities at each step are positive, sum to 1, and are the softmax of that step's output |
| LayerTraining.GetDy | src/io/github/garstka/rnn/net/RNNLayer.java:335-364 | the same checks as `getLoss`; on success one gradient per target |
| LayerTraining.GradientIsPMinusOneHot | src/io/github/garstka/rnn/net/RNNLayer.java:335-364 | on a fitting record, `getdy` succeeds exactly for valid targets and each gradient is p[t] − onehot(iy[t]) |
| LayerTraining.GradientSumsToZero | src/io/github/garstka/rnn/net/RNNLayer.java:352-360 | every output gradient sums to zero, since its probabilities sum to 1 |
| LayerTraining.BackStep | src/io/github/garstka/rnn/net/RNNLayer.java:413-435 | one iteration of the backward loop with every operator's failure propagated; gradient shapes are kept |
| LayerTraining.BackFrom | src/io/github/garstka/rnn/net/RNNLayer.java:413-435 | the loop from the last step down: a dx per step, and a failing step stops the loop with the state from before it |
| LayerTraining.ClipGradient | src/io/github/garstka/rnn/net/RNNLayer.java:439-446 | clipping to [−5, 5] keeps the shape and bounds every entry |
| LayerTraining.AdagradUpdate | src/io/github/garstka/rnn/net/RNNLayer.java:454-464 | one Adagrad iteration: g' = g + d*d and w' = w − rate*d / (sqrt(g') + 1e-8), shapes kept |
| LayerTraining.AdagradRuleDominates | src/io/github/garstka/rnn/net/RNNLayer.java:460 | the accumulators only grow, each entry by a square |
| LayerTraining.AdagradRuleZeroGradient | src/io/github/garstka/rnn/net/RNNLayer.java:460-463 | a zero gradient leaves the weight and the accumulator unchanged |
| LayerTraining.Backward | src/io/github/garstka/rnn/net/RNNLayer.java:379-465 | the checks come first: IllegalStateException, then IllegalArgumentException for a wrong count, then the slot check. The invariant and hidden state are kept. A failure leaves the weights. Success writes one dx per step, each within [−5, 5], grows every accumulator, and is an Adagrad step by gradients clipped to [−5, 5] |
| LayerTraining.BackwardLoop | src/io/github/garstka/rnn/net/RNNLayer.java:396-465 | succeeds exactly when the loop does; then every dx slot is filled, keeps the loop's shape and is clipped to [−5, 5] |
| LayerTraining.AdagradAllKeepsInv | src/io/github/garstka/rnn/net/RNNLayer.java:451-464 | an Adagrad update by gradients shaped like the weights keeps the invariant and only grows the accumulators |
| LayerTraining.GetDx | src/io/github/garstka/rnn/net/RNNLayer.java:471-477 | IllegalStateException before initialization; otherwise the dx slots of the last backward pass |
| LayerTraining.BackwardSucceeds | src/io/github/garstka/rnn/net/RNNLayer.java:379-465 | on an initialized layer with a fitting record, `backward` on output-size column gradients, one per step, succeeds |
| LayerSampling.SampleFromSplits | src/io/github/garstka/rnn/net/RNNLayer.java:507-524 | n + m iterations are n iterations, then m more from the state and last index the first run ended with |
| LayerSampling.SampleFromSucceeds | src/io/github/garstka/rnn/net/RNNLayer.java:507-524 | with choices that are input indices, every iteration succeeds and the state stays a hidden-size vector |
| LayerSampling.SampleAsWritten | src/io/github/garstka/rnn/net/RNNLayer.java:489-527 | `sample` as written: it rejects an uninitialized layer and n < 1, and the layer itself never changes |
| LayerSampling.SampleAsWrittenIgnoresKeep | src/io/github/garstka/rnn/net/RNNLayer.java:498-510 | the as-written `sample` returns the same thing for either value of keep |
| LayerSampling.Sample | src/io/github/garstka/rnn/net/RNNLayer.java:486-527 | `sample` as documented: the same indices. With keep the hidden state is the one the last iteration reached; without it the layer is unchanged |
| LayerSampling.SampleSucceeds | src/io/github/garstka/rnn/net/RNNLayer.java:489-527 | on a layer with equal input and output size, a valid seed and n >= 1 give n indices in range |
| LayerSampling.SampleContinues | src/io/github/garstka/rnn/net/RNNLayer.java:486-527 | with keep, sampling n then m more from the last index equals sampling n + m at once |
| LayerSampling.SampleKeepDoesNotAdvance | src/io/github/garstka/rnn/net/RNNLayer.java:498-510 | on a one-unit layer, sampling one index with keep leaves the hidden state at 0 as written, while the iteration ended in state 1 |
| LayerSampling.SaveHiddenState | src/io/github/garstka/rnn/net/RNNLayer.java:530-536 | IllegalStateException before initialization; otherwise a copy of the hidden state |
| LayerSampling.RestoreHiddenState | src/io/github/garstka/rnn/net/RNNLayer.java:539-548 | it fails on null or on a vector whose length is not the hidden size, otherwise replaces only the hidden state |
| LayerSampling.RestoreSaved | src/io/github/garstka/rnn/net/RNNLayer.java:530-548 | restoring what was saved gives back the same layer |
| LayerSampling.SaveRestored | src/io/github/garstka/rnn/net/RNNLayer.java:530-548 | what was restored is what is saved next |
| LayerSampling.SampleBetweenSaveAndRestore | src/io/github/garstka/rnn/net/RNNLayer.java:489-548 | save, sample with keep, restore leaves the layer as it was |
| Network.NewNet | src/io/github/garstka/rnn/net/MultiLayerRNN.java:23-26 | no layers, not initialized, the default rate |
| Network.SetHiddenSizes | src/io/github/garstka/rnn/net/MultiLayerRNN.java:45-57 | null is NullPointerException; an empty array or a size <= 0 is IllegalArgumentException. Otherwise it stores the sizes and clears the initialized flag only, keeping the invariant |
| Network.SetLearningRate | src/io/github/garstka/rnn/net/MultiLayerRNN.java:60-67 | before layers exist only the rate changes; afterwards each layer gets the rate and is de-initialized, and nothing else changes |
| Network.InputSizes | src/io/github/garstka/rnn/net/MultiLayerRNN.java:92-95 | layer 0 reads the vocabulary and layer i the hidden size of layer i − 1 |
| Network.OutputSizesAsWritten | src/io/github/garstka/rnn/net/MultiLayerRNN.java:101-104 | the last layer scores the vocabulary and layer i outputs the hidden size of layer i + 1 |
| Network.OutputSizes | src/io/github/garstka/rnn/net/MultiLayerRNN.java:101-104 | the last layer scores the vocabulary and layer i outputs its own hidden size, which layer i + 1 reads |
| Network.InitializeAsWritten | src/io/github/garstka/rnn/net/MultiLayerRNN.java:73-110 | succeeds exactly for v >= 1, and builds initialized layers with the as-written wiring |
| Network.Initialize | src/io/github/garstka/rnn/net/MultiLayerRNN.java:73-110 | succeeds exactly for v >= 1, with one initialized layer per hidden size (one of size 100 by default), wired so each layer's outputs are the next layer's inputs |
| Network.InitializeChains | src/io/github/garstka/rnn/net/MultiLayerRNN.java:86-107 | the corrected layers form a chain: layer 0 reads v, the last scores v, each output size is the next input size |
| Network.GetVocabularySize | src/io/github/garstka/rnn/net/MultiLayerRNN.java:240-245 | IllegalStateException before initialization; otherwise layer 0's input size |
| Network.InitializeSetsVocabulary | src/io/github/garstka/rnn/net/MultiLayerRNN.java:240-245 | after `initialize(v)` the vocabulary size is v |
| Network.InitializeDefaultsToOneLayer | src/io/github/garstka/rnn/net/MultiLayerRNN.java:80-84 | with no sizes configured there is one layer of hidden size 100 reading and scoring v |
| Network.AsWrittenChainedIff | src/io/github/garstka/rnn/net/MultiLayerRNN.java:86-107 | as written the layers form a chain exactly when all hidden sizes are equal |
| NetworkTraining.ForwardUp | src/io/github/garstka/rnn/net/MultiLayerRNN.java:139-141 | layer i runs on the input and each layer above on the outputs below it. A failing layer stops the pass, and the layers it passed keep their new state |
| NetworkTraining.ForwardUpOk | src/io/github/garstka/rnn/net/MultiLayerRNN.java:139-141 | on a chain of initialized layers, T input vectors pass through every layer, each recording a T-step pass |
| NetworkTraining.ForwardUpStopsAtMismatch | src/io/github/garstka/rnn/net/MultiLayerRNN.java:139-141 | where some layer's output size differs from the next layer's input size, the pass fails with IllegalArgumentException |
| NetworkTraining.BackwardDown | src/io/github/garstka/rnn/net/MultiLayerRNN.java:150-151 | layers below the top run backward on the dx of the layer above; a failure stops the pass |
| NetworkTraining.BackwardDownOk | src/io/github/garstka/rnn/net/MultiLayerRNN.java:150-151 | on a stack ready for it, the pass down completes |
| NetworkTraining.ForwardBackward | src/io/github/garstka/rnn/net/MultiLayerRNN.java:122-154 | IllegalStateException, NullPointerException, then IllegalArgumentException (length mismatch, empty, an input index out of range), all before any layer changes. Targets are checked later, after the forward pass (see BadTargetFailsAfterForward). The configuration and weight shapes of every layer are kept |
| NetworkTraining.BadTargetFailsAfterForward | src/io/github/garstka/rnn/net/MultiLayerRNN.java:138-144 | when the argument checks pass and the forward pass completes, a target outside the top layer's output size is IllegalArgumentException from `getLoss`, returned with every layer in the state the forward pass left it |
| NetworkTraining.TrainRejectsTarget | src/io/github/garstka/rnn/net/MultiLayerRNN.java:138-144 | the same for the passes after encoding: a completed forward pass followed by a rejected target leaves the forwarded layers and throws IllegalArgumentException |
| NetworkTraining.ForwardUpNeedsInitializedTop | src/io/github/garstka/rnn/net/MultiLayerRNN.java:139-141 | a forward pass up the stack completes only if the top layer is initialized |
| NetworkTraining.ForwardBackwardSucceeds | src/io/github/garstka/rnn/net/MultiLayerRNN.java:122-154 | on a chained network, valid indices give a completed pass: every layer records it, the accumulators grow, and the result is the cross-entropy loss of the top layer |
| NetworkTraining.InitializeReady | src/io/github/garstka/rnn/net/MultiLayerRNN.java:73-110 | the corrected `initialize` leaves the network ready for a pass over its vocabulary |
| NetworkTraining.AsWrittenPassFails | src/io/github/garstka/rnn/net/MultiLayerRNN.java:92-104 | as written, with two neighbouring hidden sizes different, every `forwardBackward` on valid arguments fails with IllegalArgumentException |
| NetworkTraining.MismatchedPassFails | src/io/github/garstka/rnn/net/MultiLayerRNN.java:139-141 | on any stack with a size mismatch, `forwardBackward` on valid arguments fails with IllegalArgumentException |
| NetworkTraining.RateChangeStrandsNet | src/io/github/garstka/rnn/net/MultiLayerRNN.java:60-67 | after initialization a rate change leaves the network reporting itself initialized with the same vocabulary, yet every valid `forwardBackward` fails with IllegalStateException and changes nothing |
| NetworkSampling.SaveAll | src/io/github/garstka/rnn/net/MultiLayerRNN.java:193-198 | one saved state per layer, the hidden states in order, or the first uninitialized layer's exception |
| NetworkSampling.RestoreAll | src/io/github/garstka/rnn/net/MultiLayerRNN.java:224-228 | each layer gets its saved state in order; a failure stops the loop |
| NetworkSampling.DrawAt | src/io/github/garstka/rnn/net/MultiLayerRNN.java:207-208 | the categorical choice on the top layer's probabilities at a step |
| NetworkSampling.LoopStep | src/io/github/garstka/rnn/net/MultiLayerRNN.java:213-222 | one step: forward the previous sample through the stack, draw, encode the draw |
| NetworkSampling.SampleLoop | src/io/github/garstka/rnn/net/MultiLayerRNN.java:213-222 | m loop steps with consecutive draws, returning the drawn indices in order |
| NetworkSampling.SeedPass | src/io/github/garstka/rnn/net/MultiLayerRNN.java:202-205 | `ixTox(seed)` on layer 0, then forward up the stack |
| NetworkSampling.Prepare | src/io/github/garstka/rnn/net/MultiLayerRNN.java:179-205 | the checks in order (IllegalStateException, n < 0, null seed), the save when advance is false, then the seed pass |
| NetworkSampling.SampleIndicesAsWritten | src/io/github/garstka/rnn/net/MultiLayerRNN.java:177-231 | `sampleIndices` as written: the checks, then a first draw from step 1 of the seed pass; n = 0 fails on `sampled[0]` |
| NetworkSampling.SampleIndices | src/io/github/garstka/rnn/net/MultiLayerRNN.java:177-231 | `sampleIndices` as intended: the checks, then a first draw from the last seed step; n = 0 returns no indices, and the states are restored when advance is false |
| NetworkSampling.SampleLoopOk | src/io/github/garstka/rnn/net/MultiLayerRNN.java:213-222 | on a ready stack the loop yields m indices, each in [0, v) |
| NetworkSampling.SeedPassOk | src/io/github/garstka/rnn/net/MultiLayerRNN.java:202-205 | on a ready stack a non-empty seed of valid indices passes through every layer, each recording the whole seed |
| NetworkSampling.PrepareOk | src/io/github/garstka/rnn/net/MultiLayerRNN.java:179-205 | on a ready network with n >= 0 and a valid seed, the checks, the save and the seed pass succeed |
| NetworkSampling.FinishRestores | src/io/github/garstka/rnn/net/MultiLayerRNN.java:224-228 | restoring states saved from initialized layers succeeds and gives every layer its saved state back |
| NetworkSampling.SampleIndicesSucceeds | src/io/github/garstka/rnn/net/MultiLayerRNN.java:177-231 | the intended version on a ready network with n >= 0 and a valid seed: n indices in [0, v); with advance false every hidden state is as before the call |
| NetworkSampling.SampleIndicesAsWrittenSucceeds | src/io/github/garstka/rnn/net/MultiLayerRNN.java:177-231 | the as-written version with n > 0: n indices in [0, v), hidden states restored when advance is false |
| NetworkSampling.AsWrittenZeroSamplesFails | src/io/github/garstka/rnn/net/MultiLayerRNN.java:200-208 | as written, n = 0 throws ArrayIndexOutOfBoundsException after the seed pass moved the layers, with no restore |
| NetworkSampling.AsWrittenReadsFirstStep | src/io/github/garstka/rnn/net/MultiLayerRNN.java:207-208 | for n > 0, the as-written continuation is the intended one with the first draw read at step 1 instead of the last step |
| NetworkSampling.OneIndexSeedAgrees | src/io/github/garstka/rnn/net/MultiLayerRNN.java:207-208 | with a one-index seed both versions draw the same indices |
| NetworkSampling.AsWrittenFirstSampleIgnoresSeedTail | src/io/github/garstka/rnn/net/MultiLayerRNN.java:202-208 | as written, two seeds with the same first index give the same first sample for the same draw, whatever follows |
| NetworkSampling.AsWrittenFirstSampleFromFirstStep | src/io/github/garstka/rnn/net/MultiLayerRNN.java:202-208 | as written, the first sample is drawn from the top layer's step 1, after the first seed index only |
| NetworkSampling.FirstSampleFromWholeSeed | src/io/github/garstka/rnn/net/MultiLayerRNN.java:202-208 | as intended, the first sample is drawn at the last seed step, from the state after the whole seed |
| Trainers.NewTrainer | src/io/github/garstka/rnn/net/RNNTrainer.java:39-42 | the default sequence length 50, counters at 0, not initialized |
| Trainers.SetSequenceLength | src/io/github/garstka/rnn/net/RNNTrainer.java:55-66 | succeeds exactly for length > 1, which it stores, changing nothing else; otherwise IllegalArgumentException |
| Trainers.Admit | src/io/github/garstka/rnn/net/RNNTrainer.java:71-101 | a null set or net is NullPointerException with nothing changed. The net and set are assigned before the vocabulary and size checks, and it succeeds exactly when both pass |
| Trainers.InitializeAsWritten | src/io/github/garstka/rnn/net/RNNTrainer.java:71-101 | succeeds exactly for non-null arguments, a non-empty vocabulary and data at least sequenceLength long |
| Trainers.Initialize | src/io/github/garstka/rnn/net/RNNTrainer.java:71-101 | as intended: succeeds exactly when the data holds one window, sequenceLength + 1 characters. The counters are kept and a failure is BadTrainingSetException |
| Trainers.SmoothBetween | src/io/github/garstka/rnn/net/RNNTrainer.java:132 | 0.999·L + 0.001·loss lies between L and loss |
| Trainers.TrainStep | src/io/github/garstka/rnn/net/RNNTrainer.java:121-137 | a failing extract leaves the trainer as it was. A failing pass keeps the network's new state and nothing else. A completed step moves the offset by sequenceLength, counts one and smooths the loss |
| Trainers.Train | src/io/github/garstka/rnn/net/RNNTrainer.java:112-143 | IllegalStateException before initialization and IllegalArgumentException for steps < 0, both with nothing changed; the invariant is kept |
| Trainers.TrainCounts | src/io/github/garstka/rnn/net/RNNTrainer.java:121-137 | the offset moves by sequenceLength per counted step, never back, and all steps are counted unless an exception ended the loop |
| Trainers.TrainAll | src/io/github/garstka/rnn/net/RNNTrainer.java:106-109 | `train(Integer.MAX_VALUE)`; a completed run counts 2^31 − 1 steps |
| Trainers.LoopAround | src/io/github/garstka/rnn/net/RNNTrainer.java:146-149 | the offset becomes 0 and nothing else changes |
| Trainers.GetSmoothLoss | src/io/github/garstka/rnn/net/RNNTrainer.java:160-166 | IllegalStateException before initialization; otherwise the value times sequenceLength is 100 times the smoothed loss |
| Trainers.InitialSmoothLoss | src/io/github/garstka/rnn/net/RNNTrainer.java:98 | right after `initialize` the loss reads −log(1/v)·100, the loss of a uniform guess, whatever the sequence length |
| Trainers.InitializeAllowsOnePass | src/io/github/garstka/rnn/net/RNNTrainer.java:88-90 | after the intended `initialize` a trainer at offset 0 finds its first window |
| Trainers.AsWrittenAdmitsTooShortData | src/io/github/garstka/rnn/net/RNNTrainer.java:88-90 | "ab" with sequence length 2 initializes as written, yet the first window is not in the data |
| Trainers.NextWindowAsWrittenMissesLast | src/io/github/garstka/rnn/net/RNNTrainer.java:123-124 | read through `extract` as written, a step finds the same window wherever that finds one, and throws NoMoreTrainingDataException instead of reading the window that ends at the last character |
| Trainers.NextWindow | src/io/github/garstka/rnn/net/RNNTrainer.java:124 | the intended `extract` at the trainer's offset: a negative offset is IllegalArgumentException; otherwise it succeeds exactly when offset + sequenceLength + 1 <= data length, with the window of that length at the offset, and else throws NoMoreTrainingDataException |
| Trainers.NextWindowAsWritten | src/io/github/garstka/rnn/net/RNNTrainer.java:124 | the same through `extract` as written, which succeeds only when offset + sequenceLength + 1 < data length |
| Trainers.StepOkIff | src/io/github/garstka/rnn/net/RNNTrainer.java:121-137 | with a pass that never throws, a step completes exactly when the window at the offset is in the data, and otherwise throws NoMoreTrainingDataException |
| Trainers.LoopOkIff | src/io/github/garstka/rnn/net/RNNTrainer.java:121-137 | with a pass that never throws, n steps complete exactly when offset + n·T + 1 characters exist, and otherwise stop with NoMoreTrainingDataException |
| Trainers.LoopStopsAtEnd | src/io/github/garstka/rnn/net/RNNTrainer.java:121-137 | where the loop throws, it completed m < n steps, whose windows were in the data, and the next window was not |
| Trainers.LoopAroundThenTrain | src/io/github/garstka/rnn/net/RNNTrainer.java:121-149 | after `loopAround`, n steps complete exactly when the data holds n windows from the start, leaving the offset at n·T |
| SingleLayer.NewSingle | src/io/github/garstka/rnn/net/SingleLayerRNN.java:30-34 | a default layer and the given sequence length, unchecked, not initialized |
| SingleLayer.NewSingleAsWritten | src/io/github/garstka/rnn/net/SingleLayerRNN.java:30-34 | the same around the as-written default layer, whose output size is 0 |
| SingleLayer.NewSingleWith | src/io/github/garstka/rnn/net/SingleLayerRNN.java:37-49 | a hidden size <= 0, then a sequence length <= 1, is IllegalArgumentException; otherwise a default layer with that hidden size and rate |
| SingleLayer.Admit | src/io/github/garstka/rnn/net/SingleLayerRNN.java:52-82 | null is NullPointerException. The set is assigned before the checks. On success the layer reads and scores the vocabulary and is initialized, and the loss is seeded with sequenceLength·(−log(1/v)) |
| SingleLayer.InitializeAsWritten | src/io/github/garstka/rnn/net/SingleLayerRNN.java:52-82 | succeeds exactly for a non-empty vocabulary and data at least sequenceLength long |
| SingleLayer.Initialize | src/io/github/garstka/rnn/net/SingleLayerRNN.java:52-82 | as intended: succeeds exactly when the data holds one window, with the set stored and the smoothed loss seeded |
| SingleLayer.DefaultLayerSizesOverwritten | src/io/github/garstka/rnn/net/SingleLayerRNN.java:69-71 | `initialize` gives the same layer whether it starts from the as-written or the intended default layer |
| SingleLayer.LayerPass | src/io/github/garstka/rnn/net/SingleLayerRNN.java:106-108 | `forward(ixTox(ix))`, `getLoss(iy)`, `backward(getdy(iy))`; an out-of-range input index is IllegalArgumentException with the layer unchanged |
| SingleLayer.Train | src/io/github/garstka/rnn/net/SingleLayerRNN.java:91-123 | the initialization and step-count checks first, with nothing changed; the invariant is kept whatever the outcome |
| SingleLayer.TrainAll | src/io/github/garstka/rnn/net/SingleLayerRNN.java:85-88 | `train()` on an uninitialized network is IllegalStateException with nothing changed; otherwise it is `train(Integer.MAX_VALUE)`, a run whose completed steps each add one to the count and move the offset by one window, 2^31 − 1 of them when it completes; the invariant is kept |
| SingleLayer.PassKeepsInv | src/io/github/garstka/rnn/net/SingleLayerRNN.java:99-117 | a training step keeps the network invariant whether it completes or throws |
| SingleLayer.LayerPassCompletes | src/io/github/garstka/rnn/net/SingleLayerRNN.java:106-108 | on an initialized layer with equal input and output size v, a window of indices below v completes the pass |
| SingleLayer.PassFindsWindows | src/io/github/garstka/rnn/net/SingleLayerRNN.java:99-117 | on a trainable network a step completes exactly when the window at the offset is in the data, and otherwise throws NoMoreTrainingDataException |
| SingleLayer.TrainFindsWindows | src/io/github/garstka/rnn/net/SingleLayerRNN.java:91-117 | `train(n)` completes exactly when the data holds n windows from the offset, leaving offset + n·T and n more steps |
| SingleLayer.TrainAllStopsAtEnd | src/io/github/garstka/rnn/net/SingleLayerRNN.java:85-117 | `train()` trains on every window from the offset and stops with NoMoreTrainingDataException at the first that does not fit |
| SingleLayer.FreshNetworkTrainsEveryWindow | src/io/github/garstka/rnn/net/SingleLayerRNN.java:30-117 | a new network, once initialized, completes `train(n)` exactly when the data holds n windows from its start |
| SingleLayer.AsWrittenAdmitsTooShortData | src/io/github/garstka/rnn/net/SingleLayerRNN.java:65-67 | "ab" with sequence length 2 initializes as written, yet no step finds a window; the intended version rejects it |
| SingleLayer.GetSmoothLoss | src/io/github/garstka/rnn/net/SingleLayerRNN.java:126-129 | no initialization check; the value times sequenceLength is 100 times the smoothed loss, and a sequence length of 0 gives no number |
| SingleLayer.InitialSmoothLoss | src/io/github/garstka/rnn/net/SingleLayerRNN.java:79 | right after `initialize` the loss reads −log(1/v)·100 whenever the sequence length is not 0 |
| SingleLayer.SampleIndices | src/io/github/garstka/rnn/net/SingleLayerRNN.java:150-186 | the intended sampling of the one-layer stack; only the layer's hidden state and trace may change |
| SingleLayer.SampleIndicesAsWritten | src/io/github/garstka/rnn/net/SingleLayerRNN.java:150-186 | the as-written sampling: the first draw at step 1 of the seed pass; only the hidden state and trace may change |
| SingleLayer.SampleFrom | src/io/github/garstka/rnn/net/SingleLayerRNN.java:138-141 | a single seed index samples as the one-index seed |
| SingleLayer.SampleAdvancing | src/io/github/garstka/rnn/net/SingleLayerRNN.java:132-135 | the overloads without advance pass advance = true |
| SingleLayer.SampleIndicesSucceeds | src/io/github/garstka/rnn/net/SingleLayerRNN.java:150-186 | on a fitted network, n >= 0 and a valid seed give n indices in the vocabulary, and with advance false the hidden state is restored |
| SingleLayer.AsWrittenZeroSamplesFails | src/io/github/garstka/rnn/net/SingleLayerRNN.java:166-170 | as written, n = 0 throws ArrayIndexOutOfBoundsException after the seed pass moved the hidden state |
| SingleLayer.OneIndexSeedAgrees | src/io/github/garstka/rnn/net/SingleLayerRNN.java:168-170 | with a one-index seed both versions draw the same indices for n > 0 |
| CharLevel.GetVocabularySize | src/io/github/garstka/rnn/net/MultiLayerCharLevelRNN.java:96-99 | IllegalStateException exactly before initialization; on a ready adapter, the alphabet size |
| CharLevel.NewCharNet | src/io/github/garstka/rnn/net/MultiLayerCharLevelRNN.java:13-16 | no alphabet and an uninitialized network |
| CharLevel.Initialize | src/io/github/garstka/rnn/net/MultiLayerCharLevelRNN.java:43-50 | null is NullPointerException with nothing changed. The alphabet is stored before the network initializes, so an empty alphabet leaves it stored and fails with IllegalArgumentException. Otherwise the network is initialized over its size |
| CharLevel.NewCharNetWith | src/io/github/garstka/rnn/net/MultiLayerCharLevelRNN.java:20-24 | construct then initialize; on success the adapter is ready over the alphabet |
| CharLevel.InitializeReady | src/io/github/garstka/rnn/net/MultiLayerCharLevelRNN.java:43-50 | after `initialize(a)` with a non-empty a, `getAlphabet()` is a, the vocabulary size is a's size, and the network is chained over it |
| CharLevel.SetHiddenSize | src/io/github/garstka/rnn/net/MultiLayerCharLevelRNN.java:29-32 | the network's outcome, with the alphabet kept |
| CharLevel.SetLearningRate | src/io/github/garstka/rnn/net/MultiLayerCharLevelRNN.java:35-38 | handed to the network; the alphabet is kept |
| CharLevel.SetHiddenSizeDeinitializes | src/io/github/garstka/rnn/net/MultiLayerCharLevelRNN.java:29-32 | after a successful `setHiddenSize`, sampling is IllegalStateException until initialized again |
| CharLevel.ForwardBackward | src/io/github/garstka/rnn/net/MultiLayerCharLevelRNN.java:62-65 | exactly what the network returns, with the alphabet kept |
| CharLevel.ForwardBackwardOnText | src/io/github/garstka/rnn/net/MultiLayerCharLevelRNN.java:62-65 | on a ready adapter, the indices of two equally long non-empty texts in the alphabet give a completed pass |
| CharLevel.SampleChars | src/io/github/garstka/rnn/net/CharLevelRNN.java:72-75 | the network's sampled indices, spelled through the alphabet |
| CharLevel.SampleString | src/io/github/garstka/rnn/net/CharLevelRNN.java:31-46 | IllegalStateException, then IllegalArgumentException for a negative length, then CharacterNotInAlphabetException for the seed, all before sampling; on success it spells the sampled indices |
| CharLevel.SampleStringFrom | src/io/github/garstka/rnn/net/CharLevelRNN.java:58-76 | the same, with a null seed NullPointerException after the length check and every seed character mapped |
| CharLevel.SampleStringAdvancing | src/io/github/garstka/rnn/net/CharLevelRNN.java:23-27 | the one-character overload without advance passes advance = true |
| CharLevel.SampleStringFromAdvancing | src/io/github/garstka/rnn/net/CharLevelRNN.java:50-54 | the string overload without advance passes advance = true |
| CharLevel.OneCharSeedIsString | src/io/github/garstka/rnn/net/CharLevelRNN.java:31-46 | a single seed character samples exactly as the one-character seed string |
| CharLevel.SampledStringRoundTrip | src/io/github/garstka/rnn/net/CharLevelRNN.java:70-75 | mapping the sampled string back through the alphabet gives exactly the indices the network sampled |
| CharLevel.SampleStringSucceeds | src/io/github/garstka/rnn/net/CharLevelRNN.java:58-76 | on a ready adapter, a length >= 0 and a seed in the alphabet give a string of that length in the alphabet; with advance false every hidden state is restored |
| Options.Defaults | src/io/github/garstka/rnn/Options.java:151-165 | the defaults are valid options, with sampling temperature 1.0 and input file "input.txt" |
| Options.ValidateFields | src/io/github/garstka/rnn/Options.java:170-196 | each integer field and the learning rate is replaced by its default exactly when out of range; no other field changes |
| Options.ValidateAsWritten | src/io/github/garstka/rnn/Options.java:168-214 | the checked fields end in range. The sampling temperature is never changed, and an out-of-range temperature resets the learning rate |
| Options.Validate | src/io/github/garstka/rnn/Options.java:168-214 | as intended: the result is valid, and an out-of-range temperature is replaced by 1.0 |
| Options.ValidateFixesExactlyValid | src/io/github/garstka/rnn/Options.java:168-214 | validation leaves options unchanged exactly when they are valid |
| Options.ValidateIdempotent | src/io/github/garstka/rnn/Options.java:168-214 | validating twice is validating once |
| Options.ValidateChangesOnlyInvalid | src/io/github/garstka/rnn/Options.java:170-213 | a field changes only when it was out of range, and then to its default; unchecked fields never change |
| Options.AsWrittenResetsWrongField | src/io/github/garstka/rnn/Options.java:198-205 | learning rate 0.5 with temperature 2.0: as written the temperature stays 2.0 and the rate becomes 0.1; as intended the rate stays and the temperature becomes 1.0 |
| Options.AsWrittenAgreesInRange | src/io/github/garstka/rnn/Options.java:198-205 | both versions agree whenever the temperature is in range |
| Options.AcceptedLengthRejectedByTrainer | src/io/github/garstka/rnn/Options.java:184-189 | a sequence length of 1 passes validation, yet the trainer's `setSequenceLength` rejects it with IllegalArgumentException |

## Left out

- Transcendental functions and rounding. `exp`, `tanh`, `log` and `sqrt` are parameters with only exp > 0 and sqrt >= 0 assumed. Entries are exact reals, so IEEE-754 rounding, overflow, NaN and infinities are not modelled.
- Training convergence and the numerical quality of the loss. These are empirical.
- The `java.util.Random` state and `Random.reseed`. Gaussian draws come from a stream parameter and uniform draws are parameters, so the distributions themselves are not modelled.
- I/O:
  - `StringTrainingSet.fromFile`;
  - every `System.out` print and the `printDebug` switches;
  - `Options` loading, saving, printing and `Properties` parsing, with their getters;
  - the interactive programs CharRNN.java, DemoRNN.java and Main.java.
- `Matrix.fromFlat` and its private constructor. They compute N as `data.length % M`, which is always 0, and never allocate the array, so there is no result to give a contract.
- `Matrix.prod`. It multiplies into an accumulator that starts at 0.0, so it is 0 for every matrix, and nothing in the core calls it.
- `Matrix.raw`, `getM` and `getN`. They are the fields of the matrix value. The copy constructor is the identity on values.
- The getters of `RNNLayer`, `StringTrainingSet.getData`/`getAlphabet` and `RNNTrainer.getTotalSteps`. They are fields of the datatypes.
- CharLevel.IsInitialized, CharLevel.GetAlphabet, Alphabets.Size, TrainingSets.Size and TrainingSets.VocabularySize: one-line getters (MultiLayerCharLevelRNN.java lines 84-93, Alphabet.java lines 51-54, StringTrainingSet.java lines 110-119) with no contract of their own. What the vocabulary size counts is stated by TrainingSets.VocabularyIsDistinctCount.
- Matrices.Sum: no contract of its own. Matrices.SumIsFlatSum states what it adds and Matrices.SumPositive its sign.
- `Math.softmax(y, temperature)`, and the temperature overloads `MultiLayerCharLevelRNN.sampleIndices(…, temp, …)`. Those overloads call methods `MultiLayerRNN` does not define, so they have no behaviour to model.
- The interfaces and exception classes. The exceptions are the constructors of `Outcomes.Error`.
- Superseded files in io.github.garstka, which the network classes no longer use:
  - rnn/Alphabet.java and rnn/TrainingSet.java, the old alphabet and training set;
  - rnn/net/SingleLayerNet.java, which calls RNNLayer members that do not exist;
  - rnn/net/SingleLayerCharLevelRNN.java, which is tied to the old alphabet.
- The older package pl.edu.agh.po: rnn/net/RNNLayer.java, rnn/net/SingleLayerNet.java and rnn/math/Matrix.java, an earlier copy of the engine.
- Java `int` overflow. Sizes, counters and offsets are unbounded integers:
  - `totalSteps` and `dataTrainedIndex` are not wrapped at 2^31 − 1;
  - the `+ 1` in `extract` is exact.
- Characters are single `char`s, as in Java. There is no surrogate-pair handling.
- Matrices.DivScalar: requires a non-zero divisor. Java would produce infinities or NaN, which reals cannot represent. Every call in the core divides by a positive sum or by sqrt(g) + 1e-8.
- Matrices.Div: requires a divisor with no zero entry, for the same reason.
- LayerTraining.Backward: requires the layer invariant, which every constructor, setter and operation establishes or keeps. The invariant says an initialized layer has weights of its configured shapes. Java makes the same assumption and has no check for it.
- LayerTraining.BackwardLoop: states the Adagrad step through an existential over the clipped gradients rather than naming them. The gradient formulas themselves are given by `BackStep`.
- Network.Initialize: requires the network invariant (configured hidden sizes are positive), which `setHiddenSize` guarantees.
- Network.InitializeAsWritten: requires the network invariant, for the same reason as Network.Initialize.
- LayerSampling.Sample: requires the layer invariant, for the same reason as LayerTraining.Backward.
- Trainers.NextWindow: training steps read their window through the intended `extract`. The as-written `>=` bound makes Java stop one window earlier whenever offset + sequenceLength + 1 equals the data length (Trainers.NextWindowAsWrittenMissesLast). So the "exactly when" rows Trainers.StepOkIff, Trainers.LoopOkIff, Trainers.LoopStopsAtEnd, Trainers.LoopAroundThenTrain, SingleLayer.PassFindsWindows, SingleLayer.TrainFindsWindows, SingleLayer.TrainAllStopsAtEnd and SingleLayer.FreshNetworkTrainsEveryWindow describe training over the intended set of windows, not the one Java as written visits.
- Trainers.Train: the pass of the network is a parameter, because the trainer sees the network only through the `Trainable` interface.
- SingleLayer.GetSmoothLoss: a zero sequence length, where Java divides 0.0 by 0 and gets NaN, is reported as no value.
- SingleLayer.Admit: takes the minimum data size as a parameter so that the as-written and intended checks share one body. It also does not model the `NegativeArraySizeException` position of the Gaussian cursor, which is lost on that path.
- CharLevel.Initialize, CharLevel.InitializeReady: the character-level network initializes through the intended Network.Initialize, so "chained over the alphabet's size" holds for every hidden-size list. As written, `MultiLayerRNN.initialize` wires layer outputs to hiddenSize[i+1], and for unequal consecutive sizes (for example [2, 3]) the network it builds is not chained. That behaviour is modelled only in Network.InitializeAsWritten and NetworkTraining.AsWrittenPassFails, not in the character-level adapter.
- CharLevel.SampleChars and CharLevel.SampleString sample through the intended NetworkSampling.SampleIndices. The as-written behaviour of `MultiLayerRNN.sampleIndices` (n = 0 fails, the first draw comes from step 1 of the seed pass) is modelled only in NetworkSampling.SampleIndicesAsWritten, NetworkSampling.AsWrittenZeroSamplesFails and NetworkSampling.AsWrittenFirstSampleFromFirstStep, not in the character-level adapter.
- NetworkSampling.SampleIndices: the single-seed overloads of `MultiLayerRNN` (lines 159-168) are the one-index seed, which is how they are written.
- A failed matrix operation inside the backward loop leaves the weights untouched. In Java it could have half-updated a local gradient, but locals are not observable.

## Findings

| source | as written | input that shows it | evidently intended | confidence | as-written member | corrected member |
|---|---|---|---|---|---|---|
| src/io/github/garstka/rnn/Options.java:198-205 | an out-of-range sampling temperature resets `learningRate`, so the temperature stays out of range | learningRate 0.5, samplingTemp 2.0: temperature stays 2.0, learning rate becomes 0.1 | reset `samplingTemp` to its default 1.0, as the condition and the field comment (lines 29-31) describe | medium (the message also names the learning rate); not executed | Options.ValidateAsWritten, Options.AsWrittenResetsWrongField | Options.Validate, Options.ValidateFixesExactlyValid |
| src/io/github/garstka/rnn/net/MultiLayerRNN.java:92-104 | layer i outputs hiddenSize[i+1] values while layer i+1 reads hiddenSize[i] inputs | hidden sizes [2, 3], any vocabulary: every `forwardBackward` with valid indices throws IllegalArgumentException in layer 1 | layer i outputs hiddenSize[i], the input size of layer i+1 | high; not executed | Network.InitializeAsWritten, NetworkTraining.AsWrittenPassFails | Network.Initialize, NetworkTraining.InitializeReady |
| src/io/github/garstka/rnn/net/MultiLayerRNN.java:200-208 | n = 0 passes the n < 0 check, then writes `sampled[0]` of an empty array, after the seed pass and without restoring the states | `sampleIndices(0, [0], false)` on an initialized network: ArrayIndexOutOfBoundsException, hidden states moved | return no indices, restoring the states when advance is false | high; not executed | NetworkSampling.SampleIndicesAsWritten, NetworkSampling.AsWrittenZeroSamplesFails | NetworkSampling.SampleIndices, NetworkSampling.SampleIndicesSucceeds |
| src/io/github/garstka/rnn/net/MultiLayerRNN.java:207-208 | the first sample is drawn from `getp()[1]`, the probabilities after the first seed index | seeds [0, 1] and [0, 2] give the same first sample for the same draw | draw from `getp()[seed.length]`, after the whole seed (the comment says "given seed") | high; not executed | NetworkSampling.AsWrittenFirstSampleFromFirstStep, NetworkSampling.AsWrittenFirstSampleIgnoresSeedTail | NetworkSampling.FirstSampleFromWholeSeed |
| src/io/github/garstka/rnn/net/SingleLayerRNN.java:166-170 | the same `sampled[0]` write for n = 0 in the single-layer network | `sampleIndices(0, [0], false)` on an initialized network: ArrayIndexOutOfBoundsException | return no indices | high; not executed | SingleLayer.SampleIndicesAsWritten, SingleLayer.AsWrittenZeroSamplesFails | SingleLayer.SampleIndices, SingleLayer.SampleIndicesSucceeds |
| src/io/github/garstka/rnn/net/StringTrainingSet.java:72-74 | exhaustion when lowerBound + len + 1 >= data length, though the window needs only the characters up to lowerBound + len | data "ab", lowerBound 0, length 1: NoMoreTrainingDataException although input 'a' and target 'b' exist | exhaustion when lowerBound + len + 1 > data length | high; not executed | TrainingSets.ExtractAsWritten, TrainingSets.AsWrittenMissesLastWindow | TrainingSets.Extract, TrainingSets.AsWrittenAgreesWhenOk |
| src/io/github/garstka/rnn/net/RNNLayer.java:59-65 | the default constructor assigns `inputSize` twice and leaves `outputSize` at 0 | `new RNNLayer().initialize()`: IllegalArgumentException | the third assignment sets `outputSize = defaultOutputSize` | high; not executed | Layers.NewLayerAsWritten, Layers.AsWrittenDefaultCannotInitialize | Layers.NewLayer, Layers.DefaultLayerInitializes |
| src/io/github/garstka/rnn/net/RNNLayer.java:498-510 | with keep = true the loop rebinds only the local `h`, so the layer's hidden state never advances | a one-unit layer with Wxh = 1, Whh = 0, bh = 0, tanh(1) = 1, h = 0, `sample(1, 0, true)`: the hidden state stays 0 though the iteration reached 1 | with keep the layer carries on from the last state reached | high; not executed | LayerSampling.SampleAsWritten, LayerSampling.SampleKeepDoesNotAdvance | LayerSampling.Sample, LayerSampling.SampleContinues |
| src/io/github/garstka/rnn/net/RNNTrainer.java:88-90 | data shorter than the sequence length is rejected, so data of exactly that length passes, though a window needs one more character | data "ab", sequence length 2: `initialize` succeeds, the first `train(1)` throws NoMoreTrainingDataException | reject data shorter than sequenceLength + 1, the "single pass" the message speaks of | medium; not executed | Trainers.InitializeAsWritten, Trainers.AsWrittenAdmitsTooShortData | Trainers.Initialize, Trainers.InitializeAllowsOnePass |
| src/io/github/garstka/rnn/net/SingleLayerRNN.java:65-67 | the same size check in the single-layer network | data "ab", sequence length 2: `initialize` succeeds, no step finds a window | reject data shorter than sequenceLength + 1 | medium; not executed | SingleLayer.InitializeAsWritten, SingleLayer.AsWrittenAdmitsTooShortData | SingleLayer.Initialize, SingleLayer.FreshNetworkTrainsEveryWindow |

=== FILE: alphabet.dfy ===
/** The alphabet of `net/Alphabet.java`: the distinct characters of a text, in increasing
    order, numbered from 0. `indexToChar` is the sorted array; `charToIndex` maps each of
    its characters back to its position. */
module Alphabets {
  import opened Outcomes

  /** Strictly increasing: sorted and free of duplicates, the order a `TreeSet` iterates in. */
  predicate Increasing(s: seq<char>) {
    forall i, j :: 0 <= i < j < |s| ==> s[i] < s[j]
  }

  /** `TreeSet.add`: c joins the sorted set unless it is already there. */
  function Insert(s: seq<char>, c: char): (r: seq<char>)
    requires Increasing(s)
    ensures Increasing(r)
    ensures forall x :: x in r <==> x in s || x == c
  {
    if |s| == 0 then [c]
    else if c < s[0] then [c] + s
    else if c == s[0] then s
    else
      var rest := Insert(s[1..], c);
      assert forall x :: x in rest ==> s[0] < x by {
        forall x | x in rest ensures s[0] < x {
          if x in s[1..] {
            var j :| 0 <= j < |s[1..]| && s[1..][j] == x;
            assert s[j + 1] == x;
          }
        }
      }
      PrependIncreasing(s[0], rest);
      [s[0]] + rest
  }

  /** A character below every element of an increasing sequence may go in front of it. */
  lemma PrependIncreasing(c: char, s: seq<char>)
    requires Increasing(s) && forall x :: x in s ==> c < x
    ensures Increasing([c] + s)
  {
    forall i, j | 0 <= i < j < |[c] + s| ensures ([c] + s)[i] < ([c] + s)[j] {
      assert ([c] + s)[j] == s[j - 1];
      if i > 0 {
        assert ([c] + s)[i] == s[i - 1];
      } else {
        assert s[j - 1] in s;
      }
    }
  }

  /** The set the constructor's first loop collects: every character of the data, added
      in order of appearance. */
  function Collect(data: seq<char>): (r: seq<char>)
    ensures Increasing(r)
    ensures forall x :: x in r <==> x in data
  {
    if |data| == 0 then []
    else
      var n := |data| - 1;
      assert data == data[..n] + [data[n]];
      Insert(Collect(data[..n]), data[n])
  }

  datatype Symbols = Symbols(chars: seq<char>)

  /** An alphabet: `chars` is the `indexToChar` array, so index i stands for `chars[i]`. */
  type Alphabet = a: Symbols | Increasing(a.chars) witness Symbols([])

  /** `Alphabet.fromString`: null reads as the empty string. */
  function FromString(data: Option<string>): (a: Alphabet)
    ensures forall c :: c in a.chars <==> data.Some? && c in data.value
  {
    match data
    case None => Symbols([])
    case Some(d) => Symbols(Collect(d))
  }

  /** `size()`: the length of `indexToChar`. */
  function Size(a: Alphabet): nat {
    |a.chars|
  }

  /** Two increasing sequences with the same characters are equal: the alphabet is fixed by
      the set of characters of its data, whatever order they appear in. */
  lemma {:induction false} IncreasingUnique(a: seq<char>, b: seq<char>)
    requires Increasing(a) && Increasing(b)
    requires forall x :: x in a <==> x in b
    ensures a == b
    decreases |a|
  {
    assert |a| > 0 ==> a[0] in b;
    assert |b| > 0 ==> b[0] in a;
    if |a| > 0 {
      var i :| 0 <= i < |a| && a[i] == b[0];
      var j :| 0 <= j < |b| && b[j] == a[0];
      assert a[0] <= a[i] && b[0] <= b[j];
      assert a[0] == b[0];
      forall x ensures x in a[1..] <==> x in b[1..] {
        TailMembers(a, x);
        TailMembers(b, x);
      }
      IncreasingUnique(a[1..], b[1..]);
      assert a == [a[0]] + a[1..] && b == [b[0]] + b[1..];
    }
  }

  /** The tail of an increasing sequence holds exactly its characters other than the head. */
  lemma TailMembers(s: seq<char>, x: char)
    requires Increasing(s) && |s| > 0
    ensures x in s[1..] <==> x in s && x != s[0]
  {
    if x in s && x != s[0] {
      var i :| 0 <= i < |s| && s[i] == x;
      assert s[1..][i - 1] == x;
    }
  }

  /** The alphabet of a text is the one increasing sequence of its distinct characters. */
  lemma FromStringIsSortedDistinct(data: string, s: seq<char>)
    requires Increasing(s) && forall x :: x in s <==> x in data
    ensures FromString(Some(data)).chars == s
  {
    IncreasingUnique(FromString(Some(data)).chars, s);
  }

  /** An increasing sequence has as many elements as distinct characters. */
  lemma {:induction false} IncreasingCount(s: seq<char>)
    requires Increasing(s)
    ensures |set x | x in s| == |s|
    decreases |s|
  {
    if |s| > 0 {
      IncreasingCount(s[1..]);
      forall x ensures x in s <==> x in s[1..] || x == s[0] {
        TailMembers(s, x);
      }
      assert (set x | x in s) == (set x | x in s[1..]) + {s[0]};
      assert s[0] !in s[1..] by {
        TailMembers(s, s[0]);
      }
    }
  }

  /** `size()` is the number of distinct characters of the data. */
  lemma SizeIsDistinctCount(data: string)
    ensures Size(FromString(Some(data))) == |set c | c in data|
  {
    var a := FromString(Some(data));
    IncreasingCount(a.chars);
    assert (set c | c in a.chars) == (set c | c in data);
  }

  /** Where c stands in s, or |s| when it does not occur. */
  function Position(s: seq<char>, c: char): (i: nat)
    ensures i <= |s|
    ensures i < |s| <==> c in s
    ensures i < |s| ==> s[i] == c
  {
    if |s| == 0 then 0
    else if s[0] == c then 0
    else 1 + Position(s[1..], c)
  }

  /** `charToIndex(c)`: the index the constructor's second loop gave c, or
      CharacterNotInAlphabetException when the map has no entry for c. */
  function CharToIndex(a: Alphabet, c: char): (r: Result<int>)
    ensures r.Ok? <==> c in a.chars
    ensures r.Ok? ==> 0 <= r.value < Size(a) && a.chars[r.value] == c
    ensures r.Err? ==> r.error == CharacterNotInAlphabet
  {
    var i := Position(a.chars, c);
    if i < |a.chars| then Ok(i) else Err(CharacterNotInAlphabet)
  }

  /** `indexToChar(i)`: IndexOutOfBoundsException outside [0, size()). */
  function IndexToChar(a: Alphabet, i: int): (r: Result<char>)
    ensures r.Ok? <==> 0 <= i < Size(a)
    ensures r.Ok? ==> r.value == a.chars[i]
    ensures r.Err? ==> r.error == IndexOutOfBounds
  {
    if !(0 <= i < Size(a)) then Err(IndexOutOfBounds) else Ok(a.chars[i])
  }

  /** Index to character and back is the identity on [0, size()). */
  lemma IndexRoundTrip(a: Alphabet, i: int)
    requires 0 <= i < Size(a)
    ensures IndexToChar(a, i).Ok? && CharToIndex(a, IndexToChar(a, i).value) == Ok(i)
  {
    var j := CharToIndex(a, a.chars[i]).value;
    assert a.chars[j] == a.chars[i];
  }

  /** Character to index and back is the identity on the characters of the data. */
  lemma CharRoundTrip(data: string, c: char)
    requires c in data
    ensures var a := FromString(Some(data));
      CharToIndex(a, c).Ok? && IndexToChar(a, CharToIndex(a, c).value) == Ok(c)
  {
  }

  /** Every index is below the alphabet size. */
  predicate AllBelow(ix: seq<int>, n: int) {
    forall t :: 0 <= t < |ix| ==> 0 <= ix[t] < n
  }

  /** The characters ix stands for in a. */
  predicate Spells(a: Alphabet, ix: seq<int>, s: seq<char>) {
    && |ix| == |s| && AllBelow(ix, Size(a))
    && forall t :: 0 <= t < |ix| ==> a.chars[ix[t]] == s[t]
  }

  /** The loop of `indicesToChars` over ix, first failure first. */
  function MapIndices(a: Alphabet, ix: seq<int>): (r: Result<seq<char>>)
    ensures r.Ok? <==> AllBelow(ix, Size(a))
    ensures r.Ok? ==> Spells(a, ix, r.value)
    ensures r.Err? ==> r.error == IndexOutOfBounds
    decreases |ix|
  {
    if |ix| == 0 then Ok([])
    else
      var n := |ix| - 1;
      var init :- MapIndices(a, ix[..n]);
      var c :- IndexToChar(a, ix[n]);
      assert Spells(a, ix[..n], init);
      Ok(init + [c])
  }

  /** The loop of `charsToIndices` over s, first failure first. */
  function MapChars(a: Alphabet, s: seq<char>): (r: Result<seq<int>>)
    ensures r.Ok? <==> forall t :: 0 <= t < |s| ==> s[t] in a.chars
    ensures r.Ok? ==> Spells(a, r.value, s)
    ensures r.Err? ==> r.error == CharacterNotInAlphabet
    decreases |s|
  {
    if |s| == 0 then Ok([])
    else
      var n := |s| - 1;
      var init :- MapChars(a, s[..n]);
      var i :- CharToIndex(a, s[n]);
      assert Spells(a, init, s[..n]);
      Ok(init + [i])
  }

  /** `indicesToChars(indices)`: NullPointerException for null, otherwise one character
      per index. */
  function IndicesToChars(a: Alphabet, indices: Option<seq<int>>): (r: Result<seq<char>>)
    ensures indices.None? ==> r == Err(NullPointer)
    ensures r.Ok? <==> indices.Some? && AllBelow(indices.value, Size(a))
    ensures r.Ok? ==> Spells(a, indices.value, r.value)
    ensures indices.Some? && r.Err? ==> r.error == IndexOutOfBounds
  {
    if indices.None? then Err(NullPointer) else MapIndices(a, indices.value)
  }

  /** `charsToIndices(chars)`: NullPointerException for null, otherwise one index per
      character. */
  function CharsToIndices(a: Alphabet, chars: Option<string>): (r: Result<seq<int>>)
    ensures chars.None? ==> r == Err(NullPointer)
    ensures r.Ok? <==> chars.Some? && forall t :: 0 <= t < |chars.value| ==> chars.value[t] in a.chars
    ensures r.Ok? ==> Spells(a, r.value, chars.value)
    ensures chars.Some? && r.Err? ==> r.error == CharacterNotInAlphabet
  {
    if chars.None? then Err(NullPointer) else MapChars(a, chars.value)
  }

  /** Spelling is injective in the indices: distinct positions hold distinct characters. */
  lemma {:induction false} SpellsUnique(a: Alphabet, ix: seq<int>, jx: seq<int>, s: seq<char>)
    requires Spells(a, ix, s) && Spells(a, jx, s)
    ensures ix == jx
  {
    forall t | 0 <= t < |ix| ensures ix[t] == jx[t] {
      assert a.chars[ix[t]] == s[t] == a.chars[jx[t]];
    }
  }

  /** Indices to characters and back gives the indices again. */
  lemma IndicesRoundTrip(a: Alphabet, ix: seq<int>)
    requires AllBelow(ix, Size(a))
    ensures IndicesToChars(a, Some(ix)).Ok?
    ensures CharsToIndices(a, Some(IndicesToChars(a, Some(ix)).value)) == Ok(ix)
  {
    var s := IndicesToChars(a, Some(ix)).value;
    assert forall t :: 0 <= t < |s| ==> s[t] in a.chars by {
      forall t | 0 <= t < |s| ensures s[t] in a.chars {
        assert a.chars[ix[t]] == s[t];
      }
    }
    SpellsUnique(a, CharsToIndices(a, Some(s)).value, ix, s);
  }

  /** Characters to indices and back gives the characters again. */
  lemma CharsRoundTrip(a: Alphabet, s: string)
    requires forall t :: 0 <= t < |s| ==> s[t] in a.chars
    ensures CharsToIndices(a, Some(s)).Ok?
    ensures IndicesToChars(a, Some(CharsToIndices(a, Some(s)).value)) == Ok(s)
  {
    var ix := CharsToIndices(a, Some(s)).value;
    var r := IndicesToChars(a, Some(ix)).value;
    assert r == s;
  }
}

=== FILE: arrays.dfy ===
/** Helpers for Java `double[][]` arrays (`math/Utils.java`).

    A Java 2-D array is a nullable reference to an outer array whose rows are themselves
    nullable references. */
module ArrayUtils {
  import opened Outcomes

  type Row = Option<seq<real>>
  type Array2D = Option<seq<Row>>

  /** Length of a row, with a null row counting as 0 (how `arrayCols` reads row 0). */
  function RowLength(row: Row): nat {
    if row.Some? then |row.value| else 0
  }

  /** Every row is non-null and has exactly `n` entries. */
  predicate Rectangular(rows: seq<Row>, n: nat) {
    forall i :: 0 <= i < |rows| ==> rows[i].Some? && |rows[i].value| == n
  }

  /** `deepCopyOf`: null stays null; otherwise the same number of rows with the same
      contents (null rows stay null). */
  function DeepCopyOf(src: Array2D): (dst: Array2D)
    ensures dst.None? <==> src.None?
    ensures src.Some? ==> |dst.value| == |src.value|
    ensures src.Some? ==> forall i :: 0 <= i < |src.value| ==>
      (dst.value[i].None? <==> src.value[i].None?) &&
      (src.value[i].Some? ==> dst.value[i].value == src.value[i].value)
  {
    match src
    case None => None
    case Some(rows) => Some(CopyRows(rows))
  }

  function CopyRows(rows: seq<Row>): (out: seq<Row>)
    ensures |out| == |rows|
    ensures forall i :: 0 <= i < |rows| ==> out[i] == rows[i]
  {
    if |rows| == 0 then []
    else [CopyRow(rows[0])] + CopyRows(rows[1..])
  }

  function CopyRow(row: Row): (out: Row)
    ensures out == row
  {
    match row
    case None => None
    case Some(r) =>
      var copy := seq(|r|, j requires 0 <= j < |r| => r[j]);
      assert copy == r;
      Some(copy)
  }

  /** `arrayRows`: null counts as an empty array. */
  function ArrayRows(a: Array2D): (n: nat)
    ensures a.None? ==> n == 0
    ensures a.Some? ==> n == |a.value|
  {
    if a.None? then 0 else |a.value|
  }

  /** `arrayCols`: the width of row 0 when every later row has that width.
      A null array has width 0; reading row 0 of an empty array fails; a null later row
      is a rectangularity violation when the expected width is non-zero and a null
      dereference otherwise. */
  function ArrayCols(a: Array2D): (r: Result<nat>)
    ensures a.None? ==> r == Ok(0)
    ensures a.Some? && |a.value| == 0 ==> r == Err(ArrayIndexOutOfBounds)
    ensures a.Some? && |a.value| > 0 ==>
      (r.Ok? <==> forall i :: 1 <= i < |a.value| ==> a.value[i].Some? && |a.value[i].value| == RowLength(a.value[0]))
    ensures r.Ok? && a.Some? ==> r.value == RowLength(a.value[0])
    ensures a.Some? && |a.value| > 0 && (forall i :: 1 <= i < |a.value| ==> a.value[i].Some?) && r.Err? ==>
      r.error == NotRectangular
    ensures r.Err? ==> r.error in {ArrayIndexOutOfBounds, NotRectangular, NullPointer}
  {
    match a
    case None => Ok(0)
    case Some(rows) =>
      if |rows| == 0 then Err(ArrayIndexOutOfBounds)
      else CheckRows(rows, RowLength(rows[0]), 1)
  }

  /** The loop of `arrayCols` from row `i` on. */
  function CheckRows(rows: seq<Row>, length: nat, i: nat): (r: Result<nat>)
    requires 1 <= i <= |rows|
    ensures r.Ok? <==> forall k :: i <= k < |rows| ==> rows[k].Some? && |rows[k].value| == length
    ensures r.Ok? ==> r.value == length
    ensures (forall k :: i <= k < |rows| ==> rows[k].Some?) && r.Err? ==> r.error == NotRectangular
    ensures r.Err? ==> r.error in {NotRectangular, NullPointer}
    decreases |rows| - i
  {
    if i == |rows| then Ok(length)
    else if rows[i].None? && length != 0 then Err(NotRectangular)
    else if rows[i].None? then Err(NullPointer)
    else if |rows[i].value| != length then Err(NotRectangular)
    else CheckRows(rows, length, i + 1)
  }

  /** A non-empty array whose rows all have the same width passes `arrayCols`. */
  lemma RectangularHasCols(rows: seq<Row>, n: nat)
    requires |rows| > 0 && Rectangular(rows, n)
    ensures ArrayCols(Some(rows)) == Ok(n)
  {
  }
}

=== FILE: backward.dfy ===
/** The training half of `net/RNNLayer.java`: the loss and output gradient of the last
    forward pass, the backward pass with gradient clipping and the Adagrad update, and the
    accessors for the recorded outputs and input gradients. */
module LayerTraining {
  import opened Outcomes
  import opened Kernel
  import opened Matrices
  import opened VectorAlgebra
  import opened Activations
  import opened Layers

  /* ---------------------------------------------------------------- Targets */

  /** One target per step of the last pass, each an output index. */
  predicate ValidTargets(l: Layer, iy: seq<int>) {
    |iy| == l.LastSequenceLength() && forall t :: 0 <= t < |iy| ==> 0 <= iy[t] < l.outputSize
  }

  /** The argument checks shared by `getLoss` and `getdy`. */
  function CheckTargets(l: Layer, iy: Option<seq<int>>): (r: Result<seq<int>>)
    ensures !l.Initialized() ==> r == Err(IllegalState)
    ensures l.Initialized() ==> (r.Ok? <==> iy.Some? && ValidTargets(l, iy.value))
    ensures l.Initialized() && r.Err? ==> r.error == IllegalArgument
    ensures r.Ok? ==> r.value == iy.value
  {
    if !l.Initialized() then Err(IllegalState)
    else if iy.None? || |iy.value| != l.LastSequenceLength() then Err(IllegalArgument)
    else if exists t :: 0 <= t < |iy.value| && !(0 <= iy.value[t] < l.outputSize) then Err(IllegalArgument)
    else Ok(iy.value)
  }

  /* ---------------------------------------------------------------- Loss */

  /** The loss loop over steps 0 .. n - 1: adds -log of the probability each step gave its
      target, reading it with `at` (which fails on a trace of other sizes). */
  function LossUpTo(k: Transcendentals, ps: seq<Matrix>, iy: seq<int>, n: nat): Result<real>
    requires n <= |ps| && n <= |iy|
  {
    if n == 0 then Ok(0.0)
    else
      var before :- LossUpTo(k, ps, iy, n - 1);
      var p :- At(ps[n - 1], iy[n - 1]);
      Ok(before + -k.log(p))
  }

  /** `getLoss(iy)`: the cross-entropy loss of the last pass against the targets. */
  function GetLoss(k: Transcendentals, l: Layer, iy: Option<seq<int>>): (r: Result<real>)
    ensures !l.Initialized() ==> r == Err(IllegalState)
    ensures l.Initialized() && !(iy.Some? && ValidTargets(l, iy.value)) ==> r == Err(IllegalArgument)
    ensures r.Ok? ==> l.Initialized() && iy.Some? && ValidTargets(l, iy.value)
  {
    var targets :- CheckTargets(l, iy);
    LossUpTo(k, l.trace.ps, targets, |targets|)
  }

  /** The probability step t of the last pass gave its target. */
  function TargetProbabilities(l: Layer, iy: seq<int>): (q: seq<real>)
    requires TraceFits(l) && ValidTargets(l, iy)
    ensures |q| == |iy|
  {
    seq(|iy|, t requires 0 <= t < |iy| => Vec(l.trace.ps[t])[iy[t]])
  }

  /** The cross entropy: -log q[0] - ... - log q[n - 1], added from the left. */
  function CrossEntropy(k: Transcendentals, q: seq<real>): real
    decreases |q|
  {
    if |q| == 0 then 0.0 else CrossEntropy(k, q[..|q| - 1]) + -k.log(q[|q| - 1])
  }

  lemma {:induction false} LossUpToIsSum(k: Transcendentals, ps: seq<Matrix>, iy: seq<int>, q: seq<real>, n: nat)
    requires n <= |ps| && n <= |iy| && n <= |q|
    requires forall t :: 0 <= t < n ==> At(ps[t], iy[t]) == Ok(q[t])
    ensures LossUpTo(k, ps, iy, n) == Ok(CrossEntropy(k, q[..n]))
  {
    if n > 0 {
      LossUpToIsSum(k, ps, iy, q, n - 1);
      assert q[..n][..n - 1] == q[..n - 1];
    }
  }

  /** On a trace that fits the layer, `getLoss` succeeds exactly for valid targets and is
      the cross entropy of the probabilities the pass gave them. */
  lemma LossIsCrossEntropy(k: Transcendentals, l: Layer, iy: seq<int>)
    requires l.Initialized() && TraceFits(l) && ValidTargets(l, iy)
    ensures GetLoss(k, l, Some(iy)) == Ok(CrossEntropy(k, TargetProbabilities(l, iy)))
  {
    var q := TargetProbabilities(l, iy);
    forall t | 0 <= t < |iy|
      ensures At(l.trace.ps[t], iy[t]) == Ok(q[t])
    {
    }
    LossUpToIsSum(k, l.trace.ps, iy, q, |iy|);
    assert q[..|iy|] == q;
  }

  /* ---------------------------------------------------------------- Recorded outputs */

  /** `gety()`: the outputs of the last pass. */
  function GetY(l: Layer): (r: Result<seq<Matrix>>)
    ensures r.Ok? <==> l.Initialized()
    ensures r.Err? ==> r.error == IllegalState
    ensures r.Ok? ==> r.value == l.trace.ys
  {
    if !l.Initialized() then Err(IllegalState) else Ok(l.trace.ys)
  }

  /** `getp()`: the probabilities of the last pass. */
  function GetP(l: Layer): (r: Result<seq<Matrix>>)
    ensures r.Ok? <==> l.Initialized()
    ensures r.Err? ==> r.error == IllegalState
    ensures r.Ok? ==> r.value == l.trace.ps
  {
    if !l.Initialized() then Err(IllegalState) else Ok(l.trace.ps)
  }

  /** After a forward pass, the probabilities are the softmax of the outputs, step by step:
      positive and summing to 1. */
  lemma ProbabilitiesAreSoftmax(k: Transcendentals, l: Layer, x: seq<Option<Matrix>>)
    requires Inv(l) && l.Initialized()
    requires |x| > 0 && CheckVectors(x, l.inputSize).Ok?
    ensures Forward(k, l, Some(x)).Ok?
    ensures
      var l' := Forward(k, l, Some(x)).value;
      var ys := GetY(l').value;
      var ps := GetP(l').value;
      |ps| == |ys| == |x| &&
      forall t :: 0 <= t < |x| ==> ps[t] == Softmax(k, ys[t]) && Sum(ps[t]) == 1.0
  {
    ForwardFollows(k, l, x);
    var tr := Forward(k, l, Some(x)).value.trace;
    forall t | 0 <= t < |x|
      ensures tr.ps[t] == Softmax(k, tr.ys[t])
    {
      assert Follows(k, l.core.value.w, tr.xs, StepsOf(tr), t, l.inputSize, l.hiddenSize, l.outputSize);
    }
  }

  /* ---------------------------------------------------------------- Output gradient */

  /** dy for one step: the probabilities with 1 subtracted at the target, read and written
      with `at` and `setAt`. */
  function DyOf(p: Matrix, target: int): Result<Matrix> {
    var v :- At(p, target);
    SetAt(p, target, v - 1.0)
  }

  function DyUpTo(ps: seq<Matrix>, iy: seq<int>, n: nat): (r: Result<seq<Matrix>>)
    requires n <= |ps| && n <= |iy|
    ensures r.Ok? ==> |r.value| == n
  {
    if n == 0 then Ok([])
    else
      var before :- DyUpTo(ps, iy, n - 1);
      var dy :- DyOf(ps[n - 1], iy[n - 1]);
      Ok(before + [dy])
  }

  /** `getdy(iy)`: one gradient per step of the last pass (the source's slot 0 is left out). */
  function GetDy(l: Layer, iy: Option<seq<int>>): (r: Result<seq<Matrix>>)
    ensures !l.Initialized() ==> r == Err(IllegalState)
    ensures l.Initialized() && !(iy.Some? && ValidTargets(l, iy.value)) ==> r == Err(IllegalArgument)
    ensures r.Ok? ==> l.Initialized() && iy.Some? && ValidTargets(l, iy.value) && |r.value| == |iy.value|
  {
    var targets :- CheckTargets(l, iy);
    DyUpTo(l.trace.ps, targets, |targets|)
  }

  /** dy[t] is p[t] - onehot(iy[t]): an output-size column equal to the probabilities
      except at the target, where 1 is subtracted. */
  predicate IsOutputGradient(dy: Matrix, p: Matrix, target: int, outputs: int)
    requires IsColumnOf(p, outputs)
  {
    && IsColumnOf(dy, outputs)
    && forall j :: 0 <= j < outputs ==> Vec(dy)[j] == Vec(p)[j] - (if j == target then 1.0 else 0.0)
  }

  lemma {:induction false} DyUpToIsGradient(l: Layer, iy: seq<int>, n: nat)
    requires TraceFits(l) && ValidTargets(l, iy) && n <= |iy|
    ensures DyUpTo(l.trace.ps, iy, n).Ok?
    ensures forall t :: 0 <= t < n ==>
      IsOutputGradient(DyUpTo(l.trace.ps, iy, n).value[t], l.trace.ps[t], iy[t], l.outputSize)
  {
    if n > 0 {
      DyUpToIsGradient(l, iy, n - 1);
      var p := l.trace.ps[n - 1];
      var before := DyUpTo(l.trace.ps, iy, n - 1).value;
      assert At(p, iy[n - 1]).Ok?;
      var dy := DyOf(p, iy[n - 1]).value;
      assert IsOutputGradient(dy, p, iy[n - 1], l.outputSize);
      var all := before + [dy];
      assert DyUpTo(l.trace.ps, iy, n) == Ok(all);
      forall t | 0 <= t < n
        ensures IsOutputGradient(all[t], l.trace.ps[t], iy[t], l.outputSize)
      {
        if t < n - 1 {
          assert all[t] == before[t];
        }
      }
    }
  }

  /** On a trace that fits the layer, `getdy` succeeds exactly for valid targets and gives
      p[t] - onehot(iy[t]) at every step. */
  lemma GradientIsPMinusOneHot(l: Layer, iy: seq<int>)
    requires l.Initialized() && TraceFits(l) && ValidTargets(l, iy)
    ensures GetDy(l, Some(iy)).Ok?
    ensures forall t :: 0 <= t < |iy| ==> IsOutputGradient(GetDy(l, Some(iy)).value[t], l.trace.ps[t], iy[t], l.outputSize)
  {
    DyUpToIsGradient(l, iy, |iy|);
  }

  lemma {:induction false} SumSeqBump(s: seq<real>, i: nat, d: real)
    requires i < |s|
    ensures SumSeq(s[i := s[i] + d]) == SumSeq(s) + d
    decreases |s|
  {
    var n := |s| - 1;
    var u := s[i := s[i] + d];
    assert u[..n] == if i < n then s[..n][i := s[i] + d] else s[..n];
    if i < n {
      SumSeqBump(s[..n], i, d);
    }
  }

  lemma {:induction false} SumRowsOfColumn(a: Matrix, m: nat)
    requires a.cols == 1 && m <= a.rows
    ensures SumRows(a.data, m) == SumSeq(Vec(a)[..m])
  {
    if m > 0 {
      SumRowsOfColumn(a, m - 1);
      assert Vec(a)[..m][..m - 1] == Vec(a)[..m - 1];
      assert a.data[m - 1] == [a.data[m - 1][0]];
      assert SumSeq([a.data[m - 1][0]]) == a.data[m - 1][0] by {
        assert [a.data[m - 1][0]][..0] == [];
      }
    }
  }

  /** The sum of a column is the sum of its entries in index order. */
  lemma ColumnSum(a: Matrix)
    requires a.cols == 1
    ensures Sum(a) == SumSeq(Vec(a))
  {
    SumRowsOfColumn(a, a.rows);
    assert Vec(a)[..a.rows] == Vec(a);
  }

  /** Since p[t] is a probability distribution, every output gradient sums to zero. */
  lemma GradientSumsToZero(k: Transcendentals, dy: Matrix, y: Matrix, target: int, outputs: int)
    requires IsColumnOf(y, outputs) && 0 <= target < outputs
    requires IsOutputGradient(dy, Softmax(k, y), target, outputs)
    ensures Sum(dy) == 0.0
  {
    var p := Softmax(k, y);
    ColumnSum(p);
    ColumnSum(dy);
    assert Vec(dy) == Vec(p)[target := Vec(p)[target] + -1.0];
    SumSeqBump(Vec(p), target, -1.0);
  }

  /* ---------------------------------------------------------------- Backward pass */

  /** Parameters of pairwise equal shapes. */
  predicate Alike(p: Params, q: Params) {
    && SameShape(p.wxh, q.wxh) && SameShape(p.whh, q.whh) && SameShape(p.why, q.why)
    && SameShape(p.bh, q.bh) && SameShape(p.bo, q.bo)
  }

  /** What the backward loop carries: the accumulated parameter gradients, the gradient
      flowing into the previous hidden state, and the dx of the steps done so far, in step
      order (the loop runs backwards, so each new dx goes in front). */
  datatype Grads = Grads(d: Params, dhNext: Matrix, dxs: seq<Matrix>)

  /** The output-layer part of one backward step: the gradients of Why and by. */
  function OutputGrads(d: Params, dy: Matrix, h: Matrix): (r: Result<(Matrix, Matrix)>)
    ensures r.Ok? ==> SameShape(r.value.0, d.why) && SameShape(r.value.1, d.bo)
  {
    var a :- Dot(dy, Transpose(h));
    var dWhy :- Add(d.why, a);
    var dBo :- Add(d.bo, dy);
    Ok((dWhy, dBo))
  }

  /** The gradient into the hidden state before tanh: (1 - h * h) * (Why^T dy + dhNext). */
  function HiddenRaw(w: Params, dy: Matrix, h: Matrix, dhNext: Matrix): (r: Result<Matrix>)
    ensures r.Ok? ==> SameShape(r.value, h)
  {
    var b :- Dot(Transpose(w.why), dy);
    var dh :- Add(b, dhNext);
    var sq := Mul(h, h).value;
    var s := Add(OnesLike(h), Neg(sq)).value;
    Mul(s, dh)
  }

  /** The hidden-layer part of one backward step: the gradients of Wxh, Whh and bh. */
  function HiddenGrads(d: Params, dhRaw: Matrix, x: Matrix, hPrev: Matrix): (r: Result<(Matrix, Matrix, Matrix)>)
    ensures r.Ok? ==> SameShape(r.value.0, d.wxh) && SameShape(r.value.1, d.whh) && SameShape(r.value.2, d.bh)
  {
    var c :- Dot(dhRaw, Transpose(x));
    var dWxh :- Add(d.wxh, c);
    var e :- Dot(dhRaw, Transpose(hPrev));
    var dWhh :- Add(d.whh, e);
    var dBh :- Add(d.bh, dhRaw);
    Ok((dWxh, dWhh, dBh))
  }

  /** One iteration of the backward loop, at step t (the source's slot t + 1), with every
      matrix operator that can fail propagating its failure. */
  function BackStep(w: Params, tr: Trace, dys: seq<Matrix>, t: nat, acc: Grads): (r: Result<Grads>)
    requires t < |tr.xs| && t < |dys|
    ensures r.Ok? ==> Alike(r.value.d, acc.d)
    ensures r.Ok? ==> |r.value.dxs| == |acc.dxs| + 1 && r.value.dxs[1..] == acc.dxs
  {
    var (dWhy, dBo) :- OutputGrads(acc.d, dys[t], tr.hs[t + 1]);
    var dhRaw :- HiddenRaw(w, dys[t], tr.hs[t + 1], acc.dhNext);
    var (dWxh, dWhh, dBh) :- HiddenGrads(acc.d, dhRaw, tr.xs[t], tr.hs[t]);
    var dhNext :- Dot(Transpose(w.whh), dhRaw);
    var dx :- Dot(Transpose(w.wxh), dhRaw);
    Ok(Grads(Params(dWxh, dWhh, dWhy, dBh, dBo), dhNext, [dx] + acc.dxs))
  }

  /** The backward loop over steps n - 1 down to 0. A failing step ends the loop with the
      state from before that step (its partial updates touch only locals of the source). */
  function BackFrom(w: Params, tr: Trace, dys: seq<Matrix>, n: nat, acc: Grads): (s: Step<Grads, ()>)
    requires n <= |tr.xs| && n <= |dys|
    ensures Alike(s.next.d, acc.d)
    ensures |acc.dxs| <= |s.next.dxs| <= |acc.dxs| + n
    ensures s.out.Ok? ==> |s.next.dxs| == |acc.dxs| + n
    decreases n
  {
    if n == 0 then Step(acc, Ok(()))
    else
      var step := BackStep(w, tr, dys, n - 1, acc);
      if step.Err? then Step(acc, Err(step.error))
      else
        var rest := BackFrom(w, tr, dys, n - 1, step.value);
        rest
  }

  /** Every entry in [-bound, bound]. */
  predicate Bounded(a: Matrix, bound: real) {
    forall i, j :: 0 <= i < a.rows && 0 <= j < a.cols ==> -bound <= a.data[i][j] <= bound
  }

  predicate AllBounded(p: Params, bound: real) {
    Bounded(p.wxh, bound) && Bounded(p.whh, bound) && Bounded(p.why, bound) && Bounded(p.bh, bound) && Bounded(p.bo, bound)
  }

  /** `clip(-5, 5)` on one matrix. */
  function ClipGradient(a: Matrix): (r: Matrix)
    ensures SameShape(r, a) && Bounded(r, ClipBound)
    ensures forall i, j :: 0 <= i < a.rows && 0 <= j < a.cols && -ClipBound <= a.data[i][j] <= ClipBound ==>
      r.data[i][j] == a.data[i][j]
  {
    Clip(a, -ClipBound, ClipBound).value
  }

  /** The clipping loop over the five parameter gradients. */
  function ClipParams(d: Params): (r: Params)
    ensures Alike(r, d) && AllBounded(r, ClipBound)
  {
    Params(ClipGradient(d.wxh), ClipGradient(d.whh), ClipGradient(d.why), ClipGradient(d.bh), ClipGradient(d.bo))
  }

  /** The clipping loop over the dx slots (all written once the loop has succeeded). */
  function ClipSlots(dxs: seq<Matrix>): (r: seq<Option<Matrix>>)
    ensures |r| == |dxs|
    ensures forall t :: 0 <= t < |dxs| ==>
      r[t].Some? && SameShape(r[t].value, dxs[t]) && Bounded(r[t].value, ClipBound)
  {
    seq(|dxs|, t requires 0 <= t < |dxs| => Some(ClipGradient(dxs[t])))
  }

  /** The source's dx array after a loop that stopped early: the slots of the steps not
      reached are null, those of the steps done hold their dx. */
  function PartialSlots(steps: nat, done: seq<Matrix>): (r: seq<Option<Matrix>>)
    requires |done| <= steps
    ensures |r| == steps
    ensures forall t :: 0 <= t < steps ==> (r[t].Some? <==> t >= steps - |done|)
  {
    seq(steps, t requires 0 <= t < steps => if t < steps - |done| then None else Some(done[t - (steps - |done|)]))
  }

  lemma SquareNonNegative(x: real)
    ensures x * x >= 0.0
  {
    if x < 0.0 {
      assert x * x == (-x) * (-x);
    }
  }

  /** The Adagrad rule for one parameter w with accumulator g and gradient d:
      g' = g + d * d and (w' - w) * (sqrt(g') + 1e-8) = -rate * d, entry by entry. */
  predicate AdagradRule(k: Transcendentals, rate: real, w: Matrix, g: Matrix, d: Matrix, w': Matrix, g': Matrix) {
    && SameShape(w, g) && SameShape(g, d) && SameShape(w', w) && SameShape(g', g)
    && forall i, j :: 0 <= i < g.rows && 0 <= j < g.cols ==>
      && g'.data[i][j] == g.data[i][j] + d.data[i][j] * d.data[i][j]
      && (w'.data[i][j] - w.data[i][j]) * (k.sqrt(g'.data[i][j]) + AdagradEpsilon) == d.data[i][j] * -rate
  }

  /** One iteration of the Adagrad loop: `g.add(d * d)`, then `w.add(d * -rate / (sqrt(g) + 1e-8))`. */
  function AdagradUpdate(k: Transcendentals, rate: real, w: Matrix, g: Matrix, d: Matrix): (r: (Matrix, Matrix))
    requires SameShape(w, g) && SameShape(g, d)
    ensures AdagradRule(k, rate, w, g, d, r.0, r.1)
  {
    var sq := Mul(d, d).value;
    var g' := Add(g, sq).value;
    var denominator := Apply(g', x => k.sqrt(x) + AdagradEpsilon);
    assert NoZeros(denominator) by {
      forall i, j | 0 <= i < g'.rows && 0 <= j < g'.cols
        ensures denominator.data[i][j] != 0.0
      {
        SqrtNonNegative(k, g'.data[i][j]);
      }
    }
    var step := Div(MulScalar(d, -rate), denominator).value;
    var w' := Add(w, step).value;
    (w', g')
  }

  /** The Adagrad rule holds for all five parameters. */
  predicate AdagradAll(k: Transcendentals, rate: real, w: Params, g: Params, d: Params, w': Params, g': Params) {
    && AdagradRule(k, rate, w.wxh, g.wxh, d.wxh, w'.wxh, g'.wxh)
    && AdagradRule(k, rate, w.whh, g.whh, d.whh, w'.whh, g'.whh)
    && AdagradRule(k, rate, w.why, g.why, d.why, w'.why, g'.why)
    && AdagradRule(k, rate, w.bh, g.bh, d.bh, w'.bh, g'.bh)
    && AdagradRule(k, rate, w.bo, g.bo, d.bo, w'.bo, g'.bo)
  }

  /** The Adagrad loop over the five parameters; returns the weights and accumulators. */
  function AdagradParams(k: Transcendentals, rate: real, w: Params, g: Params, d: Params): (r: (Params, Params))
    requires Alike(w, g) && Alike(g, d)
    ensures AdagradAll(k, rate, w, g, d, r.0, r.1)
  {
    var (wxh, gxh) := AdagradUpdate(k, rate, w.wxh, g.wxh, d.wxh);
    var (whh, ghh) := AdagradUpdate(k, rate, w.whh, g.whh, d.whh);
    var (why, ghy) := AdagradUpdate(k, rate, w.why, g.why, d.why);
    var (bh, gbh) := AdagradUpdate(k, rate, w.bh, g.bh, d.bh);
    var (bo, gbo) := AdagradUpdate(k, rate, w.bo, g.bo, d.bo);
    (Params(wxh, whh, why, bh, bo), Params(gxh, ghh, ghy, gbh, gbo))
  }

  /** g' >= g entry by entry. */
  predicate Dominates(g': Matrix, g: Matrix) {
    SameShape(g', g) && forall i, j :: 0 <= i < g.rows && 0 <= j < g.cols ==> g'.data[i][j] >= g.data[i][j]
  }

  predicate AllDominate(g': Params, g: Params) {
    Dominates(g'.wxh, g.wxh) && Dominates(g'.whh, g.whh) && Dominates(g'.why, g.why) && Dominates(g'.bh, g.bh) && Dominates(g'.bo, g.bo)
  }

  /** The accumulators only grow: each entry gains a square. */
  lemma AdagradRuleDominates(k: Transcendentals, rate: real, w: Matrix, g: Matrix, d: Matrix, w': Matrix, g': Matrix)
    requires AdagradRule(k, rate, w, g, d, w', g')
    ensures Dominates(g', g)
    ensures NonNegative(g) ==> NonNegative(g')
  {
    forall i, j | 0 <= i < g.rows && 0 <= j < g.cols
      ensures g'.data[i][j] >= g.data[i][j]
    {
      SquareNonNegative(d.data[i][j]);
    }
  }

  /** A zero gradient leaves the weight and the accumulator as they are. */
  lemma AdagradRuleZeroGradient(k: Transcendentals, rate: real, w: Matrix, g: Matrix, d: Matrix, w': Matrix, g': Matrix)
    requires AdagradRule(k, rate, w, g, d, w', g') && IsZero(d) && NonNegative(g)
    ensures w' == w && g' == g
  {
    forall i, j | 0 <= i < g.rows && 0 <= j < g.cols
      ensures w'.data[i][j] == w.data[i][j] && g'.data[i][j] == g.data[i][j]
    {
      SqrtNonNegative(k, g'.data[i][j]);
      assert (w'.data[i][j] - w.data[i][j]) * (k.sqrt(g'.data[i][j]) + AdagradEpsilon) == 0.0;
    }
    Extensionality(w', w);
    Extensionality(g', g);
  }

  /** Where the backward pass starts: zero gradients shaped like the weights, a zero
      gradient into the hidden state, and no dx yet. */
  function BackStart(c: Core): (acc: Grads)
    ensures Alike(acc.d, c.w) && acc.dxs == []
  {
    var w := c.w;
    Grads(Params(ZerosLike(w.wxh), ZerosLike(w.whh), ZerosLike(w.why), ZerosLike(w.bh), ZerosLike(w.bo)),
          ZerosLike(c.h), [])
  }

  /** `backward(dy)` on a layer satisfying the invariant. Requires an initialized layer and
      one gradient per step of the last pass (the source's array has one more slot, the
      unused slot 0), each a vector of the output size. Runs the loop from the last step
      down; a failing step leaves the weights as they were but the dx slots written so far
      in place. On success clips the gradients and every dx to [-5, 5] and applies Adagrad. */
  function Backward(k: Transcendentals, l: Layer, dy: Option<seq<Option<Matrix>>>): (s: Step<Layer, ()>)
    requires Inv(l)
    ensures !l.Initialized() ==> s == Step(l, Err(IllegalState))
    ensures l.Initialized() && (dy.None? || |dy.value| != l.LastSequenceLength()) ==> s == Step(l, Err(IllegalArgument))
    ensures l.Initialized() && dy.Some? && |dy.value| == l.LastSequenceLength() && CheckVectors(dy.value, l.outputSize).Err? ==>
      s == Step(l, Err(CheckVectors(dy.value, l.outputSize).error))
    ensures s.next == l.(core := s.next.core, dxs := s.next.dxs)
    ensures Inv(s.next) && s.next.Initialized() == l.Initialized()
    ensures l.Initialized() ==> s.next.core.value.h == l.core.value.h
    ensures s.out.Err? ==> s.next.core == l.core
    ensures s.out.Ok? ==> s.next.dxs.Some? && |s.next.dxs.value| == l.LastSequenceLength()
    ensures s.out.Ok? ==> forall t :: 0 <= t < |s.next.dxs.value| ==>
      s.next.dxs.value[t].Some? && Bounded(s.next.dxs.value[t].value, ClipBound)
    ensures s.out.Ok? ==> AllDominate(s.next.core.value.g, l.core.value.g)
    ensures s.out.Ok? ==>
      exists d :: (AllBounded(d, ClipBound) &&
        AdagradAll(k, l.learningRate, l.core.value.w, l.core.value.g, d, s.next.core.value.w, s.next.core.value.g))
  {
    if !l.Initialized() then Step(l, Err(IllegalState))
    else if dy.None? || |dy.value| != l.LastSequenceLength() then Step(l, Err(IllegalArgument))
    else
      match CheckVectors(dy.value, l.outputSize)
      case Err(e) => Step(l, Err(e))
      case Ok(dys) => BackwardLoop(k, l, dys)
  }

  /** The part of `backward` after validation: the loop over the steps, then clipping and
      the Adagrad update when the loop completes. The dx slots keep the shapes of the loop's
      gradients. */
  function BackwardLoop(k: Transcendentals, l: Layer, dys: seq<Matrix>): (s: Step<Layer, ()>)
    requires Inv(l) && l.Initialized() && |dys| == l.LastSequenceLength()
    ensures s.next == l.(core := s.next.core, dxs := s.next.dxs)
    ensures Inv(s.next) && s.next.Initialized()
    ensures s.next.core.value.h == l.core.value.h
    ensures s.out.Err? ==> s.next.core == l.core
    ensures
      var loop := BackFrom(l.core.value.w, l.trace, dys, |dys|, BackStart(l.core.value));
      && (s.out.Ok? <==> loop.out.Ok?)
      && (s.out.Ok? ==> s.next.dxs.Some? && |s.next.dxs.value| == |dys| == |loop.next.dxs|)
      && (s.out.Ok? ==> forall t :: 0 <= t < |dys| ==>
            s.next.dxs.value[t].Some? && SameShape(s.next.dxs.value[t].value, loop.next.dxs[t]) &&
            Bounded(s.next.dxs.value[t].value, ClipBound))
    ensures s.out.Ok? ==> AllDominate(s.next.core.value.g, l.core.value.g)
    ensures s.out.Ok? ==>
      exists d :: (AllBounded(d, ClipBound) &&
        AdagradAll(k, l.learningRate, l.core.value.w, l.core.value.g, d, s.next.core.value.w, s.next.core.value.g))
  {
    var c := l.core.value;
    var T := l.LastSequenceLength();
    var loop := BackFrom(c.w, l.trace, dys, T, BackStart(c));
    if loop.out.Err? then Step(l.(dxs := Some(PartialSlots(T, loop.next.dxs))), loop.out)
    else
      var d := ClipParams(loop.next.d);
      var (w', g') := AdagradParams(k, l.learningRate, c.w, c.g, d);
      AdagradAllKeepsInv(k, l, d, w', g');
      Step(l.(core := Some(c.(w := w', g := g')), dxs := Some(ClipSlots(loop.next.dxs))), Ok(()))
  }

  /** An Adagrad update by gradients shaped like the weights keeps the layer invariant and
      only grows the accumulators. */
  lemma AdagradAllKeepsInv(k: Transcendentals, l: Layer, d: Params, w': Params, g': Params)
    requires Inv(l) && l.Initialized() && Alike(d, l.core.value.w)
    requires AdagradAll(k, l.learningRate, l.core.value.w, l.core.value.g, d, w', g')
    ensures Inv(l.(core := Some(l.core.value.(w := w', g := g'))))
    ensures AllDominate(g', l.core.value.g)
  {
    var w := l.core.value.w;
    var g := l.core.value.g;
    AdagradRuleDominates(k, l.learningRate, w.wxh, g.wxh, d.wxh, w'.wxh, g'.wxh);
    AdagradRuleDominates(k, l.learningRate, w.whh, g.whh, d.whh, w'.whh, g'.whh);
    AdagradRuleDominates(k, l.learningRate, w.why, g.why, d.why, w'.why, g'.why);
    AdagradRuleDominates(k, l.learningRate, w.bh, g.bh, d.bh, w'.bh, g'.bh);
    AdagradRuleDominates(k, l.learningRate, w.bo, g.bo, d.bo, w'.bo, g'.bo);
  }

  /** `getdx()`: the input gradients of the last backward pass (null before the first). */
  function GetDx(l: Layer): (r: Result<Option<seq<Option<Matrix>>>>)
    ensures r.Ok? <==> l.Initialized()
    ensures r.Err? ==> r.error == IllegalState
    ensures r.Ok? ==> r.value == l.dxs
  {
    if !l.Initialized() then Err(IllegalState) else Ok(l.dxs)
  }

  /* ---------------------------------------------------------------- When backward succeeds */

  /** What step t of the backward loop needs of the trace and the incoming gradient. */
  predicate StepReady(tr: Trace, dys: seq<Matrix>, t: nat, inputs: int, hidden: int, outputs: int) {
    && t < |tr.xs| && t < |dys|
    && IsColumnOf(dys[t], outputs)
    && IsColumnOf(tr.hs[t + 1], hidden)
    && IsVectorOf(tr.hs[t], hidden)
    && IsVectorOf(tr.xs[t], inputs)
  }

  lemma OutputGradsOk(d: Params, dy: Matrix, h: Matrix, inputs: int, hidden: int, outputs: int)
    requires Shaped(d, inputs, hidden, outputs)
    requires IsColumnOf(dy, outputs) && IsColumnOf(h, hidden)
    ensures OutputGrads(d, dy, h).Ok?
  {
    var a := Dot(dy, Transpose(h)).value;
    assert Add(d.why, a).Ok?;
  }

  lemma HiddenRawOk(w: Params, dy: Matrix, h: Matrix, dhNext: Matrix, inputs: int, hidden: int, outputs: int)
    requires Shaped(w, inputs, hidden, outputs)
    requires IsColumnOf(dy, outputs) && IsColumnOf(h, hidden) && IsVectorOf(dhNext, hidden)
    ensures HiddenRaw(w, dy, h, dhNext).Ok?
    ensures IsColumnOf(HiddenRaw(w, dy, h, dhNext).value, hidden)
  {
    var b := Dot(Transpose(w.why), dy).value;
    assert Add(b, dhNext).Ok?;
  }

  lemma HiddenGradsOk(d: Params, dhRaw: Matrix, x: Matrix, hPrev: Matrix, inputs: int, hidden: int, outputs: int)
    requires Shaped(d, inputs, hidden, outputs)
    requires IsColumnOf(dhRaw, hidden) && IsVectorOf(x, inputs) && IsVectorOf(hPrev, hidden)
    ensures HiddenGrads(d, dhRaw, x, hPrev).Ok?
  {
    OuterProduct(dhRaw, x);
    OuterProduct(dhRaw, hPrev);
  }

  /** A step whose operands have the configured sizes succeeds, keeps the gradient shapes
      and yields an input-size column dx and a hidden-size column gradient into the
      previous step. */
  lemma BackStepOk(w: Params, tr: Trace, dys: seq<Matrix>, t: nat, acc: Grads, inputs: int, hidden: int, outputs: int)
    requires Shaped(w, inputs, hidden, outputs) && Shaped(acc.d, inputs, hidden, outputs)
    requires IsVectorOf(acc.dhNext, hidden)
    requires StepReady(tr, dys, t, inputs, hidden, outputs)
    ensures BackStep(w, tr, dys, t, acc).Ok?
    ensures IsColumnOf(BackStep(w, tr, dys, t, acc).value.dhNext, hidden)
    ensures IsColumnOf(BackStep(w, tr, dys, t, acc).value.dxs[0], inputs)
  {
    OutputGradsOk(acc.d, dys[t], tr.hs[t + 1], inputs, hidden, outputs);
    HiddenRawOk(w, dys[t], tr.hs[t + 1], acc.dhNext, inputs, hidden, outputs);
    var dhRaw := HiddenRaw(w, dys[t], tr.hs[t + 1], acc.dhNext).value;
    HiddenGradsOk(acc.d, dhRaw, tr.xs[t], tr.hs[t], inputs, hidden, outputs);
  }

  /** A loop over steps whose operands all have the configured sizes succeeds; every dx is
      an input-size column. */
  lemma {:induction false} BackFromOk(w: Params, tr: Trace, dys: seq<Matrix>, n: nat, acc: Grads, inputs: int, hidden: int, outputs: int)
    requires Shaped(w, inputs, hidden, outputs) && Shaped(acc.d, inputs, hidden, outputs)
    requires IsVectorOf(acc.dhNext, hidden)
    requires forall u :: 0 <= u < |acc.dxs| ==> IsColumnOf(acc.dxs[u], inputs)
    requires n <= |tr.xs| && n <= |dys|
    requires forall t :: 0 <= t < n ==> StepReady(tr, dys, t, inputs, hidden, outputs)
    ensures BackFrom(w, tr, dys, n, acc).out.Ok?
    ensures forall u :: 0 <= u < |BackFrom(w, tr, dys, n, acc).next.dxs| ==>
      IsColumnOf(BackFrom(w, tr, dys, n, acc).next.dxs[u], inputs)
    decreases n
  {
    if n > 0 {
      assert StepReady(tr, dys, n - 1, inputs, hidden, outputs);
      BackStepOk(w, tr, dys, n - 1, acc, inputs, hidden, outputs);
      var next := BackStep(w, tr, dys, n - 1, acc).value;
      ColumnIsVector(next.dhNext, hidden);
      forall u | 0 <= u < |next.dxs|
        ensures IsColumnOf(next.dxs[u], inputs)
      {
        if u > 0 {
          assert next.dxs[u] == next.dxs[1..][u - 1];
        }
      }
      BackFromOk(w, tr, dys, n - 1, next, inputs, hidden, outputs);
    }
  }

  /** On a layer whose trace fits it, every step of the backward loop is ready for output
      gradients that are output-size columns. */
  lemma TraceFitsReady(l: Layer, dys: seq<Matrix>)
    requires TraceFits(l) && |dys| == l.LastSequenceLength()
    requires forall t :: 0 <= t < |dys| ==> IsColumnOf(dys[t], l.outputSize)
    ensures forall t :: 0 <= t < |dys| ==> StepReady(l.trace, dys, t, l.inputSize, l.hiddenSize, l.outputSize)
  {
    forall t | 0 <= t < |dys|
      ensures StepReady(l.trace, dys, t, l.inputSize, l.hiddenSize, l.outputSize)
    {
      var o := StepsOf(l.trace);
      assert o.hs[t + 1] == l.trace.hs[t + 1] && o.hs[t] == l.trace.hs[t];
      if t > 0 {
        ColumnIsVector(l.trace.hs[t], l.hiddenSize);
      }
    }
  }

  /** On an initialized layer whose trace fits it, `backward` succeeds for output-size
      column gradients, one per step (such as `getdy` returns, or the dx of a layer above
      whose input size is this layer's output size), and every dx it leaves is an
      input-size column in [-5, 5]. */
  lemma BackwardSucceeds(k: Transcendentals, l: Layer, dys: seq<Matrix>)
    requires Inv(l) && l.Initialized() && TraceFits(l)
    requires |dys| == l.LastSequenceLength()
    requires forall t :: 0 <= t < |dys| ==> IsColumnOf(dys[t], l.outputSize)
    ensures Backward(k, l, Some(Present(dys))).out.Ok?
    ensures
      var dxs := Backward(k, l, Some(Present(dys))).next.dxs.value;
      |dxs| == |dys| && forall t :: 0 <= t < |dxs| ==>
        dxs[t].Some? && IsColumnOf(dxs[t].value, l.inputSize) && Bounded(dxs[t].value, ClipBound)
  {
    ColumnsPresent(dys, l.outputSize);
    assert Backward(k, l, Some(Present(dys))) == BackwardLoop(k, l, dys);
    BackwardLoopSucceeds(k, l, dys);
  }

  /** Columns of size n pass the vector checks of `backward` unchanged. */
  lemma ColumnsPresent(dys: seq<Matrix>, n: int)
    requires forall t :: 0 <= t < |dys| ==> IsColumnOf(dys[t], n)
    ensures CheckVectors(Present(dys), n) == Ok(dys)
  {
    forall t | 0 <= t < |dys|
      ensures IsVectorOf(dys[t], n)
    {
      ColumnIsVector(dys[t], n);
    }
    CheckPresent(dys, n);
  }

  lemma BackwardLoopSucceeds(k: Transcendentals, l: Layer, dys: seq<Matrix>)
    requires Inv(l) && l.Initialized() && TraceFits(l)
    requires |dys| == l.LastSequenceLength()
    requires forall t :: 0 <= t < |dys| ==> IsColumnOf(dys[t], l.outputSize)
    ensures BackwardLoop(k, l, dys).out.Ok?
    ensures
      var dxs := BackwardLoop(k, l, dys).next.dxs.value;
      |dxs| == |dys| && forall t :: 0 <= t < |dxs| ==>
        dxs[t].Some? && IsColumnOf(dxs[t].value, l.inputSize) && Bounded(dxs[t].value, ClipBound)
  {
    TraceFitsReady(l, dys);
    var c := l.core.value;
    ZerosLikeVector(c.h);
    BackFromOk(c.w, l.trace, dys, |dys|, BackStart(c), l.inputSize, l.hiddenSize, l.outputSize);
    var loop := BackFrom(c.w, l.trace, dys, |dys|, BackStart(c));
    var s := BackwardLoop(k, l, dys);
    assert s.out.Ok?;
    ClippedColumns(s.next.dxs.value, loop.next.dxs, l.inputSize);
  }

  /** Slots shaped like columns of n are columns of n. */
  lemma ClippedColumns(slots: seq<Option<Matrix>>, dxs: seq<Matrix>, n: int)
    requires |slots| == |dxs|
    requires forall u :: 0 <= u < |dxs| ==> IsColumnOf(dxs[u], n)
    requires forall t :: 0 <= t < |slots| ==> slots[t].Some? && SameShape(slots[t].value, dxs[t])
    ensures forall t :: 0 <= t < |slots| ==> slots[t].Some? && IsColumnOf(slots[t].value, n)
  {
  }
}

=== FILE: charlevel.dfy ===
/** The character-level adapter of `net/CharLevelRNN.java`, as `net/MultiLayerCharLevelRNN.java`
    instantiates it: an alphabet next to a stacked network. Characters become indices on
    the way into the network and indices become characters on the way out; everything
    else is handed to the network.

    The adapter calls a three-argument `sampleIndices(n, seed, advance)` that the sampling
    interface declares only with a temperature; here it is the network's own
    `sampleIndices(n, seed, advance)`, as intended (the first index drawn at the end of the
    seed pass), and a single seed index is the one-index seed of
    `MultiLayerRNN.sampleIndices(n, int seed, advance)`. */
module CharLevel {
  import opened Outcomes
  import opened Kernel
  import opened Network
  import NetworkTraining
  import NetworkSampling
  import Alphabets

  /** `alphabet` is null until `initialize(alphabet)` is called. */
  datatype CharNet = CharNet(alphabet: Option<Alphabets.Alphabet>, internal: Net)

  /** What every adapter satisfies: its network keeps the network invariant. */
  predicate CharInv(c: CharNet) {
    NetInv(c.internal)
  }

  /** An adapter that can sample and train: an alphabet, and a network whose layers are
      initialized and chained over the alphabet's size. */
  predicate CharReady(c: CharNet) {
    c.alphabet.Some? && NetworkTraining.Ready(c.internal, Alphabets.Size(c.alphabet.value))
  }

  /** `isInitialized()`: the network's flag. */
  function IsInitialized(c: CharNet): bool {
    c.internal.initialized
  }

  /** `getAlphabet()`: the alphabet as set, null before `initialize`. */
  function GetAlphabet(c: CharNet): Option<Alphabets.Alphabet> {
    c.alphabet
  }

  /** `getVocabularySize()`: the network's, which fails before initialization. */
  function GetVocabularySize(c: CharNet): (r: Result<int>)
    requires CharInv(c)
    ensures r.Ok? <==> IsInitialized(c)
    ensures r.Err? ==> r.error == IllegalState
    ensures CharReady(c) ==> r == Ok(Alphabets.Size(c.alphabet.value))
  {
    Network.GetVocabularySize(c.internal)
  }

  /* ---------------------------------------------------------------- Construct and configure */

  /** `MultiLayerCharLevelRNN()`: no alphabet and a network that is not initialized. */
  function NewCharNet(): (c: CharNet)
    ensures CharInv(c) && !IsInitialized(c) && GetAlphabet(c).None?
  {
    CharNet(None, NewNet())
  }

  /** `initialize(alphabet)`: null is rejected; otherwise the alphabet is stored first and
      then the network is initialized over its size, which rejects an empty alphabet after
      the alphabet has been stored. Returns the cursor after the network's Gaussian draws. */
  function Initialize(c: CharNet, alphabet: Option<Alphabets.Alphabet>, gauss: nat -> real, cursor: nat): (s: Step<CharNet, nat>)
    requires CharInv(c)
    ensures CharInv(s.next)
    ensures alphabet.None? ==> s == Step(c, Err(NullPointer))
    ensures alphabet.Some? ==> GetAlphabet(s.next) == alphabet
    ensures alphabet.Some? ==> (s.out.Ok? <==> Alphabets.Size(alphabet.value) >= 1)
    ensures alphabet.Some? && s.out.Err? ==> s.out.error == IllegalArgument && s.next == c.(alphabet := alphabet)
    ensures s.out.Ok? ==> IsInitialized(s.next) && GetVocabularySize(s.next) == Ok(Alphabets.Size(alphabet.value))
  {
    if alphabet.None? then Step(c, Err(NullPointer))
    else
      var c1 := c.(alphabet := alphabet);
      match Network.Initialize(c.internal, Alphabets.Size(alphabet.value), gauss, cursor)
      case Err(e) => Step(c1, Err(e))
      case Ok(r) => Step(c1.(internal := r.0), Ok(r.1))
  }

  /** `MultiLayerCharLevelRNN(alphabet)`: a new adapter, initialized at once. */
  function NewCharNetWith(alphabet: Option<Alphabets.Alphabet>, gauss: nat -> real, cursor: nat): (s: Step<CharNet, nat>)
    ensures CharInv(s.next)
    ensures alphabet.None? ==> s.out == Err(NullPointer) && !IsInitialized(s.next)
    ensures s.out.Ok? <==> alphabet.Some? && Alphabets.Size(alphabet.value) >= 1
    ensures s.out.Ok? ==> GetAlphabet(s.next) == alphabet && CharReady(s.next)
  {
    var s := Initialize(NewCharNet(), alphabet, gauss, cursor);
    if s.out.Ok? then
      InitializeReady(NewCharNet(), alphabet.value, gauss, cursor);
      s
    else s
  }

  /** After `initialize(a)` with a non-empty alphabet the adapter is ready: its alphabet is
      a and its network is initialized and chained over a's size. */
  lemma InitializeReady(c: CharNet, a: Alphabets.Alphabet, gauss: nat -> real, cursor: nat)
    requires CharInv(c) && Alphabets.Size(a) >= 1
    ensures Initialize(c, Some(a), gauss, cursor).out.Ok?
    ensures CharReady(Initialize(c, Some(a), gauss, cursor).next)
  {
    NetworkTraining.InitializeReady(c.internal, Alphabets.Size(a), gauss, cursor);
  }

  /** `setHiddenSize(hiddenSize)`: handed to the network; on success the network must be
      initialized again, and the alphabet stays. */
  function SetHiddenSize(c: CharNet, hs: Option<seq<int>>): (r: Result<CharNet>)
    requires CharInv(c)
    ensures hs.None? ==> r == Err(NullPointer)
    ensures hs.Some? ==> (r.Ok? <==> ValidSizes(hs.value))
    ensures hs.Some? && r.Err? ==> r.error == IllegalArgument
    ensures r.Ok? ==> CharInv(r.value) && !IsInitialized(r.value) && GetAlphabet(r.value) == GetAlphabet(c)
  {
    var net :- SetHiddenSizes(c.internal, hs);
    Ok(c.(internal := net))
  }

  /** `setLearningRate(rate)`: handed to the network. Once the network has layers, each of
      them is de-initialized, while the adapter still reports itself initialized. */
  function SetLearningRate(c: CharNet, rate: real): (r: CharNet)
    requires CharInv(c)
    ensures CharInv(r) && GetAlphabet(r) == GetAlphabet(c) && IsInitialized(r) == IsInitialized(c)
    ensures c.internal.layers.Some? ==>
      r.internal.layers.Some? && forall j :: 0 <= j < |r.internal.layers.value| ==> !r.internal.layers.value[j].Initialized()
    ensures c.internal.layers.None? ==> r.internal.learningRate == rate
  {
    c.(internal := Network.SetLearningRate(c.internal, rate))
  }

  /** After `setHiddenSize` succeeds, sampling is rejected until the adapter is initialized
      again. */
  lemma SetHiddenSizeDeinitializes(k: Transcendentals, c: CharNet, hs: seq<int>, length: int, seed: char, advance: bool,
                                   draws: nat -> real, cursor: nat)
    requires CharInv(c) && ValidSizes(hs)
    ensures SetHiddenSize(c, Some(hs)).Ok?
    ensures SampleString(k, SetHiddenSize(c, Some(hs)).value, length, seed, advance, draws, cursor)
      == Step(SetHiddenSize(c, Some(hs)).value, Err(IllegalState))
  {
  }

  /* ---------------------------------------------------------------- Train */

  /** `forwardBackward(ix, iy)`: the network's pass; the adapter returns what the network
      returns and keeps its alphabet. */
  function ForwardBackward(k: Transcendentals, c: CharNet, ix: Option<seq<int>>, iy: Option<seq<int>>): (s: Step<CharNet, real>)
    requires CharInv(c)
    ensures CharInv(s.next) && GetAlphabet(s.next) == GetAlphabet(c)
    ensures !IsInitialized(c) ==> s == Step(c, Err(IllegalState))
    ensures IsInitialized(c) && (ix.None? || iy.None?) ==> s == Step(c, Err(NullPointer))
    ensures s.out == NetworkTraining.ForwardBackward(k, c.internal, ix, iy).out
  {
    var r := NetworkTraining.ForwardBackward(k, c.internal, ix, iy);
    Step(c.(internal := r.next), r.out)
  }

  /** On a ready adapter, a pass over the indices of two equally long, non-empty texts in
      the alphabet completes: every layer records the pass and the loss is the
      cross-entropy the last layer gives the targets. */
  lemma ForwardBackwardOnText(k: Transcendentals, c: CharNet, xs: string, ys: string)
    requires CharReady(c) && |xs| == |ys| > 0
    requires forall t :: 0 <= t < |xs| ==> xs[t] in c.alphabet.value.chars && ys[t] in c.alphabet.value.chars
    ensures Alphabets.CharsToIndices(c.alphabet.value, Some(xs)).Ok?
    ensures Alphabets.CharsToIndices(c.alphabet.value, Some(ys)).Ok?
    ensures var ix := Alphabets.CharsToIndices(c.alphabet.value, Some(xs)).value;
      var iy := Alphabets.CharsToIndices(c.alphabet.value, Some(ys)).value;
      var s := ForwardBackward(k, c, Some(ix), Some(iy));
      NetworkTraining.PassDone(k, c.internal.layers.value, Step(s.next.internal, s.out), iy, |xs|)
  {
    var a := c.alphabet.value;
    var ix := Alphabets.CharsToIndices(a, Some(xs)).value;
    var iy := Alphabets.CharsToIndices(a, Some(ys)).value;
    NetworkTraining.ForwardBackwardSucceeds(k, c.internal, Alphabets.Size(a), ix, iy);
  }

  /* ---------------------------------------------------------------- Sample */

  /** The network's sampling from seed indices, then the indices as characters. An index
      outside the alphabet would be rejected by `indicesToChars`. */
  function SampleChars(k: Transcendentals, c: CharNet, length: int, seed: seq<int>, advance: bool,
                       draws: nat -> real, cursor: nat): (s: Step<CharNet, string>)
    requires CharInv(c) && c.alphabet.Some?
    ensures CharInv(s.next) && GetAlphabet(s.next) == GetAlphabet(c) && IsInitialized(s.next) == IsInitialized(c)
    ensures var r := NetworkSampling.SampleIndices(k, c.internal, length, Some(seed), advance, draws, cursor);
      && s.next == c.(internal := r.next)
      && (s.out.Ok? ==> r.out.Ok? && Alphabets.Spells(c.alphabet.value, r.out.value, s.out.value))
  {
    var r := NetworkSampling.SampleIndices(k, c.internal, length, Some(seed), advance, draws, cursor);
    var c' := c.(internal := r.next);
    match r.out
    case Err(e) => Step(c', Err(e))
    case Ok(ix) =>
      match Alphabets.IndicesToChars(c.alphabet.value, Some(ix))
      case Err(e) => Step(c', Err(e))
      case Ok(cs) => Step(c', Ok(cs))
  }

  /** `sampleString(length, seed, advance)` for a single seed character: an uninitialized
      adapter and a negative length are rejected first, then a seed outside the alphabet,
      all before the network is touched. */
  function SampleString(k: Transcendentals, c: CharNet, length: int, seed: char, advance: bool,
                        draws: nat -> real, cursor: nat): (s: Step<CharNet, string>)
    requires CharInv(c)
    ensures CharInv(s.next) && GetAlphabet(s.next) == GetAlphabet(c)
    ensures !IsInitialized(c) ==> s == Step(c, Err(IllegalState))
    ensures IsInitialized(c) && length < 0 ==> s == Step(c, Err(IllegalArgument))
    ensures IsInitialized(c) && length >= 0 && c.alphabet.Some? && seed !in c.alphabet.value.chars ==>
      s == Step(c, Err(CharacterNotInAlphabet))
    ensures s.out.Ok? ==> |s.out.value| == length
    ensures s.out.Ok? ==> c.alphabet.Some? && forall t :: 0 <= t < |s.out.value| ==> s.out.value[t] in c.alphabet.value.chars
  {
    if !IsInitialized(c) then Step(c, Err(IllegalState))
    else if length < 0 then Step(c, Err(IllegalArgument))
    else if c.alphabet.None? then Step(c, Err(NullPointer))
    else
      match Alphabets.CharToIndex(c.alphabet.value, seed)
      case Err(e) => Step(c, Err(e))
      case Ok(i) => SampleChars(k, c, length, [i], advance, draws, cursor)
  }

  /** `sampleString(length, seed, advance)` for a seed string: as for one character, with a
      null seed rejected after the length and every seed character mapped through
      `charsToIndices`. */
  function SampleStringFrom(k: Transcendentals, c: CharNet, length: int, seed: Option<string>, advance: bool,
                            draws: nat -> real, cursor: nat): (s: Step<CharNet, string>)
    requires CharInv(c)
    ensures CharInv(s.next) && GetAlphabet(s.next) == GetAlphabet(c)
    ensures !IsInitialized(c) ==> s == Step(c, Err(IllegalState))
    ensures IsInitialized(c) && length < 0 ==> s == Step(c, Err(IllegalArgument))
    ensures IsInitialized(c) && length >= 0 && seed.None? ==> s == Step(c, Err(NullPointer))
    ensures (&& IsInitialized(c) && length >= 0 && seed.Some? && c.alphabet.Some?
             && exists t :: 0 <= t < |seed.value| && seed.value[t] !in c.alphabet.value.chars) ==>
      s == Step(c, Err(CharacterNotInAlphabet))
    ensures s.out.Ok? ==> |s.out.value| == length
    ensures s.out.Ok? ==> c.alphabet.Some? && forall t :: 0 <= t < |s.out.value| ==> s.out.value[t] in c.alphabet.value.chars
  {
    if !IsInitialized(c) then Step(c, Err(IllegalState))
    else if length < 0 then Step(c, Err(IllegalArgument))
    else if seed.None? then Step(c, Err(NullPointer))
    else if c.alphabet.None? then Step(c, Err(NullPointer))
    else
      match Alphabets.CharsToIndices(c.alphabet.value, seed)
      case Err(e) => Step(c, Err(e))
      case Ok(ix) => SampleChars(k, c, length, ix, advance, draws, cursor)
  }

  /** `sampleString(length, seed)` for one seed character: the state advances. */
  function SampleStringAdvancing(k: Transcendentals, c: CharNet, length: int, seed: char,
                                 draws: nat -> real, cursor: nat): (s: Step<CharNet, string>)
    requires CharInv(c)
    ensures CharInv(s.next)
    ensures s.out.Ok? ==> |s.out.value| == length
  {
    SampleString(k, c, length, seed, true, draws, cursor)
  }

  /** `sampleString(length, seed)` for a seed string: the state advances. */
  function SampleStringFromAdvancing(k: Transcendentals, c: CharNet, length: int, seed: Option<string>,
                                     draws: nat -> real, cursor: nat): (s: Step<CharNet, string>)
    requires CharInv(c)
    ensures CharInv(s.next)
    ensures s.out.Ok? ==> |s.out.value| == length
  {
    SampleStringFrom(k, c, length, seed, true, draws, cursor)
  }

  /* ---------------------------------------------------------------- Properties */

  /** A single seed character samples exactly as the one-character seed string. */
  lemma OneCharSeedIsString(k: Transcendentals, c: CharNet, length: int, seed: char, advance: bool,
                            draws: nat -> real, cursor: nat)
    requires CharInv(c)
    ensures SampleString(k, c, length, seed, advance, draws, cursor)
      == SampleStringFrom(k, c, length, Some([seed]), advance, draws, cursor)
  {
    if IsInitialized(c) && length >= 0 && c.alphabet.Some? {
      var a := c.alphabet.value;
      if seed in a.chars {
        var ix := Alphabets.CharsToIndices(a, Some([seed])).value;
        assert a.chars[ix[0]] == seed;
        assert Alphabets.CharToIndex(a, seed) == Ok(ix[0]);
        assert ix == [ix[0]];
      } else {
        assert Alphabets.CharsToIndices(a, Some([seed])).Err?;
      }
    }
  }

  /** The sampled string spells the indices the network sampled from the seed's indices:
      mapping it back through the alphabet gives exactly those indices. */
  lemma SampledStringRoundTrip(k: Transcendentals, c: CharNet, length: int, seed: Option<string>, advance: bool,
                               draws: nat -> real, cursor: nat)
    requires CharInv(c)
    requires SampleStringFrom(k, c, length, seed, advance, draws, cursor).out.Ok?
    ensures Alphabets.CharsToIndices(c.alphabet.value, Some(seed.value)).Ok?
    ensures var ix := Alphabets.CharsToIndices(c.alphabet.value, Some(seed.value)).value;
      var r := NetworkSampling.SampleIndices(k, c.internal, length, Some(ix), advance, draws, cursor);
      && r.out.Ok?
      && Alphabets.CharsToIndices(c.alphabet.value, Some(SampleStringFrom(k, c, length, seed, advance, draws, cursor).out.value))
         == Ok(r.out.value)
  {
    var a := c.alphabet.value;
    var ix := Alphabets.CharsToIndices(a, seed).value;
    var r := NetworkSampling.SampleIndices(k, c.internal, length, Some(ix), advance, draws, cursor);
    var s := SampleChars(k, c, length, ix, advance, draws, cursor);
    Alphabets.IndicesRoundTrip(a, r.out.value);
  }

  /** On a ready adapter, a non-negative length and a non-empty seed in the alphabet give a
      string of that length in the alphabet; with advance false every layer's hidden state
      afterwards is the one it had before. */
  lemma SampleStringSucceeds(k: Transcendentals, c: CharNet, length: int, seed: string, advance: bool,
                             draws: nat -> real, cursor: nat)
    requires CharReady(c) && length >= 0 && |seed| > 0
    requires forall t :: 0 <= t < |seed| ==> seed[t] in c.alphabet.value.chars
    ensures SampleStringFrom(k, c, length, Some(seed), advance, draws, cursor).out.Ok?
    ensures |SampleStringFrom(k, c, length, Some(seed), advance, draws, cursor).out.value| == length
    ensures !advance ==> forall j :: 0 <= j < |c.internal.layers.value| ==>
      SampleStringFrom(k, c, length, Some(seed), advance, draws, cursor).next.internal.layers.value[j].core.value.h
        == c.internal.layers.value[j].core.value.h
  {
    var a := c.alphabet.value;
    var v := Alphabets.Size(a);
    var ix := Alphabets.CharsToIndices(a, Some(seed)).value;
    NetworkSampling.SampleIndicesSucceeds(k, c.internal, v, length, ix, advance, draws, cursor);
    var r := NetworkSampling.SampleIndices(k, c.internal, length, Some(ix), advance, draws, cursor);
    assert Alphabets.IndicesToChars(a, Some(r.out.value)).Ok?;
  }
}

=== FILE: kernel.dfy ===
/** The transcendental functions the engine calls (`Math.exp`, `Math.tanh`, `Math.log`,
    `Math.sqrt`). Exact real arithmetic cannot define them, so the model receives them as
    function values and assumes nothing about them beyond two facts every caller relies on:
    exp is positive (so a softmax denominator is never zero) and sqrt is non-negative (so
    the Adagrad denominator sqrt(g) + 1e-8 is never zero). */
module Kernel {

  datatype Functions = Functions(
    exp: real -> real,
    tanh: real -> real,
    log: real -> real,
    sqrt: real -> real)

  ghost predicate Admissible(f: Functions) {
    && (forall x: real :: f.exp(x) > 0.0)
    && (forall x: real :: f.sqrt(x) >= 0.0)
  }

  type Transcendentals = f: Functions | Admissible(f)
    witness Functions(x => 1.0, x => x, x => x, x => 0.0)

  lemma ExpPositive(k: Transcendentals, x: real)
    ensures k.exp(x) > 0.0
  {
    assert Admissible(k);
  }

  lemma SqrtNonNegative(k: Transcendentals, x: real)
    ensures k.sqrt(x) >= 0.0
  {
    assert Admissible(k);
  }
}

=== FILE: layer.dfy ===
/** One recurrent layer (`net/RNNLayer.java`) as a state machine.

    A layer is configured (sizes, learning rate), initialized (random weights, zero Adagrad
    accumulators, a random hidden state), and then driven by forward passes, which record a
    trace, and backward passes, which consume it. Every operation other than a setter
    first checks that the layer is initialized; every setter de-initializes it.

    The state is a value: each operation returns the layer as it is afterwards.
    Index conventions: the source keeps its per-step arrays from slot 1, leaving slot 0
    unused (except that hAt[0] holds the hidden state before the pass). Here xs, ys, ps,
    dys and dxs are zero-based (entry t is slot t + 1), and hs keeps the source's layout:
    hs[0] is the state before the pass and hs[t + 1] the state after step t. */
module Layers {
  import opened Outcomes
  import opened Kernel
  import opened Matrices
  import opened VectorAlgebra
  import opened Activations
  import Random

  const DefaultInputSize: int := 50
  const DefaultHiddenSize: int := 100
  const DefaultOutputSize: int := 50
  const DefaultLearningRate: real := 0.1

  /** Scale of the initial Gaussian weights. */
  const WeightScale: real := 0.1
  /** Gradients and the returned dx are clipped to [-ClipBound, ClipBound]. */
  const ClipBound: real := 5.0
  /** Added to the square root in the Adagrad denominator. */
  const AdagradEpsilon: real := 0.00000001

  /* ---------------------------------------------------------------- State */

  /** The five trained matrices, in the order of the source's parameter arrays (`bo` is the
      output bias the source calls `by`, a Dafny keyword). */
  datatype Params = Params(wxh: Matrix, whh: Matrix, why: Matrix, bh: Matrix, bo: Matrix)

  /** What exists once the layer is initialized: weights, Adagrad accumulators and the
      hidden state carried from one pass to the next. */
  datatype Core = Core(w: Params, g: Params, h: Matrix)

  /** The record of the last forward pass. */
  datatype RawTrace = RawTrace(xs: seq<Matrix>, hs: seq<Matrix>, ys: seq<Matrix>, ps: seq<Matrix>)

  /** One output per input; once a pass has run, one more hidden state than inputs. */
  type Trace = t: RawTrace | |t.ys| == |t.xs| && |t.ps| == |t.xs| && (|t.xs| > 0 ==> |t.hs| == |t.xs| + 1)
    witness RawTrace([], [], [], [])

  const NoTrace: Trace := RawTrace([], [], [], [])

  /** `initialized` is `core.Some?`; `lastSequenceLength` is the length of the trace;
      `dxs` is the source's `dxAt`, null before the first backward pass (a pass that fails
      part-way leaves the slots it did not reach null). */
  datatype Layer = Layer(
    learningRate: real,
    inputSize: int,
    hiddenSize: int,
    outputSize: int,
    core: Option<Core>,
    trace: Trace,
    dxs: Option<seq<Option<Matrix>>>)
  {
    predicate Initialized() {
      core.Some?
    }

    function LastSequenceLength(): nat {
      |trace.xs|
    }
  }

  /** The shapes `initialize` gives the weights (and the accumulators). */
  predicate Shaped(p: Params, inputs: int, hidden: int, outputs: int) {
    && p.wxh.rows == hidden && p.wxh.cols == inputs
    && p.whh.rows == hidden && p.whh.cols == hidden
    && p.why.rows == outputs && p.why.cols == hidden
    && p.bh.rows == 1 && p.bh.cols == hidden
    && p.bo.rows == 1 && p.bo.cols == outputs
  }

  predicate NonNegative(a: Matrix) {
    forall i, j :: 0 <= i < a.rows && 0 <= j < a.cols ==> a.data[i][j] >= 0.0
  }

  predicate AllNonNegative(p: Params) {
    NonNegative(p.wxh) && NonNegative(p.whh) && NonNegative(p.why) && NonNegative(p.bh) && NonNegative(p.bo)
  }

  /** The layer invariant: an initialized layer has positive sizes, weights and
      accumulators of the configured shapes, non-negative accumulators (sums of squares)
      and a hidden state of the hidden size. */
  predicate Inv(l: Layer) {
    l.core.Some? ==>
      && l.inputSize > 0 && l.hiddenSize > 0 && l.outputSize > 0
      && Shaped(l.core.value.w, l.inputSize, l.hiddenSize, l.outputSize)
      && Shaped(l.core.value.g, l.inputSize, l.hiddenSize, l.outputSize)
      && AllNonNegative(l.core.value.g)
      && IsVectorOf(l.core.value.h, l.hiddenSize)
  }

  /** The record of a forward pass has the shapes the sizes prescribe: inputs of the input
      size, hidden states of the hidden size (columns after slot 0), outputs and
      probabilities as columns of the output size. */
  predicate StepsFit(xs: seq<Matrix>, o: Steps, inputs: int, hidden: int, outputs: int) {
    && Fits(xs, o)
    && (forall t :: 0 <= t < |xs| ==> IsVectorOf(xs[t], inputs))
    && IsVectorOf(o.hs[0], hidden)
    && (forall t :: 0 < t < |o.hs| ==> IsColumnOf(o.hs[t], hidden))
    && (forall t :: 0 <= t < |o.ys| ==> IsColumnOf(o.ys[t], outputs))
    && (forall t :: 0 <= t < |o.ps| ==> IsColumnOf(o.ps[t], outputs))
  }

  /** The recorded trace fits the layer's current sizes (vacuous before the first pass). */
  predicate TraceFits(l: Layer) {
    |l.trace.xs| > 0 ==> StepsFit(l.trace.xs, StepsOf(l.trace), l.inputSize, l.hiddenSize, l.outputSize)
  }

  /* ---------------------------------------------------------------- Construct and configure */

  /** `RNNLayer()` as written: the second assignment meant for outputSize goes to
      inputSize again, so outputSize keeps Java's default 0. */
  function NewLayerAsWritten(): (l: Layer)
    ensures l.outputSize == 0 && l.inputSize == DefaultOutputSize && l.hiddenSize == DefaultHiddenSize
    ensures !l.Initialized()
  {
    Layer(DefaultLearningRate, DefaultOutputSize, DefaultHiddenSize, 0, None, NoTrace, None)
  }

  /** `RNNLayer()` as intended: every size at its default. */
  function NewLayer(): (l: Layer)
    ensures l.inputSize == DefaultInputSize && l.hiddenSize == DefaultHiddenSize && l.outputSize == DefaultOutputSize
    ensures l.learningRate == DefaultLearningRate
    ensures !l.Initialized() && Inv(l)
  {
    Layer(DefaultLearningRate, DefaultInputSize, DefaultHiddenSize, DefaultOutputSize, None, NoTrace, None)
  }

  /** `RNNLayer(inputSize, hiddenSize, outputSize, learningRate)`: no checks. */
  function NewLayerWith(inputSize: int, hiddenSize: int, outputSize: int, learningRate: real): (l: Layer)
    ensures l.inputSize == inputSize && l.hiddenSize == hiddenSize && l.outputSize == outputSize
    ensures l.learningRate == learningRate
    ensures !l.Initialized() && Inv(l)
  {
    Layer(learningRate, inputSize, hiddenSize, outputSize, None, NoTrace, None)
  }

  /** `setInputSize`: de-initializes first, then rejects a non-positive size. */
  function SetInputSize(l: Layer, n: int): (s: Step<Layer, ()>)
    ensures !s.next.Initialized() && Inv(s.next)
    ensures s.out.Ok? <==> n > 0
    ensures s.out.Err? ==> s.out.error == IllegalArgument
    ensures s.next == l.(core := None, inputSize := if n > 0 then n else l.inputSize)
  {
    var cleared := l.(core := None);
    if n <= 0 then Step(cleared, Err(IllegalArgument))
    else Step(cleared.(inputSize := n), Ok(()))
  }

  /** `setHiddenSize`: de-initializes first, then rejects a non-positive size. */
  function SetHiddenSize(l: Layer, n: int): (s: Step<Layer, ()>)
    ensures !s.next.Initialized() && Inv(s.next)
    ensures s.out.Ok? <==> n > 0
    ensures s.out.Err? ==> s.out.error == IllegalArgument
    ensures s.next == l.(core := None, hiddenSize := if n > 0 then n else l.hiddenSize)
  {
    var cleared := l.(core := None);
    if n <= 0 then Step(cleared, Err(IllegalArgument))
    else Step(cleared.(hiddenSize := n), Ok(()))
  }

  /** `setOutputSize`: de-initializes first, then rejects a non-positive size. */
  function SetOutputSize(l: Layer, n: int): (s: Step<Layer, ()>)
    ensures !s.next.Initialized() && Inv(s.next)
    ensures s.out.Ok? <==> n > 0
    ensures s.out.Err? ==> s.out.error == IllegalArgument
    ensures s.next == l.(core := None, outputSize := if n > 0 then n else l.outputSize)
  {
    var cleared := l.(core := None);
    if n <= 0 then Step(cleared, Err(IllegalArgument))
    else Step(cleared.(outputSize := n), Ok(()))
  }

  /** `setLearningRate`: accepts any rate, and de-initializes too. */
  function SetLearningRate(l: Layer, rate: real): (r: Layer)
    ensures !r.Initialized() && Inv(r)
    ensures r == l.(core := None, learningRate := rate)
  {
    l.(core := None, learningRate := rate)
  }

  /* ---------------------------------------------------------------- Initialize */

  /** The number of Gaussian draws `initialize` consumes. */
  function InitDraws(l: Layer): int {
    l.hiddenSize * l.inputSize + l.hiddenSize * l.hiddenSize + l.outputSize * l.hiddenSize + l.hiddenSize
  }

  /** `initialize()`: rejects non-positive sizes; otherwise draws the three weight
      matrices (scaled by 0.1) and the hidden state from the Gaussian stream, zeroes the
      biases and the accumulators, and leaves the trace of an earlier pass in place.
      Returns the layer and the advanced stream cursor. */
  function Initialize(l: Layer, gauss: nat -> real, cursor: nat): (r: Result<(Layer, nat)>)
    ensures r.Ok? <==> l.inputSize > 0 && l.hiddenSize > 0 && l.outputSize > 0
    ensures r.Err? ==> r.error == IllegalArgument
    ensures r.Ok? ==> r.value.0.Initialized() && Inv(r.value.0)
    ensures r.Ok? ==> r.value.0.core.value.h.rows == 1
    ensures r.Ok? ==> Zero(r.value.0.core.value.g) && IsZero(r.value.0.core.value.w.bh) && IsZero(r.value.0.core.value.w.bo)
    ensures r.Ok? ==> r.value.0 == l.(core := r.value.0.core)
    ensures r.Ok? ==> r.value.1 == cursor + InitDraws(l)
  {
    if !(l.inputSize > 0 && l.hiddenSize > 0 && l.outputSize > 0) then Err(IllegalArgument)
    else
      var inputs, hidden, outputs := l.inputSize, l.hiddenSize, l.outputSize;
      var c1: nat := cursor + hidden * inputs;
      var c2: nat := c1 + hidden * hidden;
      var c3: nat := c2 + outputs * hidden;
      var wxh := MulScalar(Random.Randn(hidden, inputs, gauss, cursor).value, WeightScale);
      var whh := MulScalar(Random.Randn(hidden, hidden, gauss, c1).value, WeightScale);
      var why := MulScalar(Random.Randn(outputs, hidden, gauss, c2).value, WeightScale);
      var bh := ZerosVector(hidden).value;
      var bo := ZerosVector(outputs).value;
      var w := Params(wxh, whh, why, bh, bo);
      var g := Params(ZerosLike(wxh), ZerosLike(whh), ZerosLike(why), ZerosLike(bh), ZerosLike(bo));
      var h := Random.RandnVector(hidden, gauss, c3).value;
      Ok((l.(core := Some(Core(w, g, h))), c3 + hidden))
  }

  predicate IsZero(a: Matrix) {
    forall i, j :: 0 <= i < a.rows && 0 <= j < a.cols ==> a.data[i][j] == 0.0
  }

  predicate Zero(p: Params) {
    IsZero(p.wxh) && IsZero(p.whh) && IsZero(p.why) && IsZero(p.bh) && IsZero(p.bo)
  }

  /** The default constructor as written leaves the output size at 0, so the layer cannot
      be initialized until the output size is set. */
  lemma AsWrittenDefaultCannotInitialize(gauss: nat -> real, cursor: nat)
    ensures Initialize(NewLayerAsWritten(), gauss, cursor) == Err(IllegalArgument)
  {
  }

  /** With every size at its default, the layer initializes. */
  lemma DefaultLayerInitializes(gauss: nat -> real, cursor: nat)
    ensures Initialize(NewLayer(), gauss, cursor).Ok?
  {
  }

  /** A size set through its setter is the size `initialize` builds the weights with. */
  lemma SettersShapeInitialize(l: Layer, inputs: int, hidden: int, outputs: int, gauss: nat -> real, cursor: nat)
    requires inputs > 0 && hidden > 0 && outputs > 0
    ensures
      var l1 := SetInputSize(l, inputs).next;
      var l2 := SetHiddenSize(l1, hidden).next;
      var l3 := SetOutputSize(l2, outputs).next;
      var r := Initialize(l3, gauss, cursor);
      r.Ok? && Shaped(r.value.0.core.value.w, inputs, hidden, outputs)
  {
  }

  /* ---------------------------------------------------------------- Inputs */

  /** `ixTox(ix)`: one one-hot row vector of the input size per index. Rejects null, an
      empty sequence and any index outside [0, inputSize). */
  function IxToX(l: Layer, ix: Option<seq<int>>): (r: Result<seq<Matrix>>)
    ensures ix.None? ==> r == Err(NullPointer)
    ensures ix.Some? ==> (r.Ok? <==> |ix.value| > 0 && forall t :: 0 <= t < |ix.value| ==> 0 <= ix.value[t] < l.inputSize)
    ensures ix.Some? && r.Err? ==> r.error == IllegalArgument
    ensures r.Ok? ==> |r.value| == |ix.value|
    ensures r.Ok? ==> forall t :: 0 <= t < |r.value| ==>
      r.value[t].rows == 1 && IsVectorOf(r.value[t], l.inputSize) && OneHotIndex(r.value[t]) == Ok(ix.value[t])
  {
    if ix.None? then Err(NullPointer)
    else if |ix.value| == 0 then Err(IllegalArgument)
    else if exists t :: 0 <= t < |ix.value| && !(0 <= ix.value[t] < l.inputSize) then Err(IllegalArgument)
    else
      var v := ix.value;
      var xs := seq(|v|, t requires 0 <= t < |v| => OneHot(l.inputSize, v[t]).value);
      forall t | 0 <= t < |v|
        ensures OneHotIndex(xs[t]) == Ok(v[t])
      {
        OneHotRoundTrip(l.inputSize, v[t]);
      }
      Ok(xs)
  }

  /** `ixTox(ix)` for a single index. */
  function IxToXSingle(l: Layer, ix: int): (r: Result<Matrix>)
    ensures r.Ok? <==> 0 <= ix < l.inputSize
    ensures r.Err? ==> r.error == IllegalArgument
    ensures r.Ok? ==> r.value.rows == 1 && IsVectorOf(r.value, l.inputSize) && OneHotIndex(r.value) == Ok(ix)
  {
    if !(0 <= ix < l.inputSize) then Err(IllegalArgument)
    else
      OneHotRoundTrip(l.inputSize, ix);
      OneHot(l.inputSize, ix)
  }

  /** The Java array form of a sequence: every slot present. */
  function Present(s: seq<Matrix>): (r: seq<Option<Matrix>>)
    ensures |r| == |s| && forall t :: 0 <= t < |s| ==> r[t] == Some(s[t])
  {
    seq(|s|, t requires 0 <= t < |s| => Some(s[t]))
  }

  /** The per-step argument check of `forward` and `backward`: every slot present and a
      vector of length n, inspected in order; `getk` reports a slot that is not a vector. */
  function CheckVectors(v: seq<Option<Matrix>>, n: int): (r: Result<seq<Matrix>>)
    ensures r.Ok? <==> forall t :: 0 <= t < |v| ==> v[t].Some? && IsVectorOf(v[t].value, n)
    ensures r.Ok? ==> |r.value| == |v| && forall t :: 0 <= t < |v| ==> r.value[t] == v[t].value
    ensures r.Err? ==> r.error in {IllegalArgument, NotAVector}
    ensures r.Err? && (forall t :: 0 <= t < |v| && v[t].Some? ==> IsVector(v[t].value)) ==> r.error == IllegalArgument
    decreases |v|
  {
    if |v| == 0 then Ok([])
    else if v[0].None? then Err(IllegalArgument)
    else
      var k :- GetK(v[0].value);
      if k != n then Err(IllegalArgument)
      else
        var rest :- CheckVectors(v[1..], n);
        Ok([v[0].value] + rest)
  }

  /** Present slots of the right vectors pass the check unchanged. */
  lemma CheckPresent(s: seq<Matrix>, n: int)
    requires forall t :: 0 <= t < |s| ==> IsVectorOf(s[t], n)
    ensures CheckVectors(Present(s), n) == Ok(s)
  {
    var r := CheckVectors(Present(s), n);
    assert r.Ok?;
    assert r.value == s;
  }

  /* ---------------------------------------------------------------- Forward */

  /** h' = tanh(Wxh x + Whh h + bh), computed with the matrix operators. */
  function StepHidden(k: Transcendentals, w: Params, x: Matrix, h: Matrix): Result<Matrix> {
    var a :- Dot(w.wxh, x);
    var b :- Dot(w.whh, h);
    var c :- Add(a, b);
    var d :- Add(c, w.bh);
    Ok(Tanh(k, d))
  }

  /** y = Why h + by, computed with the matrix operators. */
  function Output(w: Params, h: Matrix): Result<Matrix> {
    var a :- Dot(w.why, h);
    Add(a, w.bo)
  }

  /** The hidden-state recurrence in plain sequence terms. */
  function NextHidden(k: Transcendentals, w: Params, x: seq<real>, h: seq<real>): seq<real>
    requires Shaped(w, |x|, |h|, w.why.rows)
  {
    Map(k.tanh, AddSeqs(AddSeqs(MatVec(w.wxh, x), MatVec(w.whh, h)), Vec(w.bh)))
  }

  /** The output equation in plain sequence terms. */
  function OutputOf(w: Params, h: seq<real>): seq<real>
    requires Shaped(w, w.wxh.cols, |h|, w.why.rows)
  {
    AddSeqs(MatVec(w.why, h), Vec(w.bo))
  }

  /** What the forward loop produces: the hidden states (hs[0] is the state before the
      pass), the outputs and the probabilities. */
  datatype Steps = Steps(hs: seq<Matrix>, ys: seq<Matrix>, ps: seq<Matrix>)

  /** The loop of `forward`: steps 0 .. |xs| - 1 from hidden state h0. */
  function Run(k: Transcendentals, w: Params, xs: seq<Matrix>, h0: Matrix): (r: Result<Steps>)
    ensures r.Ok? ==> |r.value.hs| == |xs| + 1 && |r.value.ys| == |xs| && |r.value.ps| == |xs| && r.value.hs[0] == h0
    decreases |xs|
  {
    if |xs| == 0 then Ok(Steps([h0], [], []))
    else
      var n := |xs| - 1;
      var prev :- Run(k, w, xs[..n], h0);
      var h :- StepHidden(k, w, xs[n], prev.hs[n]);
      var y :- Output(w, h);
      Ok(Steps(prev.hs + [h], prev.ys + [y], prev.ps + [Softmax(k, y)]))
  }

  /** With weights of the configured shapes, one step succeeds and computes the recurrence;
      the new hidden state is a column. */
  lemma StepHiddenColumn(k: Transcendentals, w: Params, x: Matrix, h: Matrix, inputs: int, hidden: int, outputs: int)
    requires Shaped(w, inputs, hidden, outputs)
    requires IsVectorOf(x, inputs) && IsVectorOf(h, hidden)
    ensures StepHidden(k, w, x, h).Ok?
    ensures IsColumnOf(StepHidden(k, w, x, h).value, hidden)
    ensures Vec(StepHidden(k, w, x, h).value) == NextHidden(k, w, Vec(x), Vec(h))
  {
    DotMatVec(w.wxh, x);
    DotMatVec(w.whh, h);
    var a := Dot(w.wxh, x).value;
    var b := Dot(w.whh, h).value;
    AddVectors(a, b);
    var c := Add(a, b).value;
    AddVectors(c, w.bh);
    var d := Add(c, w.bh).value;
    ApplyVector(d, k.tanh);
  }

  /** With weights of the configured shapes, the output is an output-size column holding
      the output equation. */
  lemma OutputColumn(w: Params, h: Matrix, inputs: int, hidden: int, outputs: int)
    requires Shaped(w, inputs, hidden, outputs)
    requires IsVectorOf(h, hidden)
    ensures Output(w, h).Ok?
    ensures IsColumnOf(Output(w, h).value, outputs)
    ensures Vec(Output(w, h).value) == OutputOf(w, Vec(h))
  {
    DotMatVec(w.why, h);
    var a := Dot(w.why, h).value;
    AddVectors(a, w.bo);
  }

  /** The recorded trace as the loop's input and output. */
  function StepsOf(tr: Trace): Steps {
    Steps(tr.hs, tr.ys, tr.ps)
  }

  predicate Fits(xs: seq<Matrix>, o: Steps) {
    |o.hs| == |xs| + 1 && |o.ys| == |xs| && |o.ps| == |xs|
  }

  /** Step t of a forward loop follows the plain recurrence. */
  predicate Follows(k: Transcendentals, w: Params, xs: seq<Matrix>, o: Steps, t: nat, inputs: int, hidden: int, outputs: int)
    requires Shaped(w, inputs, hidden, outputs)
    requires t < |xs| && Fits(xs, o)
  {
    && IsVectorOf(xs[t], inputs) && IsVectorOf(o.hs[t], hidden)
    && IsColumnOf(o.hs[t + 1], hidden)
    && IsColumnOf(o.ys[t], outputs) && IsColumnOf(o.ps[t], outputs)
    && Vec(o.hs[t + 1]) == NextHidden(k, w, Vec(xs[t]), Vec(o.hs[t]))
    && Vec(o.ys[t]) == OutputOf(w, Vec(o.hs[t + 1]))
    && o.ps[t] == Softmax(k, o.ys[t])
  }

  /** Every step of a forward record follows the recurrence. */
  predicate AllFollow(k: Transcendentals, w: Params, xs: seq<Matrix>, o: Steps, inputs: int, hidden: int, outputs: int)
    requires Shaped(w, inputs, hidden, outputs)
  {
    Fits(xs, o) && forall t :: 0 <= t < |xs| ==> Follows(k, w, xs, o, t, inputs, hidden, outputs)
  }

  /** The forward loop on inputs of the input size succeeds, and every step follows the
      recurrence h[t+1] = tanh(Wxh x[t] + Whh h[t] + bh), y[t] = Why h[t+1] + by,
      p[t] = softmax(y[t]). */
  lemma {:induction false} RunFollows(k: Transcendentals, w: Params, xs: seq<Matrix>, h0: Matrix, inputs: int, hidden: int, outputs: int)
    requires Shaped(w, inputs, hidden, outputs)
    requires IsVectorOf(h0, hidden)
    requires forall t :: 0 <= t < |xs| ==> IsVectorOf(xs[t], inputs)
    ensures Run(k, w, xs, h0).Ok?
    ensures AllFollow(k, w, xs, Run(k, w, xs, h0).value, inputs, hidden, outputs)
    decreases |xs|
  {
    if |xs| > 0 {
      var n := |xs| - 1;
      RunFollows(k, w, xs[..n], h0, inputs, hidden, outputs);
      var prev := Run(k, w, xs[..n], h0).value;
      assert AllFollow(k, w, xs[..n], prev, inputs, hidden, outputs);
      var hLast := prev.hs[n];
      if n > 0 {
        assert Follows(k, w, xs[..n], prev, n - 1, inputs, hidden, outputs);
        ColumnIsVector(hLast, hidden);
      }
      StepHiddenColumn(k, w, xs[n], hLast, inputs, hidden, outputs);
      var h := StepHidden(k, w, xs[n], hLast).value;
      ColumnIsVector(h, hidden);
      OutputColumn(w, h, inputs, hidden, outputs);
      var y := Output(w, h).value;
      var o := Steps(prev.hs + [h], prev.ys + [y], prev.ps + [Softmax(k, y)]);
      assert Run(k, w, xs, h0) == Ok(o);
      forall t | 0 <= t < |xs|
        ensures Follows(k, w, xs, o, t, inputs, hidden, outputs)
      {
        if t < n {
          FollowsExtend(k, w, xs, prev, h, y, t, inputs, hidden, outputs);
        } else {
          FollowsLast(k, w, xs, prev, h, y, inputs, hidden, outputs);
        }
      }
    }
  }

  /** Appending a step keeps the earlier steps' recurrence. */
  lemma FollowsExtend(k: Transcendentals, w: Params, xs: seq<Matrix>, prev: Steps, h: Matrix, y: Matrix, t: nat,
                      inputs: int, hidden: int, outputs: int)
    requires Shaped(w, inputs, hidden, outputs)
    requires |xs| > 0 && t < |xs| - 1 && Fits(xs[..|xs| - 1], prev)
    requires Follows(k, w, xs[..|xs| - 1], prev, t, inputs, hidden, outputs)
    ensures Follows(k, w, xs, Steps(prev.hs + [h], prev.ys + [y], prev.ps + [Softmax(k, y)]), t, inputs, hidden, outputs)
  {
    var o := Steps(prev.hs + [h], prev.ys + [y], prev.ps + [Softmax(k, y)]);
    assert o.hs[t] == prev.hs[t] && o.hs[t + 1] == prev.hs[t + 1];
    assert o.ys[t] == prev.ys[t] && o.ps[t] == prev.ps[t] && xs[..|xs| - 1][t] == xs[t];
  }

  /** The appended step follows the recurrence when it was computed by it. */
  lemma FollowsLast(k: Transcendentals, w: Params, xs: seq<Matrix>, prev: Steps, h: Matrix, y: Matrix,
                    inputs: int, hidden: int, outputs: int)
    requires Shaped(w, inputs, hidden, outputs)
    requires |xs| > 0 && Fits(xs[..|xs| - 1], prev)
    requires IsVectorOf(xs[|xs| - 1], inputs) && IsVectorOf(prev.hs[|xs| - 1], hidden)
    requires IsColumnOf(h, hidden) && IsColumnOf(y, outputs)
    requires Vec(h) == NextHidden(k, w, Vec(xs[|xs| - 1]), Vec(prev.hs[|xs| - 1]))
    requires Vec(y) == OutputOf(w, Vec(h))
    ensures Follows(k, w, xs, Steps(prev.hs + [h], prev.ys + [y], prev.ps + [Softmax(k, y)]), |xs| - 1, inputs, hidden, outputs)
  {
    var o := Steps(prev.hs + [h], prev.ys + [y], prev.ps + [Softmax(k, y)]);
    var n := |xs| - 1;
    assert o.hs[n] == prev.hs[n] && o.hs[n + 1] == h;
    assert o.ys[n] == y && o.ps[n] == Softmax(k, y);
  }

  /** `forward(x)`: requires an initialized layer and at least one step, each slot a
      vector of the input size. Records the pass: the inputs, the hidden state before the
      pass in hs[0], and the states, outputs and probabilities of every step; the layer's
      hidden state becomes the last one. */
  function Forward(k: Transcendentals, l: Layer, x: Option<seq<Option<Matrix>>>): (r: Result<Layer>)
    ensures !l.Initialized() ==> r == Err(IllegalState)
    ensures l.Initialized() && (x.None? || |x.value| == 0) ==> r == Err(IllegalArgument)
    ensures l.Initialized() && x.Some? && |x.value| > 0 && CheckVectors(x.value, l.inputSize).Err? ==>
      r == Err(CheckVectors(x.value, l.inputSize).error)
    ensures r.Ok? ==> l.Initialized() && x.Some? && |x.value| > 0 && CheckVectors(x.value, l.inputSize).Ok?
    ensures r.Ok? ==>
      var tr := r.value.trace;
      && |tr.xs| == |x.value| && (forall t :: 0 <= t < |tr.xs| ==> x.value[t] == Some(tr.xs[t]))
      && tr.hs[0] == l.core.value.h
      && r.value == l.(core := Some(l.core.value.(h := tr.hs[|tr.xs|])), trace := tr)
    ensures r.Ok? ==>
      && r.value.trace.xs == CheckVectors(x.value, l.inputSize).value
      && Run(k, l.core.value.w, r.value.trace.xs, l.core.value.h) == Ok(StepsOf(r.value.trace))
  {
    if !l.Initialized() then Err(IllegalState)
    else if x.None? || |x.value| == 0 then Err(IllegalArgument)
    else
      var xs :- CheckVectors(x.value, l.inputSize);
      var c := l.core.value;
      var o :- Run(k, c.w, xs, c.h);
      var tr: Trace := RawTrace(xs, o.hs, o.ys, o.ps);
      Ok(l.(core := Some(c.(h := o.hs[|xs|])), trace := tr))
  }

  /** On a layer satisfying the invariant, a forward pass over valid inputs succeeds and
      every step of the trace it records follows the recurrence. */
  lemma ForwardFollows(k: Transcendentals, l: Layer, x: seq<Option<Matrix>>)
    requires Inv(l) && l.Initialized()
    requires |x| > 0 && CheckVectors(x, l.inputSize).Ok?
    ensures Forward(k, l, Some(x)).Ok?
    ensures
      var tr := Forward(k, l, Some(x)).value.trace;
      AllFollow(k, l.core.value.w, tr.xs, StepsOf(tr), l.inputSize, l.hiddenSize, l.outputSize)
  {
    var xs := CheckVectors(x, l.inputSize).value;
    var c := l.core.value;
    RunFollows(k, c.w, xs, c.h, l.inputSize, l.hiddenSize, l.outputSize);
    ForwardIsRun(k, l, x);
    var tr := Forward(k, l, Some(x)).value.trace;
    assert tr.xs == xs && Run(k, c.w, xs, c.h) == Ok(StepsOf(tr));
  }

  /** A forward pass whose argument check and loop succeed succeeds. */
  lemma ForwardIsRun(k: Transcendentals, l: Layer, x: seq<Option<Matrix>>)
    requires l.Initialized() && |x| > 0 && CheckVectors(x, l.inputSize).Ok?
    requires Run(k, l.core.value.w, CheckVectors(x, l.inputSize).value, l.core.value.h).Ok?
    ensures Forward(k, l, Some(x)).Ok?
  {
  }

  /** A forward pass keeps the layer invariant and leaves a trace that fits the layer. */
  lemma ForwardKeepsInv(k: Transcendentals, l: Layer, x: seq<Option<Matrix>>)
    requires Inv(l) && l.Initialized()
    requires |x| > 0 && CheckVectors(x, l.inputSize).Ok?
    ensures Forward(k, l, Some(x)).Ok?
    ensures Inv(Forward(k, l, Some(x)).value) && TraceFits(Forward(k, l, Some(x)).value)
  {
    ForwardFollows(k, l, x);
    var l' := Forward(k, l, Some(x)).value;
    var tr := l'.trace;
    FollowsFit(k, l.core.value.w, tr.xs, StepsOf(tr), l.inputSize, l.hiddenSize, l.outputSize);
    ColumnIsVector(tr.hs[|tr.xs|], l.hiddenSize);
  }

  /** Every step following the recurrence gives a record of the prescribed shapes. */
  lemma FollowsFit(k: Transcendentals, w: Params, xs: seq<Matrix>, o: Steps, inputs: int, hidden: int, outputs: int)
    requires Shaped(w, inputs, hidden, outputs)
    requires |xs| > 0 && Fits(xs, o)
    requires AllFollow(k, w, xs, o, inputs, hidden, outputs)
    ensures StepsFit(xs, o, inputs, hidden, outputs)
    ensures IsColumnOf(o.hs[|xs|], hidden)
  {
    assert Follows(k, w, xs, o, 0, inputs, hidden, outputs);
    assert Follows(k, w, xs, o, |xs| - 1, inputs, hidden, outputs);
    forall t | 0 < t < |o.hs|
      ensures IsColumnOf(o.hs[t], hidden)
    {
      assert Follows(k, w, xs, o, t - 1, inputs, hidden, outputs);
    }
    forall t | 0 <= t < |xs|
      ensures IsColumnOf(o.ys[t], outputs) && IsColumnOf(o.ps[t], outputs) && IsVectorOf(xs[t], inputs)
    {
      assert Follows(k, w, xs, o, t, inputs, hidden, outputs);
    }
  }

  /** `forward(x)` for a single input: null is rejected, anything else is a one-step pass. */
  function ForwardOne(k: Transcendentals, l: Layer, x: Option<Matrix>): (r: Result<Layer>)
    ensures x.None? ==> r == Err(NullPointer)
    ensures x.Some? ==> r == Forward(k, l, Some([x]))
  {
    if x.None? then Err(NullPointer)
    else Forward(k, l, Some([x]))
  }

  /* ---------------------------------------------------------------- The first step */

  /** The first step of a forward loop depends on the first input and the starting state
      only: it is the whole of the loop over the first input alone. */
  lemma {:induction false} RunFirst(k: Transcendentals, w: Params, xs: seq<Matrix>, h0: Matrix)
    requires |xs| > 0 && Run(k, w, xs, h0).Ok?
    ensures Run(k, w, xs[..1], h0).Ok?
    ensures Run(k, w, xs[..1], h0).value.ys[0] == Run(k, w, xs, h0).value.ys[0]
    ensures Run(k, w, xs[..1], h0).value.ps[0] == Run(k, w, xs, h0).value.ps[0]
    decreases |xs|
  {
    if |xs| > 1 {
      var n := |xs| - 1;
      assert xs[..n][..1] == xs[..1];
      RunFirst(k, w, xs[..n], h0);
    }
  }

  /** Step 1 of a recorded pass: its output and probabilities. */
  predicate FirstAgree(a: Layer, b: Layer) {
    && |a.trace.ys| > 0 && |b.trace.ys| > 0 && |a.trace.ps| > 0 && |b.trace.ps| > 0
    && a.trace.ys[0] == b.trace.ys[0] && a.trace.ps[0] == b.trace.ps[0]
  }

  /** Two forward passes of the same layer whose first inputs are the same record the same
      output and probabilities at step 1, whatever the later inputs. */
  lemma FirstStepAgrees(k: Transcendentals, l: Layer, x1: Option<seq<Option<Matrix>>>, x2: Option<seq<Option<Matrix>>>)
    requires x1.Some? && x2.Some? && |x1.value| > 0 && |x2.value| > 0 && x1.value[0] == x2.value[0]
    ensures Forward(k, l, x1).Ok? && Forward(k, l, x2).Ok? ==>
      FirstAgree(Forward(k, l, x1).value, Forward(k, l, x2).value)
  {
    if Forward(k, l, x1).Ok? && Forward(k, l, x2).Ok? {
      var c := l.core.value;
      var tr1 := Forward(k, l, x1).value.trace;
      var tr2 := Forward(k, l, x2).value.trace;
      assert x1.value[0] == Some(tr1.xs[0]) && x2.value[0] == Some(tr2.xs[0]);
      assert tr1.xs[..1] == tr2.xs[..1];
      RunFirst(k, c.w, tr1.xs, c.h);
      RunFirst(k, c.w, tr2.xs, c.h);
    }
  }
}

=== FILE: matrix.dfy ===
/** Dense M x N matrices of the engine (`math/Matrix.java`).

    The Java class keeps its shape fixed and mutates its contents in place; every mutating
    operation returns `this`. The model is a value type: each operation returns the new
    matrix. The class invariant (both dimensions positive, every row of width N) is the
    subset type `Matrix`. */
module Matrices {
  import opened Outcomes
  import opened Tolerance
  import opened Kernel
  import ArrayUtils

  datatype RawMatrix = RawMatrix(rows: int, cols: int, data: seq<seq<real>>)

  predicate WellFormed(a: RawMatrix) {
    && a.rows > 0 && a.cols > 0
    && |a.data| == a.rows
    && forall i :: 0 <= i < |a.data| ==> |a.data[i]| == a.cols
  }

  type Matrix = a: RawMatrix | WellFormed(a) witness RawMatrix(1, 1, [[0.0]])

  predicate SameShape(a: Matrix, b: Matrix) {
    a.rows == b.rows && a.cols == b.cols
  }

  /* ---------------------------------------------------------------- Create */

  /** An m x n matrix with every entry equal to x. */
  function Fill(m: int, n: int, x: real): (r: Matrix)
    requires m > 0 && n > 0
    ensures r.rows == m && r.cols == n
    ensures forall i, j :: 0 <= i < m && 0 <= j < n ==> r.data[i][j] == x
  {
    RawMatrix(m, n, seq(m, i requires 0 <= i < m => seq(n, j requires 0 <= j < n => x)))
  }

  /** `zeros(M, N)`: rejects non-positive dimensions. */
  function Zeros(m: int, n: int): (r: Result<Matrix>)
    ensures r.Ok? <==> m > 0 && n > 0
    ensures r.Err? ==> r.error == IllegalArgument
    ensures r.Ok? ==> r.value.rows == m && r.value.cols == n
    ensures r.Ok? ==> forall i, j :: 0 <= i < m && 0 <= j < n ==> r.value.data[i][j] == 0.0
  {
    if !(m > 0 && n > 0) then Err(IllegalArgument)
    else Ok(Fill(m, n, 0.0))
  }

  /** `zeros(k)`: a 1 x k row vector. */
  function ZerosVector(k: int): (r: Result<Matrix>)
    ensures r.Ok? <==> k > 0
    ensures r.Err? ==> r.error == IllegalArgument
    ensures r.Ok? ==> r.value.rows == 1 && r.value.cols == k
    ensures r.Ok? ==> forall j :: 0 <= j < k ==> r.value.data[0][j] == 0.0
  {
    if !(k > 0) then Err(IllegalArgument)
    else Zeros(1, k)
  }

  /** `zerosLike(other)`. */
  function ZerosLike(a: Matrix): (r: Matrix)
    ensures SameShape(r, a)
    ensures forall i, j :: 0 <= i < r.rows && 0 <= j < r.cols ==> r.data[i][j] == 0.0
  {
    Fill(a.rows, a.cols, 0.0)
  }

  /** `ones(M, N)`, built as `zeros(M, N).add(1.0)`. */
  function Ones(m: int, n: int): (r: Result<Matrix>)
    ensures r.Ok? <==> m > 0 && n > 0
    ensures r.Err? ==> r.error == IllegalArgument
    ensures r.Ok? ==> r.value.rows == m && r.value.cols == n
    ensures r.Ok? ==> forall i, j :: 0 <= i < m && 0 <= j < n ==> r.value.data[i][j] == 1.0
  {
    if !(m > 0 && n > 0) then Err(IllegalArgument)
    else
      Ok(AddScalar(Zeros(m, n).value, 1.0))
  }

  /** `ones(k)`: a 1 x k row vector of ones. */
  function OnesVector(k: int): (r: Result<Matrix>)
    ensures r.Ok? <==> k > 0
    ensures r.Err? ==> r.error == IllegalArgument
    ensures r.Ok? ==> r.value.rows == 1 && r.value.cols == k
    ensures r.Ok? ==> forall j :: 0 <= j < k ==> r.value.data[0][j] == 1.0
  {
    if !(k > 0) then Err(IllegalArgument)
    else Ones(1, k)
  }

  /** `onesLike(other)`. */
  function OnesLike(a: Matrix): (r: Matrix)
    ensures SameShape(r, a)
    ensures forall i, j :: 0 <= i < r.rows && 0 <= j < r.cols ==> r.data[i][j] == 1.0
  {
    AddScalar(ZerosLike(a), 1.0)
  }

  /** `oneHot(k, i)`: `zeros(k)` with entry i set to 1. */
  function OneHot(k: int, i: int): (r: Result<Matrix>)
    ensures r.Ok? <==> 0 <= i < k
    ensures r.Err? ==> r.error == IllegalArgument
    ensures r.Ok? ==> r.value.rows == 1 && r.value.cols == k
    ensures r.Ok? ==> forall j :: 0 <= j < k ==> r.value.data[0][j] == (if j == i then 1.0 else 0.0)
  {
    if !(0 <= i < k) then Err(IllegalArgument)
    else
      SetAt(ZerosVector(k).value, i, 1.0)
  }

  /** `fromRaw(data)`: copies a Java `double[][]` and checks it through the private array
      constructor. A non-rectangular array is reported as an illegal argument; an empty
      outer array fails reading its row 0; a null array or a zero width is rejected. */
  function FromRaw(src: ArrayUtils.Array2D): (r: Result<Matrix>)
    ensures r.Ok? <==>
      src.Some? && |src.value| > 0 && ArrayUtils.RowLength(src.value[0]) > 0 &&
      ArrayUtils.Rectangular(src.value, ArrayUtils.RowLength(src.value[0]))
    ensures r.Ok? ==> r.value.rows == |src.value| && r.value.cols == ArrayUtils.RowLength(src.value[0])
    ensures r.Ok? ==> forall i :: 0 <= i < r.value.rows ==> r.value.data[i] == src.value[i].value
    ensures src.None? ==> r == Err(IllegalArgument)
    ensures src.Some? && |src.value| == 0 ==> r == Err(ArrayIndexOutOfBounds)
  {
    var copy := ArrayUtils.DeepCopyOf(src);
    var m := ArrayUtils.ArrayRows(copy);
    var cols := ArrayUtils.ArrayCols(copy);
    if cols.Err? && cols.error == NotRectangular then Err(IllegalArgument)
    else if cols.Err? then Err(cols.error)
    else if m == 0 || cols.value == 0 then Err(IllegalArgument)
    else
      var rows := copy.value;
      assert rows[0].Some?;
      Ok(RawMatrix(m, cols.value, seq(m, i requires 0 <= i < m => rows[i].value)))
  }

  /* ---------------------------------------------------------------- Transpose */

  /** `T()`. */
  function Transpose(a: Matrix): (r: Matrix)
    ensures r.rows == a.cols && r.cols == a.rows
    ensures forall i, j :: 0 <= i < a.rows && 0 <= j < a.cols ==> r.data[j][i] == a.data[i][j]
  {
    RawMatrix(a.cols, a.rows,
      seq(a.cols, j requires 0 <= j < a.cols => seq(a.rows, i requires 0 <= i < a.rows => a.data[i][j])))
  }

  /** Two matrices of the same shape with the same entries are the same matrix. */
  lemma Extensionality(a: Matrix, b: Matrix)
    requires SameShape(a, b)
    requires forall i, j :: 0 <= i < a.rows && 0 <= j < a.cols ==> a.data[i][j] == b.data[i][j]
    ensures a == b
  {
    forall i | 0 <= i < a.rows
      ensures a.data[i] == b.data[i]
    {
    }
  }

  lemma TransposeInvolution(a: Matrix)
    ensures Transpose(Transpose(a)) == a
  {
    Extensionality(Transpose(Transpose(a)), a);
  }

  /* ---------------------------------------------------------------- Product */

  /** Sum of u[k] * v[k], accumulated from k = 0 upwards like the innermost loop of `dot`. */
  function Inner(u: seq<real>, v: seq<real>): real
    requires |u| == |v|
    decreases |u|
  {
    if |u| == 0 then 0.0
    else Inner(u[..|u| - 1], v[..|v| - 1]) + u[|u| - 1] * v[|v| - 1]
  }

  lemma InnerSingle(x: real, y: real)
    ensures Inner([x], [y]) == x * y
  {
    assert [x][..0] == [];
  }

  function Column(b: Matrix, j: int): (c: seq<real>)
    requires 0 <= j < b.cols
    ensures |c| == b.rows
    ensures forall k :: 0 <= k < b.rows ==> c[k] == b.data[k][j]
  {
    seq(b.rows, k requires 0 <= k < b.rows => b.data[k][j])
  }

  /** The plain matrix product of two compatible matrices. */
  function Product(a: Matrix, b: Matrix): (c: Matrix)
    requires a.cols == b.rows
    ensures c.rows == a.rows && c.cols == b.cols
    ensures forall i, j :: 0 <= i < a.rows && 0 <= j < b.cols ==> c.data[i][j] == Inner(a.data[i], Column(b, j))
  {
    RawMatrix(a.rows, b.cols,
      seq(a.rows, i requires 0 <= i < a.rows =>
        seq(b.cols, j requires 0 <= j < b.cols => Inner(a.data[i], Column(b, j)))))
  }

  /** `dot(a, b)`: the matrix product when a.N == b.M. Otherwise b is transposed when both
      operands are column vectors (an outer product), or when b is a row vector as wide as
      a; any other mismatch fails. */
  function Dot(a: Matrix, b: Matrix): (r: Result<Matrix>)
    ensures r.Ok? <==>
      a.cols == b.rows || (a.cols == 1 && b.cols == 1) || (b.rows == 1 && a.cols == b.cols)
    ensures r.Err? ==> r.error == IncompatibleShapes
    ensures a.cols == b.rows ==>
      r.Ok? && r.value.rows == a.rows && r.value.cols == b.cols &&
      forall i, j :: 0 <= i < a.rows && 0 <= j < b.cols ==> r.value.data[i][j] == Inner(a.data[i], Column(b, j))
    ensures a.cols != b.rows && a.cols == 1 && b.cols == 1 ==>
      r.Ok? && r.value.rows == a.rows && r.value.cols == b.rows &&
      forall i, j :: 0 <= i < a.rows && 0 <= j < b.rows ==> r.value.data[i][j] == a.data[i][0] * b.data[j][0]
    ensures a.cols != b.rows && b.rows == 1 && a.cols == b.cols ==>
      r.Ok? && r.value.rows == a.rows && r.value.cols == 1 &&
      forall i :: 0 <= i < a.rows ==> r.value.data[i][0] == Inner(a.data[i], b.data[0])
  {
    if a.cols == b.rows then Ok(Product(a, b))
    else if a.cols == 1 && b.cols == 1 then
      var bt := Transpose(b);
      var c := Product(a, bt);
      assert forall i, j :: 0 <= i < a.rows && 0 <= j < b.rows ==> c.data[i][j] == a.data[i][0] * b.data[j][0] by {
        forall i, j | 0 <= i < a.rows && 0 <= j < b.rows
          ensures c.data[i][j] == a.data[i][0] * b.data[j][0]
        {
          assert a.data[i] == [a.data[i][0]];
          assert Column(bt, j) == [b.data[j][0]];
          InnerSingle(a.data[i][0], b.data[j][0]);
        }
      }
      Ok(c)
    else if b.rows == 1 && a.cols == b.cols then
      var bt := Transpose(b);
      var c := Product(a, bt);
      assert Column(bt, 0) == b.data[0];
      Ok(c)
    else Err(IncompatibleShapes)
  }

  /* ---------------------------------------------------------------- Scalar operators */

  /** `add(x)`: adds x to every entry. */
  function AddScalar(a: Matrix, x: real): (r: Matrix)
    ensures SameShape(r, a)
    ensures forall i, j :: 0 <= i < a.rows && 0 <= j < a.cols ==> r.data[i][j] == a.data[i][j] + x
  {
    RawMatrix(a.rows, a.cols,
      seq(a.rows, i requires 0 <= i < a.rows => seq(a.cols, j requires 0 <= j < a.cols => a.data[i][j] + x)))
  }

  /** `mul(x)`: multiplies every entry by x. */
  function MulScalar(a: Matrix, x: real): (r: Matrix)
    ensures SameShape(r, a)
    ensures forall i, j :: 0 <= i < a.rows && 0 <= j < a.cols ==> r.data[i][j] == a.data[i][j] * x
  {
    RawMatrix(a.rows, a.cols,
      seq(a.rows, i requires 0 <= i < a.rows => seq(a.cols, j requires 0 <= j < a.cols => a.data[i][j] * x)))
  }

  /** `div(x)`: divides every entry by x (a non-zero divisor; see README). */
  function DivScalar(a: Matrix, x: real): (r: Matrix)
    requires x != 0.0
    ensures SameShape(r, a)
    ensures forall i, j :: 0 <= i < a.rows && 0 <= j < a.cols ==> r.data[i][j] * x == a.data[i][j]
  {
    RawMatrix(a.rows, a.cols,
      seq(a.rows, i requires 0 <= i < a.rows => seq(a.cols, j requires 0 <= j < a.cols => a.data[i][j] / x)))
  }

  /** `neg()`, which is `mul(-1.0)`. */
  function Neg(a: Matrix): (r: Matrix)
    ensures SameShape(r, a)
    ensures forall i, j :: 0 <= i < a.rows && 0 <= j < a.cols ==> r.data[i][j] + a.data[i][j] == 0.0
  {
    MulScalar(a, -1.0)
  }

  /** `apply(f)`: replaces every entry x by f(x). */
  function Apply(a: Matrix, f: real -> real): (r: Matrix)
    ensures SameShape(r, a)
    ensures forall i, j :: 0 <= i < a.rows && 0 <= j < a.cols ==> r.data[i][j] == f(a.data[i][j])
  {
    RawMatrix(a.rows, a.cols,
      seq(a.rows, i requires 0 <= i < a.rows => seq(a.cols, j requires 0 <= j < a.cols => f(a.data[i][j]))))
  }

  /** `exp()` element-wise; every entry of the result is positive. */
  function Exp(k: Transcendentals, a: Matrix): (r: Matrix)
    ensures SameShape(r, a)
    ensures forall i, j :: 0 <= i < a.rows && 0 <= j < a.cols ==> r.data[i][j] == k.exp(a.data[i][j])
    ensures forall i, j :: 0 <= i < a.rows && 0 <= j < a.cols ==> r.data[i][j] > 0.0
  {
    var r := Apply(a, k.exp);
    forall i, j | 0 <= i < a.rows && 0 <= j < a.cols
      ensures r.data[i][j] > 0.0
    {
      ExpPositive(k, a.data[i][j]);
    }
    r
  }

  /** `tanh()` element-wise. */
  function Tanh(k: Transcendentals, a: Matrix): (r: Matrix)
    ensures SameShape(r, a)
    ensures forall i, j :: 0 <= i < a.rows && 0 <= j < a.cols ==> r.data[i][j] == k.tanh(a.data[i][j])
  {
    Apply(a, k.tanh)
  }

  /* ---------------------------------------------------------------- Element-wise operators */

  datatype Pointwise = Plus | Times | Over

  function Combine(op: Pointwise, x: real, y: real): real
    requires op == Over ==> y != 0.0
  {
    match op
    case Plus => x + y
    case Times => x * y
    case Over => x / y
  }

  predicate NoZeros(b: Matrix) {
    forall i, j :: 0 <= i < b.rows && 0 <= j < b.cols ==> b.data[i][j] != 0.0
  }

  /** The operand pairing shared by `add`, `mul` and `div`: equal shapes combine entry by
      entry; a column vector and a row vector of equal length combine after transposing the
      second; anything else fails. The result keeps the receiver's shape. */
  function Zip(op: Pointwise, a: Matrix, b: Matrix): (r: Result<Matrix>)
    requires op == Over ==> NoZeros(b)
    ensures r.Ok? <==> SameShape(a, b) || (a.rows == b.cols && a.cols == b.rows && (a.cols == 1 || a.rows == 1) && (b.rows == 1 || b.cols == 1))
    ensures r.Err? ==> r.error == IncompatibleShapes
    ensures r.Ok? ==> SameShape(r.value, a)
    ensures r.Ok? && SameShape(a, b) ==>
      forall i, j :: 0 <= i < a.rows && 0 <= j < a.cols ==> r.value.data[i][j] == Combine(op, a.data[i][j], b.data[i][j])
    ensures r.Ok? && !SameShape(a, b) ==>
      forall i, j :: 0 <= i < a.rows && 0 <= j < a.cols ==> r.value.data[i][j] == Combine(op, a.data[i][j], b.data[j][i])
  {
    if a.rows == b.rows && a.cols == b.cols then
      Ok(RawMatrix(a.rows, a.cols,
        seq(a.rows, i requires 0 <= i < a.rows =>
          seq(a.cols, j requires 0 <= j < a.cols => Combine(op, a.data[i][j], b.data[i][j])))))
    else if a.rows == b.cols && a.cols == 1 && b.rows == 1 then
      // a column receiver paired with a row vector
      Ok(RawMatrix(a.rows, 1,
        seq(a.rows, i requires 0 <= i < a.rows => [Combine(op, a.data[i][0], b.data[0][i])])))
    else if a.cols == b.rows && a.rows == 1 && b.cols == 1 then
      // a row receiver paired with a column vector
      Ok(RawMatrix(1, a.cols,
        [seq(a.cols, j requires 0 <= j < a.cols => Combine(op, a.data[0][j], b.data[j][0]))]))
    else Err(IncompatibleShapes)
  }

  /** `add(other)`. */
  function Add(a: Matrix, b: Matrix): (r: Result<Matrix>)
    ensures r.Ok? <==> SameShape(a, b) || (a.rows == b.cols && a.cols == b.rows && (a.cols == 1 || a.rows == 1) && (b.rows == 1 || b.cols == 1))
    ensures r.Err? ==> r.error == IncompatibleShapes
    ensures r.Ok? ==> SameShape(r.value, a)
    ensures r.Ok? && SameShape(a, b) ==>
      forall i, j :: 0 <= i < a.rows && 0 <= j < a.cols ==> r.value.data[i][j] == a.data[i][j] + b.data[i][j]
    ensures r.Ok? && !SameShape(a, b) ==>
      forall i, j :: 0 <= i < a.rows && 0 <= j < a.cols ==> r.value.data[i][j] == a.data[i][j] + b.data[j][i]
  {
    Zip(Plus, a, b)
  }

  /** `mul(other)`. */
  function Mul(a: Matrix, b: Matrix): (r: Result<Matrix>)
    ensures r.Ok? <==> SameShape(a, b) || (a.rows == b.cols && a.cols == b.rows && (a.cols == 1 || a.rows == 1) && (b.rows == 1 || b.cols == 1))
    ensures r.Err? ==> r.error == IncompatibleShapes
    ensures r.Ok? ==> SameShape(r.value, a)
    ensures r.Ok? && SameShape(a, b) ==>
      forall i, j :: 0 <= i < a.rows && 0 <= j < a.cols ==> r.value.data[i][j] == a.data[i][j] * b.data[i][j]
    ensures r.Ok? && !SameShape(a, b) ==>
      forall i, j :: 0 <= i < a.rows && 0 <= j < a.cols ==> r.value.data[i][j] == a.data[i][j] * b.data[j][i]
  {
    Zip(Times, a, b)
  }

  /** `div(other)` (non-zero divisors; see README). */
  function Div(a: Matrix, b: Matrix): (r: Result<Matrix>)
    requires NoZeros(b)
    ensures r.Ok? <==> SameShape(a, b) || (a.rows == b.cols && a.cols == b.rows && (a.cols == 1 || a.rows == 1) && (b.rows == 1 || b.cols == 1))
    ensures r.Err? ==> r.error == IncompatibleShapes
    ensures r.Ok? ==> SameShape(r.value, a)
    ensures r.Ok? && SameShape(a, b) ==>
      forall i, j :: 0 <= i < a.rows && 0 <= j < a.cols ==> r.value.data[i][j] * b.data[i][j] == a.data[i][j]
    ensures r.Ok? && !SameShape(a, b) ==>
      forall i, j :: 0 <= i < a.rows && 0 <= j < a.cols ==> r.value.data[i][j] * b.data[j][i] == a.data[i][j]
  {
    Zip(Over, a, b)
  }

  /* ---------------------------------------------------------------- Clip */

  /** `clip(a, b)`: requires a < b; every entry ends in [a, b], entries already inside are
      kept, entries below become a and entries above become b. */
  function Clip(a: Matrix, lo: real, hi: real): (r: Result<Matrix>)
    ensures r.Ok? <==> lo < hi
    ensures r.Err? ==> r.error == IllegalArgument
    ensures r.Ok? ==> SameShape(r.value, a)
    ensures r.Ok? ==> forall i, j :: 0 <= i < a.rows && 0 <= j < a.cols ==>
      && lo <= r.value.data[i][j] <= hi
      && (lo <= a.data[i][j] <= hi ==> r.value.data[i][j] == a.data[i][j])
      && (a.data[i][j] < lo ==> r.value.data[i][j] == lo)
      && (hi < a.data[i][j] ==> r.value.data[i][j] == hi)
  {
    if !(lo < hi) then Err(IllegalArgument)
    else
      Ok(RawMatrix(a.rows, a.cols,
        seq(a.rows, i requires 0 <= i < a.rows =>
          seq(a.cols, j requires 0 <= j < a.cols =>
            var x := a.data[i][j];
            if x < lo then lo else if hi < x then hi else x))))
  }

  /** Clipping an already clipped matrix to the same interval changes nothing. */
  lemma ClipIdempotent(a: Matrix, lo: real, hi: real)
    requires lo < hi
    ensures Clip(Clip(a, lo, hi).value, lo, hi) == Clip(a, lo, hi)
  {
    var once := Clip(a, lo, hi).value;
    Extensionality(Clip(once, lo, hi).value, once);
  }

  /* ---------------------------------------------------------------- Reductions */

  function SumSeq(s: seq<real>): real
    decreases |s|
  {
    if |s| == 0 then 0.0 else SumSeq(s[..|s| - 1]) + s[|s| - 1]
  }

  /** Sum of rows [0, m), each row summed from its first column. */
  function SumRows(d: seq<seq<real>>, m: nat): real
    requires m <= |d|
  {
    if m == 0 then 0.0 else SumRows(d, m - 1) + SumSeq(d[m - 1])
  }

  /** `sum()`: the entries added in row-major order. */
  function Sum(a: Matrix): real {
    SumRows(a.data, a.rows)
  }

  lemma {:induction false} SumSeqPositive(s: seq<real>)
    requires |s| > 0
    requires forall k :: 0 <= k < |s| ==> s[k] > 0.0
    ensures SumSeq(s) > 0.0
    decreases |s|
  {
    if |s| > 1 {
      SumSeqPositive(s[..|s| - 1]);
    } else {
      assert s[..0] == [];
    }
  }

  lemma {:induction false} SumRowsPositive(d: seq<seq<real>>, m: nat, n: nat)
    requires 0 < m <= |d| && n > 0
    requires forall i :: 0 <= i < m ==> |d[i]| == n
    requires forall i, j :: 0 <= i < m && 0 <= j < n ==> d[i][j] > 0.0
    ensures SumRows(d, m) > 0.0
    decreases m
  {
    SumSeqPositive(d[m - 1]);
    if m > 1 {
      SumRowsPositive(d, m - 1, n);
    }
  }

  /** A matrix of positive entries has a positive sum, so a softmax denominator is non-zero. */
  lemma SumPositive(a: Matrix)
    requires forall i, j :: 0 <= i < a.rows && 0 <= j < a.cols ==> a.data[i][j] > 0.0
    ensures Sum(a) > 0.0
  {
    SumRowsPositive(a.data, a.rows, a.cols);
  }

  lemma {:induction false} SumSeqAppend(x: seq<real>, y: seq<real>)
    ensures SumSeq(x + y) == SumSeq(x) + SumSeq(y)
    decreases |y|
  {
    if |y| == 0 {
      assert x + y == x;
    } else {
      var z := x + y;
      assert z[..|z| - 1] == x + y[..|y| - 1];
      SumSeqAppend(x, y[..|y| - 1]);
    }
  }

  lemma {:induction false} FlattenAppend(d: seq<seq<real>>, row: seq<real>)
    ensures Flatten(d + [row]) == Flatten(d) + row
    decreases |d|
  {
    if |d| == 0 {
      assert d + [row] == [row];
      assert [row][1..] == [];
    } else {
      assert (d + [row])[1..] == d[1..] + [row];
      FlattenAppend(d[1..], row);
    }
  }

  lemma {:induction false} SumRowsFlatten(d: seq<seq<real>>, m: nat)
    requires m <= |d|
    ensures SumRows(d, m) == SumSeq(Flatten(d[..m]))
    decreases m
  {
    if m == 0 {
      assert d[..0] == [];
    } else {
      SumRowsFlatten(d, m - 1);
      assert d[..m] == d[..m - 1] + [d[m - 1]];
      FlattenAppend(d[..m - 1], d[m - 1]);
      SumSeqAppend(Flatten(d[..m - 1]), d[m - 1]);
    }
  }

  /** `sum()` adds every entry exactly once: it is the sum of the row-major flattening. */
  lemma SumIsFlatSum(a: Matrix)
    ensures Sum(a) == SumSeq(Unravel(a))
  {
    SumRowsFlatten(a.data, a.rows);
    assert a.data[..a.rows] == a.data;
  }

  /** Where row i starts in a row-major flattening with rows of width n (that is, n * i,
      accumulated one row at a time). */
  function RowStart(n: nat, i: nat): nat {
    if i == 0 then 0 else RowStart(n, i - 1) + n
  }

  lemma {:induction false} RowStartIsProduct(n: nat, i: nat)
    ensures RowStart(n, i) == n * i
  {
    if i > 0 {
      RowStartIsProduct(n, i - 1);
      assert n * i == n * (i - 1) + n;
    }
  }

  /** Value x sits at column j of row i in a row-major sequence with rows of width n. */
  predicate StoredAt(r: seq<real>, n: nat, i: nat, j: nat, x: real) {
    RowStart(n, i) + j < |r| && r[RowStart(n, i) + j] == x
  }

  /** `unravel()`: the row-major flattening; entry (i, j) lands at position N * i + j. */
  function Unravel(a: Matrix): (r: seq<real>)
    ensures |r| == a.rows * a.cols
    ensures forall i, j :: 0 <= i < a.rows && 0 <= j < a.cols ==> StoredAt(r, a.cols, i, j, a.data[i][j])
  {
    FlattenIndex(a.data, a.cols);
    RowStartIsProduct(a.cols, a.rows);
    Flatten(a.data)
  }

  /** The flattening read at N * i + j gives entry (i, j). */
  lemma UnravelIndex(a: Matrix, i: nat, j: nat)
    requires i < a.rows && j < a.cols
    ensures a.cols * i + j < |Unravel(a)|
    ensures Unravel(a)[a.cols * i + j] == a.data[i][j]
  {
    assert StoredAt(Unravel(a), a.cols, i, j, a.data[i][j]);
    RowStartIsProduct(a.cols, i);
  }

  /** The rows of d laid end to end. */
  function Flatten(d: seq<seq<real>>): seq<real>
    decreases |d|
  {
    if |d| == 0 then [] else d[0] + Flatten(d[1..])
  }

  lemma {:induction false} FlattenLength(d: seq<seq<real>>, n: nat)
    requires forall i :: 0 <= i < |d| ==> |d[i]| == n
    ensures |Flatten(d)| == RowStart(n, |d|)
    decreases |d|
  {
    if |d| > 0 {
      FlattenLength(d[1..], n);
      RowStartShift(n, |d| - 1);
    }
  }

  lemma FlattenIndex(d: seq<seq<real>>, n: nat)
    requires forall k :: 0 <= k < |d| ==> |d[k]| == n
    ensures |Flatten(d)| == RowStart(n, |d|)
    ensures forall i, j :: 0 <= i < |d| && 0 <= j < n ==> StoredAt(Flatten(d), n, i, j, d[i][j])
  {
    FlattenLength(d, n);
    forall i, j | 0 <= i < |d| && 0 <= j < n
      ensures StoredAt(Flatten(d), n, i, j, d[i][j])
    {
      FlattenAt(d, n, i, j);
    }
  }

  lemma {:induction false} RowStartShift(n: nat, i: nat)
    ensures RowStart(n, i + 1) == n + RowStart(n, i)
  {
  }

  lemma {:induction false} RowStartBelow(n: nat, i: nat, m: nat)
    requires i < m
    ensures RowStart(n, i) + n <= RowStart(n, m)
    decreases m
  {
    if i < m - 1 {
      RowStartBelow(n, i, m - 1);
    }
  }

  lemma {:induction false} FlattenAt(d: seq<seq<real>>, n: nat, i: nat, j: nat)
    requires forall k :: 0 <= k < |d| ==> |d[k]| == n
    requires i < |d| && j < n
    ensures RowStart(n, i) + j < |Flatten(d)|
    ensures Flatten(d)[RowStart(n, i) + j] == d[i][j]
    decreases i
  {
    FlattenLength(d, n);
    RowStartBelow(n, i, |d|);
    if i > 0 {
      FlattenAt(d[1..], n, i - 1, j);
      assert Flatten(d) == d[0] + Flatten(d[1..]);
    }
  }

  /* ---------------------------------------------------------------- Vectors */

  /** `isVector()`. */
  predicate IsVector(a: Matrix) {
    a.rows == 1 || a.cols == 1
  }

  /** The length of a vector, whichever its orientation. */
  function Length(a: Matrix): nat {
    if a.rows == 1 then a.cols else a.rows
  }

  /** `getk()`: the vector length; fails for a matrix that is not a vector. */
  function GetK(a: Matrix): (r: Result<nat>)
    ensures r.Ok? <==> IsVector(a)
    ensures r.Err? ==> r.error == NotAVector
    ensures r.Ok? ==> r.value == a.rows * a.cols && r.value == Length(a)
  {
    if a.rows == 1 then Ok(a.cols)
    else if a.cols == 1 then Ok(a.rows)
    else Err(NotAVector)
  }

  /** Entry `i` of a vector as `at(i)` reads it. */
  function Entry(a: Matrix, i: nat): real
    requires IsVector(a) && i < Length(a)
  {
    if a.rows == 1 then a.data[0][i] else a.data[i][0]
  }

  /** The entries of a vector in index order. */
  function Vec(a: Matrix): (v: seq<real>)
    requires IsVector(a)
    ensures |v| == Length(a)
    ensures forall i :: 0 <= i < |v| ==> v[i] == Entry(a, i)
  {
    seq(Length(a), i requires 0 <= i < Length(a) => Entry(a, i))
  }

  /** For a vector, `unravel()` lists its entries in index order. */
  lemma UnravelVector(a: Matrix)
    requires IsVector(a)
    ensures Unravel(a) == Vec(a)
  {
    var u := Unravel(a);
    forall i | 0 <= i < Length(a)
      ensures u[i] == Vec(a)[i]
    {
      if a.rows == 1 {
        assert StoredAt(u, a.cols, 0, i, a.data[0][i]);
      } else {
        assert StoredAt(u, 1, i, 0, a.data[i][0]);
        RowStartIsProduct(1, i);
      }
    }
  }

  function InVectorRange(a: Matrix, i: int): bool {
    i >= 0 && (if a.rows == 1 then i < a.cols else i < a.rows)
  }

  /** `at(i)`: vector element access with orientation-aware bounds. */
  function At(a: Matrix, i: int): (r: Result<real>)
    ensures !IsVector(a) ==> r == Err(NotAVector)
    ensures IsVector(a) ==> (r.Ok? <==> 0 <= i < Length(a))
    ensures IsVector(a) && r.Err? ==> r.error == IndexOutOfBounds
    ensures r.Ok? ==> r.value == Vec(a)[i]
  {
    if !(a.rows == 1 || a.cols == 1) then Err(NotAVector)
    else if !InVectorRange(a, i) then Err(IndexOutOfBounds)
    else if a.rows == 1 then Ok(a.data[0][i])
    else Ok(a.data[i][0])
  }

  /** `at(i, j)`. */
  function AtCell(a: Matrix, i: int, j: int): (r: Result<real>)
    ensures r.Ok? <==> 0 <= i < a.rows && 0 <= j < a.cols
    ensures r.Err? ==> r.error == IndexOutOfBounds
    ensures r.Ok? ==> r.value == a.data[i][j]
  {
    if !(0 <= i < a.rows && 0 <= j < a.cols) then Err(IndexOutOfBounds)
    else Ok(a.data[i][j])
  }

  /** `setAt(i, x)`: the vector with entry i replaced by x. */
  function SetAt(a: Matrix, i: int, x: real): (r: Result<Matrix>)
    ensures !IsVector(a) ==> r == Err(NotAVector)
    ensures IsVector(a) ==> (r.Ok? <==> 0 <= i < Length(a))
    ensures IsVector(a) && r.Err? ==> r.error == IndexOutOfBounds
    ensures r.Ok? ==> SameShape(r.value, a) && IsVector(r.value)
    ensures r.Ok? ==> Vec(r.value) == Vec(a)[i := x]
  {
    if !(a.rows == 1 || a.cols == 1) then Err(NotAVector)
    else if !InVectorRange(a, i) then Err(IndexOutOfBounds)
    else
      var d1 := if a.rows == 1 then a.data[0 := a.data[0][i := x]] else a.data;
      var d2 := if a.cols == 1 then d1[i := [x]] else d1;
      var r := RawMatrix(a.rows, a.cols, d2);
      assert WellFormed(r);
      assert Vec(r) == Vec(a)[i := x];
      Ok(r)
  }

  /** `setAt(i, j, x)`. */
  function SetAtCell(a: Matrix, i: int, j: int, x: real): (r: Result<Matrix>)
    ensures r.Ok? <==> 0 <= i < a.rows && 0 <= j < a.cols
    ensures r.Err? ==> r.error == IndexOutOfBounds
    ensures r.Ok? ==> SameShape(r.value, a)
    ensures r.Ok? ==> forall p, q :: 0 <= p < a.rows && 0 <= q < a.cols ==>
      r.value.data[p][q] == if p == i && q == j then x else a.data[p][q]
  {
    if !(0 <= i < a.rows && 0 <= j < a.cols) then Err(IndexOutOfBounds)
    else
      var r := RawMatrix(a.rows, a.cols, a.data[i := a.data[i][j := x]]);
      Ok(r)
  }

  /** Writing entry i and reading it back yields the written value; every other entry
      reads as before. */
  lemma SetThenAt(a: Matrix, i: int, x: real, j: int)
    requires IsVector(a) && 0 <= i < Length(a)
    ensures SetAt(a, i, x).Ok?
    ensures At(SetAt(a, i, x).value, i) == Ok(x)
    ensures j != i ==> At(SetAt(a, i, x).value, j) == At(a, j)
  {
  }

  /* ---------------------------------------------------------------- One-hot decoding */

  /** Entry i is within tolerance of 1 and every other entry within tolerance of 0. */
  predicate TolerantOneHot(v: seq<real>, i: int) {
    && 0 <= i < |v|
    && Close(v[i], 1.0)
    && forall j :: 0 <= j < |v| && j != i ==> Close(v[j], 0.0)
  }

  /** What the scan of `oneHotIndex` has seen before position `pos`: only near-zeros, except
      at `found` (if any), which is near 1. */
  predicate ScannedPrefix(v: seq<real>, pos: nat, found: Option<nat>)
    requires pos <= |v|
  {
    && (found.Some? ==> found.value < pos && Close(v[found.value], 1.0))
    && forall j :: 0 <= j < pos && found != Some(j) ==> Close(v[j], 0.0)
  }

  /** The loop of `oneHotIndex` from position `pos`. */
  function ScanOneHot(v: seq<real>, pos: nat, found: Option<nat>): (r: Result<nat>)
    requires pos <= |v|
    requires ScannedPrefix(v, pos, found)
    ensures r.Ok? ==> TolerantOneHot(v, r.value)
    ensures forall i :: TolerantOneHot(v, i) ==> r == Ok(i)
    ensures found.None? && (forall j :: pos <= j < |v| ==> Close(v[j], 0.0)) ==> r == Err(AllZeros)
    ensures (forall j :: pos <= j < |v| ==> Close(v[j], 0.0) || Close(v[j], 1.0)) && r.Err? && (found.Some? || exists j :: pos <= j < |v| && Close(v[j], 1.0)) ==>
      r.error == MultipleOnes
    ensures r.Err? ==> r.error in {AllZeros, MultipleOnes, NotZeroOrOne}
    decreases |v| - pos
  {
    if pos == |v| then
      if found.None? then Err(AllZeros) else Ok(found.value)
    else if Close(v[pos], 0.0) then
      ScanOneHot(v, pos + 1, found)
    else if Close(v[pos], 1.0) then
      if found.Some? then Err(MultipleOnes)
      else ScanOneHot(v, pos + 1, Some(pos))
    else Err(NotZeroOrOne)
  }

  /** `oneHotIndex()`: the position of the single entry near 1 of a vector whose other entries
      are near 0 (tolerance 1e-6). Fails on a non-vector, a second near-1 entry, an entry near
      neither 0 nor 1, and a vector of near-zeros. */
  function OneHotIndex(a: Matrix): (r: Result<nat>)
    ensures !IsVector(a) ==> r == Err(NotAVector)
    ensures r.Ok? ==> IsVector(a) && TolerantOneHot(Vec(a), r.value)
    ensures IsVector(a) ==> forall i :: TolerantOneHot(Vec(a), i) ==> r == Ok(i)
    ensures IsVector(a) && (forall j :: 0 <= j < Length(a) ==> Close(Vec(a)[j], 0.0)) ==> r == Err(AllZeros)
    ensures IsVector(a) && (forall j :: 0 <= j < Length(a) ==> Close(Vec(a)[j], 0.0) || Close(Vec(a)[j], 1.0)) &&
            (exists j, k :: 0 <= j < k < Length(a) && Close(Vec(a)[j], 1.0) && Close(Vec(a)[k], 1.0)) ==>
      r == Err(MultipleOnes)
    ensures r.Err? ==> r.error in {NotAVector, AllZeros, MultipleOnes, NotZeroOrOne}
  {
    if !(a.rows == 1 || a.cols == 1) then Err(NotAVector)
    else ScanOneHot(Vec(a), 0, None)
  }

  /** How the scan of `oneHotIndex` reads one entry: near 0 (tested first), near 1, or neither. */
  predicate ReadsZero(x: real) { Close(x, 0.0) }
  predicate ReadsOne(x: real) { !Close(x, 0.0) && Close(x, 1.0) }
  predicate ReadsNeither(x: real) { !Close(x, 0.0) && !Close(x, 1.0) }

  /** The scan reaches position p without failing: no entry before p reads as neither 0 nor
      1, and no two before p read as 1. */
  predicate ScanReaches(v: seq<real>, p: int)
    requires 0 <= p <= |v|
  {
    && (forall q :: 0 <= q < p ==> !ReadsNeither(v[q]))
    && (forall i, l :: 0 <= i < l < p ==> !(ReadsOne(v[i]) && ReadsOne(v[l])))
  }

  /** What the scan has established at `pos`: it reached pos, and every entry before it read
      as 0 except the one recorded as found, which read as 1. */
  lemma PrefixReached(v: seq<real>, pos: nat, found: Option<nat>)
    requires pos <= |v| && ScannedPrefix(v, pos, found)
    ensures ScanReaches(v, pos)
    ensures found.None? ==> forall i :: 0 <= i < pos ==> ReadsZero(v[i])
    ensures found.Some? ==> ReadsOne(v[found.value])
    ensures forall i :: 0 <= i < pos && found != Some(i) ==> ReadsZero(v[i])
  {
    if found.Some? {
      ZeroAndOneApart(v[found.value]);
    }
  }

  /** The scan from `pos` fails with NotZeroOrOne exactly at an entry reading as neither
      that it reaches. */
  lemma {:induction false} ScanNeitherIff(v: seq<real>, pos: nat, found: Option<nat>)
    requires pos <= |v| && ScannedPrefix(v, pos, found)
    ensures ScanOneHot(v, pos, found) == Err(NotZeroOrOne) <==>
      exists p :: pos <= p < |v| && ReadsNeither(v[p]) && ScanReaches(v, p)
    decreases |v| - pos
  {
    PrefixReached(v, pos, found);
    if pos < |v| {
      var x := v[pos];
      if Close(x, 0.0) {
        ScanNeitherIff(v, pos + 1, found);
        NeitherShift(v, pos);
      } else if Close(x, 1.0) {
        ZeroAndOneApart(x);
        if found.Some? {
          ScanBlockedAfterTwoOnes(v, found.value, pos);
          NeitherShift(v, pos);
        } else {
          ScanNeitherIff(v, pos + 1, Some(pos));
          NeitherShift(v, pos);
        }
      } else {
        assert ReadsNeither(v[pos]) && ScanReaches(v, pos);
      }
    }
  }

  /** An entry that does not read as neither adds no candidate to the NotZeroOrOne side. */
  lemma NeitherShift(v: seq<real>, pos: nat)
    requires pos < |v| && !ReadsNeither(v[pos])
    ensures (exists p :: pos <= p < |v| && ReadsNeither(v[p]) && ScanReaches(v, p)) <==>
            (exists p :: pos + 1 <= p < |v| && ReadsNeither(v[p]) && ScanReaches(v, p))
  {
  }

  /** The scan from `pos` fails with MultipleOnes exactly at a second entry reading as 1
      that it reaches. */
  lemma {:induction false} ScanOnesIff(v: seq<real>, pos: nat, found: Option<nat>)
    requires pos <= |v| && ScannedPrefix(v, pos, found)
    ensures ScanOneHot(v, pos, found) == Err(MultipleOnes) <==>
      exists i, p :: 0 <= i < p < |v| && pos <= p && ReadsOne(v[i]) && ReadsOne(v[p]) && ScanReaches(v, p)
    decreases |v| - pos
  {
    PrefixReached(v, pos, found);
    if pos < |v| {
      var x := v[pos];
      if Close(x, 0.0) {
        ScanOnesIff(v, pos + 1, found);
      } else if Close(x, 1.0) {
        if found.Some? {
          assert ReadsOne(v[found.value]) && ReadsOne(v[pos]);
        } else {
          ScanOnesIff(v, pos + 1, Some(pos));
        }
      } else {
        ScanBlockedAfter(v, pos);
      }
    }
  }

  /** The scan from `pos` fails with AllZeros exactly when it has found no 1 and every
      remaining entry reads as 0. */
  lemma {:induction false} ScanZerosIff(v: seq<real>, pos: nat, found: Option<nat>)
    requires pos <= |v| && ScannedPrefix(v, pos, found)
    ensures ScanOneHot(v, pos, found) == Err(AllZeros) <==>
      found.None? && forall j :: pos <= j < |v| ==> ReadsZero(v[j])
    decreases |v| - pos
  {
    if pos < |v| && Close(v[pos], 0.0) {
      ScanZerosIff(v, pos + 1, found);
    } else if pos < |v| && Close(v[pos], 1.0) && found.None? {
      ScanZerosIff(v, pos + 1, Some(pos));
    }
  }

  /** Once an entry reads as neither, the scan reaches no later position. */
  lemma ScanBlockedAfter(v: seq<real>, q: int)
    requires 0 <= q < |v| && ReadsNeither(v[q])
    ensures forall p :: q < p <= |v| ==> !ScanReaches(v, p)
  {
  }

  /** Once two entries read as 1, the scan reaches no later position. */
  lemma ScanBlockedAfterTwoOnes(v: seq<real>, i: int, l: int)
    requires 0 <= i < l < |v| && ReadsOne(v[i]) && ReadsOne(v[l])
    ensures forall p :: l < p <= |v| ==> !ScanReaches(v, p)
  {
  }

  /** `oneHotIndex()` on a vector fails with "other than 0 or 1" exactly when the scan meets
      such an entry before a second 1, with "multiple ones" exactly when it meets a second 1
      before any such entry, and with "all zeros" exactly when every entry is near 0. */
  lemma OneHotIndexErrors(a: Matrix)
    requires IsVector(a)
    ensures OneHotIndex(a) == Err(NotZeroOrOne) <==>
      exists p :: 0 <= p < Length(a) && ReadsNeither(Vec(a)[p]) && ScanReaches(Vec(a), p)
    ensures OneHotIndex(a) == Err(MultipleOnes) <==>
      exists i, p :: 0 <= i < p < Length(a) && ReadsOne(Vec(a)[i]) && ReadsOne(Vec(a)[p]) && ScanReaches(Vec(a), p)
    ensures OneHotIndex(a) == Err(AllZeros) <==> forall j :: 0 <= j < Length(a) ==> ReadsZero(Vec(a)[j])
  {
    ScanNeitherIff(Vec(a), 0, None);
    ScanOnesIff(Vec(a), 0, None);
    ScanZerosIff(Vec(a), 0, None);
  }

  /** The index a one-hot argument selects; a null argument is NullPointerException. */
  function Decoded(index: Option<Matrix>): (r: Result<nat>)
    ensures index.None? ==> r == Err(NullPointer)
    ensures index.Some? ==> r == OneHotIndex(index.value)
  {
    if index.None? then Err(NullPointer) else OneHotIndex(index.value)
  }

  /** `at(index)`: reads the entry selected by a one-hot vector. */
  function AtHot(a: Matrix, index: Option<Matrix>): (r: Result<real>)
    ensures index.None? ==> r == Err(NullPointer)
    ensures Decoded(index).Err? ==> r == Err(Decoded(index).error)
    ensures r.Ok? ==>
      (Decoded(index).Ok? && IsVector(a) && Decoded(index).value < Length(a) &&
       r.value == Vec(a)[Decoded(index).value])
    ensures Decoded(index).Ok? && IsVector(a) && Decoded(index).value < Length(a) ==> r.Ok?
    ensures Decoded(index).Ok? && !IsVector(a) ==> r == Err(NotAVector)
    ensures Decoded(index).Ok? && IsVector(a) && Decoded(index).value >= Length(a) ==> r == Err(IndexOutOfBounds)
  {
    var i :- Decoded(index);
    At(a, i)
  }

  /** `setAt(m, x)`: writes the entry selected by a one-hot vector. A null m fails when its
      index is asked for. */
  function SetAtHot(a: Matrix, index: Option<Matrix>, x: real): (r: Result<Matrix>)
    ensures index.None? ==> r == Err(NullPointer)
    ensures Decoded(index).Err? ==> r == Err(Decoded(index).error)
    ensures r.Ok? ==>
      (Decoded(index).Ok? && IsVector(a) && SameShape(r.value, a) && Decoded(index).value < Length(a) &&
       Vec(r.value) == Vec(a)[Decoded(index).value := x])
    ensures Decoded(index).Ok? && IsVector(a) && Decoded(index).value < Length(a) ==> r.Ok?
    ensures Decoded(index).Ok? && !IsVector(a) ==> r == Err(NotAVector)
    ensures Decoded(index).Ok? && IsVector(a) && Decoded(index).value >= Length(a) ==> r == Err(IndexOutOfBounds)
  {
    var i :- Decoded(index);
    SetAt(a, i, x)
  }

  /** Decoding a freshly built one-hot vector yields its index. */
  lemma OneHotRoundTrip(k: int, i: int)
    requires 0 <= i < k
    ensures OneHot(k, i).Ok?
    ensures OneHotIndex(OneHot(k, i).value) == Ok(i)
  {
    var v := OneHot(k, i).value;
    assert TolerantOneHot(Vec(v), i);
  }
}

=== FILE: options.dfy ===
/** The application options of `Options.java`: the defaults, and the validation that
    replaces an out-of-range value by its default. Reading and writing the properties file
    and printing are not part of this model; a loaded configuration is any `Config`. */
module Options {
  import opened Outcomes
  import opened Tolerance
  import Trainers

  datatype Config = Config(
    hiddenSize: int,
    layers: int,
    sequenceLength: int,
    learningRate: real,
    samplingTemp: real,
    printOptions: bool,
    trainingSampleLength: int,
    inputFile: string,
    useSingleLayerNet: bool)

  const HiddenSizeDefault: int := 50
  const LayersDefault: int := 2
  const SequenceLengthDefault: int := 50
  const LearningRateDefault: real := 0.1
  const SamplingTempDefault: real := 1.0
  const PrintOptionsDefault: bool := true
  const TrainingSampleLengthDefault: int := 200
  const InputFileDefault: string := "input.txt"
  const UseSingleLayerNetDefault: bool := false

  /** `setDefaults()`, which the constructor runs. */
  function Defaults(): (o: Config)
    ensures Valid(o)
    ensures o.sequenceLength > 1 && o.samplingTemp == 1.0 && o.inputFile == "input.txt"
  {
    Config(HiddenSizeDefault, LayersDefault, SequenceLengthDefault, LearningRateDefault, SamplingTempDefault,
           PrintOptionsDefault, TrainingSampleLengthDefault, InputFileDefault, UseSingleLayerNetDefault)
  }

  /** The sampling temperature range (0, 1], with the tolerance of `Math.close` and
      `Math.eps` at both ends: not within 1e-6 of 0, not negative, at most 1 + 1e-6. */
  predicate TempInRange(x: real) {
    !Close(x, 0.0) && x >= 0.0 && x <= 1.0 + Eps()
  }

  /** Options the validation leaves as they are. */
  predicate Valid(o: Config) {
    && o.hiddenSize >= 1 && o.layers >= 1 && o.sequenceLength >= 1
    && o.learningRate >= 0.0 && TempInRange(o.samplingTemp) && o.trainingSampleLength >= 1
  }

  /** The checks of `validateProperties()` on the integer fields and the learning rate,
      each replacing an out-of-range value by its default. */
  function ValidateFields(o: Config): (r: Config)
    ensures r == o.(hiddenSize := r.hiddenSize, layers := r.layers, sequenceLength := r.sequenceLength,
                    learningRate := r.learningRate, trainingSampleLength := r.trainingSampleLength)
    ensures r.hiddenSize == (if o.hiddenSize < 1 then HiddenSizeDefault else o.hiddenSize)
    ensures r.layers == (if o.layers < 1 then LayersDefault else o.layers)
    ensures r.sequenceLength == (if o.sequenceLength < 1 then SequenceLengthDefault else o.sequenceLength)
    ensures r.learningRate == (if o.learningRate < 0.0 then LearningRateDefault else o.learningRate)
    ensures r.trainingSampleLength == (if o.trainingSampleLength < 1 then TrainingSampleLengthDefault else o.trainingSampleLength)
  {
    var o1 := if o.hiddenSize < 1 then o.(hiddenSize := HiddenSizeDefault) else o;
    var o2 := if o1.layers < 1 then o1.(layers := LayersDefault) else o1;
    var o3 := if o2.sequenceLength < 1 then o2.(sequenceLength := SequenceLengthDefault) else o2;
    var o4 := if o3.learningRate < 0.0 then o3.(learningRate := LearningRateDefault) else o3;
    if o4.trainingSampleLength < 1 then o4.(trainingSampleLength := TrainingSampleLengthDefault) else o4
  }

  /** `validateProperties()` as written: a sampling temperature out of range resets the
      learning rate, so the temperature itself stays out of range. */
  function ValidateAsWritten(o: Config): (r: Config)
    ensures r.hiddenSize >= 1 && r.layers >= 1 && r.sequenceLength >= 1
    ensures r.learningRate >= 0.0 && r.trainingSampleLength >= 1
    ensures r.samplingTemp == o.samplingTemp
    ensures !TempInRange(o.samplingTemp) ==> r.learningRate == LearningRateDefault
    ensures TempInRange(o.samplingTemp) ==> r == ValidateFields(o)
  {
    var f := ValidateFields(o);
    if !TempInRange(o.samplingTemp) then f.(learningRate := LearningRateDefault) else f
  }

  /** `validateProperties()` as evidently intended: an out-of-range sampling temperature is
      replaced by its default, like every other field. */
  function Validate(o: Config): (r: Config)
    ensures Valid(r)
    ensures r.samplingTemp == (if TempInRange(o.samplingTemp) then o.samplingTemp else SamplingTempDefault)
    ensures r == ValidateFields(o).(samplingTemp := r.samplingTemp)
  {
    var f := ValidateFields(o);
    if !TempInRange(o.samplingTemp) then f.(samplingTemp := SamplingTempDefault) else f
  }

  /* ---------------------------------------------------------------- Properties */

  /** Valid options pass validation unchanged, and only they do: validation is the
      identity exactly on valid options. */
  lemma ValidateFixesExactlyValid(o: Config)
    ensures Validate(o) == o <==> Valid(o)
  {
    if Valid(o) {
      assert ValidateFields(o) == o;
    }
  }

  /** Validating twice is validating once. */
  lemma ValidateIdempotent(o: Config)
    ensures Validate(Validate(o)) == Validate(o)
  {
    ValidateFixesExactlyValid(Validate(o));
  }

  /** Each field is changed only when it is out of range, and then to its default; the
      fields without a check are never changed. */
  lemma ValidateChangesOnlyInvalid(o: Config)
    ensures Validate(o).hiddenSize != o.hiddenSize ==> o.hiddenSize < 1 && Validate(o).hiddenSize == HiddenSizeDefault
    ensures Validate(o).layers != o.layers ==> o.layers < 1 && Validate(o).layers == LayersDefault
    ensures Validate(o).sequenceLength != o.sequenceLength ==>
      o.sequenceLength < 1 && Validate(o).sequenceLength == SequenceLengthDefault
    ensures Validate(o).learningRate != o.learningRate ==>
      o.learningRate < 0.0 && Validate(o).learningRate == LearningRateDefault
    ensures Validate(o).samplingTemp != o.samplingTemp ==>
      !TempInRange(o.samplingTemp) && Validate(o).samplingTemp == SamplingTempDefault
    ensures Validate(o).trainingSampleLength != o.trainingSampleLength ==>
      o.trainingSampleLength < 1 && Validate(o).trainingSampleLength == TrainingSampleLengthDefault
    ensures Validate(o).printOptions == o.printOptions && Validate(o).inputFile == o.inputFile
    ensures Validate(o).useSingleLayerNet == o.useSingleLayerNet
  {
  }

  /** As written, a temperature of 2 survives validation and a valid learning rate of 0.5
      is replaced by the default 0.1; the intended validation keeps the rate and resets the
      temperature to 1. */
  lemma AsWrittenResetsWrongField()
    ensures var o := Defaults().(learningRate := 0.5, samplingTemp := 2.0);
      && ValidateAsWritten(o).samplingTemp == 2.0 && !TempInRange(ValidateAsWritten(o).samplingTemp)
      && ValidateAsWritten(o).learningRate == 0.1
      && Validate(o).samplingTemp == 1.0 && Validate(o).learningRate == 0.5
  {
    var o := Defaults().(learningRate := 0.5, samplingTemp := 2.0);
    assert !TempInRange(2.0);
    assert ValidateFields(o) == o;
  }

  /** The two versions agree whenever the temperature is in range. */
  lemma AsWrittenAgreesInRange(o: Config)
    requires TempInRange(o.samplingTemp)
    ensures ValidateAsWritten(o) == Validate(o)
  {
  }

  /** Validation accepts a sequence length of 1, which the trainer's `setSequenceLength`
      rejects with IllegalArgumentException. */
  lemma AcceptedLengthRejectedByTrainer<N>(o: Config, t: Trainers.Trainer<N>)
    requires o.sequenceLength == 1
    ensures Validate(o).sequenceLength == 1 && ValidateAsWritten(o).sequenceLength == 1
    ensures Trainers.SetSequenceLength(t, Validate(o).sequenceLength) == Err(IllegalArgument)
  {
  }
}

=== FILE: outcomes.dfy ===
/** Error kinds and failure-compatible result types shared by the whole model.

    The engine signals every failure with a Java exception; each exception class (and,
    for the plain RuntimeExceptions the matrix code throws, each message) becomes one
    constructor of `Error`. */
module Outcomes {

  datatype Error =
    | IllegalArgument          // IllegalArgumentException
    | IllegalState             // IllegalStateException: object used before initialize
    | NullPointer              // NullPointerException, explicit or from dereferencing null
    | IndexOutOfBounds         // IndexOutOfBoundsException thrown by an explicit bounds check
    | ArrayIndexOutOfBounds    // ArrayIndexOutOfBoundsException from a raw array access
    | NotAVector               // NotAVectorException
    | NotRectangular           // NotRectangularArrayException
    | IncompatibleShapes       // RuntimeException: shapes that no transpose rule reconciles
    | MultipleOnes             // RuntimeException: one-hot vector with two ones
    | NotZeroOrOne             // RuntimeException: one-hot vector with another value
    | AllZeros                 // RuntimeException: one-hot vector without a one
    | DataMismatch             // RuntimeException: training data does not match its alphabet
    | CharacterNotInAlphabet   // CharacterNotInAlphabetException
    | NoMoreTrainingData       // NoMoreTrainingDataException (recoverable exhaustion)
    | BadTrainingSet           // BadTrainingSetException
    | NegativeArraySize        // NegativeArraySizeException from `new int[n]` with n < 0

  /** A Java reference that may be null. */
  datatype Option<+T> = None | Some(value: T)

  /** A value, or the exception that replaced it. */
  datatype Result<+T> = Ok(value: T) | Err(error: Error) {
    predicate IsFailure() {
      Err?
    }

    function PropagateFailure<U>(): Result<U>
      requires Err?
    {
      Err(error)
    }

    function Extract(): T
      requires Ok?
    {
      value
    }
  }

  /** The outcome of an operation on a mutable object: the object's state afterwards
      (which may differ from the state before even when an exception is thrown) and
      either the returned value or the exception. */
  datatype Step<+S, +T> = Step(next: S, out: Result<T>)
}

=== FILE: random.dfy ===
/** The randomness helpers of `math/Random.java`.

    The Java class draws from a shared `java.util.Random`. Here every draw is an explicit
    input: Gaussian matrices read a stream `gauss` of normal deviates from a cursor, and a
    categorical choice receives its uniform draw `r` as a parameter. */
module Random {
  import opened Outcomes
  import opened Matrices

  /* ---------------------------------------------------------------- Gaussian matrices */

  /** `randn(M, N)`: an M x N matrix whose entries are consecutive deviates of the stream,
      consumed in row-major order (the order `apply` visits entries), starting at `cursor`. */
  function Randn(m: int, n: int, gauss: nat -> real, cursor: nat): (r: Result<Matrix>)
    ensures r.Ok? <==> m > 0 && n > 0
    ensures r.Err? ==> r.error == IllegalArgument
    ensures r.Ok? ==> r.value.rows == m && r.value.cols == n
    ensures r.Ok? ==> forall i, j :: 0 <= i < m && 0 <= j < n ==>
      r.value.data[i][j] == gauss(cursor + RowStart(n, i) + j)
  {
    if !(m > 0 && n > 0) then Err(IllegalArgument)
    else
      Ok(RawMatrix(m, n,
        seq(m, i requires 0 <= i < m => seq(n, j requires 0 <= j < n => gauss(cursor + RowStart(n, i) + j)))))
  }

  /** Distinct entries of a Gaussian matrix read distinct positions of the stream, and all
      of them lie in the M * N positions after the cursor. */
  lemma RandnDrawsDistinct(m: nat, n: nat, i: nat, j: nat, i': nat, j': nat)
    requires i < m && j < n && i' < m && j' < n
    requires (i, j) != (i', j')
    ensures RowStart(n, i) + j != RowStart(n, i') + j'
    ensures RowStart(n, i) + j < m * n
  {
    if i < i' {
      RowStartBelow(n, i, i');
    } else if i' < i {
      RowStartBelow(n, i', i);
    }
    RowStartBelow(n, i, m);
    RowStartIsProduct(n, m);
  }

  /** `randn(k)`: a 1 x k row vector of consecutive deviates. */
  function RandnVector(k: int, gauss: nat -> real, cursor: nat): (r: Result<Matrix>)
    ensures r.Ok? <==> k > 0
    ensures r.Err? ==> r.error == IllegalArgument
    ensures r.Ok? ==> r.value.rows == 1 && r.value.cols == k
    ensures r.Ok? ==> forall j :: 0 <= j < k ==> r.value.data[0][j] == gauss(cursor + j)
  {
    if !(k > 0) then Err(IllegalArgument)
    else Randn(1, k, gauss, cursor)
  }

  /** `randomLike(m)`: a Gaussian matrix of m's shape; null is rejected. */
  function RandomLike(m: Option<Matrix>, gauss: nat -> real, cursor: nat): (r: Result<Matrix>)
    ensures m.None? ==> r == Err(NullPointer)
    ensures m.Some? ==> r.Ok? && SameShape(r.value, m.value)
  {
    if m.None? then Err(NullPointer)
    else Randn(m.value.rows, m.value.cols, gauss, cursor)
  }

  /* ---------------------------------------------------------------- Categorical choice */

  /** p[0] + ... + p[n - 1], accumulated from the left as the loop does. */
  function PrefixSum(p: seq<real>, n: nat): real
    requires n <= |p|
  {
    SumSeq(p[..n])
  }

  lemma PrefixSumStep(p: seq<real>, i: nat)
    requires i < |p|
    ensures PrefixSum(p, i + 1) == PrefixSum(p, i) + p[i]
  {
    assert p[..i + 1][..i] == p[..i];
  }

  /** The running total after index i exceeds the draw. */
  predicate Exceeds(p: seq<real>, r: real, i: int) {
    0 <= i < |p| && PrefixSum(p, i + 1) > r
  }

  /** `randomChoice(p)` with uniform draw r: the first index whose running total exceeds r;
      when no total does, the last index (which is -1 for an empty array). Null is
      rejected. */
  function RandomChoice(p: Option<seq<real>>, r: real): (i: Result<int>)
    ensures p.None? ==> i == Err(NullPointer)
    ensures p.Some? ==> i.Ok?
    ensures p.Some? && |p.value| > 0 ==> 0 <= i.value < |p.value|
    ensures p.Some? && (exists j :: Exceeds(p.value, r, j)) ==>
      Exceeds(p.value, r, i.value) && forall j :: 0 <= j < i.value ==> !Exceeds(p.value, r, j)
    ensures p.Some? && (forall j :: !Exceeds(p.value, r, j)) ==> i.value == |p.value| - 1
  {
    if p.None? then Err(NullPointer)
    else Ok(Scan(p.value, r, 0, 0.0))
  }

  /** The loop of `randomChoice` from index i, with the running total so far. */
  function Scan(p: seq<real>, r: real, i: nat, cumulative: real): (k: int)
    requires i <= |p| && cumulative == PrefixSum(p, i)
    requires forall j :: 0 <= j < i ==> !Exceeds(p, r, j)
    ensures |p| > 0 ==> 0 <= k < |p|
    ensures (exists j :: Exceeds(p, r, j)) ==> Exceeds(p, r, k) && forall j :: 0 <= j < k ==> !Exceeds(p, r, j)
    ensures (forall j :: !Exceeds(p, r, j)) ==> k == |p| - 1
    decreases |p| - i
  {
    if i == |p| then |p| - 1
    else
      PrefixSumStep(p, i);
      if cumulative + p[i] > r then i
      else Scan(p, r, i + 1, cumulative + p[i])
  }

  lemma {:induction false} PrefixSumOfZeros(p: seq<real>, n: nat)
    requires n <= |p|
    requires forall k :: 0 <= k < n ==> p[k] == 0.0
    ensures PrefixSum(p, n) == 0.0
  {
    if n > 0 {
      PrefixSumOfZeros(p, n - 1);
      PrefixSumStep(p, n - 1);
    }
  }

  /** A one-hot distribution at j is sampled as j for every draw in [0, 1). */
  lemma ChoiceOfOneHot(p: seq<real>, j: nat, r: real)
    requires j < |p|
    requires forall k :: 0 <= k < |p| ==> p[k] == if k == j then 1.0 else 0.0
    requires 0.0 <= r < 1.0
    ensures RandomChoice(Some(p), r) == Ok(j)
  {
    PrefixSumOfZeros(p, j);
    PrefixSumStep(p, j);
    assert Exceeds(p, r, j);
    forall k | 0 <= k < j
      ensures !Exceeds(p, r, k)
    {
      PrefixSumOfZeros(p, k + 1);
    }
  }

  /** With a non-negative draw, an index chosen because its total exceeds the draw carries
      positive probability: a zero-probability index is never the first to exceed. */
  lemma ChosenHasMass(p: seq<real>, r: real)
    requires 0.0 <= r
    requires exists j :: Exceeds(p, r, j)
    ensures p[RandomChoice(Some(p), r).value] > 0.0
  {
    var i := RandomChoice(Some(p), r).value;
    PrefixSumStep(p, i);
    if i > 0 {
      assert !Exceeds(p, r, i - 1);
    } else {
      assert p[..0] == [];
    }
  }
}

=== FILE: sampling.dfy ===
/** Sampling from a single layer and saving and restoring its hidden state
    (`net/RNNLayer.java`).

    `sample(n, seedIndex, keep)` runs the recurrence n times from the layer's hidden state:
    each step feeds the one-hot of the previous index, turns the output into a distribution
    with softmax and draws the next index with `randomChoice`. The uniform draws are the
    stream `draws`, read from `cursor` on, one per sample. */
module LayerSampling {
  import opened Outcomes
  import opened Kernel
  import opened Matrices
  import opened VectorAlgebra
  import opened Activations
  import opened Layers
  import Random

  /* ---------------------------------------------------------------- The sampling loop */

  /** What one sampling step produces: the next hidden state, the distribution and the
      chosen index. */
  datatype Draw = Draw(h: Matrix, p: Matrix, ix: int)

  /** One iteration of the loop: the hidden state and output of the recurrence, softmax,
      then a categorical choice by uniform draw u over the flattened distribution. */
  function SampleStep(k: Transcendentals, w: Params, x: Matrix, h: Matrix, u: real): Result<Draw> {
    var h' :- StepHidden(k, w, x, h);
    var y :- Output(w, h');
    var p := Softmax(k, y);
    var ix :- Random.RandomChoice(Some(Unravel(p)), u);
    Ok(Draw(h', p, ix))
  }

  /** The recurrence's shapes, for a layer satisfying the invariant: from an input-size
      vector and a hidden-size vector the step succeeds, yields a hidden-size column and a
      distribution with one entry per output, and picks an output index. */
  lemma SampleStepFits(k: Transcendentals, l: Layer, x: Matrix, h: Matrix, u: real)
    requires Inv(l) && l.Initialized()
    requires IsVectorOf(x, l.inputSize) && IsVectorOf(h, l.hiddenSize)
    ensures SampleStep(k, l.core.value.w, x, h, u).Ok?
    ensures IsColumnOf(SampleStep(k, l.core.value.w, x, h, u).value.h, l.hiddenSize)
    ensures IsColumnOf(SampleStep(k, l.core.value.w, x, h, u).value.p, l.outputSize)
    ensures 0 <= SampleStep(k, l.core.value.w, x, h, u).value.ix < l.outputSize
  {
    var w := l.core.value.w;
    StepHiddenColumn(k, w, x, h, l.inputSize, l.hiddenSize, l.outputSize);
    var h' := StepHidden(k, w, x, h).value;
    ColumnIsVector(h', l.hiddenSize);
    OutputColumn(w, h', l.inputSize, l.hiddenSize, l.outputSize);
    var p := Softmax(k, Output(w, h').value);
    assert |Unravel(p)| == l.outputSize;
  }

  /** The indices a run produced and the hidden state it ended in. */
  datatype Sampled = Sampled(indices: seq<int>, h: Matrix)

  /** The indices of `first` followed by those of a continuation, which also decides the
      final state and any error. */
  function Then(first: seq<int>, rest: Result<Sampled>): (r: Result<Sampled>)
    ensures r.Ok? <==> rest.Ok?
    ensures r.Err? ==> r == rest
    ensures r.Ok? ==> r.value.indices == first + rest.value.indices && r.value.h == rest.value.h
  {
    match rest
    case Ok(s) => Ok(Sampled(first + s.indices, s.h))
    case Err(e) => Err(e)
  }

  /** n iterations of `step` from input x and state h, reading draws from the cursor on.
      Every iteration, the last included, encodes its index as the next input with
      `oneHot(inputSize, ix)`, which fails for an index outside the input range. */
  function SampleFrom(step: (Matrix, Matrix, real) -> Result<Draw>, inputs: int, x: Matrix, h: Matrix, n: nat,
                      draws: nat -> real, cursor: nat): (r: Result<Sampled>)
    ensures r.Ok? ==> |r.value.indices| == n
    decreases n
  {
    if n == 0 then Ok(Sampled([], h))
    else
      var d :- step(x, h, draws(cursor));
      var x' :- OneHot(inputs, d.ix);
      Then([d.ix], SampleFrom(step, inputs, x', d.h, n - 1, draws, cursor + 1))
  }

  /** Every index a run produced was encodable as an input. */
  lemma {:induction false} SampleFromInRange(step: (Matrix, Matrix, real) -> Result<Draw>, inputs: int, x: Matrix,
                                            h: Matrix, n: nat, draws: nat -> real, cursor: nat)
    requires SampleFrom(step, inputs, x, h, n, draws, cursor).Ok?
    ensures forall i :: 0 <= i < n ==> 0 <= SampleFrom(step, inputs, x, h, n, draws, cursor).value.indices[i] < inputs
    decreases n
  {
    if n > 0 {
      var u := draws(cursor);
      var d := step(x, h, u).value;
      var x' := OneHot(inputs, d.ix).value;
      SampleFromInRange(step, inputs, x', d.h, n - 1, draws, cursor + 1);
    }
  }

  /** A run of n + m iterations is a run of n followed by a run of m that starts from the
      state the first ended in and feeds the first run's last index. */
  lemma {:induction false} SampleFromSplits(step: (Matrix, Matrix, real) -> Result<Draw>, inputs: int, x: Matrix,
                                           h: Matrix, n: nat, m: nat, draws: nat -> real, cursor: nat)
    requires n > 0
    requires SampleFrom(step, inputs, x, h, n, draws, cursor).Ok?
    ensures
      var first := SampleFrom(step, inputs, x, h, n, draws, cursor).value;
      && OneHot(inputs, first.indices[n - 1]).Ok?
      && SampleFrom(step, inputs, x, h, n + m, draws, cursor) ==
         Then(first.indices, SampleFrom(step, inputs, OneHot(inputs, first.indices[n - 1]).value, first.h, m, draws, cursor + n))
    decreases n, 1
  {
    if n == 1 {
      SplitsAfterOne(step, inputs, x, h, m, draws, cursor);
    } else {
      SplitsAfterMore(step, inputs, x, h, n, m, draws, cursor);
    }
  }

  /** The base case of the split: one iteration, then m. */
  lemma SplitsAfterOne(step: (Matrix, Matrix, real) -> Result<Draw>, inputs: int, x: Matrix, h: Matrix, m: nat,
                       draws: nat -> real, cursor: nat)
    requires SampleFrom(step, inputs, x, h, 1, draws, cursor).Ok?
    ensures
      var first := SampleFrom(step, inputs, x, h, 1, draws, cursor).value;
      && OneHot(inputs, first.indices[0]).Ok?
      && SampleFrom(step, inputs, x, h, 1 + m, draws, cursor) ==
         Then(first.indices, SampleFrom(step, inputs, OneHot(inputs, first.indices[0]).value, first.h, m, draws, cursor + 1))
  {
    var u := draws(cursor);
    var d := step(x, h, u).value;
    var x' := OneHot(inputs, d.ix).value;
    assert SampleFrom(step, inputs, x', d.h, 0, draws, cursor + 1) == Ok(Sampled([], d.h));
    assert SampleFrom(step, inputs, x, h, 1, draws, cursor).value == Sampled([d.ix], d.h);
  }

  /** The inductive case of the split: the first iteration, then the split of the rest. */
  lemma SplitsAfterMore(step: (Matrix, Matrix, real) -> Result<Draw>, inputs: int, x: Matrix, h: Matrix, n: nat, m: nat,
                        draws: nat -> real, cursor: nat)
    requires n > 1
    requires SampleFrom(step, inputs, x, h, n, draws, cursor).Ok?
    ensures
      var first := SampleFrom(step, inputs, x, h, n, draws, cursor).value;
      && OneHot(inputs, first.indices[n - 1]).Ok?
      && SampleFrom(step, inputs, x, h, n + m, draws, cursor) ==
         Then(first.indices, SampleFrom(step, inputs, OneHot(inputs, first.indices[n - 1]).value, first.h, m, draws, cursor + n))
    decreases n, 0
  {
    var u := draws(cursor);
    var d := step(x, h, u).value;
    var x' := OneHot(inputs, d.ix).value;
    SampleFromSplits(step, inputs, x', d.h, n - 1, m, draws, cursor + 1);
    var rest := SampleFrom(step, inputs, x', d.h, n - 1, draws, cursor + 1).value;
    var first := SampleFrom(step, inputs, x, h, n, draws, cursor).value;
    assert first.indices == [d.ix] + rest.indices && first.h == rest.h;
    assert first.indices[n - 1] == rest.indices[n - 2];
    var second := SampleFrom(step, inputs, OneHot(inputs, rest.indices[n - 2]).value, rest.h, m, draws, cursor + n);
    assert SampleFrom(step, inputs, x, h, n + m, draws, cursor) ==
      Then([d.ix], SampleFrom(step, inputs, x', d.h, n - 1 + m, draws, cursor + 1));
    ThenThen([d.ix], rest.indices, second);
  }

  /** Prefixing twice is prefixing by the concatenation. */
  lemma ThenThen(a: seq<int>, b: seq<int>, r: Result<Sampled>)
    ensures Then(a, Then(b, r)) == Then(a + b, r)
  {
    if r.Ok? {
      assert a + (b + r.value.indices) == (a + b) + r.value.indices;
    }
  }

  /** A step that, from vectors of the input and hidden sizes, succeeds with a hidden-size
      column and an index below `choices`. */
  ghost predicate StepFits(step: (Matrix, Matrix, real) -> Result<Draw>, inputs: int, hidden: int, choices: int) {
    forall x: Matrix, h: Matrix, u: real {:trigger step(x, h, u)} :: IsVectorOf(x, inputs) && IsVectorOf(h, hidden) ==>
      step(x, h, u).Ok? && IsColumnOf(step(x, h, u).value.h, hidden) && 0 <= step(x, h, u).value.ix < choices
  }

  /** With a fitting step whose choices are all input indices, every iteration succeeds and
      the run ends in a hidden-size vector. */
  lemma {:induction false} SampleFromSucceeds(step: (Matrix, Matrix, real) -> Result<Draw>, inputs: int, hidden: int,
                                             x: Matrix, h: Matrix, n: nat, draws: nat -> real, cursor: nat)
    requires StepFits(step, inputs, hidden, inputs)
    requires IsVectorOf(x, inputs) && IsVectorOf(h, hidden)
    ensures SampleFrom(step, inputs, x, h, n, draws, cursor).Ok?
    ensures IsVectorOf(SampleFrom(step, inputs, x, h, n, draws, cursor).value.h, hidden)
    decreases n
  {
    if n > 0 {
      var u := draws(cursor);
      assert step(x, h, u).Ok?;
      var d := step(x, h, u).value;
      ColumnIsVector(d.h, hidden);
      var x' := OneHot(inputs, d.ix).value;
      SampleFromSucceeds(step, inputs, hidden, x', d.h, n - 1, draws, cursor + 1);
    }
  }

  /** A fitting step keeps the state a hidden-size vector on every run that succeeds, whatever
      indices it picks. */
  lemma {:induction false} SampleFromEndsInState(step: (Matrix, Matrix, real) -> Result<Draw>, inputs: int,
                                                hidden: int, choices: int, x: Matrix, h: Matrix, n: nat,
                                                draws: nat -> real, cursor: nat)
    requires StepFits(step, inputs, hidden, choices)
    requires IsVectorOf(x, inputs) && IsVectorOf(h, hidden)
    requires SampleFrom(step, inputs, x, h, n, draws, cursor).Ok?
    ensures IsVectorOf(SampleFrom(step, inputs, x, h, n, draws, cursor).value.h, hidden)
    decreases n
  {
    if n > 0 {
      var u := draws(cursor);
      assert step(x, h, u).Ok?;
      var d := step(x, h, u).value;
      ColumnIsVector(d.h, hidden);
      var x' := OneHot(inputs, d.ix).value;
      SampleFromEndsInState(step, inputs, hidden, choices, x', d.h, n - 1, draws, cursor + 1);
    }
  }

  /** The step of a layer satisfying the invariant fits its sizes. */
  lemma LayerStepFits(k: Transcendentals, l: Layer)
    requires Inv(l) && l.Initialized()
    ensures StepFits(LayerStep(k, l.core.value.w), l.inputSize, l.hiddenSize, l.outputSize)
  {
    var step := LayerStep(k, l.core.value.w);
    forall x: Matrix, h: Matrix, u: real | IsVectorOf(x, l.inputSize) && IsVectorOf(h, l.hiddenSize)
      ensures step(x, h, u).Ok? && IsColumnOf(step(x, h, u).value.h, l.hiddenSize)
      ensures 0 <= step(x, h, u).value.ix < l.outputSize
    {
      SampleStepFits(k, l, x, h, u);
    }
  }

  /** The loop body for weights w. */
  function LayerStep(k: Transcendentals, w: Params): (Matrix, Matrix, real) -> Result<Draw> {
    (x: Matrix, h: Matrix, u: real) => SampleStep(k, w, x, h, u)
  }

  /* ---------------------------------------------------------------- sample */

  /** The result of `sample`: the indices and the layer afterwards. */
  datatype Sampling = Sampling(indices: seq<int>, layer: Layer)

  /** The checks `sample` makes before the loop, and its first input: the layer must be
      initialized, at least one index must be requested and the seed must be an input
      index. */
  function SampleSeed(l: Layer, n: int, seedIndex: int): (r: Result<Matrix>)
    ensures !l.Initialized() ==> r == Err(IllegalState)
    ensures l.Initialized() && n < 1 ==> r == Err(IllegalArgument)
    ensures l.Initialized() && n >= 1 ==> r == OneHot(l.inputSize, seedIndex)
  {
    if !l.Initialized() then Err(IllegalState)
    else if n < 1 then Err(IllegalArgument)
    else OneHot(l.inputSize, seedIndex)
  }

  /** The checks of `sample`, then its loop from the layer's state with its weights. */
  function SampleRun(k: Transcendentals, l: Layer, n: int, seedIndex: int, draws: nat -> real, cursor: nat): (r: Result<Sampled>)
    ensures SampleSeed(l, n, seedIndex).Err? ==> r == Err(SampleSeed(l, n, seedIndex).error)
    ensures r.Ok? ==> l.Initialized() && n >= 1 && |r.value.indices| == n
  {
    var x :- SampleSeed(l, n, seedIndex);
    SampleFrom(LayerStep(k, l.core.value.w), l.inputSize, x, l.core.value.h, n, draws, cursor)
  }

  /** `sample(n, seedIndex, keep)` as written. With keep the loop starts from the layer's own
      state rather than a copy, but each iteration rebinds only the local variable, so the
      layer is the same afterwards for either value of keep. */
  function SampleAsWritten(k: Transcendentals, l: Layer, n: int, seedIndex: int, keep: bool,
                           draws: nat -> real, cursor: nat): (r: Result<Sampling>)
    ensures r.Ok? <==> SampleRun(k, l, n, seedIndex, draws, cursor).Ok?
    ensures r.Err? ==> r.error == SampleRun(k, l, n, seedIndex, draws, cursor).error
    ensures r.Ok? ==> r.value.layer == l && r.value.indices == SampleRun(k, l, n, seedIndex, draws, cursor).value.indices
  {
    var run :- SampleRun(k, l, n, seedIndex, draws, cursor);
    Ok(Sampling(run.indices, l))
  }

  /** The as-written `sample` does not depend on keep. */
  lemma SampleAsWrittenIgnoresKeep(k: Transcendentals, l: Layer, n: int, seedIndex: int, draws: nat -> real, cursor: nat)
    ensures SampleAsWritten(k, l, n, seedIndex, true, draws, cursor) == SampleAsWritten(k, l, n, seedIndex, false, draws, cursor)
  {
  }

  /** `sample(n, seedIndex, keep)` as documented: with keep the layer carries on from the
      state the last iteration ended in; without it the layer is untouched. */
  function Sample(k: Transcendentals, l: Layer, n: int, seedIndex: int, keep: bool,
                  draws: nat -> real, cursor: nat): (r: Result<Sampling>)
    requires Inv(l)
    ensures r.Ok? <==> SampleRun(k, l, n, seedIndex, draws, cursor).Ok?
    ensures r.Err? ==> r.error == SampleRun(k, l, n, seedIndex, draws, cursor).error
    ensures r.Ok? ==> r.value.indices == SampleRun(k, l, n, seedIndex, draws, cursor).value.indices
    ensures r.Ok? && !keep ==> r.value.layer == l
    ensures r.Ok? && keep ==>
      r.value.layer == l.(core := Some(l.core.value.(h := SampleRun(k, l, n, seedIndex, draws, cursor).value.h)))
    ensures r.Ok? ==> Inv(r.value.layer)
  {
    var run :- SampleRun(k, l, n, seedIndex, draws, cursor);
    if !keep then Ok(Sampling(run.indices, l))
    else
      var c := l.core.value;
      var x := SampleSeed(l, n, seedIndex).value;
      LayerStepFits(k, l);
      SampleFromEndsInState(LayerStep(k, c.w), l.inputSize, l.hiddenSize, l.outputSize, x, c.h, n, draws, cursor);
      Ok(Sampling(run.indices, l.(core := Some(c.(h := run.h)))))
  }

  /** On a layer satisfying the invariant whose input size equals its output size (as the
      networks configure a single layer), sampling from a valid seed succeeds with n output
      indices, for either value of keep. */
  lemma SampleSucceeds(k: Transcendentals, l: Layer, n: int, seedIndex: int, keep: bool, draws: nat -> real, cursor: nat)
    requires Inv(l) && l.Initialized() && l.inputSize == l.outputSize
    requires n >= 1 && 0 <= seedIndex < l.inputSize
    ensures Sample(k, l, n, seedIndex, keep, draws, cursor).Ok?
    ensures
      var r := Sample(k, l, n, seedIndex, keep, draws, cursor).value;
      |r.indices| == n && forall i :: 0 <= i < n ==> 0 <= r.indices[i] < l.outputSize
  {
    var x := SampleSeed(l, n, seedIndex).value;
    var step := LayerStep(k, l.core.value.w);
    LayerStepFits(k, l);
    SampleFromSucceeds(step, l.inputSize, l.hiddenSize, x, l.core.value.h, n, draws, cursor);
    SampleFromInRange(step, l.inputSize, x, l.core.value.h, n, draws, cursor);
  }

  /** With keep, sampling n indices and then m more, seeded with the last index and reading
      the draws that follow, is the same as sampling n + m at once: the same indices and
      the same layer afterwards. */
  lemma SampleContinues(k: Transcendentals, l: Layer, n: int, m: int, seedIndex: int, draws: nat -> real, cursor: nat)
    requires Inv(l) && n >= 1 && m >= 1
    ensures Sample(k, l, n, seedIndex, true, draws, cursor).Ok? ==>
      var first := Sample(k, l, n, seedIndex, true, draws, cursor).value;
      var second := Sample(k, first.layer, m, first.indices[n - 1], true, draws, cursor + n);
      var whole := Sample(k, l, n + m, seedIndex, true, draws, cursor);
      && (whole.Ok? <==> second.Ok?)
      && (whole.Ok? ==> whole.value == Sampling(first.indices + second.value.indices, second.value.layer))
  {
    if Sample(k, l, n, seedIndex, true, draws, cursor).Ok? {
      var c := l.core.value;
      var step := LayerStep(k, c.w);
      var x := SampleSeed(l, n, seedIndex).value;
      SampleFromSplits(step, l.inputSize, x, c.h, n, m, draws, cursor);
      var first := Sample(k, l, n, seedIndex, true, draws, cursor).value;
      var run := SampleFrom(step, l.inputSize, x, c.h, n, draws, cursor).value;
      assert first.indices == run.indices;
      assert first.layer == l.(core := Some(c.(h := run.h)));
      assert SampleSeed(first.layer, m, first.indices[n - 1]) == OneHot(l.inputSize, run.indices[n - 1]);
      assert SampleSeed(l, n + m, seedIndex) == SampleSeed(l, n, seedIndex);
    }
  }

  /* ---------------------------------------------------------------- A layer that shows keep is ignored */

  /** A one-unit layer whose hidden state is 0 and whose step maps input 1 to state 1, with
      tanh taken as the identity. */
  function OneUnitKernel(): Transcendentals {
    Functions(x => 1.0, x => x, x => x, x => 0.0)
  }

  function One(a: real): Matrix {
    RawMatrix(1, 1, [[a]])
  }

  function OneUnitWeights(): Params {
    Params(One(1.0), One(0.0), One(0.0), One(0.0), One(0.0))
  }

  function OneUnitLayer(): (l: Layer)
    ensures Inv(l) && l.Initialized()
  {
    var g := Params(One(0.0), One(0.0), One(0.0), One(0.0), One(0.0));
    Layer(0.1, 1, 1, 1, Some(Core(OneUnitWeights(), g, One(0.0))), NoTrace, None)
  }

  /** The one-unit step from input 1 and state 0 reaches state 1. */
  lemma OneUnitStep()
    ensures StepHidden(OneUnitKernel(), OneUnitWeights(), One(1.0), One(0.0)).Ok?
    ensures StepHidden(OneUnitKernel(), OneUnitWeights(), One(1.0), One(0.0)).value.data[0][0] == 1.0
  {
    var w := OneUnitWeights();
    StepHiddenColumn(OneUnitKernel(), w, One(1.0), One(0.0), 1, 1, 1);
    InnerSingle(1.0, 1.0);
    InnerSingle(0.0, 0.0);
    var h' := StepHidden(OneUnitKernel(), w, One(1.0), One(0.0)).value;
    assert Vec(h')[0] == 1.0;
  }

  /** One iteration on the one-unit layer from seed 0 ends in state 1, whatever the draw. */
  lemma OneUnitRun(draws: nat -> real)
    ensures SampleFrom(LayerStep(OneUnitKernel(), OneUnitWeights()), 1, One(1.0), One(0.0), 1, draws, 0).Ok?
    ensures SampleFrom(LayerStep(OneUnitKernel(), OneUnitWeights()), 1, One(1.0), One(0.0), 1, draws, 0).value.h.data[0][0] == 1.0
  {
    var k := OneUnitKernel();
    var w := OneUnitWeights();
    var u := draws(0);
    SampleStepFits(k, OneUnitLayer(), One(1.0), One(0.0), u);
    OneUnitStep();
    var d := SampleStep(k, w, One(1.0), One(0.0), u).value;
    assert d.h.data[0][0] == 1.0;
    assert SampleFrom(LayerStep(k, w), 1, OneHot(1, d.ix).value, d.h, 0, draws, 1) == Ok(Sampled([], d.h));
  }

  /** On the one-unit layer, sampling one index with keep leaves the hidden state at 0 as
      written, while the iteration it ran ended in state 1, whatever the draw. */
  lemma SampleKeepDoesNotAdvance(draws: nat -> real)
    ensures
      var l := OneUnitLayer();
      var written := SampleAsWritten(OneUnitKernel(), l, 1, 0, true, draws, 0);
      var intended := Sample(OneUnitKernel(), l, 1, 0, true, draws, 0);
      && written.Ok? && intended.Ok?
      && written.value.layer.core.value.h == One(0.0)
      && intended.value.layer.core.value.h.data[0][0] == 1.0
  {
    assert OneHot(1, 0).value == One(1.0);
    OneUnitRun(draws);
  }

  /* ---------------------------------------------------------------- Saving and restoring the hidden state */

  /** `saveHiddenState()`: a copy of the hidden state. */
  function SaveHiddenState(l: Layer): (r: Result<Matrix>)
    ensures r.Ok? <==> l.Initialized()
    ensures r.Err? ==> r.error == IllegalState
    ensures r.Ok? ==> r.value == l.core.value.h
  {
    if !l.Initialized() then Err(IllegalState)
    else Ok(l.core.value.h)
  }

  /** `restoreHiddenState(h)`: replaces the hidden state by a vector of the hidden size. A
      null argument fails when its length is asked for; a matrix that is not a vector fails
      in `getk`. */
  function RestoreHiddenState(l: Layer, h: Option<Matrix>): (r: Result<Layer>)
    ensures !l.Initialized() ==> r == Err(IllegalState)
    ensures l.Initialized() && h.None? ==> r == Err(NullPointer)
    ensures l.Initialized() && h.Some? && !IsVector(h.value) ==> r == Err(NotAVector)
    ensures l.Initialized() && h.Some? && IsVector(h.value) && Length(h.value) != l.hiddenSize ==> r == Err(IllegalArgument)
    ensures r.Ok? <==> l.Initialized() && h.Some? && IsVectorOf(h.value, l.hiddenSize)
    ensures r.Ok? ==> r.value == l.(core := Some(l.core.value.(h := h.value)))
    ensures r.Ok? && Inv(l) ==> Inv(r.value)
  {
    if !l.Initialized() then Err(IllegalState)
    else if h.None? then Err(NullPointer)
    else
      var n :- GetK(h.value);
      if n != l.hiddenSize then Err(IllegalArgument)
      else Ok(l.(core := Some(l.core.value.(h := h.value))))
  }

  /** Restoring what was saved gives back the same layer. */
  lemma RestoreSaved(l: Layer)
    requires Inv(l) && l.Initialized()
    ensures RestoreHiddenState(l, Some(SaveHiddenState(l).value)) == Ok(l)
  {
  }

  /** What was restored is what is saved next. */
  lemma SaveRestored(l: Layer, h: Option<Matrix>)
    requires RestoreHiddenState(l, h).Ok?
    ensures SaveHiddenState(RestoreHiddenState(l, h).value) == Ok(h.value)
  {
  }

  /** Saving, sampling with keep and restoring leaves the layer as it was: the pattern the
      networks use to sample without advancing. */
  lemma SampleBetweenSaveAndRestore(k: Transcendentals, l: Layer, n: int, seedIndex: int, draws: nat -> real, cursor: nat)
    requires Inv(l) && l.Initialized()
    ensures Sample(k, l, n, seedIndex, true, draws, cursor).Ok? ==>
      RestoreHiddenState(Sample(k, l, n, seedIndex, true, draws, cursor).value.layer, Some(SaveHiddenState(l).value)) == Ok(l)
  {
  }
}

=== FILE: single.dfy ===
/** The single-layer network of `net/SingleLayerRNN.java`: one recurrent layer, the
    training loop over a training set with its offset, step counter and smoothed loss,
    and sampling from a seed of indices.

    The class keeps the fields of the trainer in `net/RNNTrainer.java` and runs the same
    loop, so its state is a `Trainers.Trainer` whose network is the layer itself (never
    null). It differs from the trainer in three places: the one-argument constructor does
    not check the sequence length, `initialize` sizes and initializes the layer and then
    allocates the index arrays (which fails for a negative length), and `getSmoothLoss`
    does not check initialization. */
module SingleLayer {
  import opened Outcomes
  import opened Kernel
  import opened Matrices
  import opened VectorAlgebra
  import opened Layers
  import opened LayerTraining
  import opened Network
  import opened NetworkTraining
  import NetworkSampling
  import Trainers
  import TrainingSets
  import Alphabets

  type Single = Trainers.Trainer<Layer>

  /** What every single-layer network satisfies: a layer satisfying the layer invariant
      with a positive hidden size; once initialized, data, index arrays of a length Java
      allocated, and an initialized layer. */
  predicate SingleInv(t: Single) {
    && t.net.Some? && Inv(t.net.value) && t.net.value.hiddenSize > 0
    && (t.initialized ==> Trainers.Runnable(t) && t.net.value.Initialized())
  }

  /** The layer is initialized and reads and scores the vocabulary of the data, as a
      completed `initialize` leaves it. A later failed `initialize` replaces the data but
      not the layer, so an initialized network need not be fitted. */
  predicate Fitted(t: Single) {
    && t.net.Some? && t.trainingSet.Some?
    && t.net.value.Initialized()
    && t.net.value.inputSize == TrainingSets.VocabularySize(t.trainingSet.value)
    && t.net.value.outputSize == TrainingSets.VocabularySize(t.trainingSet.value)
  }

  /* ---------------------------------------------------------------- Construct */

  /** A network around layer l with sequence length T, nothing else set. */
  function Around(l: Layer, T: int): (t: Single)
    ensures t.net == Some(l) && t.sequenceLength == T && !t.initialized
    ensures t.trainingSet.None? && t.offset == 0 && t.totalSteps == 0
  {
    Trainers.Trainer(Some(l), T, None, 0, 0.0, 0, false)
  }

  /** `SingleLayerRNN(sequenceLength)`: a default layer; the length is not checked. */
  function NewSingle(sequenceLength: int): (t: Single)
    ensures SingleInv(t) && !t.initialized
    ensures t.sequenceLength == sequenceLength && t.offset == 0 && t.totalSteps == 0
    ensures t.net.value.hiddenSize == DefaultHiddenSize && t.net.value.learningRate == DefaultLearningRate
  {
    Around(NewLayer(), sequenceLength)
  }

  /** `SingleLayerRNN(sequenceLength)` with the layer the default constructor builds as
      written, whose output size is 0. */
  function NewSingleAsWritten(sequenceLength: int): (t: Single)
    ensures SingleInv(t) && !t.initialized
    ensures t.net.value.outputSize == 0
  {
    Around(NewLayerAsWritten(), sequenceLength)
  }

  /** `SingleLayerRNN(hiddenCount, sequenceLength, learningRate)`: rejects a non-positive
      hidden size, then a sequence length of 1 or less; otherwise a default layer with the
      hidden size and the rate set. */
  function NewSingleWith(hidden: int, sequenceLength: int, rate: real): (r: Result<Single>)
    ensures r.Ok? <==> hidden > 0 && sequenceLength > 1
    ensures r.Err? ==> r.error == IllegalArgument
    ensures r.Ok? ==> SingleInv(r.value) && Trainers.TrainerInv(r.value) && !r.value.initialized
    ensures r.Ok? ==> r.value.sequenceLength == sequenceLength && r.value.offset == 0 && r.value.totalSteps == 0
    ensures r.Ok? ==> r.value.net.value.hiddenSize == hidden && r.value.net.value.learningRate == rate
  {
    if hidden <= 0 then Err(IllegalArgument)
    else if sequenceLength <= 1 then Err(IllegalArgument)
    else
      var l := Layers.SetLearningRate(SetHiddenSize(NewLayer(), hidden).next, rate);
      Ok(Around(l, sequenceLength))
  }

  /* ---------------------------------------------------------------- Initialize */

  /** The checks and assignments of `initialize(trainingSet)` with the size bound as a
      parameter: a null set is rejected first; the set is assigned before the vocabulary
      and data size are checked; then the layer reads and scores the vocabulary and is
      initialized from the Gaussian stream at `cursor`; then the index arrays are
      allocated, which fails for a negative sequence length after the layer changed.
      The offset and step counter are not reset. Returns the advanced cursor. */
  function Admit(k: Transcendentals, t: Single, ts: Option<TrainingSets.TrainingSet>, gauss: nat -> real, cursor: nat, minSize: int): (s: Step<Single, nat>)
    requires SingleInv(t)
    ensures SingleInv(s.next)
    ensures ts.None? ==> s == Step(t, Err(NullPointer))
    ensures ts.Some? ==> s.next.trainingSet == ts
    ensures s.out.Ok? <==>
      ts.Some? && TrainingSets.VocabularySize(ts.value) > 0 && TrainingSets.Size(ts.value) >= minSize && t.sequenceLength >= 0
    ensures ts.Some? && s.out.Err? ==>
      s.out.error == (if TrainingSets.VocabularySize(ts.value) > 0 && TrainingSets.Size(ts.value) >= minSize
                      then NegativeArraySize else BadTrainingSet)
    ensures ts.Some? && s.out.Err? && s.out.error == BadTrainingSet ==> s.next == t.(trainingSet := ts)
    ensures s.out.Ok? ==>
      && s.next.initialized && Fitted(s.next)
      && s.next == t.(net := s.next.net, trainingSet := ts, smoothLoss := s.next.smoothLoss, initialized := true)
      && s.next.smoothLoss == Trainers.InitialLoss(k, TrainingSets.VocabularySize(ts.value), t.sequenceLength)
      && s.out.value == cursor + InitDraws(s.next.net.value)
  {
    if ts.None? then Step(t, Err(NullPointer))
    else
      var t1 := t.(trainingSet := ts);
      var v := TrainingSets.VocabularySize(ts.value);
      if v == 0 then Step(t1, Err(BadTrainingSet))
      else if TrainingSets.Size(ts.value) < minSize then Step(t1, Err(BadTrainingSet))
      else
        var l := SetOutputSize(SetInputSize(t.net.value, v).next, v).next;
        var r := Layers.Initialize(l, gauss, cursor).value;
        var t2 := t1.(net := Some(r.0));
        if t.sequenceLength < 0 then Step(t2, Err(NegativeArraySize))
        else Step(t2.(smoothLoss := Trainers.InitialLoss(k, v, t.sequenceLength), initialized := true), Ok(r.1))
  }

  /** `initialize` as written: data shorter than the sequence length is rejected, so data
      of exactly that length passes although a window needs one character more. */
  function InitializeAsWritten(k: Transcendentals, t: Single, ts: Option<TrainingSets.TrainingSet>, gauss: nat -> real, cursor: nat): (s: Step<Single, nat>)
    requires SingleInv(t)
    ensures SingleInv(s.next)
    ensures s.out.Ok? <==>
      ts.Some? && TrainingSets.VocabularySize(ts.value) > 0 && TrainingSets.Size(ts.value) >= t.sequenceLength && t.sequenceLength >= 0
  {
    Admit(k, t, ts, gauss, cursor, t.sequenceLength)
  }

  /** `initialize` as intended: the data must hold at least one window, that is
      sequenceLength + 1 characters. */
  function Initialize(k: Transcendentals, t: Single, ts: Option<TrainingSets.TrainingSet>, gauss: nat -> real, cursor: nat): (s: Step<Single, nat>)
    requires SingleInv(t)
    ensures SingleInv(s.next)
    ensures ts.None? ==> s == Step(t, Err(NullPointer))
    ensures s.out.Ok? <==>
      ts.Some? && TrainingSets.VocabularySize(ts.value) > 0 && TrainingSets.Size(ts.value) > t.sequenceLength && t.sequenceLength >= 0
    ensures s.out.Ok? ==> s.next.initialized && Fitted(s.next) && s.next.offset == t.offset && s.next.totalSteps == t.totalSteps
    ensures s.out.Ok? ==> s.next.sequenceLength == t.sequenceLength && s.next.trainingSet == ts
    ensures s.out.Ok? ==> s.next.smoothLoss == Trainers.InitialLoss(k, TrainingSets.VocabularySize(ts.value), t.sequenceLength)
  {
    Admit(k, t, ts, gauss, cursor, t.sequenceLength + 1)
  }

  /** The default layer's missing output size does no harm here: `initialize` sets both
      the input and the output size before it initializes the layer, so the network built
      around the layer as written initializes exactly as the one around the intended
      layer, and to the same state. */
  lemma DefaultLayerSizesOverwritten(k: Transcendentals, T: int, ts: Option<TrainingSets.TrainingSet>, gauss: nat -> real, cursor: nat)
    ensures Initialize(k, NewSingleAsWritten(T), ts, gauss, cursor).out == Initialize(k, NewSingle(T), ts, gauss, cursor).out
    ensures Initialize(k, NewSingle(T), ts, gauss, cursor).out.Ok? ==>
      Initialize(k, NewSingleAsWritten(T), ts, gauss, cursor).next == Initialize(k, NewSingle(T), ts, gauss, cursor).next
  {
    if ts.Some? && TrainingSets.VocabularySize(ts.value) > 0 {
      var v := TrainingSets.VocabularySize(ts.value);
      assert SetOutputSize(SetInputSize(NewLayerAsWritten(), v).next, v).next
          == SetOutputSize(SetInputSize(NewLayer(), v).next, v).next;
    }
  }

  /* ---------------------------------------------------------------- Train */

  /** The layer as a one-layer stack: its forward-backward pass is the stack's on one
      layer. */
  function AsNet(l: Layer, initialized: bool): (net: Net)
    ensures Inv(l) ==> NetInv(net)
    ensures net.layers == Some([l]) && net.initialized == initialized
  {
    Net(Some([l]), None, l.learningRate, initialized)
  }

  /** The body of one training step after the extract: `forward(ixTox(ix))`, then
      `getLoss(iy)`, then `backward(getdy(iy))`. An index outside the layer's input size
      is rejected by `ixTox` before the layer changes. Layers reach it only through a
      network that keeps the layer invariant; the guard only makes the function value
      total. Returns the loss. */
  function LayerPass(k: Transcendentals, l: Layer, ix: seq<int>, iy: seq<int>): (s: Step<Layer, real>)
    ensures Inv(l) ==> Inv(s.next) && SameConfig(l, s.next)
    ensures Inv(l) && IxToX(l, Some(ix)).Err? ==> s == Step(l, Err(IxToX(l, Some(ix)).error))
  {
    if !Inv(l) then Step(l, Err(IllegalState))
    else
      match IxToX(l, Some(ix))
      case Err(e) => Step(l, Err(e))
      case Ok(xs) =>
        LayerBackSound(k);
        var s := NetworkTraining.Train(k, LayerBack(k), AsNet(l, true), xs, iy);
        Step(s.next.layers.value[0], s.out)
  }

  /** The pass as the training loop receives it. */
  function SinglePass(k: Transcendentals): Trainers.Pass<Layer> {
    (l: Layer, ix: seq<int>, iy: seq<int>) => LayerPass(k, l, ix, iy)
  }

  /** `train(steps)`: an uninitialized network and a negative count are rejected first;
      then the loop. The network keeps its invariant whatever the outcome, and the offset
      moves by sequenceLength for every step the counter counts. */
  function Train(k: Transcendentals, t: Single, steps: int): (s: Step<Single, ()>)
    requires SingleInv(t)
    ensures SingleInv(s.next)
    ensures !t.initialized ==> s == Step(t, Err(IllegalState))
    ensures t.initialized && steps < 0 ==> s == Step(t, Err(IllegalArgument))
    ensures t.initialized && steps >= 0 ==> Trainers.CountedRun(t, s, steps)
  {
    if !t.initialized then Step(t, Err(IllegalState))
    else if steps < 0 then Step(t, Err(IllegalArgument))
    else
      PassKeepsInv(k);
      Trainers.LoopKeeps(t, SinglePass(k), SingleInv, steps);
      Trainers.Loop(t, SinglePass(k), steps)
  }

  /** `train()`: as many steps as an int counts. */
  function TrainAll(k: Transcendentals, t: Single): (s: Step<Single, ()>)
    requires SingleInv(t)
    ensures SingleInv(s.next)
    ensures !t.initialized ==> s == Step(t, Err(IllegalState))
    ensures t.initialized ==> Trainers.CountedRun(t, s, Trainers.IntMax)
  {
    Train(k, t, Trainers.IntMax)
  }

  /** A step keeps the network invariant, whether it completes or throws. */
  lemma PassKeepsInv(k: Transcendentals)
    ensures Trainers.StepsKeep(Trainers.StepOf(SinglePass(k)), SingleInv)
  {
    var fb := SinglePass(k);
    forall t: Single | Trainers.Runnable(t) && SingleInv(t)
      ensures SingleInv(Trainers.StepOf(fb)(t).next)
    {
      assert Trainers.StepOf(fb)(t) == Trainers.TrainStep(t, fb);
      var w := Trainers.NextWindow(t);
      if w.Ok? {
        assert fb(t.net.value, w.value.0, w.value.1) == LayerPass(k, t.net.value, w.value.0, w.value.1);
      }
    }
  }

  /** What a completed pass over T steps leaves in layer b that was a, and the loss it
      returns: the cross-entropy of the probabilities b's new trace gives the targets. */
  predicate LayerDone(k: Transcendentals, a: Layer, s: Step<Layer, real>, iy: seq<int>, T: nat) {
    && s.out.Ok? && Completed(a, s.next, T)
    && TraceFits(s.next) && ValidTargets(s.next, iy)
    && s.out.value == CrossEntropy(k, TargetProbabilities(s.next, iy))
  }

  /** On an initialized layer that reads and scores the same v indices, the pass over a
      window of indices below v completes: the layer records a pass over the whole window,
      ends in its last hidden state, grows its accumulators, and the loss is the
      cross-entropy of the probabilities it gave the targets. */
  lemma LayerPassCompletes(k: Transcendentals, l: Layer, ix: seq<int>, iy: seq<int>)
    requires Inv(l) && l.Initialized() && l.inputSize == l.outputSize
    requires |ix| == |iy| > 0 && Alphabets.AllBelow(ix, l.inputSize) && Alphabets.AllBelow(iy, l.outputSize)
    ensures LayerDone(k, l, LayerPass(k, l, ix, iy), iy, |ix|)
  {
    var xs := LayerPassIs(k, l, ix, iy);
    var net := AsNet(l, true);
    TrainOneLayerOk(k, LayerBack(k), net, xs, iy);
    SingleDone(k, l, NetworkTraining.Train(k, LayerBack(k), net, xs, iy), iy, |xs|);
  }

  /** On valid input indices the pass is the network pass on their one-hot vectors. */
  lemma LayerPassIs(k: Transcendentals, l: Layer, ix: seq<int>, iy: seq<int>) returns (xs: seq<Matrix>)
    requires Inv(l) && |ix| > 0 && Alphabets.AllBelow(ix, l.inputSize)
    ensures |xs| == |ix| && forall t :: 0 <= t < |xs| ==> IsVectorOf(xs[t], l.inputSize)
    ensures BackSound(LayerBack(k)) && BackCompletes(LayerBack(k))
    ensures var s := NetworkTraining.Train(k, LayerBack(k), AsNet(l, true), xs, iy);
      LayerPass(k, l, ix, iy) == Step(s.next.layers.value[0], s.out)
  {
    xs := IxToX(l, Some(ix)).value;
    LayerBackSound(k);
  }

  /** A completed pass of the one-layer stack is a completed pass of its layer. */
  lemma SingleDone(k: Transcendentals, l: Layer, s: Step<Net, real>, iy: seq<int>, T: nat)
    requires PassDone(k, [l], s, iy, T)
    ensures LayerDone(k, l, Step(s.next.layers.value[0], s.out), iy, T)
  {
    assert Completed(l, s.next.layers.value[0], T);
  }

  /** A network whose steps find their windows: a fitted layer satisfying the invariant
      and windows of at least one index. */
  predicate Trainable(t: Single) {
    Fitted(t) && Inv(t.net.value) && t.sequenceLength > 0
  }

  /** On a trainable network a step completes exactly when the data holds the window at
      the offset, otherwise throws NoMoreTrainingDataException, and a completed step leaves
      the network trainable. */
  lemma PassFindsWindows(k: Transcendentals)
    ensures Trainers.StepsFind(Trainers.StepOf(SinglePass(k)), Trainable)
  {
    var fb := SinglePass(k);
    forall t: Single | Trainers.Runnable(t) && t.offset >= 0 && Trainable(t)
      ensures Trainers.StepOf(fb)(t).out.Ok? <==> t.offset + t.sequenceLength + 1 <= |t.trainingSet.value.data|
      ensures Trainers.StepOf(fb)(t).out.Err? ==> Trainers.StepOf(fb)(t).out.error == NoMoreTrainingData
      ensures Trainers.StepOf(fb)(t).out.Ok? ==> Trainable(Trainers.StepOf(fb)(t).next)
    {
      assert Trainers.StepOf(fb)(t) == Trainers.TrainStep(t, fb);
      var w := Trainers.NextWindow(t);
      if w.Ok? {
        var l := t.net.value;
        LayerPassCompletes(k, l, w.value.0, w.value.1);
        assert fb(l, w.value.0, w.value.1) == LayerPass(k, l, w.value.0, w.value.1);
      }
    }
  }

  /** On a trainable network, `train(n)` completes exactly when the data holds the n
      windows from the offset on, offset + n * sequenceLength + 1 characters, and otherwise
      stops with NoMoreTrainingDataException. */
  lemma TrainFindsWindows(k: Transcendentals, t: Single, n: int)
    requires SingleInv(t) && t.initialized && Trainable(t) && t.offset >= 0 && n >= 0
    ensures Train(k, t, n).out.Ok? <==> n == 0 || t.offset + n * t.sequenceLength + 1 <= |t.trainingSet.value.data|
    ensures Train(k, t, n).out.Err? ==> Train(k, t, n).out.error == NoMoreTrainingData
  {
    PassFindsWindows(k);
    Trainers.LoopOkIffWhere(t, SinglePass(k), Trainable, n);
    Trainers.StrideIsProduct(n, t.sequenceLength);
  }

  /** `train()` on a trainable network trains on every window from the offset and stops
      with NoMoreTrainingDataException at the first window the data does not hold. */
  lemma TrainAllStopsAtEnd(k: Transcendentals, t: Single)
    requires SingleInv(t) && t.initialized && Trainable(t) && t.offset >= 0
    requires |t.trainingSet.value.data| <= Trainers.IntMax
    ensures TrainAll(k, t).out == Err(NoMoreTrainingData)
    ensures Trainers.StoppedAtEnd(t, TrainAll(k, t), Trainers.IntMax)
  {
    TrainFindsWindows(k, t, Trainers.IntMax);
    assert Trainers.IntMax * t.sequenceLength >= Trainers.IntMax;
    PassFindsWindows(k);
    Trainers.LoopStopsAtEnd(t, SinglePass(k), Trainable, Trainers.IntMax);
  }

  /** A new network with sequence length T > 0, once initialized, completes `train(n)`
      exactly when the data holds n windows from its start. */
  lemma FreshNetworkTrainsEveryWindow(k: Transcendentals, T: int, ts: TrainingSets.TrainingSet, gauss: nat -> real, cursor: nat, n: int)
    requires T > 0 && n >= 0
    requires Initialize(k, NewSingle(T), Some(ts), gauss, cursor).out.Ok?
    ensures Train(k, Initialize(k, NewSingle(T), Some(ts), gauss, cursor).next, n).out.Ok? <==> n * T + 1 <= |ts.data|
  {
    var t := Initialize(k, NewSingle(T), Some(ts), gauss, cursor).next;
    assert t.offset == 0 && t.sequenceLength == T && t.trainingSet == Some(ts) && |ts.data| > T;
    TrainFindsWindows(k, t, n);
  }

  /** With data as long as the sequence, the code as written initializes, yet no step
      finds a window: "ab" with sequence length 2. The intended version rejects the data. */
  lemma AsWrittenAdmitsTooShortData(k: Transcendentals, gauss: nat -> real, cursor: nat, n: int)
    requires n > 0
    ensures var ts := TrainingSets.FromString(Some("ab"));
      && InitializeAsWritten(k, NewSingle(2), Some(ts), gauss, cursor).out.Ok?
      && Train(k, InitializeAsWritten(k, NewSingle(2), Some(ts), gauss, cursor).next, n).out == Err(NoMoreTrainingData)
      && Initialize(k, NewSingle(2), Some(ts), gauss, cursor).out == Err(BadTrainingSet)
  {
    var ts := TrainingSets.FromString(Some("ab"));
    assert 'a' in ts.data;
    assert TrainingSets.VocabularySize(ts) > 0;
    var t := InitializeAsWritten(k, NewSingle(2), Some(ts), gauss, cursor).next;
    TrainFindsWindows(k, t, n);
  }

  /* ---------------------------------------------------------------- Smoothed loss */

  /** `getSmoothLoss()`: the smoothed loss per step, in percent. There is no check of
      initialization; with sequence length 0 Java's double division gives NaN or an
      infinity, shown as None. */
  function GetSmoothLoss(t: Single): (r: Option<real>)
    ensures r.Some? <==> t.sequenceLength != 0
    ensures r.Some? ==> r.value * t.sequenceLength as real == t.smoothLoss * 100.0
  {
    if t.sequenceLength == 0 then None else Some(t.smoothLoss / t.sequenceLength as real * 100.0)
  }

  /** Right after `initialize`, the reported loss is that of a uniform guess,
      -log(1/v) * 100, whatever the sequence length, unless that length is 0. */
  lemma InitialSmoothLoss(k: Transcendentals, t: Single, ts: Option<TrainingSets.TrainingSet>, gauss: nat -> real, cursor: nat)
    requires SingleInv(t) && Initialize(k, t, ts, gauss, cursor).out.Ok?
    ensures t.sequenceLength == 0 ==> GetSmoothLoss(Initialize(k, t, ts, gauss, cursor).next) == None
    ensures t.sequenceLength != 0 ==>
      (GetSmoothLoss(Initialize(k, t, ts, gauss, cursor).next)
         == Some(-k.log(1.0 / TrainingSets.VocabularySize(ts.value) as real) * 100.0))
  {
    var t' := Initialize(k, t, ts, gauss, cursor).next;
    if t.sequenceLength != 0 {
      UniformLoss(k, t', TrainingSets.VocabularySize(ts.value));
    }
  }

  /** A smoothed loss of sequenceLength times -log(1/v) reads as -log(1/v) * 100. */
  lemma UniformLoss(k: Transcendentals, t: Single, v: int)
    requires v > 0 && t.sequenceLength != 0 && t.smoothLoss == Trainers.InitialLoss(k, v, t.sequenceLength)
    ensures GetSmoothLoss(t) == Some(-k.log(1.0 / v as real) * 100.0)
  {
    var T := t.sequenceLength as real;
    var a := -k.log(1.0 / v as real);
    assert T != 0.0;
    assert t.smoothLoss == a * T;
    Trainers.DivideBack(a, T);
    assert t.smoothLoss / T == a;
  }

  /* ---------------------------------------------------------------- Sample */

  /** `sampleIndices(n, seed, advance)` as intended: the sampling of the one-layer stack,
      which draws the first index from the last step of the seed pass and returns no
      indices for n = 0. Sampling changes only the layer's hidden state and trace. */
  function SampleIndices(k: Transcendentals, t: Single, n: int, seed: Option<seq<int>>, advance: bool,
                         draws: nat -> real, cursor: nat): (s: Step<Single, seq<int>>)
    requires SingleInv(t)
    ensures SingleInv(s.next) && s.next == t.(net := s.next.net)
    ensures NetworkTraining.Advanced(t.net.value, s.next.net.value)
    ensures !t.initialized ==> s == Step(t, Err(IllegalState))
    ensures t.initialized && n < 0 ==> s == Step(t, Err(IllegalArgument))
    ensures t.initialized && n >= 0 && seed.None? ==> s == Step(t, Err(NullPointer))
    ensures s.out.Ok? ==> |s.out.value| == n
  {
    var r := NetworkSampling.SampleIndices(k, AsNet(t.net.value, t.initialized), n, seed, advance, draws, cursor);
    Step(t.(net := Some(r.next.layers.value[0])), r.out)
  }

  /** `sampleIndices(n, seed, advance)` as written: the first index is drawn from step 1
      of the seed pass, and n = 0 fails on `sampled[0]`. */
  function SampleIndicesAsWritten(k: Transcendentals, t: Single, n: int, seed: Option<seq<int>>, advance: bool,
                                  draws: nat -> real, cursor: nat): (s: Step<Single, seq<int>>)
    requires SingleInv(t)
    ensures SingleInv(s.next) && s.next == t.(net := s.next.net)
    ensures NetworkTraining.Advanced(t.net.value, s.next.net.value)
    ensures !t.initialized ==> s == Step(t, Err(IllegalState))
    ensures t.initialized && n < 0 ==> s == Step(t, Err(IllegalArgument))
    ensures t.initialized && n >= 0 && seed.None? ==> s == Step(t, Err(NullPointer))
    ensures s.out.Ok? ==> |s.out.value| == n
  {
    var r := NetworkSampling.SampleIndicesAsWritten(k, AsNet(t.net.value, t.initialized), n, seed, advance, draws, cursor);
    Step(t.(net := Some(r.next.layers.value[0])), r.out)
  }

  /** `sampleIndices(n, seed, advance)` for a single seed index: the seed as a one-index
      sequence. */
  function SampleFrom(k: Transcendentals, t: Single, n: int, seed: int, advance: bool,
                      draws: nat -> real, cursor: nat): (s: Step<Single, seq<int>>)
    requires SingleInv(t)
    ensures SingleInv(s.next)
    ensures s.out.Ok? ==> |s.out.value| == n
  {
    SampleIndices(k, t, n, Some([seed]), advance, draws, cursor)
  }

  /** `sampleIndices(n, seed)` and `sampleIndices(n, int[] seed)`: the state advances. */
  function SampleAdvancing(k: Transcendentals, t: Single, n: int, seed: Option<seq<int>>,
                           draws: nat -> real, cursor: nat): (s: Step<Single, seq<int>>)
    requires SingleInv(t)
    ensures SingleInv(s.next)
    ensures s.out.Ok? ==> |s.out.value| == n
  {
    SampleIndices(k, t, n, seed, true, draws, cursor)
  }

  /** On a fitted network, n >= 0 samples from a non-empty seed of indices in the
      vocabulary are n indices in the vocabulary, and with advance false the layer's hidden
      state afterwards is the one it had before. */
  lemma SampleIndicesSucceeds(k: Transcendentals, t: Single, n: int, seed: seq<int>, advance: bool,
                              draws: nat -> real, cursor: nat)
    requires SingleInv(t) && t.initialized && Fitted(t)
    requires n >= 0 && |seed| > 0 && Alphabets.AllBelow(seed, TrainingSets.VocabularySize(t.trainingSet.value))
    ensures SampleIndices(k, t, n, Some(seed), advance, draws, cursor).out.Ok?
    ensures |SampleIndices(k, t, n, Some(seed), advance, draws, cursor).out.value| == n
    ensures Alphabets.AllBelow(SampleIndices(k, t, n, Some(seed), advance, draws, cursor).out.value,
                               TrainingSets.VocabularySize(t.trainingSet.value))
    ensures !advance ==>
      SampleIndices(k, t, n, Some(seed), advance, draws, cursor).next.net.value.core.value.h == t.net.value.core.value.h
  {
    var v := TrainingSets.VocabularySize(t.trainingSet.value);
    var net := AsNet(t.net.value, true);
    assert Ready(net, v);
    NetworkSampling.SampleIndicesSucceeds(k, net, v, n, seed, advance, draws, cursor);
  }

  /** As written, sampling no indices from a fitted network with a valid seed fails with
      ArrayIndexOutOfBoundsException, after the seed pass moved the hidden state, even
      when advance is false. */
  lemma AsWrittenZeroSamplesFails(k: Transcendentals, t: Single, seed: seq<int>, advance: bool,
                                  draws: nat -> real, cursor: nat)
    requires SingleInv(t) && t.initialized && Fitted(t)
    requires |seed| > 0 && Alphabets.AllBelow(seed, TrainingSets.VocabularySize(t.trainingSet.value))
    ensures SampleIndicesAsWritten(k, t, 0, Some(seed), advance, draws, cursor).out == Err(ArrayIndexOutOfBounds)
    ensures var l := SampleIndicesAsWritten(k, t, 0, Some(seed), advance, draws, cursor).next.net.value;
      NetworkTraining.Passed(l, |seed|) && NetworkTraining.AtEnd(l)
  {
    var v := TrainingSets.VocabularySize(t.trainingSet.value);
    var net := AsNet(t.net.value, true);
    assert Ready(net, v);
    NetworkSampling.AsWrittenZeroSamplesFails(k, net, v, seed, advance, draws, cursor);
  }

  /** With a one-index seed the seed pass has a single step, so the code as written and as
      intended draw the same indices whenever n > 0: the single-index overloads are not
      affected by the first-draw step. */
  lemma OneIndexSeedAgrees(k: Transcendentals, t: Single, n: int, seed: int, advance: bool,
                           draws: nat -> real, cursor: nat)
    requires SingleInv(t) && n > 0
    ensures SampleIndicesAsWritten(k, t, n, Some([seed]), advance, draws, cursor)
      == SampleIndices(k, t, n, Some([seed]), advance, draws, cursor)
  {
    NetworkSampling.OneIndexSeedAgrees(k, AsNet(t.net.value, t.initialized), n, seed, advance, draws, cursor);
  }
}

=== FILE: softmax.dfy ===
/** The softmax of `math/Math.java`: exponentiate every entry, then divide by the sum of
    the exponentials. With exp left abstract (but positive), the result is still provably
    a probability distribution. */
module Activations {
  import opened Kernel
  import opened Matrices

  /** `softmax(y)`: same shape as y, every entry positive, entries summing to 1, each entry
      the exponential of the matching entry of y scaled by the common normaliser. */
  function Softmax(k: Transcendentals, y: Matrix): (p: Matrix)
    ensures SameShape(p, y)
    ensures forall i, j :: 0 <= i < y.rows && 0 <= j < y.cols ==> p.data[i][j] > 0.0
    ensures Sum(p) == 1.0
    ensures Sum(Exp(k, y)) > 0.0
    ensures forall i, j :: 0 <= i < y.rows && 0 <= j < y.cols ==>
      p.data[i][j] * Sum(Exp(k, y)) == k.exp(y.data[i][j])
  {
    var e := Exp(k, y);
    SumPositive(e);
    var p := DivScalar(e, Sum(e));
    NormalisedEntries(k, y, e, p);
    NormalisedSumIsOne(e);
    p
  }

  /** Each entry of exp(y) divided by the positive sum is positive and is exp of y's entry
      over that sum. */
  lemma NormalisedEntries(k: Transcendentals, y: Matrix, e: Matrix, p: Matrix)
    requires e == Exp(k, y) && Sum(e) > 0.0 && p == DivScalar(e, Sum(e))
    ensures forall i, j :: 0 <= i < y.rows && 0 <= j < y.cols ==>
      p.data[i][j] > 0.0 && p.data[i][j] * Sum(e) == k.exp(y.data[i][j])
  {
    forall i, j | 0 <= i < y.rows && 0 <= j < y.cols
      ensures p.data[i][j] > 0.0 && p.data[i][j] * Sum(e) == k.exp(y.data[i][j])
    {
      assert e.data[i][j] == k.exp(y.data[i][j]);
      PositiveQuotient(p.data[i][j], Sum(e), e.data[i][j]);
    }
  }

  /** The normaliser of `softmax` is the sum of exp(y): entry (i, j) is exp(y[i][j]) / Sum(exp(y)). */
  lemma SoftmaxNormaliser(k: Transcendentals, y: Matrix, i: int, j: int)
    requires 0 <= i < y.rows && 0 <= j < y.cols
    ensures Softmax(k, y).data[i][j] == k.exp(y.data[i][j]) / Sum(Exp(k, y))
  {
    var s := Sum(Exp(k, y));
    QuotientOfProduct(Softmax(k, y).data[i][j], s, k.exp(y.data[i][j]));
  }

  lemma QuotientOfProduct(q: real, s: real, e: real)
    requires s > 0.0 && q * s == e
    ensures q == e / s
  {
  }

  lemma PositiveQuotient(q: real, s: real, e: real)
    requires s > 0.0 && e > 0.0 && q * s == e
    ensures q > 0.0
  {
  }

  /** Dividing every entry by the (non-zero) sum leaves entries summing to 1. */
  lemma NormalisedSumIsOne(e: Matrix)
    requires Sum(e) > 0.0
    ensures Sum(DivScalar(e, Sum(e))) == 1.0
  {
    var s := Sum(e);
    var p := DivScalar(e, s);
    SumScaled(e, p, s);
    UnitFactor(Sum(p), s, Sum(e));
  }

  lemma UnitFactor(q: real, s: real, t: real)
    requires s != 0.0 && q * s == t && t == s
    ensures q == 1.0
  {
    assert (q - 1.0) * s == 0.0;
  }

  lemma {:induction false} SumSeqScaled(s: seq<real>, t: seq<real>, x: real)
    requires |s| == |t|
    requires forall k :: 0 <= k < |s| ==> t[k] * x == s[k]
    ensures SumSeq(t) * x == SumSeq(s)
    decreases |s|
  {
    if |s| > 0 {
      var n := |s| - 1;
      SumSeqScaled(s[..n], t[..n], x);
      assert SumSeq(t) * x == SumSeq(t[..n]) * x + t[n] * x;
    }
  }

  lemma {:induction false} SumRowsScaled(d: seq<seq<real>>, e: seq<seq<real>>, m: nat, x: real)
    requires m <= |d| && m <= |e|
    requires forall i :: 0 <= i < m ==> |d[i]| == |e[i]|
    requires forall i, j :: 0 <= i < m && 0 <= j < |d[i]| ==> e[i][j] * x == d[i][j]
    ensures SumRows(e, m) * x == SumRows(d, m)
    decreases m
  {
    if m > 0 {
      SumRowsScaled(d, e, m - 1, x);
      SumSeqScaled(d[m - 1], e[m - 1], x);
      assert SumRows(e, m) * x == SumRows(e, m - 1) * x + SumSeq(e[m - 1]) * x;
    }
  }

  /** Scaling every entry scales the sum. */
  lemma SumScaled(a: Matrix, b: Matrix, x: real)
    requires SameShape(a, b)
    requires forall i, j :: 0 <= i < a.rows && 0 <= j < a.cols ==> b.data[i][j] * x == a.data[i][j]
    ensures Sum(b) * x == Sum(a)
  {
    SumRowsScaled(a.data, b.data, a.rows, x);
  }
}

=== FILE: stack.dfy ===
/** The layer stack of `net/MultiLayerRNN.java`.

    A network is configured with one hidden size per layer and a learning rate, then
    initialized for a vocabulary size v: layer 0 reads one-hot vectors of length v, each
    further layer reads the outputs of the layer below, and the last layer's outputs are
    scores over the vocabulary. */
module Network {
  import opened Outcomes
  import opened Kernel
  import opened Matrices
  import opened VectorAlgebra
  import opened Layers
  import opened LayerTraining

  /** `layers` is null before the first `initialize`; `hiddenSizes` is null until set or
      defaulted by `initialize`. */
  datatype Net = Net(
    layers: Option<seq<Layer>>,
    hiddenSizes: Option<seq<int>>,
    learningRate: real,
    initialized: bool)

  /** Hidden sizes as `setHiddenSize` accepts them: at least one layer, every size
      positive. */
  predicate ValidSizes(hs: seq<int>) {
    |hs| > 0 && forall i :: 0 <= i < |hs| ==> hs[i] > 0
  }

  /** The network invariant: accepted hidden sizes, every layer satisfying the layer
      invariant, and, once initialized, a non-empty layer array. */
  predicate NetInv(net: Net) {
    && (net.hiddenSizes.Some? ==> ValidSizes(net.hiddenSizes.value))
    && (net.layers.Some? ==> forall i :: 0 <= i < |net.layers.value| ==> Inv(net.layers.value[i]))
    && (net.initialized ==> net.layers.Some? && |net.layers.value| > 0)
  }

  /** `MultiLayerRNN()`: no layers, the default learning rate. */
  function NewNet(): (net: Net)
    ensures NetInv(net) && !net.initialized && net.learningRate == DefaultLearningRate
  {
    Net(None, None, DefaultLearningRate, false)
  }

  /* ---------------------------------------------------------------- Configure */

  /** `setHiddenSize(hiddenSize)`: null fails on its length, an empty array or a
      non-positive size is rejected; otherwise the sizes are taken and the network must be
      initialized again. */
  function SetHiddenSizes(net: Net, hs: Option<seq<int>>): (r: Result<Net>)
    ensures hs.None? ==> r == Err(NullPointer)
    ensures hs.Some? ==> (r.Ok? <==> ValidSizes(hs.value))
    ensures hs.Some? && r.Err? ==> r.error == IllegalArgument
    ensures r.Ok? ==> r.value == net.(hiddenSizes := hs, initialized := false)
    ensures r.Ok? && NetInv(net) ==> NetInv(r.value)
  {
    if hs.None? then Err(NullPointer)
    else if |hs.value| == 0 then Err(IllegalArgument)
    else if exists i :: 0 <= i < |hs.value| && hs.value[i] <= 0 then Err(IllegalArgument)
    else Ok(net.(hiddenSizes := hs, initialized := false))
  }

  /** `setLearningRate(rate)`: before the first `initialize` the rate is stored for it;
      afterwards it is handed to every layer, which de-initializes each of them, while the
      network's own rate and flag stay as they were. */
  function SetLearningRate(net: Net, rate: real): (r: Net)
    ensures net.layers.None? ==> r == net.(learningRate := rate)
    ensures net.layers.Some? ==>
      && r == net.(layers := r.layers)
      && r.layers.Some? && |r.layers.value| == |net.layers.value|
      && forall i :: 0 <= i < |net.layers.value| ==>
           r.layers.value[i] == net.layers.value[i].(core := None, learningRate := rate)
    ensures NetInv(net) ==> NetInv(r)
  {
    if net.layers.None? then net.(learningRate := rate)
    else
      var ls := net.layers.value;
      net.(layers := Some(seq(|ls|, i requires 0 <= i < |ls| => Layers.SetLearningRate(ls[i], rate))))
  }

  /* ---------------------------------------------------------------- Wiring */

  /** The input size of each layer: the vocabulary for layer 0, the hidden size of the layer
      below for the others. */
  function InputSizes(v: int, hs: seq<int>): (r: seq<int>)
    ensures |r| == |hs|
    ensures forall i :: 0 <= i < |hs| ==> r[i] == if i == 0 then v else hs[i - 1]
  {
    seq(|hs|, i requires 0 <= i < |hs| => if i == 0 then v else hs[i - 1])
  }

  /** The output size of each layer as `initialize` sets it: the vocabulary for the last
      layer, and the hidden size of the layer above for the others. */
  function OutputSizesAsWritten(v: int, hs: seq<int>): (r: seq<int>)
    ensures |r| == |hs|
    ensures forall i :: 0 <= i < |hs| ==> r[i] == if i == |hs| - 1 then v else hs[i + 1]
  {
    seq(|hs|, i requires 0 <= i < |hs| => if i == |hs| - 1 then v else hs[i + 1])
  }

  /** The output size of each layer as the stack needs it: the vocabulary for the last
      layer, and for the others the input size of the layer above, which is this layer's
      own hidden size. */
  function OutputSizes(v: int, hs: seq<int>): (r: seq<int>)
    ensures |r| == |hs|
    ensures forall i :: 0 <= i < |hs| ==> r[i] == if i == |hs| - 1 then v else hs[i]
  {
    seq(|hs|, i requires 0 <= i < |hs| => if i == |hs| - 1 then v else hs[i])
  }

  /** Each layer's outputs are the next layer's inputs, layer 0 reads the vocabulary and the
      last layer scores it. */
  predicate Chained(ls: seq<Layer>, v: int) {
    && |ls| > 0
    && ls[0].inputSize == v
    && ls[|ls| - 1].outputSize == v
    && forall i :: 0 <= i < |ls| - 1 ==> ls[i].outputSize == ls[i + 1].inputSize
  }

  /* ---------------------------------------------------------------- Initialize */

  /** One layer as `initialize` builds it: the default constructor, the input size, hidden
      size, learning rate and output size through the setters, then `initialize()`. Returns
      the layer and the advanced Gaussian cursor. */
  function MakeLayer(inputs: int, hidden: int, outputs: int, rate: real, gauss: nat -> real, cursor: nat): (r: (Layer, nat))
    requires inputs > 0 && hidden > 0 && outputs > 0
    ensures Fresh(r.0, inputs, hidden, outputs, rate)
  {
    var l1 := Layers.SetInputSize(NewLayerAsWritten(), inputs).next;
    var l2 := Layers.SetHiddenSize(l1, hidden).next;
    var l3 := Layers.SetLearningRate(l2, rate);
    var l4 := Layers.SetOutputSize(l3, outputs).next;
    Layers.Initialize(l4, gauss, cursor).value
  }

  /** A newly initialized layer of the given sizes and rate, before any pass. */
  predicate Fresh(l: Layer, inputs: int, hidden: int, outputs: int, rate: real) {
    && Inv(l) && l.Initialized()
    && l.inputSize == inputs && l.hiddenSize == hidden && l.outputSize == outputs
    && l.learningRate == rate && l.trace == NoTrace && l.dxs == None
  }

  /** Layers i .. |ins| - 1 with the given sizes, drawing their weights in order from the
      Gaussian stream. */
  function MakeLayers(ins: seq<int>, hs: seq<int>, outs: seq<int>, rate: real, gauss: nat -> real, cursor: nat, i: nat): (r: (seq<Layer>, nat))
    requires |ins| == |hs| == |outs| && i <= |hs|
    requires forall j :: 0 <= j < |hs| ==> ins[j] > 0 && hs[j] > 0 && outs[j] > 0
    ensures |r.0| == |hs| - i
    ensures forall j :: 0 <= j < |r.0| ==> Fresh(r.0[j], ins[i + j], hs[i + j], outs[i + j], rate)
    decreases |hs| - i
  {
    if i == |hs| then ([], cursor)
    else
      var (l, c) := MakeLayer(ins[i], hs[i], outs[i], rate, gauss, cursor);
      var (rest, c') := MakeLayers(ins, hs, outs, rate, gauss, c, i + 1);
      ([l] + rest, c')
  }

  /** The hidden sizes `initialize` uses: the configured ones, or one layer of the default
      size. */
  function SizesOrDefault(net: Net): (hs: seq<int>)
    requires NetInv(net)
    ensures ValidSizes(hs)
  {
    if net.hiddenSizes.None? then [DefaultHiddenSize] else net.hiddenSizes.value
  }

  /** `initialize(v)` as written: rejects v < 1; otherwise builds the layers with the output
      sizes of `OutputSizesAsWritten`. */
  function InitializeAsWritten(net: Net, v: int, gauss: nat -> real, cursor: nat): (r: Result<(Net, nat)>)
    requires NetInv(net)
    ensures r.Ok? <==> v >= 1
    ensures r.Err? ==> r.error == IllegalArgument
    ensures r.Ok? ==> NetInv(r.value.0) && r.value.0.initialized
    ensures r.Ok? ==>
      var hs := SizesOrDefault(net);
      Built(r.value.0.layers.value, InputSizes(v, hs), hs, OutputSizesAsWritten(v, hs), net.learningRate)
  {
    if v < 1 then Err(IllegalArgument)
    else
      var hs := SizesOrDefault(net);
      var (ls, c) := MakeLayers(InputSizes(v, hs), hs, OutputSizesAsWritten(v, hs), net.learningRate, gauss, cursor, 0);
      Ok((Net(Some(ls), Some(hs), net.learningRate, true), c))
  }

  /** `initialize(v)` with each layer's outputs sized for the layer above. */
  function Initialize(net: Net, v: int, gauss: nat -> real, cursor: nat): (r: Result<(Net, nat)>)
    requires NetInv(net)
    ensures r.Ok? <==> v >= 1
    ensures r.Err? ==> r.error == IllegalArgument
    ensures r.Ok? ==> NetInv(r.value.0) && r.value.0.initialized
    ensures r.Ok? ==>
      var hs := SizesOrDefault(net);
      && r.value.0.learningRate == net.learningRate
      && r.value.0.hiddenSizes == Some(hs)
      && Built(r.value.0.layers.value, InputSizes(v, hs), hs, OutputSizes(v, hs), net.learningRate)
  {
    if v < 1 then Err(IllegalArgument)
    else
      var hs := SizesOrDefault(net);
      var (ls, c) := MakeLayers(InputSizes(v, hs), hs, OutputSizes(v, hs), net.learningRate, gauss, cursor, 0);
      Ok((Net(Some(ls), Some(hs), net.learningRate, true), c))
  }

  /** One fresh layer per hidden size, with the given input and output sizes. */
  predicate Built(ls: seq<Layer>, ins: seq<int>, hs: seq<int>, outs: seq<int>, rate: real)
    requires |ins| == |hs| == |outs|
  {
    |ls| == |hs| && forall j :: 0 <= j < |ls| ==> Fresh(ls[j], ins[j], hs[j], outs[j], rate)
  }

  /** The layers `Initialize` builds form a chain over the vocabulary. */
  lemma InitializeChains(net: Net, v: int, gauss: nat -> real, cursor: nat)
    requires NetInv(net) && v >= 1
    ensures Chained(Initialize(net, v, gauss, cursor).value.0.layers.value, v)
  {
    var hs := SizesOrDefault(net);
    var ls := Initialize(net, v, gauss, cursor).value.0.layers.value;
    assert Built(ls, InputSizes(v, hs), hs, OutputSizes(v, hs), net.learningRate);
    forall i | 0 <= i < |ls| - 1
      ensures ls[i].outputSize == ls[i + 1].inputSize
    {
      assert Fresh(ls[i], InputSizes(v, hs)[i], hs[i], OutputSizes(v, hs)[i], net.learningRate);
      assert Fresh(ls[i + 1], InputSizes(v, hs)[i + 1], hs[i + 1], OutputSizes(v, hs)[i + 1], net.learningRate);
    }
    assert Fresh(ls[0], InputSizes(v, hs)[0], hs[0], OutputSizes(v, hs)[0], net.learningRate);
    assert Fresh(ls[|ls| - 1], InputSizes(v, hs)[|ls| - 1], hs[|ls| - 1], OutputSizes(v, hs)[|ls| - 1], net.learningRate);
  }

  /** `getVocabularySize()`: the input size of layer 0, once initialized. */
  function GetVocabularySize(net: Net): (r: Result<int>)
    requires NetInv(net)
    ensures r.Ok? <==> net.initialized
    ensures r.Err? ==> r.error == IllegalState
    ensures r.Ok? ==> r.value == net.layers.value[0].inputSize
  {
    if !net.initialized then Err(IllegalState)
    else Ok(net.layers.value[0].inputSize)
  }

  /** After `initialize(v)` the network reports vocabulary size v. */
  lemma InitializeSetsVocabulary(net: Net, v: int, gauss: nat -> real, cursor: nat)
    requires NetInv(net) && v >= 1
    ensures GetVocabularySize(Initialize(net, v, gauss, cursor).value.0) == Ok(v)
  {
  }

  /** With no hidden sizes configured, `initialize` builds one layer of the default hidden
      size. */
  lemma InitializeDefaultsToOneLayer(v: int, gauss: nat -> real, cursor: nat)
    requires v >= 1
    ensures
      var ls := Initialize(NewNet(), v, gauss, cursor).value.0.layers.value;
      |ls| == 1 && ls[0].hiddenSize == DefaultHiddenSize && ls[0].inputSize == v && ls[0].outputSize == v
  {
  }

  /** As written, layer i's outputs have the size of layer i + 1's hidden state while layer
      i + 1 reads inputs of layer i's hidden size: the two agree exactly when the two hidden
      sizes do. */
  lemma AsWrittenChainedIff(net: Net, v: int, gauss: nat -> real, cursor: nat)
    requires NetInv(net) && v >= 1
    ensures
      var hs := SizesOrDefault(net);
      var ls := InitializeAsWritten(net, v, gauss, cursor).value.0.layers.value;
      && |ls| == |hs|
      && (Chained(ls, v) <==> forall i :: 0 <= i < |hs| - 1 ==> hs[i] == hs[i + 1])
  {
    var hs := SizesOrDefault(net);
    var ls := AsWrittenLayers(net, v, gauss, cursor);
    if Chained(ls, v) {
      forall i | 0 <= i < |hs| - 1
        ensures hs[i] == hs[i + 1]
      {
        assert ls[i].outputSize == ls[i + 1].inputSize;
      }
    }
    if forall i :: 0 <= i < |hs| - 1 ==> hs[i] == hs[i + 1] {
      forall i | 0 <= i < |ls| - 1
        ensures ls[i].outputSize == ls[i + 1].inputSize
      {
        assert hs[i] == hs[i + 1];
      }
    }
  }

  /** The sizes `InitializeAsWritten` gives its layers, as seen from each pair of
      neighbours: layer j's outputs have layer j + 1's hidden size, and layer j + 1 reads
      inputs of layer j's hidden size. */
  predicate AsWrittenSizes(ls: seq<Layer>, v: int, hs: seq<int>) {
    && |ls| == |hs| > 0
    && ls[0].inputSize == v
    && ls[|ls| - 1].outputSize == v
    && forall j :: 0 <= j < |ls| - 1 ==> ls[j].outputSize == hs[j + 1] && ls[j + 1].inputSize == hs[j]
  }

  /** The layers `InitializeAsWritten` builds, initialized, with the sizes it gives them. */
  lemma AsWrittenLayers(net: Net, v: int, gauss: nat -> real, cursor: nat) returns (ls: seq<Layer>)
    requires NetInv(net) && v >= 1
    ensures ls == InitializeAsWritten(net, v, gauss, cursor).value.0.layers.value
    ensures forall j :: 0 <= j < |ls| ==> Inv(ls[j]) && ls[j].Initialized()
    ensures AsWrittenSizes(ls, v, SizesOrDefault(net))
  {
    var hs := SizesOrDefault(net);
    ls := InitializeAsWritten(net, v, gauss, cursor).value.0.layers.value;
    var ins := InputSizes(v, hs);
    var outs := OutputSizesAsWritten(v, hs);
    assert Built(ls, ins, hs, outs, net.learningRate);
    forall j | 0 <= j < |ls|
      ensures Inv(ls[j]) && ls[j].Initialized() && ls[j].inputSize == ins[j] && ls[j].outputSize == outs[j]
    {
      assert Fresh(ls[j], ins[j], hs[j], outs[j], net.learningRate);
    }
    forall j | 0 <= j < |ls| - 1
      ensures ls[j].outputSize == hs[j + 1] && ls[j + 1].inputSize == hs[j]
    {
      assert ls[j].outputSize == outs[j];
      assert ls[j + 1].inputSize == ins[j + 1];
    }
    assert ls[0].inputSize == ins[0];
    assert ls[|ls| - 1].outputSize == outs[|ls| - 1];
  }
}

=== FILE: stacksample.dfy ===
/** `sampleIndices` of `net/MultiLayerRNN.java`: a seed pass up the stack, then one draw
    per sample, each sample fed back one-hot through the whole stack; with advance false
    every layer's hidden state is saved first and restored at the end. */
module NetworkSampling {
  import opened Outcomes
  import opened Kernel
  import opened Matrices
  import opened VectorAlgebra
  import opened Layers
  import opened LayerTraining
  import opened LayerSampling
  import opened Network
  import opened NetworkTraining
  import Random
  import Alphabets

  /* ---------------------------------------------------------------- Saving and restoring every layer */

  /** `saveHiddenState()` of every layer in order; the first uninitialized layer throws. */
  function SaveAll(ls: seq<Layer>): (r: Result<seq<Matrix>>)
    ensures r.Ok? <==> forall j :: 0 <= j < |ls| ==> ls[j].Initialized()
    ensures r.Err? ==> r.error == IllegalState
    ensures r.Ok? ==> |r.value| == |ls| && forall j :: 0 <= j < |ls| ==> r.value[j] == ls[j].core.value.h
    decreases |ls|
  {
    if |ls| == 0 then Ok([])
    else
      var h :- SaveHiddenState(ls[0]);
      var rest :- SaveAll(ls[1..]);
      Ok([h] + rest)
  }

  /** b is a with its hidden state replaced by h. */
  predicate Restored(a: Layer, b: Layer, h: Matrix) {
    a.Initialized() && b == a.(core := Some(a.core.value.(h := h)))
  }

  /** `restoreHiddenState(saved[j])` for layers j = i .. |ls| - 1 in order; a failing layer
      stops the loop, the layers before it keep their restored state. */
  function RestoreAll(ls: seq<Layer>, saved: seq<Matrix>, i: nat): (s: Step<seq<Layer>, ()>)
    requires i <= |ls| == |saved| && AllInv(ls)
    ensures |s.next| == |ls|
    ensures forall j :: 0 <= j < |ls| ==> Advanced(ls[j], s.next[j]) && s.next[j].trace == ls[j].trace
    ensures forall j :: 0 <= j < i ==> s.next[j] == ls[j]
    ensures s.out.Ok? <==> forall j :: i <= j < |ls| ==> ls[j].Initialized() && IsVectorOf(saved[j], ls[j].hiddenSize)
    ensures s.out.Ok? ==> forall j :: i <= j < |ls| ==> Restored(ls[j], s.next[j], saved[j])
    decreases |ls| - i
  {
    if i == |ls| then Step(ls, Ok(()))
    else
      match RestoreHiddenState(ls[i], Some(saved[i]))
      case Err(e) => Step(ls, Err(e))
      case Ok(l') => RestoreAll(ls[i := l'], saved, i + 1)
  }

  /* ---------------------------------------------------------------- One draw */

  /** `getp()[t + 1].unravel()`: the probabilities of step t of the layer's last pass. The
      model does not tell a missing array from a missing slot; both are unreachable after a
      successful pass. */
  function ProbabilitiesAt(l: Layer, t: int): (r: Result<seq<real>>)
    ensures r.Ok? <==> l.Initialized() && 0 <= t < |l.trace.ps|
    ensures !l.Initialized() ==> r == Err(IllegalState)
    ensures r.Ok? ==> r.value == Unravel(l.trace.ps[t])
  {
    var ps :- GetP(l);
    if 0 <= t < |ps| then Ok(Unravel(ps[t])) else Err(ArrayIndexOutOfBounds)
  }

  /** `randomChoice(getp()[t + 1].unravel())` with uniform draw u. */
  function DrawAt(l: Layer, t: int, u: real): (r: Result<int>)
    ensures r.Ok? <==> ProbabilitiesAt(l, t).Ok?
    ensures r.Ok? ==> r == Random.RandomChoice(Some(ProbabilitiesAt(l, t).value), u)
  {
    var p :- ProbabilitiesAt(l, t);
    Random.RandomChoice(Some(p), u)
  }

  /** The layer at the top of the stack. */
  function Top(ls: seq<Layer>): Layer
    requires |ls| > 0
  {
    ls[|ls| - 1]
  }

  /* ---------------------------------------------------------------- The sampling loop */

  /** The Advanced relation is transitive: passes never change the configuration, the
      weights or the dx slots. */
  lemma AdvancedTrans(a: Layer, b: Layer, c: Layer)
    requires Advanced(a, b) && Advanced(b, c)
    ensures Advanced(a, c)
  {
  }

  /** One step of the loop: the previous sample x one-hot through the whole stack, a draw
      with u from the top layer's probabilities, and the one-hot encoding of the drawn
      index for the next step (computed after the last draw too, as the loop does). */
  function LoopStep(k: Transcendentals, ls: seq<Layer>, x: Matrix, u: real): (s: Step<seq<Layer>, (int, Matrix)>)
    requires |ls| > 0 && AllInv(ls)
    ensures |s.next| == |ls|
    ensures forall j :: 0 <= j < |ls| ==> Advanced(ls[j], s.next[j])
  {
    var f := ForwardUp(k, ls, 0, Some([Some(x)]));
    if f.out.Err? then Step(f.next, Err(f.out.error))
    else
      match DrawAt(Top(f.next), 0, u)
      case Err(e) => Step(f.next, Err(e))
      case Ok(ix) =>
        match IxToXSingle(f.next[0], ix)
        case Err(e) => Step(f.next, Err(e))
        case Ok(x') => Step(f.next, Ok((ix, x')))
  }

  /** A loop step as a value, so that the loop and its proofs see only the facts stated
      about it. */
  type LoopStepFn = (seq<Layer>, Matrix, real) -> Step<seq<Layer>, (int, Matrix)>

  /** `LoopStep` on layers satisfying the invariant; every call the loop makes meets that
      condition, so the other branch is never taken. */
  function StackStep(k: Transcendentals): LoopStepFn {
    (ls: seq<Layer>, x: Matrix, u: real) =>
      if |ls| > 0 && AllInv(ls) then LoopStep(k, ls, x, u) else Step(ls, Err(IllegalState))
  }

  /** A step keeps the layer count and advances every layer. */
  ghost predicate StepKeeps(step: LoopStepFn) {
    forall ls: seq<Layer>, x: Matrix, u: real {:trigger step(ls, x, u)} :: |ls| > 0 && AllInv(ls) ==>
      && |step(ls, x, u).next| == |ls|
      && forall j :: 0 <= j < |ls| ==> Advanced(ls[j], step(ls, x, u).next[j])
  }

  lemma StackStepKeeps(k: Transcendentals)
    ensures StepKeeps(StackStep(k))
  {
    forall ls: seq<Layer>, x: Matrix, u: real | |ls| > 0 && AllInv(ls)
      ensures |StackStep(k)(ls, x, u).next| == |ls|
      ensures forall j :: 0 <= j < |ls| ==> Advanced(ls[j], StackStep(k)(ls, x, u).next[j])
    {
      assert StackStep(k)(ls, x, u) == LoopStep(k, ls, x, u);
    }
  }

  /** m more steps of the loop, with the draws draws(c), draws(c + 1), …; returns the drawn
      indices. */
  function SampleLoop(step: LoopStepFn, ls: seq<Layer>, x: Matrix, m: nat, draws: nat -> real, c: nat): (s: Step<seq<Layer>, seq<int>>)
    requires StepKeeps(step) && |ls| > 0 && AllInv(ls)
    ensures |s.next| == |ls|
    ensures forall j :: 0 <= j < |ls| ==> Advanced(ls[j], s.next[j])
    ensures s.out.Ok? ==> |s.out.value| == m
    decreases m
  {
    if m == 0 then Step(ls, Ok([]))
    else
      var u := draws(c);
      var st := step(ls, x, u);
      assert AllInv(st.next) by {
        assert forall j :: 0 <= j < |ls| ==> Advanced(ls[j], st.next[j]);
      }
      if st.out.Err? then Step(st.next, Err(st.out.error))
      else
        var (ix, x') := st.out.value;
        var rest := SampleLoop(step, st.next, x', m - 1, draws, c + 1);
        forall j | 0 <= j < |ls|
          ensures Advanced(ls[j], rest.next[j])
        {
          AdvancedTrans(ls[j], st.next[j], rest.next[j]);
        }
        Step(rest.next, if rest.out.Err? then Err(rest.out.error) else Ok([ix] + rest.out.value))
  }

  /** From the first sample on: its one-hot encoding, then m more steps of the loop. */
  function Continue(k: Transcendentals, ls: seq<Layer>, first: int, m: nat, draws: nat -> real, c: nat): (s: Step<seq<Layer>, seq<int>>)
    requires |ls| > 0 && AllInv(ls)
    ensures |s.next| == |ls|
    ensures forall j :: 0 <= j < |ls| ==> Advanced(ls[j], s.next[j])
    ensures s.out.Ok? ==> |s.out.value| == m + 1 && s.out.value[0] == first
  {
    match IxToXSingle(ls[0], first)
    case Err(e) => Step(ls, Err(e))
    case Ok(x) =>
      StackStepKeeps(k);
      var rest := SampleLoop(StackStep(k), ls, x, m, draws, c);
      Step(rest.next, if rest.out.Err? then Err(rest.out.error) else Ok([first] + rest.out.value))
  }

  /* ---------------------------------------------------------------- sampleIndices */

  /** What sampling leaves of a network: the same configuration and layer count, and in
      every layer the same configuration, weights, accumulators and dx slots; only hidden
      states and traces may differ. */
  predicate SampledFrom(net: Net, net': Net) {
    && NetInv(net') && net'.initialized == net.initialized
    && net'.hiddenSizes == net.hiddenSizes && net'.learningRate == net.learningRate
    && net'.layers.Some? == net.layers.Some?
    && (net.layers.Some? ==>
         && |net'.layers.value| == |net.layers.value|
         && forall j :: 0 <= j < |net.layers.value| ==> Advanced(net.layers.value[j], net'.layers.value[j]))
  }

  /** The seed pass: `ixTox(seed)` on layer 0, then a forward pass up the stack. */
  function SeedPass(k: Transcendentals, ls: seq<Layer>, seed: seq<int>): (s: Step<seq<Layer>, ()>)
    requires |ls| > 0 && AllInv(ls)
    ensures |s.next| == |ls|
    ensures forall j :: 0 <= j < |ls| ==> Advanced(ls[j], s.next[j])
  {
    match IxToX(ls[0], Some(seed))
    case Err(e) => Step(ls, Err(e))
    case Ok(xs) => ForwardUp(k, ls, 0, Some(Present(xs)))
  }

  /** The part both versions share: the checks (uninitialized network, negative n, null
      seed, in that order), the saved hidden states when advance is false (a layer
      de-initialized by a later `setLearningRate` fails here), and the seed pass. Returns
      the network after the seed pass and the saved states. */
  function Prepare(k: Transcendentals, net: Net, n: int, seed: Option<seq<int>>, advance: bool): (s: Step<Net, Option<seq<Matrix>>>)
    requires NetInv(net)
    ensures SampledFrom(net, s.next)
    ensures !net.initialized ==> s == Step(net, Err(IllegalState))
    ensures net.initialized && n < 0 ==> s == Step(net, Err(IllegalArgument))
    ensures net.initialized && n >= 0 && seed.None? ==> s == Step(net, Err(NullPointer))
    ensures s.out.Ok? ==> net.initialized && n >= 0 && seed.Some?
    ensures s.out.Ok? && advance ==> s.out.value.None?
    ensures s.out.Ok? && !advance ==>
      net.initialized && SaveAll(net.layers.value).Ok? && s.out.value == Some(SaveAll(net.layers.value).value)
  {
    if !net.initialized then Step(net, Err(IllegalState))
    else if n < 0 then Step(net, Err(IllegalArgument))
    else if seed.None? then Step(net, Err(NullPointer))
    else
      var ls := net.layers.value;
      var saved := if advance then Ok(None) else (var r := SaveAll(ls); if r.Err? then Err(r.error) else Ok(Some(r.value)));
      if saved.Err? then Step(net, Err(saved.error))
      else
        var p := SeedPass(k, ls, seed.value);
        var net' := net.(layers := Some(p.next));
        assert NetInv(net') by {
          assert forall j :: 0 <= j < |ls| ==> Advanced(ls[j], p.next[j]);
        }
        Step(net', if p.out.Err? then Err(p.out.error) else Ok(saved.value))
  }

  /** The end both versions share: a failed loop leaves the layers as it stopped; otherwise,
      with saved states, every layer gets its saved hidden state back before the indices
      are returned. */
  function Finish(net: Net, r: Step<seq<Layer>, seq<int>>, saved: Option<seq<Matrix>>): (s: Step<Net, seq<int>>)
    requires NetInv(net) && net.initialized
    requires |r.next| == |net.layers.value|
    requires forall j :: 0 <= j < |r.next| ==> Advanced(net.layers.value[j], r.next[j])
    requires saved.Some? ==> |saved.value| == |r.next|
    ensures SampledFrom(net, s.next)
    ensures s.out.Ok? ==> s.out == r.out
  {
    var ls := net.layers.value;
    assert AllInv(r.next) by {
      assert forall j :: 0 <= j < |ls| ==> Advanced(ls[j], r.next[j]);
    }
    if r.out.Err? then Step(net.(layers := Some(r.next)), Err(r.out.error))
    else if saved.None? then Step(net.(layers := Some(r.next)), r.out)
    else
      var q := RestoreAll(r.next, saved.value, 0);
      forall j | 0 <= j < |ls|
        ensures Advanced(ls[j], q.next[j])
      {
        AdvancedTrans(ls[j], r.next[j], q.next[j]);
      }
      Step(net.(layers := Some(q.next)), if q.out.Err? then Err(q.out.error) else r.out)
  }

  /** `sampleIndices(n, seed, advance)` as written: the first sample is drawn from the
      probabilities of step 1 of the seed pass, and is stored into `sampled[0]` even when
      n is 0, which throws ArrayIndexOutOfBoundsException after the seed pass and before
      any hidden state is restored. */
  function SampleIndicesAsWritten(k: Transcendentals, net: Net, n: int, seed: Option<seq<int>>, advance: bool,
                                  draws: nat -> real, cursor: nat): (s: Step<Net, seq<int>>)
    requires NetInv(net)
    ensures SampledFrom(net, s.next)
    ensures !net.initialized ==> s == Step(net, Err(IllegalState))
    ensures net.initialized && n < 0 ==> s == Step(net, Err(IllegalArgument))
    ensures net.initialized && n >= 0 && seed.None? ==> s == Step(net, Err(NullPointer))
    ensures s.out.Ok? ==> |s.out.value| == n
  {
    var p := Prepare(k, net, n, seed, advance);
    if p.out.Err? then Step(p.next, Err(p.out.error))
    else AfterSeedAsWritten(k, net, p.next.layers.value, p.out.value, n, draws, cursor)
  }

  /** What `sampleIndices` as written does after the seed pass left the layers `ls`: a
      first draw from the probabilities of step 1 of the top layer, then the store into
      `sampled[0]` that fails for n = 0, n - 1 more steps and the shared end. */
  function AfterSeedAsWritten(k: Transcendentals, net: Net, ls: seq<Layer>, saved: Option<seq<Matrix>>, n: nat,
                              draws: nat -> real, cursor: nat): (s: Step<Net, seq<int>>)
    requires NetInv(net) && net.initialized
    requires |ls| == |net.layers.value|
    requires forall j :: 0 <= j < |ls| ==> Advanced(net.layers.value[j], ls[j])
    requires saved.Some? ==> |saved.value| == |ls|
    ensures SampledFrom(net, s.next)
    ensures s.out.Ok? ==> |s.out.value| == n
  {
    assert AllInv(ls) by {
      assert forall j :: 0 <= j < |ls| ==> Advanced(net.layers.value[j], ls[j]);
    }
    match DrawAt(Top(ls), 0, draws(cursor))
    case Err(e) => Step(net.(layers := Some(ls)), Err(e))
    case Ok(first) =>
      if n == 0 then Step(net.(layers := Some(ls)), Err(ArrayIndexOutOfBounds))
      else
        var r := Continue(k, ls, first, n - 1, draws, cursor + 1);
        forall j | 0 <= j < |ls|
          ensures Advanced(net.layers.value[j], r.next[j])
        {
          AdvancedTrans(net.layers.value[j], ls[j], r.next[j]);
        }
        Finish(net, r, saved)
  }


  /** `sampleIndices(n, seed, advance)` as intended: n = 0 returns no indices (restoring
      the hidden states when advance is false), and the first sample is drawn from the
      probabilities of the last step of the seed pass, the one that has seen the whole
      seed. */
  function SampleIndices(k: Transcendentals, net: Net, n: int, seed: Option<seq<int>>, advance: bool,
                         draws: nat -> real, cursor: nat): (s: Step<Net, seq<int>>)
    requires NetInv(net)
    ensures SampledFrom(net, s.next)
    ensures !net.initialized ==> s == Step(net, Err(IllegalState))
    ensures net.initialized && n < 0 ==> s == Step(net, Err(IllegalArgument))
    ensures net.initialized && n >= 0 && seed.None? ==> s == Step(net, Err(NullPointer))
    ensures s.out.Ok? ==> |s.out.value| == n
  {
    var p := Prepare(k, net, n, seed, advance);
    if p.out.Err? then Step(p.next, Err(p.out.error))
    else AfterSeed(k, net, p.next.layers.value, p.out.value, n, |seed.value| - 1, draws, cursor)
  }

  /** What `sampleIndices` as intended does after the seed pass left the layers `ls`: no
      draw for n = 0, otherwise a first draw from the probabilities of step t of the top
      layer and n - 1 more steps; then the shared end. */
  function AfterSeed(k: Transcendentals, net: Net, ls: seq<Layer>, saved: Option<seq<Matrix>>, n: nat, t: int,
                     draws: nat -> real, cursor: nat): (s: Step<Net, seq<int>>)
    requires NetInv(net) && net.initialized
    requires |ls| == |net.layers.value|
    requires forall j :: 0 <= j < |ls| ==> Advanced(net.layers.value[j], ls[j])
    requires saved.Some? ==> |saved.value| == |ls|
    ensures SampledFrom(net, s.next)
    ensures s.out.Ok? ==> |s.out.value| == n
  {
    assert AllInv(ls) by {
      assert forall j :: 0 <= j < |ls| ==> Advanced(net.layers.value[j], ls[j]);
    }
    if n == 0 then Finish(net, Step(ls, Ok([])), saved)
    else
      match DrawAt(Top(ls), t, draws(cursor))
      case Err(e) => Step(net.(layers := Some(ls)), Err(e))
      case Ok(first) =>
        var r := Continue(k, ls, first, n - 1, draws, cursor + 1);
        forall j | 0 <= j < |ls|
          ensures Advanced(net.layers.value[j], r.next[j])
        {
          AdvancedTrans(net.layers.value[j], ls[j], r.next[j]);
        }
        Finish(net, r, saved)
  }

  /* ---------------------------------------------------------------- Success on a ready network */

  /** A draw from step t of a pass that fits the layer picks an output index. */
  lemma DrawInRange(l: Layer, t: int, u: real)
    requires Inv(l) && l.Initialized() && TraceFits(l) && 0 <= t < |l.trace.ps|
    ensures DrawAt(l, t, u).Ok? && 0 <= DrawAt(l, t, u).value < l.outputSize
  {
    assert StepsOf(l.trace).ps[t] == l.trace.ps[t];
    assert IsColumnOf(l.trace.ps[t], l.outputSize);
  }

  /** Prepending an index in range keeps every index in range. */
  lemma AllBelowCons(i: int, ix: seq<int>, v: int)
    requires 0 <= i < v && Alphabets.AllBelow(ix, v)
    ensures Alphabets.AllBelow([i] + ix, v)
  {
    forall t | 0 <= t < |[i] + ix|
      ensures 0 <= ([i] + ix)[t] < v
    {
      if t > 0 {
        assert ([i] + ix)[t] == ix[t - 1];
      }
    }
  }

  /** Layers ready to sample v-way: initialized, chained, reading and scoring v indices. */
  predicate SampleReady(ls: seq<Layer>, v: int) {
    && |ls| > 0 && ReadyFrom(ls, 0) && ChainedFrom(ls, 0)
    && ls[0].inputSize == v && Top(ls).outputSize == v
  }

  /** Passes keep a stack ready to sample. */
  lemma AdvancedKeepsReady(ls: seq<Layer>, ls': seq<Layer>, v: int)
    requires SampleReady(ls, v) && |ls'| == |ls|
    requires forall j :: 0 <= j < |ls| ==> Advanced(ls[j], ls'[j])
    ensures SampleReady(ls', v)
  {
    assert Advanced(ls[0], ls'[0]) && Advanced(Top(ls), Top(ls'));
    forall j | 0 <= j < |ls| - 1
      ensures ls'[j].outputSize == ls'[j + 1].inputSize
    {
      assert Advanced(ls[j], ls'[j]) && Advanced(ls[j + 1], ls'[j + 1]);
    }
  }

  /** A step that, on a ready stack and an input vector, succeeds with an index in [0, v),
      its one-hot encoding, and a stack still ready. */
  ghost predicate StepReady(step: LoopStepFn, v: int) {
    forall ls: seq<Layer>, x: Matrix, u: real {:trigger step(ls, x, u)} :: SampleReady(ls, v) && IsVectorOf(x, v) ==>
      && step(ls, x, u).out.Ok?
      && 0 <= step(ls, x, u).out.value.0 < v
      && IsVectorOf(step(ls, x, u).out.value.1, v)
      && SampleReady(step(ls, x, u).next, v)
  }

  /** On a ready stack one loop step succeeds: a one-step pass, a draw in [0, v), and its
      encoding. */
  lemma LoopStepOk(k: Transcendentals, ls: seq<Layer>, v: int, x: Matrix, u: real)
    requires SampleReady(ls, v) && IsVectorOf(x, v)
    ensures LoopStep(k, ls, x, u).out.Ok?
    ensures 0 <= LoopStep(k, ls, x, u).out.value.0 < v && IsVectorOf(LoopStep(k, ls, x, u).out.value.1, v)
    ensures SampleReady(LoopStep(k, ls, x, u).next, v)
  {
    assert Present([x]) == [Some(x)];
    ForwardUpOk(k, ls, 0, [x]);
    var f := ForwardUp(k, ls, 0, Some([Some(x)]));
    AdvancedKeepsReady(ls, f.next, v);
    var top := Top(f.next);
    assert Passed(top, 1);
    DrawInRange(top, 0, u);
    var ix := DrawAt(top, 0, u).value;
    assert IxToXSingle(f.next[0], ix).Ok?;
    assert LoopStep(k, ls, x, u) == Step(f.next, Ok((ix, IxToXSingle(f.next[0], ix).value)));
  }

  lemma StackStepReady(k: Transcendentals, v: int)
    ensures StepReady(StackStep(k), v)
  {
    forall ls: seq<Layer>, x: Matrix, u: real | SampleReady(ls, v) && IsVectorOf(x, v)
      ensures StackStep(k)(ls, x, u).out.Ok?
      ensures 0 <= StackStep(k)(ls, x, u).out.value.0 < v && IsVectorOf(StackStep(k)(ls, x, u).out.value.1, v)
      ensures SampleReady(StackStep(k)(ls, x, u).next, v)
    {
      assert StackStep(k)(ls, x, u) == LoopStep(k, ls, x, u);
      LoopStepOk(k, ls, v, x, u);
    }
  }

  /** On a ready stack the loop draws m indices, each in [0, v). */
  lemma {:induction false} SampleLoopOk(step: LoopStepFn, ls: seq<Layer>, v: int, x: Matrix, m: nat, draws: nat -> real, c: nat)
    requires StepKeeps(step) && StepReady(step, v)
    requires SampleReady(ls, v) && IsVectorOf(x, v)
    ensures SampleLoop(step, ls, x, m, draws, c).out.Ok?
    ensures Alphabets.AllBelow(SampleLoop(step, ls, x, m, draws, c).out.value, v)
    decreases m
  {
    if m > 0 {
      var u := draws(c);
      var st := step(ls, x, u);
      var (ix, x') := st.out.value;
      SampleLoopOk(step, st.next, v, x', m - 1, draws, c + 1);
      var rest := SampleLoop(step, st.next, x', m - 1, draws, c + 1).out.value;
      assert SampleLoop(step, ls, x, m, draws, c).out == Ok([ix] + rest);
      AllBelowCons(ix, rest, v);
    }
  }

  /** From a first index in [0, v), a ready stack yields m + 1 indices in [0, v). */
  lemma ContinueOk(k: Transcendentals, ls: seq<Layer>, v: int, first: int, m: nat, draws: nat -> real, c: nat)
    requires SampleReady(ls, v) && 0 <= first < v
    ensures Continue(k, ls, first, m, draws, c).out.Ok?
    ensures Alphabets.AllBelow(Continue(k, ls, first, m, draws, c).out.value, v)
  {
    var x := IxToXSingle(ls[0], first).value;
    StackStepKeeps(k);
    StackStepReady(k, v);
    SampleLoopOk(StackStep(k), ls, v, x, m, draws, c);
    var rest := SampleLoop(StackStep(k), ls, x, m, draws, c).out.value;
    assert Continue(k, ls, first, m, draws, c).out == Ok([first] + rest);
    AllBelowCons(first, rest, v);
  }

  /** A ready network's layers are ready to sample v-way. */
  lemma ReadyToSample(net: Net, v: int)
    requires Ready(net, v)
    ensures SampleReady(net.layers.value, v)
  {
    var ls := net.layers.value;
    assert AllInv(ls) by {
      assert forall j :: 0 <= j < |ls| ==> Inv(ls[j]);
    }
  }

  /** On a stack ready to sample v-way, a non-empty seed of indices in [0, v) passes through
      every layer; each records a pass over the whole seed and holds the hidden state at
      its end. */
  lemma SeedPassOk(k: Transcendentals, ls: seq<Layer>, v: int, seed: seq<int>) returns (ls': seq<Layer>)
    requires SampleReady(ls, v) && |seed| > 0 && Alphabets.AllBelow(seed, v)
    ensures SeedPass(k, ls, seed).out.Ok? && SeedPass(k, ls, seed).next == ls'
    ensures SampleReady(ls', v) && |ls'| == |ls|
    ensures forall j :: 0 <= j < |ls'| ==> Passed(ls'[j], |seed|) && AtEnd(ls'[j])
  {
    var xs := SeedPassUp(k, ls, seed);
    assert FeedsFrom(ls, 0, xs);
    ForwardUpOk(k, ls, 0, xs);
    ls' := SeedPass(k, ls, seed).next;
    AdvancedKeepsReady(ls, ls', v);
  }

  /** A seed of valid indices is the pass up the stack from layer 0 on their one-hot
      vectors. */
  lemma SeedPassUp(k: Transcendentals, ls: seq<Layer>, seed: seq<int>) returns (xs: seq<Matrix>)
    requires |ls| > 0 && AllInv(ls) && IxToX(ls[0], Some(seed)).Ok?
    ensures xs == IxToX(ls[0], Some(seed)).value && |xs| == |seed|
    ensures SeedPass(k, ls, seed) == ForwardUp(k, ls, 0, Some(Present(xs)))
  {
    xs := IxToX(ls[0], Some(seed)).value;
  }

  /** On a ready network with n >= 0 and a non-empty seed of indices in [0, v), the
      checks, the save and the seed pass succeed. */
  lemma PrepareOk(k: Transcendentals, net: Net, v: int, n: int, seed: seq<int>, advance: bool) returns (ls': seq<Layer>)
    requires Ready(net, v) && n >= 0 && |seed| > 0 && Alphabets.AllBelow(seed, v)
    ensures Prepare(k, net, n, Some(seed), advance).out.Ok?
    ensures Prepare(k, net, n, Some(seed), advance).next == net.(layers := Some(ls'))
    ensures ls' == SeedPass(k, net.layers.value, seed).next
    ensures SampleReady(ls', v) && |ls'| == |net.layers.value|
    ensures forall j :: 0 <= j < |ls'| ==> Passed(ls'[j], |seed|) && AtEnd(ls'[j])
  {
    ReadyToSample(net, v);
    ls' := SeedPassOk(k, net.layers.value, v, seed);
  }

  /** With the states saved from a network whose layers are all initialized, a successful
      loop is followed by a restore that succeeds and gives every layer its saved hidden
      state back. */
  lemma FinishRestores(net: Net, r: Step<seq<Layer>, seq<int>>)
    requires NetInv(net) && net.initialized && SaveAll(net.layers.value).Ok?
    requires |r.next| == |net.layers.value| && r.out.Ok?
    requires forall j :: 0 <= j < |r.next| ==> Advanced(net.layers.value[j], r.next[j])
    ensures Finish(net, r, Some(SaveAll(net.layers.value).value)).out == r.out
    ensures forall j :: 0 <= j < |r.next| ==>
      Restored(r.next[j], Finish(net, r, Some(SaveAll(net.layers.value).value)).next.layers.value[j], net.layers.value[j].core.value.h)
  {
    var ls := net.layers.value;
    var saved := SaveAll(ls).value;
    assert AllInv(r.next) by {
      assert forall j :: 0 <= j < |ls| ==> Advanced(ls[j], r.next[j]);
    }
    forall j | 0 <= j < |ls|
      ensures r.next[j].Initialized() && IsVectorOf(saved[j], r.next[j].hiddenSize)
    {
      assert Advanced(ls[j], r.next[j]) && Inv(ls[j]);
    }
    assert RestoreAll(r.next, saved, 0).out.Ok?;
  }

  /** What the seed pass leaves for the rest of `sampleIndices`: layers that advanced from
      the network's own, ready to sample v-way, and saved states (if any) for each. */
  predicate SeededFrom(net: Net, ls: seq<Layer>, saved: Option<seq<Matrix>>, v: int) {
    && NetInv(net) && net.initialized
    && |ls| == |net.layers.value|
    && (forall j :: 0 <= j < |ls| ==> Advanced(net.layers.value[j], ls[j]))
    && (saved.Some? ==> |saved.value| == |ls|)
    && SampleReady(ls, v)
  }

  /** After a seed pass that left the stack ready to sample, and a first draw in [0, v)
      when n > 0, the loop yields n indices in [0, v) and then goes to the shared end. */
  lemma AfterSeedOk(k: Transcendentals, net: Net, ls: seq<Layer>, saved: Option<seq<Matrix>>, v: int, n: nat, t: int,
                    draws: nat -> real, cursor: nat) returns (r: Step<seq<Layer>, seq<int>>)
    requires SeededFrom(net, ls, saved, v)
    requires n > 0 ==> DrawAt(Top(ls), t, draws(cursor)).Ok? && 0 <= DrawAt(Top(ls), t, draws(cursor)).value < v
    ensures |r.next| == |ls|
    ensures forall j :: 0 <= j < |r.next| ==> Advanced(net.layers.value[j], r.next[j])
    ensures r.out.Ok? && |r.out.value| == n && Alphabets.AllBelow(r.out.value, v)
    ensures n > 0 ==> r.out.value[0] == DrawAt(Top(ls), t, draws(cursor)).value
    ensures AfterSeed(k, net, ls, saved, n, t, draws, cursor) == Finish(net, r, saved)
  {
    if n == 0 {
      r := AfterSeedZero(k, net, ls, saved, t, draws, cursor);
    } else {
      r := AfterSeedMore(k, net, ls, saved, v, n, t, draws, cursor);
    }
  }

  /** After the seed pass, n = 0 goes straight to the shared end with no indices. */
  lemma AfterSeedZero(k: Transcendentals, net: Net, ls: seq<Layer>, saved: Option<seq<Matrix>>, t: int,
                      draws: nat -> real, cursor: nat) returns (r: Step<seq<Layer>, seq<int>>)
    requires NetInv(net) && net.initialized
    requires |ls| == |net.layers.value|
    requires forall j :: 0 <= j < |ls| ==> Advanced(net.layers.value[j], ls[j])
    requires saved.Some? ==> |saved.value| == |ls|
    ensures |r.next| == |ls|
    ensures forall j :: 0 <= j < |r.next| ==> Advanced(net.layers.value[j], r.next[j])
    ensures r.out == Ok([])
    ensures AfterSeed(k, net, ls, saved, 0, t, draws, cursor) == Finish(net, r, saved)
  {
    r := Step(ls, Ok([]));
  }

  /** Once the checks, the save and the seed pass succeed, `sampleIndices` as intended
      continues from the layers the seed pass left, drawing first at its last step. */
  lemma SampleIndicesAfterSeed(k: Transcendentals, net: Net, v: int, n: int, seed: seq<int>, advance: bool,
                               draws: nat -> real, cursor: nat, ls': seq<Layer>, saved: Option<seq<Matrix>>)
    requires NetInv(net)
    ensures Prepare(k, net, n, Some(seed), advance) == Step(net.(layers := Some(ls')), Ok(saved)) && SeededFrom(net, ls', saved, v)
      ==> n >= 0 && SampleIndices(k, net, n, Some(seed), advance, draws, cursor) == AfterSeed(k, net, ls', saved, n, |seed| - 1, draws, cursor)
  {
  }

  /** After a seed pass that left the stack ready to sample, a first draw in [0, v) leads
      to a successful loop of n indices in [0, v), followed by the shared end. */
  lemma AfterSeedMore(k: Transcendentals, net: Net, ls: seq<Layer>, saved: Option<seq<Matrix>>, v: int, n: nat, t: int,
                      draws: nat -> real, cursor: nat) returns (r: Step<seq<Layer>, seq<int>>)
    requires NetInv(net) && net.initialized
    requires |ls| == |net.layers.value|
    requires forall j :: 0 <= j < |ls| ==> Advanced(net.layers.value[j], ls[j])
    requires saved.Some? ==> |saved.value| == |ls|
    requires SampleReady(ls, v) && n > 0
    requires DrawAt(Top(ls), t, draws(cursor)).Ok? && 0 <= DrawAt(Top(ls), t, draws(cursor)).value < v
    ensures |r.next| == |ls|
    ensures forall j :: 0 <= j < |r.next| ==> Advanced(net.layers.value[j], r.next[j])
    ensures r.out.Ok? && |r.out.value| == n && Alphabets.AllBelow(r.out.value, v)
    ensures r.out.value[0] == DrawAt(Top(ls), t, draws(cursor)).value
    ensures AfterSeed(k, net, ls, saved, n, t, draws, cursor) == Finish(net, r, saved)
  {
    var first := DrawAt(Top(ls), t, draws(cursor)).value;
    var m: nat := n - 1;
    var c: nat := cursor + 1;
    ContinueOk(k, ls, v, first, m, draws, c);
    r := Continue(k, ls, first, m, draws, c);
    assert r.out.Ok?;
    assert |r.out.value| == n && Alphabets.AllBelow(r.out.value, v);
    AdvancedChain(net.layers.value, ls, r.next);
    AfterSeedIs(k, net, ls, saved, n, t, draws, cursor, r);
  }

  /** Passes after passes are passes, layer by layer. */
  lemma AdvancedChain(a: seq<Layer>, b: seq<Layer>, c: seq<Layer>)
    requires |a| == |b| == |c|
    requires forall j :: 0 <= j < |a| ==> Advanced(a[j], b[j])
    requires forall j :: 0 <= j < |b| ==> Advanced(b[j], c[j])
    ensures forall j :: 0 <= j < |a| ==> Advanced(a[j], c[j])
  {
    forall j | 0 <= j < |a|
      ensures Advanced(a[j], c[j])
    {
      AdvancedTrans(a[j], b[j], c[j]);
    }
  }

  /** With a first draw, `AfterSeed` is the loop from that draw followed by the shared
      end. */
  lemma AfterSeedIs(k: Transcendentals, net: Net, ls: seq<Layer>, saved: Option<seq<Matrix>>, n: nat, t: int,
                    draws: nat -> real, cursor: nat, r: Step<seq<Layer>, seq<int>>)
    requires NetInv(net) && net.initialized
    requires |ls| == |net.layers.value|
    requires forall j :: 0 <= j < |ls| ==> Advanced(net.layers.value[j], ls[j])
    requires saved.Some? ==> |saved.value| == |ls|
    requires AllInv(ls) && n > 0 && DrawAt(Top(ls), t, draws(cursor)).Ok?
    requires r == Continue(k, ls, DrawAt(Top(ls), t, draws(cursor)).value, n - 1, draws, cursor + 1)
    requires |r.next| == |ls| && forall j :: 0 <= j < |ls| ==> Advanced(net.layers.value[j], r.next[j])
    ensures AfterSeed(k, net, ls, saved, n, t, draws, cursor) == Finish(net, r, saved)
  {
  }

  /** After the seed pass, a draw from the probabilities the top layer recorded at any
      step t of the seed picks an index in [0, v). */
  lemma FirstDraw(k: Transcendentals, net: Net, v: int, n: int, seed: seq<int>, advance: bool, t: int, u: real)
    returns (ls': seq<Layer>, saved: Option<seq<Matrix>>, first: int)
    requires Ready(net, v) && n >= 0 && |seed| > 0 && Alphabets.AllBelow(seed, v) && 0 <= t < |seed|
    ensures Prepare(k, net, n, Some(seed), advance) == Step(net.(layers := Some(ls')), Ok(saved))
    ensures ls' == SeedPass(k, net.layers.value, seed).next
    ensures SeededFrom(net, ls', saved, v)
    ensures advance ==> saved.None?
    ensures !advance ==> SaveAll(net.layers.value).Ok? && saved == Some(SaveAll(net.layers.value).value)
    ensures DrawAt(Top(ls'), t, u) == Ok(first) && 0 <= first < v
  {
    ls' := PrepareOk(k, net, v, n, seed, advance);
    saved := Prepare(k, net, n, Some(seed), advance).out.value;
    var top := Top(ls');
    assert Passed(top, |seed|);
    DrawInRange(top, t, u);
    first := DrawAt(top, t, u).value;
  }

  /** On a ready network the seed pass and the loop succeed whichever seed step t the
      first draw reads: n indices in [0, v), the first of them drawn at step t of the top
      layer, and states saved exactly when advance is false. */
  lemma SeedAndLoop(k: Transcendentals, net: Net, v: int, n: int, seed: seq<int>, advance: bool, t: int,
                    draws: nat -> real, cursor: nat)
    returns (ls': seq<Layer>, saved: Option<seq<Matrix>>, r: Step<seq<Layer>, seq<int>>)
    requires Ready(net, v) && n >= 0 && |seed| > 0 && Alphabets.AllBelow(seed, v) && 0 <= t < |seed|
    ensures Prepare(k, net, n, Some(seed), advance) == Step(net.(layers := Some(ls')), Ok(saved))
    ensures ls' == SeedPass(k, net.layers.value, seed).next
    ensures SeededFrom(net, ls', saved, v)
    ensures advance ==> saved.None?
    ensures !advance ==> SaveAll(net.layers.value).Ok? && saved == Some(SaveAll(net.layers.value).value)
    ensures |r.next| == |ls'|
    ensures forall j :: 0 <= j < |r.next| ==> Advanced(net.layers.value[j], r.next[j])
    ensures r.out.Ok? && |r.out.value| == n && Alphabets.AllBelow(r.out.value, v)
    ensures n > 0 ==> DrawAt(Top(ls'), t, draws(cursor)).Ok? && r.out.value[0] == DrawAt(Top(ls'), t, draws(cursor)).value
    ensures AfterSeed(k, net, ls', saved, n, t, draws, cursor) == Finish(net, r, saved)
  {
    var first;
    ls', saved, first := FirstDraw(k, net, v, n, seed, advance, t, draws(cursor));
    r := AfterSeedOk(k, net, ls', saved, v, n, t, draws, cursor);
  }

  /** The shared end after a successful loop, with no saved states or with those of the
      network before the call: the loop's indices, and in the second case every layer's
      hidden state as it was before the call. */
  lemma FinishOk(net: Net, r: Step<seq<Layer>, seq<int>>, saved: Option<seq<Matrix>>)
    requires NetInv(net) && net.initialized
    requires |r.next| == |net.layers.value| && r.out.Ok?
    requires forall j :: 0 <= j < |r.next| ==> Advanced(net.layers.value[j], r.next[j])
    requires saved.Some? ==> SaveAll(net.layers.value).Ok? && saved.value == SaveAll(net.layers.value).value
    ensures Finish(net, r, saved).out == r.out
    ensures saved.Some? ==> forall j :: 0 <= j < |net.layers.value| ==>
      Finish(net, r, saved).next.layers.value[j].core.value.h == net.layers.value[j].core.value.h
  {
    if saved.Some? {
      FinishRestores(net, r);
      var ls := net.layers.value;
      var s := Finish(net, r, saved);
      forall j | 0 <= j < |ls|
        ensures s.next.layers.value[j].core.value.h == ls[j].core.value.h
      {
        assert Restored(r.next[j], s.next.layers.value[j], ls[j].core.value.h);
      }
    }
  }

  /** `sampleIndices` as intended, on a ready network with n >= 0 and a non-empty seed of
      indices in [0, v): n indices, each in [0, v); with advance false every layer's hidden
      state afterwards is the one it had before the call. */
  lemma SampleIndicesSucceeds(k: Transcendentals, net: Net, v: int, n: int, seed: seq<int>, advance: bool,
                              draws: nat -> real, cursor: nat)
    requires Ready(net, v) && n >= 0 && |seed| > 0 && Alphabets.AllBelow(seed, v)
    ensures SampleIndices(k, net, n, Some(seed), advance, draws, cursor).out.Ok?
    ensures |SampleIndices(k, net, n, Some(seed), advance, draws, cursor).out.value| == n
    ensures Alphabets.AllBelow(SampleIndices(k, net, n, Some(seed), advance, draws, cursor).out.value, v)
    ensures !advance ==> forall j :: 0 <= j < |net.layers.value| ==>
      SampleIndices(k, net, n, Some(seed), advance, draws, cursor).next.layers.value[j].core.value.h
        == net.layers.value[j].core.value.h
  {
    var ls', saved, r := SeedAndLoop(k, net, v, n, seed, advance, |seed| - 1, draws, cursor);
    SampleIndicesAfterSeed(k, net, v, n, seed, advance, draws, cursor, ls', saved);
    FinishOk(net, r, saved);
  }

  /* ---------------------------------------------------------------- As written */

  /** For n > 0 the as-written continuation after the seed pass is the intended one, with
      the first draw read at step 1 (slot 0) instead of the last step of the seed. */
  lemma AsWrittenReadsFirstStep(k: Transcendentals, net: Net, ls: seq<Layer>, saved: Option<seq<Matrix>>, n: nat,
                                draws: nat -> real, cursor: nat)
    requires NetInv(net) && net.initialized
    requires |ls| == |net.layers.value|
    requires forall j :: 0 <= j < |ls| ==> Advanced(net.layers.value[j], ls[j])
    requires saved.Some? ==> |saved.value| == |ls|
    requires n > 0
    ensures AfterSeedAsWritten(k, net, ls, saved, n, draws, cursor) == AfterSeed(k, net, ls, saved, n, 0, draws, cursor)
  {
  }

  /** With a seed of one index the seed pass has one step, so the code as written and as
      intended draw the first index from the same probabilities and agree for n > 0. */
  lemma OneIndexSeedAgrees(k: Transcendentals, net: Net, n: int, seed: int, advance: bool,
                           draws: nat -> real, cursor: nat)
    requires NetInv(net) && n > 0
    ensures SampleIndicesAsWritten(k, net, n, Some([seed]), advance, draws, cursor)
      == SampleIndices(k, net, n, Some([seed]), advance, draws, cursor)
  {
    var p := Prepare(k, net, n, Some([seed]), advance);
    if p.out.Ok? {
      AsWrittenReadsFirstStep(k, net, p.next.layers.value, p.out.value, n, draws, cursor);
    }
  }

  /** Once the checks, the save and the seed pass succeed, `sampleIndices` as written
      continues from the layers the seed pass left. */
  lemma SampleIndicesAsWrittenAfterSeed(k: Transcendentals, net: Net, v: int, n: int, seed: seq<int>, advance: bool,
                                        draws: nat -> real, cursor: nat, ls': seq<Layer>, saved: Option<seq<Matrix>>)
    requires NetInv(net)
    ensures Prepare(k, net, n, Some(seed), advance) == Step(net.(layers := Some(ls')), Ok(saved)) && SeededFrom(net, ls', saved, v)
      ==> n >= 0 && SampleIndicesAsWritten(k, net, n, Some(seed), advance, draws, cursor) == AfterSeedAsWritten(k, net, ls', saved, n, draws, cursor)
  {
  }

  /** `sampleIndices` as written, on a ready network with n > 0 and a non-empty seed of
      indices in [0, v): n indices in [0, v), the hidden states restored when advance is
      false, and the first index drawn from the probabilities the top layer recorded at
      step 1 of the seed pass. */
  lemma SampleIndicesAsWrittenSucceeds(k: Transcendentals, net: Net, v: int, n: int, seed: seq<int>, advance: bool,
                                       draws: nat -> real, cursor: nat)
    requires Ready(net, v) && n > 0 && |seed| > 0 && Alphabets.AllBelow(seed, v)
    ensures SampleIndicesAsWritten(k, net, n, Some(seed), advance, draws, cursor).out.Ok?
    ensures |SampleIndicesAsWritten(k, net, n, Some(seed), advance, draws, cursor).out.value| == n
    ensures Alphabets.AllBelow(SampleIndicesAsWritten(k, net, n, Some(seed), advance, draws, cursor).out.value, v)
    ensures !advance ==> forall j :: 0 <= j < |net.layers.value| ==>
      SampleIndicesAsWritten(k, net, n, Some(seed), advance, draws, cursor).next.layers.value[j].core.value.h
        == net.layers.value[j].core.value.h
    ensures DrawAt(Top(SeedPass(k, net.layers.value, seed).next), 0, draws(cursor)).Ok?
    ensures SampleIndicesAsWritten(k, net, n, Some(seed), advance, draws, cursor).out.value[0]
      == DrawAt(Top(SeedPass(k, net.layers.value, seed).next), 0, draws(cursor)).value
  {
    var ls', saved, r := SeedAndLoop(k, net, v, n, seed, advance, 0, draws, cursor);
    SampleIndicesAsWrittenAfterSeed(k, net, v, n, seed, advance, draws, cursor, ls', saved);
    AsWrittenReadsFirstStep(k, net, ls', saved, n, draws, cursor);
    FinishOk(net, r, saved);
  }

  /** `sampleIndices(0, seed, advance)` as written, on a ready network with a valid seed:
      ArrayIndexOutOfBoundsException, with every layer left at the end of the seed pass
      even when advance is false. */
  lemma AsWrittenZeroSamplesFails(k: Transcendentals, net: Net, v: int, seed: seq<int>, advance: bool,
                                  draws: nat -> real, cursor: nat)
    requires Ready(net, v) && |seed| > 0 && Alphabets.AllBelow(seed, v)
    ensures SampleIndicesAsWritten(k, net, 0, Some(seed), advance, draws, cursor)
      == Step(net.(layers := Some(SeedPass(k, net.layers.value, seed).next)), Err(ArrayIndexOutOfBounds))
    ensures forall j :: 0 <= j < |net.layers.value| ==>
      Passed(SeedPass(k, net.layers.value, seed).next[j], |seed|) && AtEnd(SeedPass(k, net.layers.value, seed).next[j])
  {
    var ls', saved, first := FirstDraw(k, net, v, 0, seed, advance, 0, draws(cursor));
    SampleIndicesAsWrittenAfterSeed(k, net, v, 0, seed, advance, draws, cursor, ls', saved);
    ls' := PrepareOk(k, net, v, 0, seed, advance);
  }

  /* ---------------------------------------------------------------- Where the first sample comes from */

  /** Two forward passes up the same layers from i, on inputs whose first slots agree,
      record the same output and probabilities at step 1 in every layer they pass, when
      both complete. */
  lemma {:induction false} ForwardUpFirstAgree(k: Transcendentals, ls1: seq<Layer>, ls2: seq<Layer>, i: nat,
                                               x1: Option<seq<Option<Matrix>>>, x2: Option<seq<Option<Matrix>>>)
    requires FirstFed(ls1, ls2, i, x1, x2)
    ensures BothPass(k, ls1, ls2, i, x1, x2) ==>
      AgreeFrom(ForwardUp(k, ls1, i, x1).next, ForwardUp(k, ls2, i, x2).next, i)
    decreases |ls1| - i, 1
  {
    if i < |ls1| {
      ForwardUpFirstAgreeAt(k, ls1, ls2, i, x1, x2);
    }
  }

  /** Layers a and b agree at step 1 from i up. */
  predicate AgreeFrom(a: seq<Layer>, b: seq<Layer>, i: nat) {
    forall j :: i <= j < |a| && j < |b| ==> FirstAgree(a[j], b[j])
  }

  /** Two stacks equal from i up, fed inputs whose first slots agree. */
  predicate FirstFed(ls1: seq<Layer>, ls2: seq<Layer>, i: nat,
                     x1: Option<seq<Option<Matrix>>>, x2: Option<seq<Option<Matrix>>>) {
    && i <= |ls1| == |ls2| && AllInv(ls1) && AllInv(ls2)
    && (forall j :: i <= j < |ls1| ==> ls1[j] == ls2[j])
    && x1.Some? && x2.Some? && |x1.value| > 0 && |x2.value| > 0 && x1.value[0] == x2.value[0]
  }

  /** Both passes from i complete. */
  predicate BothPass(k: Transcendentals, ls1: seq<Layer>, ls2: seq<Layer>, i: nat,
                     x1: Option<seq<Option<Matrix>>>, x2: Option<seq<Option<Matrix>>>)
    requires i <= |ls1| && i <= |ls2| && AllInv(ls1) && AllInv(ls2)
  {
    ForwardUp(k, ls1, i, x1).out.Ok? && ForwardUp(k, ls2, i, x2).out.Ok?
  }

  /** The case of `ForwardUpFirstAgree` where layer i exists. */
  lemma {:induction false} ForwardUpFirstAgreeAt(k: Transcendentals, ls1: seq<Layer>, ls2: seq<Layer>, i: nat,
                                                 x1: Option<seq<Option<Matrix>>>, x2: Option<seq<Option<Matrix>>>)
    requires FirstFed(ls1, ls2, i, x1, x2) && i < |ls1|
    ensures BothPass(k, ls1, ls2, i, x1, x2) ==>
      AgreeFrom(ForwardUp(k, ls1, i, x1).next, ForwardUp(k, ls2, i, x2).next, i)
    decreases |ls1| - i, 0
  {
    if BothPass(k, ls1, ls2, i, x1, x2) {
      var l1, l2 := FirstLayerAgrees(k, ls1, ls2, i, x1, x2);
      var y1, y2 := Some(Present(l1.trace.ys)), Some(Present(l2.trace.ys));
      assert FirstFed(ls1[i := l1], ls2[i := l2], i + 1, y1, y2);
      assert BothPass(k, ls1[i := l1], ls2[i := l2], i + 1, y1, y2);
      ForwardUpFirstAgree(k, ls1[i := l1], ls2[i := l2], i + 1, y1, y2);
      FirstAgreeJoins(k, ls1, ls2, i, x1, x2, l1, l2);
    }
  }

  /** When both passes complete, layer i of both stacks agrees at step 1 and feeds the
      layers above it outputs whose first slots agree. */
  lemma FirstLayerAgrees(k: Transcendentals, ls1: seq<Layer>, ls2: seq<Layer>, i: nat,
                         x1: Option<seq<Option<Matrix>>>, x2: Option<seq<Option<Matrix>>>) returns (l1: Layer, l2: Layer)
    requires FirstFed(ls1, ls2, i, x1, x2) && i < |ls1|
    ensures BothPass(k, ls1, ls2, i, x1, x2) ==>
      && Inv(l1) && Inv(l2) && FirstAgree(l1, l2)
      && ForwardUp(k, ls1, i, x1) == ForwardUp(k, ls1[i := l1], i + 1, Some(Present(l1.trace.ys)))
      && ForwardUp(k, ls2, i, x2) == ForwardUp(k, ls2[i := l2], i + 1, Some(Present(l2.trace.ys)))
      && FirstFed(ls1[i := l1], ls2[i := l2], i + 1, Some(Present(l1.trace.ys)), Some(Present(l2.trace.ys)))
      && BothPass(k, ls1[i := l1], ls2[i := l2], i + 1, Some(Present(l1.trace.ys)), Some(Present(l2.trace.ys)))
  {
    l1 := LayerPassNext(k, ls1, i, x1);
    l2 := LayerPassNext(k, ls2, i, x2);
    if BothPass(k, ls1, ls2, i, x1, x2) {
      assert ForwardUp(k, ls1, i, x1).out.Ok? && ForwardUp(k, ls2, i, x2).out.Ok?;
      assert ls1[i] == ls2[i];
      FirstStepAgrees(k, ls1[i], x1, x2);
      assert FirstAgree(l1, l2);
      NextFirstFed(ls1, ls2, i, x1, x2, l1, l2);
    }
  }

  /** Replacing layer i of two stacks fed alike by layers that agree at step 1 leaves the
      stacks from i + 1 up fed alike by those layers' outputs. */
  lemma NextFirstFed(ls1: seq<Layer>, ls2: seq<Layer>, i: nat, x1: Option<seq<Option<Matrix>>>,
                     x2: Option<seq<Option<Matrix>>>, l1: Layer, l2: Layer)
    requires FirstFed(ls1, ls2, i, x1, x2) && i < |ls1| && Inv(l1) && Inv(l2) && FirstAgree(l1, l2)
    ensures FirstFed(ls1[i := l1], ls2[i := l2], i + 1, Some(Present(l1.trace.ys)), Some(Present(l2.trace.ys)))
  {
    var y1 := Present(l1.trace.ys);
    var y2 := Present(l2.trace.ys);
    assert y1[0] == Some(l1.trace.ys[0]) && y2[0] == Some(l2.trace.ys[0]);
  }

  /** When the pass from i completes, layer i completes, and the pass goes on from i + 1
      on its outputs. */
  lemma LayerPassNext(k: Transcendentals, ls: seq<Layer>, i: nat, x: Option<seq<Option<Matrix>>>) returns (l': Layer)
    requires i < |ls| && AllInv(ls)
    ensures ForwardUp(k, ls, i, x).out.Ok? ==>
      && Forward(k, ls[i], x) == Ok(l') && Inv(l') && |l'.trace.ys| > 0
      && ForwardUp(k, ls, i, x) == ForwardUp(k, ls[i := l'], i + 1, Some(Present(l'.trace.ys)))
      && ForwardUp(k, ls[i := l'], i + 1, Some(Present(l'.trace.ys))).out.Ok?
  {
    l' := ls[i];
    if ForwardUp(k, ls, i, x).out.Ok? {
      l' := Forward(k, ls[i], x).value;
      ForwardKeepsInv(k, ls[i], x.value);
      ForwardUpNext(k, ls, i, x, l');
    }
  }

  /** Layer i agreeing at step 1 joins the layers above it that agree. */
  lemma FirstAgreeJoins(k: Transcendentals, ls1: seq<Layer>, ls2: seq<Layer>, i: nat,
                        x1: Option<seq<Option<Matrix>>>, x2: Option<seq<Option<Matrix>>>, l1: Layer, l2: Layer)
    requires i < |ls1| == |ls2| && AllInv(ls1) && AllInv(ls2) && Inv(l1) && Inv(l2) && FirstAgree(l1, l2)
    ensures
      && ForwardUp(k, ls1, i, x1) == ForwardUp(k, ls1[i := l1], i + 1, Some(Present(l1.trace.ys)))
      && ForwardUp(k, ls2, i, x2) == ForwardUp(k, ls2[i := l2], i + 1, Some(Present(l2.trace.ys)))
      && AgreeFrom(ForwardUp(k, ls1[i := l1], i + 1, Some(Present(l1.trace.ys))).next,
                   ForwardUp(k, ls2[i := l2], i + 1, Some(Present(l2.trace.ys))).next, i + 1)
      ==> AgreeFrom(ForwardUp(k, ls1, i, x1).next, ForwardUp(k, ls2, i, x2).next, i)
  {
    var next1 := ForwardUp(k, ls1[i := l1], i + 1, Some(Present(l1.trace.ys))).next;
    var next2 := ForwardUp(k, ls2[i := l2], i + 1, Some(Present(l2.trace.ys))).next;
    assert next1[i] == l1 && next2[i] == l2;
  }

  /** Seed passes over two seeds with the same first index leave, in every layer, the same
      output and probabilities at step 1. */
  lemma SeedPassFirstAgree(k: Transcendentals, ls: seq<Layer>, v: int, seed1: seq<int>, seed2: seq<int>)
    requires SampleReady(ls, v)
    requires |seed1| > 0 && Alphabets.AllBelow(seed1, v) && |seed2| > 0 && Alphabets.AllBelow(seed2, v) && seed1[0] == seed2[0]
    ensures AgreeFrom(SeedPass(k, ls, seed1).next, SeedPass(k, ls, seed2).next, 0)
    ensures FirstAgree(Top(SeedPass(k, ls, seed1).next), Top(SeedPass(k, ls, seed2).next))
  {
    var ls1 := SeedPassOk(k, ls, v, seed1);
    var ls2 := SeedPassOk(k, ls, v, seed2);
    var x1 := SeedPassIs(k, ls, seed1);
    var x2 := SeedPassIs(k, ls, seed2);
    SameFirstInput(ls[0], seed1, seed2);
    ForwardUpFirstAgree(k, ls, ls, 0, x1, x2);
    assert Top(ls1) == ls1[|ls| - 1];
  }

  /** A seed pass that completes is the pass up the stack from layer 0 on the seed's one-hot
      vectors, all present. */
  lemma SeedPassIs(k: Transcendentals, ls: seq<Layer>, seed: seq<int>) returns (x: Option<seq<Option<Matrix>>>)
    requires |ls| > 0 && AllInv(ls)
    ensures SeedPass(k, ls, seed).out.Ok? ==>
      && IxToX(ls[0], Some(seed)).Ok? && x == Some(Present(IxToX(ls[0], Some(seed)).value))
      && |x.value| > 0 && x.value[0] == Some(IxToX(ls[0], Some(seed)).value[0])
      && SeedPass(k, ls, seed) == ForwardUp(k, ls, 0, x)
  {
    x := if IxToX(ls[0], Some(seed)).Ok? then Some(Present(IxToX(ls[0], Some(seed)).value)) else None;
  }

  /** Seeds with the same first index have the same first input vector. */
  lemma SameFirstInput(l: Layer, seed1: seq<int>, seed2: seq<int>)
    requires IxToX(l, Some(seed1)).Ok? && IxToX(l, Some(seed2)).Ok? && seed1[0] == seed2[0]
    ensures IxToX(l, Some(seed1)).value[0] == IxToX(l, Some(seed2)).value[0]
  {
  }

  /** As written, the first sample ignores all of the seed but its first index: two seeds
      that start alike give the same first sample for the same uniform draw. */
  lemma AsWrittenFirstSampleIgnoresSeedTail(k: Transcendentals, net: Net, v: int, n: int, seed1: seq<int>, seed2: seq<int>,
                                            advance: bool, draws: nat -> real, cursor: nat)
    requires Ready(net, v) && n > 0
    requires |seed1| > 0 && Alphabets.AllBelow(seed1, v) && |seed2| > 0 && Alphabets.AllBelow(seed2, v) && seed1[0] == seed2[0]
    ensures SampleIndicesAsWritten(k, net, n, Some(seed1), advance, draws, cursor).out.Ok?
    ensures SampleIndicesAsWritten(k, net, n, Some(seed2), advance, draws, cursor).out.Ok?
    ensures SampleIndicesAsWritten(k, net, n, Some(seed1), advance, draws, cursor).out.value[0]
      == SampleIndicesAsWritten(k, net, n, Some(seed2), advance, draws, cursor).out.value[0]
  {
    SampleIndicesAsWrittenSucceeds(k, net, v, n, seed1, advance, draws, cursor);
    SampleIndicesAsWrittenSucceeds(k, net, v, n, seed2, advance, draws, cursor);
    var ls := net.layers.value;
    ReadyToSample(net, v);
    SeedPassFirstAgree(k, ls, v, seed1, seed2);
    var top1 := Top(SeedPass(k, ls, seed1).next);
    var top2 := Top(SeedPass(k, ls, seed2).next);
    assert FirstAgree(top1, top2);
    assert ProbabilitiesAt(top1, 0) == ProbabilitiesAt(top2, 0);
  }

  /** An initialized layer whose recorded pass follows the recurrence with its weights. */
  predicate Recorded(k: Transcendentals, l: Layer) {
    && Inv(l) && l.Initialized() && |l.trace.xs| > 0
    && AllFollow(k, l.core.value.w, l.trace.xs, StepsOf(l.trace), l.inputSize, l.hiddenSize, l.outputSize)
  }

  /** After a successful forward pass up the stack from i, every layer it passed holds a
      record that follows the recurrence. */
  lemma {:induction false} ForwardUpRecords(k: Transcendentals, ls: seq<Layer>, i: nat, x: Option<seq<Option<Matrix>>>)
    requires i <= |ls| && AllInv(ls) && ForwardUp(k, ls, i, x).out.Ok?
    ensures forall j :: i <= j < |ls| ==> Recorded(k, ForwardUp(k, ls, i, x).next[j])
    decreases |ls| - i
  {
    if i < |ls| {
      var l' := Forward(k, ls[i], x).value;
      ForwardFollows(k, ls[i], x.value);
      ForwardKeepsInv(k, ls[i], x.value);
      ForwardUpNext(k, ls, i, x, l');
      var y := Some(Present(l'.trace.ys));
      ForwardUpRecords(k, ls[i := l'], i + 1, y);
      assert ForwardUp(k, ls[i := l'], i + 1, y).next[i] == l';
    }
  }

  /** The first index is drawn, with uniform draw u, from the probabilities a recorded
      layer holds at step t: the softmax of the output the recurrence gives for the hidden
      state after step t. */
  predicate DrawnAt(k: Transcendentals, l: Layer, t: int, first: int, u: real) {
    && Recorded(k, l) && 0 <= t < |l.trace.xs|
    && Follows(k, l.core.value.w, l.trace.xs, StepsOf(l.trace), t, l.inputSize, l.hiddenSize, l.outputSize)
    && Random.RandomChoice(Some(Unravel(l.trace.ps[t])), u) == Ok(first)
  }

  /** A draw at step t of a recorded layer is drawn there. */
  lemma DrawAtRecorded(k: Transcendentals, l: Layer, t: int, u: real)
    requires Recorded(k, l) && 0 <= t < |l.trace.xs| && DrawAt(l, t, u).Ok?
    ensures DrawnAt(k, l, t, DrawAt(l, t, u).value, u)
  {
    assert Follows(k, l.core.value.w, l.trace.xs, StepsOf(l.trace), t, l.inputSize, l.hiddenSize, l.outputSize);
  }

  /** `sampleIndices` as intended draws the first index at the last step of the seed pass
      in the top layer, whose hidden state after that step is the layer's current state:
      the state each later step draws from in turn. */
  lemma FirstSampleFromWholeSeed(k: Transcendentals, net: Net, v: int, n: int, seed: seq<int>, advance: bool,
                                 draws: nat -> real, cursor: nat)
    requires Ready(net, v) && n > 0 && |seed| > 0 && Alphabets.AllBelow(seed, v)
    ensures SampleIndices(k, net, n, Some(seed), advance, draws, cursor).out.Ok?
    ensures var top := Top(SeedPass(k, net.layers.value, seed).next);
      && AtEnd(top) && |top.trace.xs| == |seed|
      && DrawnAt(k, top, |seed| - 1, SampleIndices(k, net, n, Some(seed), advance, draws, cursor).out.value[0], draws(cursor))
  {
    var ls := net.layers.value;
    IntendedFirstDraw(k, net, v, n, seed, advance, draws, cursor);
    ReadyToSample(net, v);
    TopRecorded(k, ls, v, seed);
    DrawAtRecorded(k, Top(SeedPass(k, ls, seed).next), |seed| - 1, draws(cursor));
  }

  /** `sampleIndices` as intended draws its first index at the last step of the seed pass
      in the top layer. */
  lemma IntendedFirstDraw(k: Transcendentals, net: Net, v: int, n: int, seed: seq<int>, advance: bool,
                          draws: nat -> real, cursor: nat)
    requires Ready(net, v) && n > 0 && |seed| > 0 && Alphabets.AllBelow(seed, v)
    ensures SampleIndices(k, net, n, Some(seed), advance, draws, cursor).out.Ok?
    ensures DrawAt(Top(SeedPass(k, net.layers.value, seed).next), |seed| - 1, draws(cursor))
      == Ok(SampleIndices(k, net, n, Some(seed), advance, draws, cursor).out.value[0])
  {
    var ls', saved, r := SeedAndLoop(k, net, v, n, seed, advance, |seed| - 1, draws, cursor);
    SampleIndicesAfterSeed(k, net, v, n, seed, advance, draws, cursor, ls', saved);
    FinishOk(net, r, saved);
  }

  /** After the seed pass the top layer holds a record of the whole seed and the state at
      its end. */
  lemma TopRecorded(k: Transcendentals, ls: seq<Layer>, v: int, seed: seq<int>)
    requires SampleReady(ls, v) && |seed| > 0 && Alphabets.AllBelow(seed, v)
    ensures var top := Top(SeedPass(k, ls, seed).next);
      Recorded(k, top) && AtEnd(top) && |top.trace.xs| == |seed|
  {
    var ls' := SeedPassOk(k, ls, v, seed);
    var xs := IxToX(ls[0], Some(seed)).value;
    var f := ForwardUp(k, ls, 0, Some(Present(xs)));
    assert SeedPass(k, ls, seed) == f;
    ForwardUpRecords(k, ls, 0, Some(Present(xs)));
    assert Recorded(k, f.next[|ls| - 1]);
  }

  /** `sampleIndices` as written draws the first index at step 1 of the seed pass in the top
      layer, from the hidden state after the first seed index only. */
  lemma AsWrittenFirstSampleFromFirstStep(k: Transcendentals, net: Net, v: int, n: int, seed: seq<int>, advance: bool,
                                          draws: nat -> real, cursor: nat)
    requires Ready(net, v) && n > 0 && |seed| > 0 && Alphabets.AllBelow(seed, v)
    ensures SampleIndicesAsWritten(k, net, n, Some(seed), advance, draws, cursor).out.Ok?
    ensures DrawnAt(k, Top(SeedPass(k, net.layers.value, seed).next), 0,
                    SampleIndicesAsWritten(k, net, n, Some(seed), advance, draws, cursor).out.value[0], draws(cursor))
  {
    var ls := net.layers.value;
    SampleIndicesAsWrittenSucceeds(k, net, v, n, seed, advance, draws, cursor);
    ReadyToSample(net, v);
    TopRecorded(k, ls, v, seed);
    DrawAtRecorded(k, Top(SeedPass(k, ls, seed).next), 0, draws(cursor));
  }
}

=== FILE: stacktrain.dfy ===
/** `forwardBackward` of `net/MultiLayerRNN.java`: a forward pass up the stack, the loss
    and output gradient of the last layer, and a backward pass down the stack in which
    each layer receives the input gradients of the layer above. */
module NetworkTraining {
  import opened Outcomes
  import opened Kernel
  import opened Matrices
  import opened VectorAlgebra
  import opened Layers
  import opened LayerTraining
  import opened Network

  /** Every layer satisfies the layer invariant. */
  predicate AllInv(ls: seq<Layer>) {
    forall i :: 0 <= i < |ls| ==> Inv(ls[i])
  }

  /** b is a after passes: the same sizes and rate, the same initialization flag; only the
      weights, hidden state, trace and dx slots may differ. */
  predicate SameConfig(a: Layer, b: Layer) {
    && b.learningRate == a.learningRate
    && b.inputSize == a.inputSize && b.hiddenSize == a.hiddenSize && b.outputSize == a.outputSize
    && b.Initialized() == a.Initialized()
  }

  /** An initialized layer whose last forward pass had T steps, recorded in the shapes
      its sizes prescribe. */
  predicate Passed(l: Layer, T: nat) {
    l.Initialized() && TraceFits(l) && l.LastSequenceLength() == T
  }

  /* ---------------------------------------------------------------- Forward up the stack */

  /** What a forward pass keeps of a layer satisfying the invariant: the invariant, the
      configuration, the dx slots, the weights and the accumulators. */
  predicate Advanced(a: Layer, b: Layer) {
    && Inv(b) && SameConfig(a, b) && b.dxs == a.dxs
    && (a.Initialized() ==> b.core.value.w == a.core.value.w && b.core.value.g == a.core.value.g)
  }

  /** The hidden state is the last one the recorded pass computed. */
  predicate AtEnd(l: Layer) {
    l.Initialized() && |l.trace.xs| > 0 && l.core.value.h == l.trace.hs[|l.trace.xs|]
  }

  /** Every layer of ls from i up recorded a T-step pass and ends in its last hidden state. */
  predicate PassedFrom(ls: seq<Layer>, i: nat, T: nat) {
    forall j :: i <= j < |ls| ==> Passed(ls[j], T) && AtEnd(ls[j])
  }

  /** Every layer of ls recorded a T-step pass and ends in its last hidden state. */
  predicate AllPassed(ls: seq<Layer>, T: nat) {
    PassedFrom(ls, 0, T)
  }

  /** Layers i .. |ls| - 1 run forward in turn, layer i on x and each later layer on the
      outputs (`gety()`) of the one below. A failing layer stops the pass; the layers below
      it keep their new state. */
  function ForwardUp(k: Transcendentals, ls: seq<Layer>, i: nat, x: Option<seq<Option<Matrix>>>): (s: Step<seq<Layer>, ()>)
    requires i <= |ls| && AllInv(ls)
    ensures |s.next| == |ls|
    ensures forall j :: 0 <= j < |ls| ==> Advanced(ls[j], s.next[j])
    ensures forall j :: 0 <= j < i ==> s.next[j] == ls[j]
    decreases |ls| - i
  {
    if i == |ls| then Step(ls, Ok(()))
    else
      match Forward(k, ls[i], x)
      case Err(e) => Step(ls, Err(e))
      case Ok(l') =>
        ForwardKeepsInv(k, ls[i], x.value);
        ForwardUp(k, ls[i := l'], i + 1, Some(Present(l'.trace.ys)))
  }

  /** Each layer from i up reads what the layer below it writes. */
  predicate ChainedFrom(ls: seq<Layer>, i: nat) {
    forall j :: i <= j < |ls| - 1 ==> ls[j].outputSize == ls[j + 1].inputSize
  }

  /** Initialized layers from i up, satisfying the layer invariant. */
  predicate ReadyFrom(ls: seq<Layer>, i: nat) {
    AllInv(ls) && forall j :: i <= j < |ls| ==> ls[j].Initialized()
  }

  /** The outputs of a pass that fits the layer are vectors of its output size. */
  lemma OutputsAreVectors(l: Layer)
    requires TraceFits(l)
    ensures forall t :: 0 <= t < |l.trace.ys| ==> IsVectorOf(l.trace.ys[t], l.outputSize)
  {
    forall t | 0 <= t < |l.trace.ys|
      ensures IsVectorOf(l.trace.ys[t], l.outputSize)
    {
      assert StepsOf(l.trace).ys[t] == l.trace.ys[t];
      ColumnIsVector(l.trace.ys[t], l.outputSize);
    }
  }

  /** Once layer i completes, the pass goes on from i + 1 on its outputs. */
  lemma ForwardUpNext(k: Transcendentals, ls: seq<Layer>, i: nat, x: Option<seq<Option<Matrix>>>, l': Layer)
    requires i < |ls| && AllInv(ls)
    ensures Forward(k, ls[i], x) == Ok(l') && Inv(l') ==>
      ForwardUp(k, ls, i, x) == ForwardUp(k, ls[i := l'], i + 1, Some(Present(l'.trace.ys)))
  {
  }

  /** One initialized layer on present inputs of its input size: the pass completes,
      records a pass over every input, ends in its last hidden state, and writes outputs
      of its output size. */
  lemma ForwardLayerOk(k: Transcendentals, l: Layer, xs: seq<Matrix>) returns (l': Layer)
    requires Inv(l) && l.Initialized()
    requires |xs| > 0 && forall t :: 0 <= t < |xs| ==> IsVectorOf(xs[t], l.inputSize)
    ensures Forward(k, l, Some(Present(xs))) == Ok(l')
    ensures Inv(l') && Passed(l', |xs|) && AtEnd(l') && |l'.trace.ys| == |xs|
    ensures forall t :: 0 <= t < |l'.trace.ys| ==> IsVectorOf(l'.trace.ys[t], l.outputSize)
  {
    CheckPresent(xs, l.inputSize);
    ForwardKeepsInv(k, l, Present(xs));
    l' := Forward(k, l, Some(Present(xs))).value;
    OutputsAreVectors(l');
  }

  /** On a chain of initialized layers, T input vectors of layer i's input size pass
      through every layer from i up, each recording a T-step pass. */
  lemma {:induction false} ForwardUpOk(k: Transcendentals, ls: seq<Layer>, i: nat, xs: seq<Matrix>)
    requires FeedsFrom(ls, i, xs)
    ensures ForwardUp(k, ls, i, Some(Present(xs))).out.Ok?
    ensures PassedFrom(ForwardUp(k, ls, i, Some(Present(xs))).next, i, |xs|)
    decreases |ls| - i, 1
  {
    if i < |ls| {
      ForwardUpOkAt(k, ls, i, xs);
    }
  }

  /** The case of `ForwardUpOk` where layer i exists: it passes, then the layers above. */
  lemma {:induction false} ForwardUpOkAt(k: Transcendentals, ls: seq<Layer>, i: nat, xs: seq<Matrix>)
    requires FeedsFrom(ls, i, xs) && i < |ls|
    ensures ForwardUp(k, ls, i, Some(Present(xs))).out.Ok?
    ensures PassedFrom(ForwardUp(k, ls, i, Some(Present(xs))).next, i, |xs|)
    decreases |ls| - i, 0
  {
    var l' := ForwardStep(k, ls, i, xs);
    ForwardUpOk(k, ls[i := l'], i + 1, l'.trace.ys);
    ForwardUpJoins(k, ls, i, xs, l');
  }

  /** When the pass from i + 1 over layer i's outputs completes with every layer above i
      passed, the pass from i completes with layer i passed too. */
  lemma ForwardUpJoins(k: Transcendentals, ls: seq<Layer>, i: nat, xs: seq<Matrix>, l': Layer)
    requires i < |ls| && AllInv(ls) && Inv(l') && Passed(l', |xs|) && AtEnd(l')
    ensures
      && ForwardUp(k, ls, i, Some(Present(xs))) == ForwardUp(k, ls[i := l'], i + 1, Some(Present(l'.trace.ys)))
      && ForwardUp(k, ls[i := l'], i + 1, Some(Present(l'.trace.ys))).out.Ok?
      && PassedFrom(ForwardUp(k, ls[i := l'], i + 1, Some(Present(l'.trace.ys))).next, i + 1, |xs|)
      ==>
      && ForwardUp(k, ls, i, Some(Present(xs))).out.Ok?
      && PassedFrom(ForwardUp(k, ls, i, Some(Present(xs))).next, i, |xs|)
  {
    var next := ForwardUp(k, ls[i := l'], i + 1, Some(Present(l'.trace.ys))).next;
    if PassedFrom(next, i + 1, |xs|) {
      assert next[i] == l';
      PassedFromBelow(next, i, |xs|);
    }
  }

  /** Layers from i up ready, chained, and fed |xs| > 0 vectors of layer i's input size. */
  predicate FeedsFrom(ls: seq<Layer>, i: nat, xs: seq<Matrix>) {
    && i <= |ls| && ReadyFrom(ls, i) && ChainedFrom(ls, i)
    && |xs| > 0 && (i < |ls| ==> forall t :: 0 <= t < |xs| ==> IsVectorOf(xs[t], ls[i].inputSize))
  }

  /** Layer i of a fed stack completes, records a pass over the inputs ending in its last
      state, and feeds the layers above it. */
  lemma ForwardStep(k: Transcendentals, ls: seq<Layer>, i: nat, xs: seq<Matrix>) returns (l': Layer)
    requires FeedsFrom(ls, i, xs) && i < |ls|
    ensures Inv(l') && Passed(l', |xs|) && AtEnd(l')
    ensures FeedsFrom(ls[i := l'], i + 1, l'.trace.ys)
    ensures ForwardUp(k, ls, i, Some(Present(xs))) == ForwardUp(k, ls[i := l'], i + 1, Some(Present(l'.trace.ys)))
  {
    l' := ForwardLayerOk(k, ls[i], xs);
    ForwardUpNext(k, ls, i, Some(Present(xs)), l');
    ReplacedReady(ls, i, l');
  }

  /** Replacing layer i by an initialized layer with the same output size keeps the layers
      above ready and chained. */
  lemma ReplacedReady(ls: seq<Layer>, i: nat, l': Layer)
    requires i < |ls| && ReadyFrom(ls, i) && ChainedFrom(ls, i) && Inv(l') && l'.outputSize == ls[i].outputSize
    ensures ReadyFrom(ls[i := l'], i + 1) && ChainedFrom(ls[i := l'], i + 1)
    ensures i + 1 < |ls| ==> ls[i := l'][i + 1].inputSize == l'.outputSize
  {
  }

  /** Layer i joins the layers above it that recorded a T-step pass. */
  lemma PassedFromBelow(ls: seq<Layer>, i: nat, T: nat)
    requires i < |ls| && PassedFrom(ls, i + 1, T) && Passed(ls[i], T) && AtEnd(ls[i])
    ensures PassedFrom(ls, i, T)
  {
  }

  /** Where some layer from i up writes outputs of another size than the layer above reads,
      the forward pass fails with IllegalArgumentException at the first such layer. */
  lemma {:induction false} ForwardUpStopsAtMismatch(k: Transcendentals, ls: seq<Layer>, i: nat, xs: seq<Matrix>)
    requires i < |ls| && ReadyFrom(ls, i)
    requires exists j :: i <= j < |ls| - 1 && ls[j].outputSize != ls[j + 1].inputSize
    requires |xs| > 0 && forall t :: 0 <= t < |xs| ==> IsVectorOf(xs[t], ls[i].inputSize)
    ensures ForwardUp(k, ls, i, Some(Present(xs))).out == Err(IllegalArgument)
    decreases |ls| - i
  {
    var l' := ForwardLayerOk(k, ls[i], xs);
    var ls' := ls[i := l'];
    ForwardUpNext(k, ls, i, Some(Present(xs)), l');
    if ls[i].outputSize != ls[i + 1].inputSize {
      var ys := Present(l'.trace.ys);
      assert ys[0] == Some(l'.trace.ys[0]);
      assert !IsVectorOf(l'.trace.ys[0], ls'[i + 1].inputSize);
      assert CheckVectors(ys, ls'[i + 1].inputSize).Err?;
      assert Forward(k, ls'[i + 1], Some(ys)) == Err(IllegalArgument);
    } else {
      ForwardUpStopsAtMismatch(k, ls', i + 1, l'.trace.ys);
    }
  }

  /* ---------------------------------------------------------------- Backward down the stack */

  /** What a backward pass keeps of a layer satisfying the invariant: the invariant, the
      configuration, the trace of the forward pass and the hidden state. */
  predicate Kept(a: Layer, b: Layer) {
    && Inv(b) && SameConfig(a, b) && b.trace == a.trace
    && (a.Initialized() ==> b.core.value.h == a.core.value.h)
  }

  /** A completed backward pass of an initialized layer: every Adagrad accumulator entry
      at least its value before. */
  predicate Trained(a: Layer, b: Layer) {
    a.Initialized() && b.Initialized() && AllDominate(b.core.value.g, a.core.value.g)
  }

  /** The dx slots of a backward pass, or the argument of the next one: null before the
      first pass, one possibly null slot per step. */
  type Slots = Option<seq<Option<Matrix>>>

  /** T slots, each an n x 1 column. */
  predicate ColumnsOf(dx: Slots, T: nat, n: int) {
    && dx.Some? && |dx.value| == T
    && forall t :: 0 <= t < T ==> dx.value[t].Some? && IsColumnOf(dx.value[t].value, n)
  }

  /** A layer's backward pass as a function value, so that the passes down the stack can
      be reasoned about through the two properties below. */
  type BackPass = (Layer, Slots) -> Step<Layer, ()>

  /** The backward pass keeps what `Kept` names and, when it completes, only grows the
      accumulators. */
  ghost predicate BackSound(back: BackPass) {
    forall l: Layer, dy: Slots {:trigger back(l, dy)} :: Inv(l) ==>
      && Kept(l, back(l, dy).next)
      && (back(l, dy).out.Ok? ==> Trained(l, back(l, dy).next))
  }

  /** On a layer whose trace fits it, the backward pass completes for one output-size
      column per step and leaves one input-size column per step in its dx slots. */
  ghost predicate BackCompletes(back: BackPass) {
    forall l: Layer, dy: Slots {:trigger back(l, dy)} ::
      Inv(l) && l.Initialized() && TraceFits(l) && ColumnsOf(dy, l.LastSequenceLength(), l.outputSize) ==>
        back(l, dy).out.Ok? && ColumnsOf(back(l, dy).next.dxs, l.LastSequenceLength(), l.inputSize)
  }

  /** `backward` of `RNNLayer` as a `BackPass`. Layers reach it only through the network,
      which keeps the layer invariant; the guard only makes the function value total. */
  function LayerBack(k: Transcendentals): BackPass {
    (l: Layer, dy: Slots) => if Inv(l) then Backward(k, l, dy) else Step(l, Err(IllegalState))
  }

  lemma LayerBackSound(k: Transcendentals)
    ensures BackSound(LayerBack(k)) && BackCompletes(LayerBack(k))
  {
    var back := LayerBack(k);
    forall l: Layer, dy: Slots | Inv(l)
      ensures Kept(l, back(l, dy).next) && (back(l, dy).out.Ok? ==> Trained(l, back(l, dy).next))
    {
      assert back(l, dy) == Backward(k, l, dy);
    }
    forall l: Layer, dy: Slots | Inv(l) && l.Initialized() && TraceFits(l) && ColumnsOf(dy, l.LastSequenceLength(), l.outputSize)
      ensures back(l, dy).out.Ok? && ColumnsOf(back(l, dy).next.dxs, l.LastSequenceLength(), l.inputSize)
    {
      assert back(l, dy) == Backward(k, l, dy);
      var dys := SlotValues(dy, l.LastSequenceLength(), l.outputSize);
      BackwardSucceeds(k, l, dys);
    }
  }

  /** T present columns as the sequence of their values. */
  function SlotValues(dx: Slots, T: nat, n: int): (ds: seq<Matrix>)
    requires ColumnsOf(dx, T, n)
    ensures |ds| == T && dx == Some(Present(ds))
    ensures forall t :: 0 <= t < T ==> IsColumnOf(ds[t], n)
  {
    var ds := seq(T, t requires 0 <= t < T => dx.value[t].value);
    assert forall t :: 0 <= t < T ==> dx.value[t] == Present(ds)[t];
    assert dx.value == Present(ds);
    ds
  }

  /** Layers n - 1 down to 0 run backward in turn, each on the dx (`getdx()`) of the layer
      above it. A failing layer stops the pass; the layers above it keep their new state. */
  function BackwardDown(back: BackPass, ls: seq<Layer>, n: nat): (s: Step<seq<Layer>, ()>)
    requires BackSound(back)
    requires n < |ls| && AllInv(ls)
    ensures |s.next| == |ls|
    ensures forall j :: 0 <= j < |ls| ==> Kept(ls[j], s.next[j])
    ensures forall j :: n <= j < |ls| ==> s.next[j] == ls[j]
    ensures s.out.Ok? ==> forall j :: 0 <= j < n ==> Trained(ls[j], s.next[j])
    decreases n
  {
    if n == 0 then Step(ls, Ok(()))
    else
      match GetDx(ls[n])
      case Err(e) => Step(ls, Err(e))
      case Ok(dx) =>
        var b := back(ls[n - 1], dx);
        var ls' := ls[n - 1 := b.next];
        if b.out.Err? then Step(ls', b.out)
        else BackwardDown(back, ls', n - 1)
  }

  /** What the passes down from n need of a stack: a chain of layers satisfying the
      invariant, layers 0 .. n passed forward over T steps, and layer n holding one dx
      column per step. */
  predicate DownReady(ls: seq<Layer>, n: nat, T: nat) {
    && n < |ls| && AllInv(ls) && ChainedFrom(ls, 0)
    && (forall j :: 0 <= j <= n ==> Passed(ls[j], T))
    && ColumnsOf(ls[n].dxs, T, ls[n].inputSize)
  }

  /** The layer below n completes its backward pass on the dx of layer n and leaves one
      dx column per step of its own. */
  lemma BackwardBelowOk(back: BackPass, ls: seq<Layer>, n: nat, T: nat)
    requires BackSound(back) && BackCompletes(back)
    requires DownReady(ls, n, T) && n > 0
    ensures back(ls[n - 1], ls[n].dxs).out.Ok?
    ensures Kept(ls[n - 1], back(ls[n - 1], ls[n].dxs).next)
    ensures ColumnsOf(back(ls[n - 1], ls[n].dxs).next.dxs, T, ls[n - 1].inputSize)
  {
    var l := ls[n - 1];
    assert Inv(l) && Passed(l, T);
    assert l.outputSize == ls[n].inputSize;
  }

  /** Replacing layer n - 1 by a layer that kept what a backward pass keeps and holds one
      dx column per step readies the stack for the passes down from n - 1. */
  lemma DownReadyBelow(ls: seq<Layer>, n: nat, T: nat, l': Layer)
    requires DownReady(ls, n, T) && n > 0
    requires Kept(ls[n - 1], l') && ColumnsOf(l'.dxs, T, ls[n - 1].inputSize)
    ensures DownReady(ls[n - 1 := l'], n - 1, T)
  {
    var ls' := ls[n - 1 := l'];
    assert Passed(ls[n - 1], T);
    assert Passed(l', T);
    assert forall j :: 0 <= j < |ls'| ==> SameConfig(ls[j], ls'[j]);
  }

  /** On a stack ready for the passes down from n, they complete. */
  lemma {:induction false} BackwardDownOk(back: BackPass, ls: seq<Layer>, n: nat, T: nat)
    requires BackSound(back) && BackCompletes(back)
    requires DownReady(ls, n, T)
    ensures BackwardDown(back, ls, n).out.Ok?
    decreases n
  {
    if n > 0 {
      var ls' := BackwardDownStep(back, ls, n, T);
      BackwardDownOk(back, ls', n - 1, T);
    }
  }

  /** One layer further down: the pass from n is the pass from n - 1 on the layers after
      layer n - 1 ran backward, which are ready for it. */
  lemma BackwardDownStep(back: BackPass, ls: seq<Layer>, n: nat, T: nat) returns (ls': seq<Layer>)
    requires BackSound(back) && BackCompletes(back)
    requires DownReady(ls, n, T) && n > 0
    ensures DownReady(ls', n - 1, T)
    ensures BackwardDown(back, ls, n).out == BackwardDown(back, ls', n - 1).out
  {
    var dx := ls[n].dxs;
    assert GetDx(ls[n]) == Ok(dx);
    BackwardBelowOk(back, ls, n, T);
    ls' := ls[n - 1 := back(ls[n - 1], dx).next];
    assert BackwardDown(back, ls, n) == BackwardDown(back, ls', n - 1);
    DownReadyBelow(ls, n, T, back(ls[n - 1], dx).next);
  }

  /* ---------------------------------------------------------------- forwardBackward */

  /** The network after a pass: the same configuration, the layers changed only as
      `SameConfig` allows, the invariant kept. */
  predicate Reconfigured(net: Net, net': Net)
    requires NetInv(net)
  {
    && NetInv(net') && net' == net.(layers := net'.layers)
    && (net.layers.Some? ==>
          && net'.layers.Some? && |net'.layers.value| == |net.layers.value|
          && forall j :: 0 <= j < |net.layers.value| ==> SameConfig(net.layers.value[j], net'.layers.value[j]))
  }

  /** `forwardBackward(ix, iy)`: rejects an uninitialized network, null arrays, arrays of
      different lengths and empty arrays, then one-hot encodes ix, which rejects indices
      outside the vocabulary; none of these touch a layer. Then the passes of `Train`.
      Returns the loss. */
  function ForwardBackward(k: Transcendentals, net: Net, ix: Option<seq<int>>, iy: Option<seq<int>>): (s: Step<Net, real>)
    requires NetInv(net)
    ensures !net.initialized ==> s == Step(net, Err(IllegalState))
    ensures net.initialized && (ix.None? || iy.None?) ==> s == Step(net, Err(NullPointer))
    ensures net.initialized && ix.Some? && iy.Some? && (|ix.value| != |iy.value| || |ix.value| == 0) ==>
      s == Step(net, Err(IllegalArgument))
    ensures net.initialized && ix.Some? && iy.Some? && IxToX(net.layers.value[0], ix).Err? ==>
      s == Step(net, Err(IllegalArgument))
    ensures Reconfigured(net, s.next)
  {
    if !net.initialized then Step(net, Err(IllegalState))
    else if ix.None? || iy.None? then Step(net, Err(NullPointer))
    else if |ix.value| != |iy.value| || |ix.value| == 0 then Step(net, Err(IllegalArgument))
    else
      match IxToX(net.layers.value[0], ix)
      case Err(e) => Step(net, Err(e))
      case Ok(xs) =>
        LayerBackSound(k);
        Train(k, LayerBack(k), net, xs, iy.value)
  }

  /** The passes of `forwardBackward` on encoded inputs: forward up the stack, the loss and
      output gradient of the last layer, its backward pass, then the backward pass down the
      rest of the stack. An exception from a layer leaves the layers already passed in
      their new state. */
  function Train(k: Transcendentals, back: BackPass, net: Net, xs: seq<Matrix>, iy: seq<int>): (s: Step<Net, real>)
    requires BackSound(back) && NetInv(net) && net.initialized
    ensures Reconfigured(net, s.next)
  {
    var f := ForwardUp(k, net.layers.value, 0, Some(Present(xs)));
    if f.out.Err? then Step(net.(layers := Some(f.next)), Err(f.out.error))
    else LossAndBackward(k, back, net.(layers := Some(f.next)), iy)
  }

  /** The second half of `Train`, on the network after its forward pass. */
  function LossAndBackward(k: Transcendentals, back: BackPass, net: Net, iy: seq<int>): (s: Step<Net, real>)
    requires BackSound(back) && NetInv(net) && net.initialized
    ensures Reconfigured(net, s.next)
  {
    var ls := net.layers.value;
    var last := ls[|ls| - 1];
    match GetLoss(k, last, Some(iy))
    case Err(e) => Step(net, Err(e))
    case Ok(loss) =>
      match GetDy(last, Some(iy))
      case Err(e) => Step(net, Err(e))
      case Ok(dy) => BackwardAll(back, net, dy, loss)
  }

  /** The backward pass of the last layer on the output gradient, then down the stack;
      returns the loss once both complete. */
  function BackwardAll(back: BackPass, net: Net, dy: seq<Matrix>, loss: real): (s: Step<Net, real>)
    requires BackSound(back) && NetInv(net) && net.initialized
    ensures Reconfigured(net, s.next)
  {
    var ls := net.layers.value;
    var b := back(ls[|ls| - 1], Some(Present(dy)));
    var ls' := ls[|ls| - 1 := b.next];
    if b.out.Err? then Step(net.(layers := Some(ls')), Err(b.out.error))
    else
      var d := BackwardDown(back, ls', |ls| - 1);
      Step(net.(layers := Some(d.next)), if d.out.Err? then Err(d.out.error) else Ok(loss))
  }

  /* ---------------------------------------------------------------- When a pass completes */

  /** A network ready for a pass: initialized, with every layer initialized and the layers
      chained over the vocabulary v. */
  predicate Ready(net: Net, v: int) {
    && NetInv(net) && net.initialized
    && (forall j :: 0 <= j < |net.layers.value| ==> net.layers.value[j].Initialized())
    && Chained(net.layers.value, v)
  }

  /** What a completed pass leaves in layer b that was a before it: a T-step trace that
      fits it, the hidden state at the end of that trace, grown accumulators. */
  predicate Completed(a: Layer, b: Layer, T: nat) {
    SameConfig(a, b) && Passed(b, T) && AtEnd(b) && Trained(a, b)
  }

  /** A backward pass keeps a completed forward pass in place. */
  lemma KeptStillPassed(a: Layer, b: Layer, T: nat)
    requires Kept(a, b) && Passed(a, T) && AtEnd(a)
    ensures Passed(b, T) && AtEnd(b)
  {
    assert StepsOf(b.trace) == StepsOf(a.trace);
  }

  /** The backward pass of the last layer on a gradient of output-size columns. */
  lemma LastBackOk(back: BackPass, l: Layer, dy: seq<Matrix>, T: nat)
    requires BackSound(back) && BackCompletes(back)
    requires Inv(l) && Passed(l, T) && AtEnd(l)
    requires |dy| == T && forall t :: 0 <= t < T ==> IsColumnOf(dy[t], l.outputSize)
    ensures back(l, Some(Present(dy))).out.Ok?
    ensures Kept(l, back(l, Some(Present(dy))).next) && Trained(l, back(l, Some(Present(dy))).next)
    ensures Passed(back(l, Some(Present(dy))).next, T) && AtEnd(back(l, Some(Present(dy))).next)
    ensures ColumnsOf(back(l, Some(Present(dy))).next.dxs, T, l.inputSize)
  {
    var dys := Some(Present(dy));
    assert ColumnsOf(dys, l.LastSequenceLength(), l.outputSize);
    KeptStillPassed(l, back(l, dys).next, T);
  }

  /** Every layer of ls' completed a T-step pass from the layer at its place in ls. */
  predicate AllCompleted(ls: seq<Layer>, ls': seq<Layer>, T: nat) {
    |ls'| == |ls| && forall j :: 0 <= j < |ls| ==> Completed(ls[j], ls'[j], T)
  }

  /** Every layer of ls' holds the trace of the layer at its place in ls. */
  predicate SameTraces(ls: seq<Layer>, ls': seq<Layer>) {
    |ls'| == |ls| && forall j :: 0 <= j < |ls| ==> ls'[j].trace == ls[j].trace
  }

  /** Layers 0 .. n - 1 of next kept those of ls and grew their accumulators. */
  predicate KeptBelow(ls: seq<Layer>, next: seq<Layer>, n: nat)
    requires n <= |ls| && n <= |next|
  {
    forall j :: 0 <= j < n ==> Kept(ls[j], next[j]) && Trained(ls[j], next[j])
  }

  /** Layers that kept their forward pass through a completed backward pass completed the
      whole pass. */
  lemma DownCompletes(ls: seq<Layer>, next: seq<Layer>, last: Layer, T: nat)
    requires |ls| > 0 && |next| == |ls| && next[|ls| - 1] == last
    requires KeptBelow(ls, next, |ls| - 1)
    requires Completed(ls[|ls| - 1], last, T) && last.trace == ls[|ls| - 1].trace
    requires AllPassed(ls, T)
    ensures AllCompleted(ls, next, T) && SameTraces(ls, next)
  {
    forall j | 0 <= j < |ls| - 1
      ensures Completed(ls[j], next[j], T) && next[j].trace == ls[j].trace
    {
      KeptStillPassed(ls[j], next[j], T);
    }
  }

  lemma BackwardAllOk(back: BackPass, net: Net, dy: seq<Matrix>, loss: real, T: nat)
    requires BackSound(back) && BackCompletes(back) && NetInv(net) && net.initialized
    requires ChainedFrom(net.layers.value, 0)
    requires AllPassed(net.layers.value, T)
    requires |dy| == T && forall t :: 0 <= t < T ==> IsColumnOf(dy[t], net.layers.value[|net.layers.value| - 1].outputSize)
    ensures BackwardAll(back, net, dy, loss).out == Ok(loss)
    ensures AllCompleted(net.layers.value, BackwardAll(back, net, dy, loss).next.layers.value, T)
    ensures SameTraces(net.layers.value, BackwardAll(back, net, dy, loss).next.layers.value)
  {
    var ls := net.layers.value;
    var L := |ls|;
    var last, ls' := TopBackOk(back, net, dy, T);
    BackwardDownOk(back, ls', L - 1, T);
    var next := BackwardAllFinishes(back, net, dy, loss);
    DownCompletes(ls, next, last, T);
  }

  /** The backward pass of the top layer completes the pass of that layer and leaves the
      layers below it ready for theirs. */
  lemma TopBackOk(back: BackPass, net: Net, dy: seq<Matrix>, T: nat) returns (last: Layer, ls': seq<Layer>)
    requires BackSound(back) && BackCompletes(back) && NetInv(net) && net.initialized
    requires ChainedFrom(net.layers.value, 0)
    requires AllPassed(net.layers.value, T)
    requires |dy| == T && forall t :: 0 <= t < T ==> IsColumnOf(dy[t], net.layers.value[|net.layers.value| - 1].outputSize)
    ensures back(net.layers.value[|net.layers.value| - 1], Some(Present(dy))).out.Ok?
    ensures last == back(net.layers.value[|net.layers.value| - 1], Some(Present(dy))).next
    ensures ls' == net.layers.value[|net.layers.value| - 1 := last]
    ensures DownReady(ls', |net.layers.value| - 1, T)
    ensures Completed(net.layers.value[|net.layers.value| - 1], last, T)
    ensures last.trace == net.layers.value[|net.layers.value| - 1].trace
  {
    var ls := net.layers.value;
    var L := |ls|;
    LastBackOk(back, ls[L - 1], dy, T);
    last := back(ls[L - 1], Some(Present(dy))).next;
    ls' := ls[L - 1 := last];
    assert ChainedFrom(ls', 0) by {
      assert forall j :: 0 <= j < L ==> SameConfig(ls[j], ls'[j]);
    }
  }

  /** Once the top layer and then the layers below it have completed their backward
      passes, the whole backward pass has completed and kept the forward passes below. */
  lemma BackwardAllFinishes(back: BackPass, net: Net, dy: seq<Matrix>, loss: real) returns (next: seq<Layer>)
    requires BackSound(back) && NetInv(net) && net.initialized
    requires back(net.layers.value[|net.layers.value| - 1], Some(Present(dy))).out.Ok?
    requires AllInv(net.layers.value[|net.layers.value| - 1 := back(net.layers.value[|net.layers.value| - 1], Some(Present(dy))).next])
    requires BackwardDown(back, net.layers.value[|net.layers.value| - 1 := back(net.layers.value[|net.layers.value| - 1], Some(Present(dy))).next], |net.layers.value| - 1).out.Ok?
    ensures BackwardAll(back, net, dy, loss) == Step(net.(layers := Some(next)), Ok(loss))
    ensures |next| == |net.layers.value|
    ensures next[|net.layers.value| - 1] == back(net.layers.value[|net.layers.value| - 1], Some(Present(dy))).next
    ensures KeptBelow(net.layers.value, next, |net.layers.value| - 1)
  {
    var ls := net.layers.value;
    var L := |ls|;
    var ls' := ls[L - 1 := back(ls[L - 1], Some(Present(dy))).next];
    next := BackwardDown(back, ls', L - 1).next;
    BackwardAllIs(back, net, dy, loss, next);
    assert forall j :: 0 <= j < L - 1 ==> ls'[j] == ls[j];
  }

  /** `backward` of the whole network once both of its stages have completed. */
  lemma BackwardAllIs(back: BackPass, net: Net, dy: seq<Matrix>, loss: real, next: seq<Layer>)
    requires BackSound(back) && NetInv(net) && net.initialized
    requires back(net.layers.value[|net.layers.value| - 1], Some(Present(dy))).out.Ok?
    requires AllInv(net.layers.value[|net.layers.value| - 1 := back(net.layers.value[|net.layers.value| - 1], Some(Present(dy))).next])
    requires BackwardDown(back, net.layers.value[|net.layers.value| - 1 := back(net.layers.value[|net.layers.value| - 1], Some(Present(dy))).next], |net.layers.value| - 1).out.Ok?
    requires BackwardDown(back, net.layers.value[|net.layers.value| - 1 := back(net.layers.value[|net.layers.value| - 1], Some(Present(dy))).next], |net.layers.value| - 1).next == next
    ensures BackwardAll(back, net, dy, loss) == Step(net.(layers := Some(next)), Ok(loss))
  {
  }

  lemma LossAndBackwardOk(k: Transcendentals, back: BackPass, net: Net, iy: seq<int>, T: nat)
    requires BackSound(back) && BackCompletes(back) && NetInv(net) && net.initialized
    requires ChainedFrom(net.layers.value, 0)
    requires AllPassed(net.layers.value, T)
    requires TraceFits(net.layers.value[|net.layers.value| - 1]) && ValidTargets(net.layers.value[|net.layers.value| - 1], iy)
    ensures LossAndBackward(k, back, net, iy).out == Ok(CrossEntropy(k, TargetProbabilities(net.layers.value[|net.layers.value| - 1], iy)))
    ensures AllCompleted(net.layers.value, LossAndBackward(k, back, net, iy).next.layers.value, T)
    ensures SameTraces(net.layers.value, LossAndBackward(k, back, net, iy).next.layers.value)
  {
    var ls := net.layers.value;
    var last := ls[|ls| - 1];
    var dy := GradientColumns(last, iy);
    var loss := CrossEntropy(k, TargetProbabilities(last, iy));
    LossIsCrossEntropy(k, last, iy);
    LossAndBackwardIs(k, back, net, iy, loss, dy);
    BackwardAllOk(back, net, dy, loss, T);
  }

  /** The output gradient of a layer whose pass fits it has one column of the output
      size per target. */
  lemma GradientColumns(l: Layer, iy: seq<int>) returns (dy: seq<Matrix>)
    requires l.Initialized() && TraceFits(l) && ValidTargets(l, iy)
    ensures GetDy(l, Some(iy)) == Ok(dy) && |dy| == |iy|
    ensures forall t :: 0 <= t < |dy| ==> IsColumnOf(dy[t], l.outputSize)
  {
    GradientIsPMinusOneHot(l, iy);
    dy := GetDy(l, Some(iy)).value;
    forall t | 0 <= t < |dy|
      ensures IsColumnOf(dy[t], l.outputSize)
    {
      assert IsOutputGradient(dy[t], l.trace.ps[t], iy[t], l.outputSize);
    }
  }

  /** Once the loss and the gradient are computed, the rest is the backward pass. */
  lemma LossAndBackwardIs(k: Transcendentals, back: BackPass, net: Net, iy: seq<int>, loss: real, dy: seq<Matrix>)
    requires BackSound(back) && NetInv(net) && net.initialized
    requires GetLoss(k, net.layers.value[|net.layers.value| - 1], Some(iy)) == Ok(loss)
    requires GetDy(net.layers.value[|net.layers.value| - 1], Some(iy)) == Ok(dy)
    ensures LossAndBackward(k, back, net, iy) == BackwardAll(back, net, dy, loss)
  {
  }

  /** Two layers with the same trace and output size give the targets the same
      probabilities. */
  lemma SameTraceSameProbabilities(a: Layer, b: Layer, iy: seq<int>)
    requires TraceFits(a) && ValidTargets(a, iy)
    requires b.trace == a.trace && b.outputSize == a.outputSize && b.inputSize == a.inputSize && b.hiddenSize == a.hiddenSize
    ensures TraceFits(b) && ValidTargets(b, iy)
    ensures TargetProbabilities(b, iy) == TargetProbabilities(a, iy)
  {
  }

  /** A pass over T steps completed from layers ls: it returned normally, every layer
      completed the pass, and the loss is the cross-entropy of the probabilities the new
      last layer gave the targets iy. */
  predicate PassDone(k: Transcendentals, ls: seq<Layer>, s: Step<Net, real>, iy: seq<int>, T: nat) {
    && s.out.Ok? && s.next.layers.Some? && |ls| > 0
    && AllCompleted(ls, s.next.layers.value, T)
    && TraceFits(s.next.layers.value[|ls| - 1]) && ValidTargets(s.next.layers.value[|ls| - 1], iy)
    && s.out.value == CrossEntropy(k, TargetProbabilities(s.next.layers.value[|ls| - 1], iy))
  }

  lemma TrainOk(k: Transcendentals, back: BackPass, net: Net, v: int, xs: seq<Matrix>, iy: seq<int>)
    requires BackSound(back) && BackCompletes(back) && Ready(net, v)
    requires |xs| == |iy| > 0 && forall t :: 0 <= t < |xs| ==> IsVectorOf(xs[t], v)
    requires forall t :: 0 <= t < |iy| ==> 0 <= iy[t] < v
    ensures PassDone(k, net.layers.value, Train(k, back, net, xs, iy), iy, |xs|)
  {
    var ls := net.layers.value;
    var L := |ls|;
    var f := ForwardStackOk(k, net, v, xs);
    LastReady(f, v, iy);
    var net1 := net.(layers := Some(f));
    assert NetInv(net1);
    TrainAfterForward(k, back, net, xs, iy, f);
    LossAndBackwardOk(k, back, net1, iy, |xs|);
    var ls' := LossAndBackward(k, back, net1, iy).next.layers.value;
    SameTraceSameProbabilities(f[L - 1], ls'[L - 1], iy);
    ThenCompleted(ls, f, ls', |xs|);
  }

  /** A one-layer stack whose layer reads and scores the same v indices is ready over v,
      so its pass completes. */
  lemma TrainOneLayerOk(k: Transcendentals, back: BackPass, net: Net, xs: seq<Matrix>, iy: seq<int>)
    requires BackSound(back) && BackCompletes(back) && NetInv(net) && net.initialized
    requires |net.layers.value| == 1 && net.layers.value[0].Initialized()
    requires net.layers.value[0].inputSize == net.layers.value[0].outputSize
    requires |xs| == |iy| > 0 && forall t :: 0 <= t < |xs| ==> IsVectorOf(xs[t], net.layers.value[0].inputSize)
    requires forall t :: 0 <= t < |iy| ==> 0 <= iy[t] < net.layers.value[0].outputSize
    ensures PassDone(k, net.layers.value, Train(k, back, net, xs, iy), iy, |xs|)
  {
    var v := net.layers.value[0].inputSize;
    assert Ready(net, v);
    TrainOk(k, back, net, v, xs, iy);
  }

  /** The layers f ran forward from ls: the same configuration, the accumulators kept. */
  predicate AdvancedAll(ls: seq<Layer>, f: seq<Layer>) {
    |f| == |ls| && forall j :: 0 <= j < |ls| ==> Advanced(ls[j], f[j])
  }

  /** What the forward half of a pass leaves: layers advanced from ls, still chained over
      the vocabulary v, each with a T-step pass. */
  predicate ForwardDone(ls: seq<Layer>, f: seq<Layer>, v: int, T: nat) {
    AdvancedAll(ls, f) && Chained(f, v) && AllPassed(f, T) && AllInv(f)
  }

  /** The forward half of `Train` completes on a ready network. */
  lemma ForwardStackOk(k: Transcendentals, net: Net, v: int, xs: seq<Matrix>) returns (f: seq<Layer>)
    requires Ready(net, v)
    requires |xs| > 0 && forall t :: 0 <= t < |xs| ==> IsVectorOf(xs[t], v)
    ensures ForwardUp(k, net.layers.value, 0, Some(Present(xs))).out.Ok?
    ensures ForwardUp(k, net.layers.value, 0, Some(Present(xs))).next == f
    ensures ForwardDone(net.layers.value, f, v, |xs|)
  {
    var ls := net.layers.value;
    ForwardUpOk(k, ls, 0, xs);
    f := ForwardUp(k, ls, 0, Some(Present(xs))).next;
    AdvancedChained(ls, f, v);
  }

  /** Running forward keeps the sizes, so a chain stays a chain. */
  lemma AdvancedChained(ls: seq<Layer>, f: seq<Layer>, v: int)
    requires AdvancedAll(ls, f) && Chained(ls, v)
    ensures Chained(f, v) && AllInv(f)
  {
    assert forall j :: 0 <= j < |ls| ==> SameConfig(ls[j], f[j]) && Inv(f[j]);
  }

  /** After a T-step pass over a chain on v, the top layer can score T targets below v. */
  lemma LastReady(f: seq<Layer>, v: int, iy: seq<int>)
    requires Chained(f, v) && AllPassed(f, |iy|)
    requires forall t :: 0 <= t < |iy| ==> 0 <= iy[t] < v
    ensures TraceFits(f[|f| - 1]) && ValidTargets(f[|f| - 1], iy)
  {
    assert Passed(f[|f| - 1], |iy|);
  }

  /** A forward pass then a completed backward pass complete the pass from the layers
      before both. */
  lemma ThenCompleted(ls: seq<Layer>, f: seq<Layer>, ls': seq<Layer>, T: nat)
    requires AdvancedAll(ls, f) && AllCompleted(f, ls', T)
    ensures AllCompleted(ls, ls', T)
  {
    forall j | 0 <= j < |ls|
      ensures Completed(ls[j], ls'[j], T)
    {
      ForwardThenBackward(ls[j], f[j], ls'[j], T);
    }
  }

  /** `Train` after a completed forward pass is the rest of the pass on the new layers. */
  lemma TrainAfterForward(k: Transcendentals, back: BackPass, net: Net, xs: seq<Matrix>, iy: seq<int>, f: seq<Layer>)
    requires BackSound(back) && NetInv(net) && net.initialized
    ensures
      && ForwardUp(k, net.layers.value, 0, Some(Present(xs))).out.Ok?
      && ForwardUp(k, net.layers.value, 0, Some(Present(xs))).next == f
      && NetInv(net.(layers := Some(f)))
      ==> Train(k, back, net, xs, iy) == LossAndBackward(k, back, net.(layers := Some(f)), iy)
  {
  }

  /** A forward pass keeps the accumulators, so a completed pass after it has grown them
      relative to the layer before both. */
  lemma ForwardThenBackward(a: Layer, b: Layer, c: Layer, T: nat)
    requires Advanced(a, b) && Completed(b, c, T)
    ensures Completed(a, c, T)
  {
  }

  /** On a network whose layers are chained over the vocabulary, `forwardBackward`
      completes for inputs and targets inside the vocabulary: every layer records a pass
      over the whole sequence, ends in its last hidden state and has grown accumulators,
      and the returned loss is the cross-entropy of the probabilities the last layer gave
      the targets. */
  lemma ForwardBackwardSucceeds(k: Transcendentals, net: Net, v: int, ix: seq<int>, iy: seq<int>)
    requires Ready(net, v)
    requires |ix| == |iy| > 0
    requires forall t :: 0 <= t < |ix| ==> 0 <= ix[t] < v && 0 <= iy[t] < v
    ensures PassDone(k, net.layers.value, ForwardBackward(k, net, Some(ix), Some(iy)), iy, |ix|)
  {
    var xs := PassIsTrain(k, net, ix, iy);
    LayerBackSound(k);
    TrainOk(k, LayerBack(k), net, v, xs, iy);
  }

  /* ---------------------------------------------------------------- The network as initialized */

  /** The corrected `initialize` leaves a network ready for a pass over its vocabulary. */
  lemma InitializeReady(net: Net, v: int, gauss: nat -> real, cursor: nat)
    requires NetInv(net) && v >= 1
    ensures Ready(Network.Initialize(net, v, gauss, cursor).value.0, v)
  {
    InitializeChains(net, v, gauss, cursor);
    var hs := SizesOrDefault(net);
    var ls := Network.Initialize(net, v, gauss, cursor).value.0.layers.value;
    assert Built(ls, InputSizes(v, hs), hs, OutputSizes(v, hs), net.learningRate);
    forall j | 0 <= j < |ls|
      ensures ls[j].Initialized()
    {
      assert Fresh(ls[j], InputSizes(v, hs)[j], hs[j], OutputSizes(v, hs)[j], net.learningRate);
    }
  }

  /** As written, `initialize` with two neighbouring hidden sizes that differ gives layer j
      outputs of layer j + 1's hidden size while layer j + 1 reads inputs of layer j's:
      every `forwardBackward` on valid arguments then fails with IllegalArgumentException
      when layer j + 1 checks its inputs. */
  lemma AsWrittenPassFails(k: Transcendentals, net: Net, v: int, gauss: nat -> real, cursor: nat, ix: seq<int>, iy: seq<int>)
    requires NetInv(net) && v >= 1
    requires exists j :: 0 <= j < |SizesOrDefault(net)| - 1 && SizesOrDefault(net)[j] != SizesOrDefault(net)[j + 1]
    requires |ix| == |iy| > 0 && forall t :: 0 <= t < |ix| ==> 0 <= ix[t] < v
    ensures ForwardBackward(k, InitializeAsWritten(net, v, gauss, cursor).value.0, Some(ix), Some(iy)).out == Err(IllegalArgument)
  {
    var hs := SizesOrDefault(net);
    var j :| 0 <= j < |hs| - 1 && hs[j] != hs[j + 1];
    var net' := AsWrittenMismatch(net, v, gauss, cursor, j);
    MismatchedPassFails(k, net', ix, iy);
  }

  /** The network `InitializeAsWritten` builds when hidden sizes j and j + 1 differ: ready
      layers, layer 0 reading the vocabulary, and a mismatch between layers j and j + 1. */
  lemma AsWrittenMismatch(net: Net, v: int, gauss: nat -> real, cursor: nat, j: int) returns (net': Net)
    requires NetInv(net) && v >= 1
    requires 0 <= j < |SizesOrDefault(net)| - 1 && SizesOrDefault(net)[j] != SizesOrDefault(net)[j + 1]
    ensures net' == InitializeAsWritten(net, v, gauss, cursor).value.0
    ensures NetInv(net') && net'.initialized
    ensures ReadyFrom(net'.layers.value, 0) && net'.layers.value[0].inputSize == v
    ensures j < |net'.layers.value| - 1 && net'.layers.value[j].outputSize != net'.layers.value[j + 1].inputSize
  {
    net' := InitializeAsWritten(net, v, gauss, cursor).value.0;
    var ls := AsWrittenLayers(net, v, gauss, cursor);
    assert net'.layers.value == ls;
  }

  /** On a stack whose neighbouring sizes disagree somewhere, `forwardBackward` on valid
      arguments fails with IllegalArgumentException. */
  lemma MismatchedPassFails(k: Transcendentals, net: Net, ix: seq<int>, iy: seq<int>)
    requires NetInv(net) && net.initialized && ReadyFrom(net.layers.value, 0)
    requires exists j :: 0 <= j < |net.layers.value| - 1 && net.layers.value[j].outputSize != net.layers.value[j + 1].inputSize
    requires |ix| == |iy| > 0 && forall t :: 0 <= t < |ix| ==> 0 <= ix[t] < net.layers.value[0].inputSize
    ensures ForwardBackward(k, net, Some(ix), Some(iy)).out == Err(IllegalArgument)
  {
    var xs := PassIsTrain(k, net, ix, iy);
    ForwardUpStopsAtMismatch(k, net.layers.value, 0, xs);
  }

  /** Past the argument checks and the encoding of ix, `forwardBackward` is `Train`. */
  lemma PassIsTrain(k: Transcendentals, net: Net, ix: seq<int>, iy: seq<int>) returns (xs: seq<Matrix>)
    requires NetInv(net) && net.initialized
    requires |ix| == |iy| > 0 && forall t :: 0 <= t < |ix| ==> 0 <= ix[t] < net.layers.value[0].inputSize
    ensures BackSound(LayerBack(k))
    ensures ForwardBackward(k, net, Some(ix), Some(iy)) == Train(k, LayerBack(k), net, xs, iy)
    ensures |xs| == |ix| && forall t :: 0 <= t < |xs| ==> IsVectorOf(xs[t], net.layers.value[0].inputSize)
  {
    xs := IxToX(net.layers.value[0], Some(ix)).value;
    LayerBackSound(k);
  }

  /** A forward pass from layer i completes only on an initialized top layer: every layer
      from i up runs `forward`, which rejects an uninitialized layer. */
  lemma {:induction false} ForwardUpNeedsInitializedTop(k: Transcendentals, ls: seq<Layer>, i: nat, xs: seq<Matrix>, top: nat)
    requires i <= top && top == |ls| - 1 && AllInv(ls)
    ensures ForwardUp(k, ls, i, Some(Present(xs))).out.Ok? ==> ls[top].Initialized()
    decreases |ls| - i
  {
    var r := Forward(k, ls[i], Some(Present(xs)));
    if r.Ok? && i < top {
      var l' := r.value;
      ForwardKeepsInv(k, ls[i], Present(xs));
      ForwardUpNext(k, ls, i, Some(Present(xs)), l');
      ForwardUpNeedsInitializedTop(k, ls[i := l'], i + 1, l'.trace.ys, top);
    }
  }

  /** The targets are checked only by `getLoss`, after the forward pass: with the arguments
      accepted and the pass completed, a target outside the last layer's output size is
      IllegalArgumentException, and every layer keeps the state the pass left it in. */
  lemma BadTargetFailsAfterForward(k: Transcendentals, net: Net, ix: seq<int>, iy: seq<int>, t: int)
    requires NetInv(net) && net.initialized
    requires |ix| == |iy| > 0 && 0 <= t < |iy|
    ensures var ls := net.layers.value;
            var xs := IxToX(ls[0], Some(ix));
            xs.Ok? && ForwardUp(k, ls, 0, Some(Present(xs.value))).out.Ok? && !(0 <= iy[t] < ls[|ls| - 1].outputSize) ==>
              ForwardBackward(k, net, Some(ix), Some(iy)) ==
              Step(net.(layers := Some(ForwardUp(k, ls, 0, Some(Present(xs.value))).next)), Err(IllegalArgument))
  {
    var xs := IxToX(net.layers.value[0], Some(ix));
    if xs.Ok? {
      LayerBackSound(k);
      assert ForwardBackward(k, net, Some(ix), Some(iy)) == Train(k, LayerBack(k), net, xs.value, iy);
      TrainRejectsTarget(k, LayerBack(k), net, xs.value, iy, t);
    }
  }

  /** The passes of `forwardBackward` on a target outside the top layer's output size: once
      the forward pass completes, `getLoss` fails and the layers keep their new state. */
  lemma TrainRejectsTarget(k: Transcendentals, back: BackPass, net: Net, xs: seq<Matrix>, iy: seq<int>, t: int)
    requires BackSound(back) && NetInv(net) && net.initialized && 0 <= t < |iy|
    ensures var ls := net.layers.value;
            var f := ForwardUp(k, ls, 0, Some(Present(xs)));
            f.out.Ok? && !(0 <= iy[t] < ls[|ls| - 1].outputSize) ==>
              Train(k, back, net, xs, iy) == Step(net.(layers := Some(f.next)), Err(IllegalArgument))
  {
    var ls := net.layers.value;
    var f := ForwardUp(k, ls, 0, Some(Present(xs)));
    if f.out.Ok? && !(0 <= iy[t] < ls[|ls| - 1].outputSize) {
      ForwardUpNeedsInitializedTop(k, ls, 0, xs, |ls| - 1);
      assert SameConfig(ls[|ls| - 1], f.next[|ls| - 1]);
      var net' := net.(layers := Some(f.next));
      assert Train(k, back, net, xs, iy) == LossAndBackward(k, back, net', iy);
      LossRejectsTarget(k, back, net', iy, t);
    }
  }

  /** `getLoss` on a target outside the top layer's output size fails before any backward
      pass: the network is returned as it came. */
  lemma LossRejectsTarget(k: Transcendentals, back: BackPass, net: Net, iy: seq<int>, t: int)
    requires BackSound(back) && NetInv(net) && net.initialized && 0 <= t < |iy|
    ensures var top := net.layers.value[|net.layers.value| - 1];
            top.Initialized() && !(0 <= iy[t] < top.outputSize) ==>
              LossAndBackward(k, back, net, iy) == Step(net, Err(IllegalArgument))
  {
  }

  /** A learning rate set after `initialize` reaches every layer and de-initializes it,
      while the network still reports itself initialized: its vocabulary size is still
      answered, but every `forwardBackward` that passes the argument checks fails with
      IllegalStateException from layer 0 and changes nothing. */
  lemma RateChangeStrandsNet(k: Transcendentals, net: Net, rate: real, ix: seq<int>, iy: seq<int>)
    requires NetInv(net) && net.initialized
    requires |ix| == |iy| > 0 && forall t :: 0 <= t < |ix| ==> 0 <= ix[t] < net.layers.value[0].inputSize
    ensures Network.SetLearningRate(net, rate).initialized
    ensures GetVocabularySize(Network.SetLearningRate(net, rate)) == GetVocabularySize(net)
    ensures ForwardBackward(k, Network.SetLearningRate(net, rate), Some(ix), Some(iy)) == Step(Network.SetLearningRate(net, rate), Err(IllegalState))
  {
    var net' := Network.SetLearningRate(net, rate);
    var ls := net'.layers.value;
    assert !ls[0].Initialized();
    var xs := PassIsTrain(k, net', ix, iy);
    assert ForwardUp(k, ls, 0, Some(Present(xs))) == Step(ls, Err(IllegalState));
  }
}

=== FILE: tolerance.dfy ===
/** Tolerance comparison of the numeric helpers (`Math.close`, `Math.eps`). */
module Tolerance {

  /** The default comparison tolerance, 1e-6. */
  const CompareEpsilon: real := 0.000001

  function Abs(x: real): (r: real)
    ensures r >= 0.0
    ensures r == x || r == -x
  {
    if x < 0.0 then -x else x
  }

  /** `close(a, b, eps)`: a and b differ by at most eps. */
  predicate CloseWithin(a: real, b: real, eps: real) {
    Abs(a - b) <= eps
  }

  /** `close(a, b)`: the two-argument form uses the default tolerance. */
  predicate Close(a: real, b: real) {
    CloseWithin(a, b, CompareEpsilon)
  }

  /** `eps()` returns the default tolerance. */
  function Eps(): (e: real)
    ensures e == 0.000001
    ensures forall a: real, b: real :: CloseWithin(a, b, e) == Close(a, b)
  {
    CompareEpsilon
  }

  /** `close(a, b)` holds exactly when the distance is at most 1e-6, stated without `Abs`. */
  lemma CloseIff(a: real, b: real)
    ensures Close(a, b) <==> -0.000001 <= a - b <= 0.000001
  {
  }

  lemma CloseSymmetric(a: real, b: real)
    ensures Close(a, b) == Close(b, a)
  {
  }

  lemma CloseReflexive(a: real)
    ensures Close(a, a)
  {
  }

  /** No value is close to both 0 and 1: the two tests of the one-hot decoder are exclusive. */
  lemma ZeroAndOneApart(x: real)
    ensures !(Close(x, 0.0) && Close(x, 1.0))
  {
  }
}

=== FILE: trainer.dfy ===
/** The training driver of `net/RNNTrainer.java`: it walks a training set window by
    window, hands each window to a trainable network and keeps a step counter, the data
    offset and an exponentially smoothed loss.

    The network is anything with a `forwardBackward(ix, iy)` (the `Trainable` interface),
    so the driver is generic in the network's state N and receives the pass as a function
    that returns the network's next state and the loss, or the exception the pass threw. */
module Trainers {
  import opened Outcomes
  import opened Kernel
  import TrainingSets

  /** `defaultSequenceLength`. */
  const DefaultSequenceLength: int := 50

  /** `Integer.MAX_VALUE`, the step count of `train()`. */
  const IntMax: int := 0x7fff_ffff

  /** A forward-backward pass of a network in state N on inputs ix and targets iy. */
  type Pass<!N> = (N, seq<int>, seq<int>) -> Step<N, real>

  /** The index arrays `ix`, `iy` are always `new int[sequenceLength]` and are overwritten
      by every extract before they are read, so only their length is kept. */
  datatype Trainer<N> = Trainer(
    net: Option<N>,
    sequenceLength: int,
    trainingSet: Option<TrainingSets.TrainingSet>,
    offset: int,
    smoothLoss: real,
    totalSteps: int,
    initialized: bool)

  /** What every trainer satisfies: `setSequenceLength` admits only lengths above 1, the
      counters only grow from 0, and an initialized trainer has a network and data. */
  predicate TrainerInv<N>(t: Trainer<N>) {
    && t.sequenceLength > 1
    && (t.initialized ==> t.net.Some? && t.trainingSet.Some?)
  }

  /** `RNNTrainer()`: the default sequence length, nothing else set. */
  function NewTrainer<N>(): (t: Trainer<N>)
    ensures TrainerInv(t) && !t.initialized
    ensures t.sequenceLength == DefaultSequenceLength && t.offset == 0 && t.totalSteps == 0
  {
    Trainer(None, DefaultSequenceLength, None, 0, 0.0, 0, false)
  }

  /** `setSequenceLength(length)`: lengths of 1 or less are rejected; nothing else changes
      (an initialized trainer reallocates its index arrays at the new length). */
  function SetSequenceLength<N>(t: Trainer<N>, length: int): (r: Result<Trainer<N>>)
    ensures r.Ok? <==> length > 1
    ensures r.Err? ==> r.error == IllegalArgument
    ensures r.Ok? ==> r.value.sequenceLength == length && r.value == t.(sequenceLength := r.value.sequenceLength)
    ensures TrainerInv(t) && r.Ok? ==> TrainerInv(r.value)
  {
    if length <= 1 then Err(IllegalArgument) else Ok(t.(sequenceLength := length))
  }

  /** The smoothed loss a fresh run starts from: the loss of a uniform guess over the
      vocabulary, -log(1/v) per step, for a whole sequence. */
  function InitialLoss(k: Transcendentals, v: int, T: int): real
    requires v > 0
  {
    -k.log(1.0 / v as real) * T as real
  }

  /** The checks and assignments of `initialize(net, trainingSet)` with the size bound as a
      parameter: null arguments are rejected before anything is assigned; the network and
      training set are assigned before the vocabulary and data size are checked, so a
      rejected set still replaces the old one. The counters are not reset. */
  function Admit<N>(k: Transcendentals, t: Trainer<N>, net: Option<N>, ts: Option<TrainingSets.TrainingSet>, minSize: int): (s: Step<Trainer<N>, ()>)
    requires TrainerInv(t)
    ensures TrainerInv(s.next)
    ensures ts.None? || net.None? ==> s == Step(t, Err(NullPointer))
    ensures s.out.Ok? <==>
      ts.Some? && net.Some? && TrainingSets.VocabularySize(ts.value) > 0 && TrainingSets.Size(ts.value) >= minSize
    ensures ts.Some? && net.Some? && s.out.Err? ==>
      s == Step(t.(net := net, trainingSet := ts), Err(BadTrainingSet))
    ensures s.out.Ok? ==> s.next == t.(net := net, trainingSet := ts, initialized := true,
                                       smoothLoss := InitialLoss(k, TrainingSets.VocabularySize(ts.value), t.sequenceLength))
  {
    if ts.None? then Step(t, Err(NullPointer))
    else if net.None? then Step(t, Err(NullPointer))
    else
      var t1 := t.(net := net, trainingSet := ts);
      var v := TrainingSets.VocabularySize(ts.value);
      if v == 0 then Step(t1, Err(BadTrainingSet))
      else if TrainingSets.Size(ts.value) < minSize then Step(t1, Err(BadTrainingSet))
      else Step(t1.(smoothLoss := InitialLoss(k, v, t.sequenceLength), initialized := true), Ok(()))
  }

  /** `initialize` as written: data shorter than the sequence length is rejected, so data
      of exactly that length passes although a window needs one character more. */
  function InitializeAsWritten<N>(k: Transcendentals, t: Trainer<N>, net: Option<N>, ts: Option<TrainingSets.TrainingSet>): (s: Step<Trainer<N>, ()>)
    requires TrainerInv(t)
    ensures TrainerInv(s.next)
    ensures s.out.Ok? <==>
      ts.Some? && net.Some? && TrainingSets.VocabularySize(ts.value) > 0 && TrainingSets.Size(ts.value) >= t.sequenceLength
  {
    Admit(k, t, net, ts, t.sequenceLength)
  }

  /** `initialize` as intended: the data must hold at least one window, that is
      sequenceLength + 1 characters. */
  function Initialize<N>(k: Transcendentals, t: Trainer<N>, net: Option<N>, ts: Option<TrainingSets.TrainingSet>): (s: Step<Trainer<N>, ()>)
    requires TrainerInv(t)
    ensures TrainerInv(s.next)
    ensures ts.None? || net.None? ==> s == Step(t, Err(NullPointer))
    ensures s.out.Ok? <==>
      ts.Some? && net.Some? && TrainingSets.VocabularySize(ts.value) > 0 && TrainingSets.Size(ts.value) > t.sequenceLength
    ensures ts.Some? && net.Some? && s.out.Err? ==> s.out.error == BadTrainingSet
    ensures s.out.Ok? ==> s.next.initialized && s.next.offset == t.offset && s.next.totalSteps == t.totalSteps
  {
    Admit(k, t, net, ts, t.sequenceLength + 1)
  }

  /** The index arrays handed to `extract`. */
  function Arrays(T: nat): Option<seq<int>> {
    Some(seq(T, _ => 0))
  }

  /** The window one training step reads. */
  function NextWindow<N>(t: Trainer<N>): (r: Result<(seq<int>, seq<int>)>)
    requires t.trainingSet.Some? && t.sequenceLength >= 0
    ensures r.Ok? <==> 0 <= t.offset && t.offset + t.sequenceLength + 1 <= |t.trainingSet.value.data|
    ensures t.offset < 0 ==> r == Err(IllegalArgument)
    ensures t.offset >= 0 && r.Err? ==> r.error == NoMoreTrainingData
    ensures r.Ok? ==> |r.value.0| == t.sequenceLength && TrainingSets.WindowAt(t.trainingSet.value, t.offset, r.value.0, r.value.1)
  {
    TrainingSets.Extract(t.trainingSet.value, t.offset, Arrays(t.sequenceLength), Arrays(t.sequenceLength))
  }

  /** The window one training step would read through `extract` as written. */
  function NextWindowAsWritten<N>(t: Trainer<N>): (r: Result<(seq<int>, seq<int>)>)
    requires t.trainingSet.Some? && t.sequenceLength >= 0
    ensures r.Ok? <==> 0 <= t.offset && t.offset + t.sequenceLength + 1 < |t.trainingSet.value.data|
    ensures t.offset < 0 ==> r == Err(IllegalArgument)
    ensures t.offset >= 0 && r.Err? ==> r.error == NoMoreTrainingData
    ensures r.Ok? ==> |r.value.0| == t.sequenceLength && TrainingSets.WindowAt(t.trainingSet.value, t.offset, r.value.0, r.value.1)
  {
    TrainingSets.ExtractAsWritten(t.trainingSet.value, t.offset, Arrays(t.sequenceLength), Arrays(t.sequenceLength))
  }

  /** Read through `extract` as written, a step finds the same window wherever that finds
      one, and throws NoMoreTrainingDataException in place of reading the last window of
      the data, the one whose final target is the final character. */
  lemma NextWindowAsWrittenMissesLast<N>(t: Trainer<N>)
    requires t.trainingSet.Some? && t.sequenceLength >= 0
    ensures NextWindowAsWritten(t).Ok? ==> NextWindow(t) == NextWindowAsWritten(t)
    ensures NextWindowAsWritten(t).Err? && NextWindow(t).Ok? ==>
      && t.offset + t.sequenceLength + 1 == |t.trainingSet.value.data|
      && NextWindowAsWritten(t).error == NoMoreTrainingData
  {
    TrainingSets.AsWrittenAgreesWhenOk(t.trainingSet.value, t.offset, Arrays(t.sequenceLength), Arrays(t.sequenceLength));
  }

  /** `smoothLoss * 0.999 + loss * 0.001`. */
  function Smooth(L: real, loss: real): real {
    L * 0.999 + loss * 0.001
  }

  /** The smoothed loss moves toward the new loss and never past it. */
  lemma SmoothBetween(L: real, loss: real)
    ensures L <= loss ==> L <= Smooth(L, loss) <= loss
    ensures loss <= L ==> loss <= Smooth(L, loss) <= L
  {
  }

  /** One iteration of the loop of `train(steps)`: extract the window at the offset (an
      exception here leaves the trainer as it was), run the pass (an exception here
      leaves the network as the pass left it and the counters as they were), then fold the
      loss into the smoothed loss and advance the offset and the step counter. */
  function TrainStep<N>(t: Trainer<N>, fb: Pass<N>): (s: Step<Trainer<N>, ()>)
    requires t.net.Some? && t.trainingSet.Some? && t.sequenceLength >= 0
    ensures NextWindow(t).Err? ==> s == Step(t, Err(NextWindow(t).error))
    ensures s.out.Err? ==> s.next == t.(net := s.next.net) && s.next.net.Some?
    ensures s.out.Ok? ==>
      && NextWindow(t).Ok?
      && var r := fb(t.net.value, NextWindow(t).value.0, NextWindow(t).value.1);
      && r.out.Ok?
      && s.next == t.(net := Some(r.next), smoothLoss := Smooth(t.smoothLoss, r.out.value),
                      offset := t.offset + t.sequenceLength, totalSteps := t.totalSteps + 1)
  {
    match NextWindow(t)
    case Err(e) => Step(t, Err(e))
    case Ok(w) =>
      var r := fb(t.net.value, w.0, w.1);
      if r.out.Err? then Step(t.(net := Some(r.next)), Err(r.out.error))
      else
        Step(t.(net := Some(r.next), smoothLoss := Smooth(t.smoothLoss, r.out.value),
                offset := t.offset + t.sequenceLength, totalSteps := t.totalSteps + 1), Ok(()))
  }

  /** m strides of length T: the distance the offset moves in m completed steps. */
  function Stride(m: nat, T: int): int
    decreases m
  {
    if m == 0 then 0 else Stride(m - 1, T) + T
  }

  /** Strides add up. */
  lemma {:induction false} StrideAdd(a: nat, b: nat, T: int)
    ensures Stride(a + b, T) == Stride(a, T) + Stride(b, T)
    decreases b
  {
    if b > 0 {
      StrideAdd(a, b - 1, T);
    }
  }

  /** m strides of T cover m * T; a stride that is not negative never moves back. */
  lemma {:induction false} StrideIsProduct(m: nat, T: int)
    ensures Stride(m, T) == m * T
    ensures T >= 0 ==> Stride(m, T) >= 0
    decreases m
  {
    if m > 0 {
      StrideIsProduct(m - 1, T);
    }
  }

  lemma DivideBack(a: real, T: real)
    requires T != 0.0
    ensures a * T / T == a
  {
  }

  /** t' is t after m completed steps and possibly a failed one: the same length, data and
      flag, a network, the counters moved together by m. */
  predicate Counted<N>(t: Trainer<N>, t': Trainer<N>, m: nat) {
    && t'.sequenceLength == t.sequenceLength && t'.trainingSet == t.trainingSet
    && t'.initialized == t.initialized && t'.net.Some?
    && t'.totalSteps == t.totalSteps + m
    && t'.offset == t.offset + Stride(m, t.sequenceLength)
  }

  /** s ends a run of at most n steps from t: the counters moved together by the number
      of completed steps, which is n unless an exception ended the run. */
  predicate CountedRun<N>(t: Trainer<N>, s: Step<Trainer<N>, ()>, n: nat) {
    && 0 <= s.next.totalSteps - t.totalSteps <= n
    && Counted(t, s.next, s.next.totalSteps - t.totalSteps)
    && (s.out.Ok? ==> s.next.totalSteps == t.totalSteps + n)
  }

  /** Steps add up. */
  lemma CountedTrans<N>(t: Trainer<N>, t1: Trainer<N>, t2: Trainer<N>, a: nat, b: nat)
    requires Counted(t, t1, a) && Counted(t1, t2, b)
    ensures Counted(t, t2, a + b)
  {
    StrideAdd(a, b, t.sequenceLength);
  }

  /** What a training step needs: a network, data, and index arrays of a length Java can
      allocate. */
  predicate Runnable<N>(t: Trainer<N>) {
    t.net.Some? && t.trainingSet.Some? && t.sequenceLength >= 0
  }

  /** One step of the loop as a function value, so that the loop can be reasoned about
      through what a step guarantees. Outside `Runnable` trainers, which the loop never
      reaches, it reports IllegalStateException. */
  function StepOf<N>(fb: Pass<N>): Trainer<N> -> Step<Trainer<N>, ()> {
    t => if Runnable(t) then TrainStep(t, fb) else Step(t, Err(IllegalState))
  }

  /** n steps of `step`, stopping at the first exception. */
  function Iterate<N>(step: Trainer<N> -> Step<Trainer<N>, ()>, t: Trainer<N>, n: nat): Step<Trainer<N>, ()>
    decreases n
  {
    if n == 0 then Step(t, Ok(()))
    else
      var s := step(t);
      if s.out.Err? then s else Iterate(step, s.next, n - 1)
  }

  /** A step that counts one when it completes and nothing when it throws. */
  ghost predicate StepsCount<N(!new)>(step: Trainer<N> -> Step<Trainer<N>, ()>) {
    forall t: Trainer<N> {:trigger step(t)} :: Runnable(t) ==>
      Counted(t, step(t).next, if step(t).out.Ok? then 1 else 0)
  }

  /** A completed step counts one. */
  lemma StepCounts<N(!new)>(fb: Pass<N>)
    ensures StepsCount(StepOf(fb))
  {
    forall t: Trainer<N> | Runnable(t)
      ensures Counted(t, StepOf(fb)(t).next, if StepOf(fb)(t).out.Ok? then 1 else 0)
    {
      assert StepOf(fb)(t) == TrainStep(t, fb);
    }
  }

  /** Iterating a counting step counts every completed step: at most n, all n unless an
      exception ended the loop, and the offset moved by one stride per counted step. */
  lemma {:induction false} IterateCounts<N(!new)>(step: Trainer<N> -> Step<Trainer<N>, ()>, t: Trainer<N>, n: nat)
    requires StepsCount(step) && Runnable(t)
    ensures CountedRun(t, Iterate(step, t, n), n)
    decreases n
  {
    if n > 0 {
      var s := step(t);
      if s.out.Ok? {
        var r := Iterate(step, s.next, n - 1);
        IterateCounts(step, s.next, n - 1);
        CountedTrans(t, s.next, r.next, 1, r.next.totalSteps - s.next.totalSteps);
      }
    }
  }

  /** The loop of `train(steps)`: n steps, stopping at the first exception. After it, the
      offset has moved by sequenceLength for every step the counter counted, at most n
      steps were counted, and all n unless an exception ended the loop. */
  function Loop<N(!new)>(t: Trainer<N>, fb: Pass<N>, n: nat): (s: Step<Trainer<N>, ()>)
    requires Runnable(t)
    ensures CountedRun(t, s, n)
  {
    StepCounts(fb);
    IterateCounts(StepOf(fb), t, n);
    Iterate(StepOf(fb), t, n)
  }

  /** `train(steps)`: an uninitialized trainer and a negative count are rejected first;
      then the loop. */
  function Train<N(!new)>(t: Trainer<N>, fb: Pass<N>, steps: int): (s: Step<Trainer<N>, ()>)
    requires TrainerInv(t)
    ensures TrainerInv(s.next)
    ensures !t.initialized ==> s == Step(t, Err(IllegalState))
    ensures t.initialized && steps < 0 ==> s == Step(t, Err(IllegalArgument))
  {
    if !t.initialized then Step(t, Err(IllegalState))
    else if steps < 0 then Step(t, Err(IllegalArgument))
    else Loop(t, fb, steps)
  }

  /** What `train(steps)` does to the counters: the offset moves by sequenceLength for
      every step the counter counts, never backwards, and every requested step is counted
      unless an exception ended the loop. */
  lemma TrainCounts<N(!new)>(t: Trainer<N>, fb: Pass<N>, steps: int)
    requires TrainerInv(t) && t.initialized && steps >= 0
    ensures var s := Train(t, fb, steps);
      && 0 <= s.next.totalSteps - t.totalSteps <= steps
      && Counted(t, s.next, s.next.totalSteps - t.totalSteps)
      && s.next.offset >= t.offset
      && (s.out.Ok? ==> s.next.totalSteps == t.totalSteps + steps)
  {
    var s := Loop(t, fb, steps);
    StrideIsProduct(s.next.totalSteps - t.totalSteps, t.sequenceLength);
  }

  /** `train()`: as many steps as an int counts. */
  function TrainAll<N(!new)>(t: Trainer<N>, fb: Pass<N>): (s: Step<Trainer<N>, ()>)
    requires TrainerInv(t)
    ensures TrainerInv(s.next)
    ensures !t.initialized ==> s == Step(t, Err(IllegalState))
    ensures t.initialized && s.out.Ok? ==> s.next.totalSteps == t.totalSteps + IntMax
  {
    if !t.initialized then Train(t, fb, IntMax)
    else
      TrainCounts(t, fb, IntMax);
      Train(t, fb, IntMax)
  }

  /** `loopAround()`: back to the start of the data. */
  function LoopAround<N>(t: Trainer<N>): (r: Trainer<N>)
    ensures r.offset == 0 && r == t.(offset := r.offset)
    ensures TrainerInv(t) ==> TrainerInv(r)
  {
    t.(offset := 0)
  }

  /** `getSmoothLoss()`: the smoothed loss per step, in percent. */
  function GetSmoothLoss<N>(t: Trainer<N>): (r: Result<real>)
    requires TrainerInv(t)
    ensures r.Ok? <==> t.initialized
    ensures r.Err? ==> r.error == IllegalState
    ensures r.Ok? ==> r.value * t.sequenceLength as real == t.smoothLoss * 100.0
  {
    if !t.initialized then Err(IllegalState) else Ok(t.smoothLoss / t.sequenceLength as real * 100.0)
  }

  /* ---------------------------------------------------------------- Properties */

  /** Right after `initialize`, the reported loss is that of a uniform guess,
      -log(1/v) * 100, whatever the sequence length. */
  lemma InitialSmoothLoss<N>(k: Transcendentals, t: Trainer<N>, net: Option<N>, ts: Option<TrainingSets.TrainingSet>)
    requires TrainerInv(t) && Initialize(k, t, net, ts).out.Ok?
    ensures GetSmoothLoss(Initialize(k, t, net, ts).next)
      == Ok(-k.log(1.0 / TrainingSets.VocabularySize(ts.value) as real) * 100.0)
  {
    var T := t.sequenceLength as real;
    var a := -k.log(1.0 / TrainingSets.VocabularySize(ts.value) as real);
    var t' := Initialize(k, t, net, ts).next;
    assert t'.smoothLoss == a * T;
    assert GetSmoothLoss(t') == Ok(t'.smoothLoss / T * 100.0);
    DivideBack(a, T);
  }

  /** After the intended `initialize`, a trainer at offset 0 finds its first window. */
  lemma InitializeAllowsOnePass<N>(k: Transcendentals, t: Trainer<N>, net: Option<N>, ts: Option<TrainingSets.TrainingSet>)
    requires TrainerInv(t) && t.offset == 0 && Initialize(k, t, net, ts).out.Ok?
    ensures NextWindow(Initialize(k, t, net, ts).next).Ok?
  {
  }

  /** With data as long as the sequence, the code as written initializes, yet the first
      step finds no window: "ab" with sequence length 2. */
  lemma AsWrittenAdmitsTooShortData<N>(k: Transcendentals, net: N)
    ensures var t := NewTrainer<N>().(sequenceLength := 2);
      var ts := TrainingSets.FromString(Some("ab"));
      && InitializeAsWritten(k, t, Some(net), Some(ts)).out.Ok?
      && NextWindow(InitializeAsWritten(k, t, Some(net), Some(ts)).next) == Err(NoMoreTrainingData)
      && Initialize(k, t, Some(net), Some(ts)) == Step(t.(net := Some(net), trainingSet := Some(ts)), Err(BadTrainingSet))
  {
    var ts := TrainingSets.FromString(Some("ab"));
    assert 'a' in ts.data;
    assert TrainingSets.VocabularySize(ts) > 0;
  }

  /** A pass that never throws. */
  ghost predicate Succeeds<N(!new)>(fb: Pass<N>) {
    forall n: N, ix: seq<int>, iy: seq<int> :: fb(n, ix, iy).out.Ok?
  }

  /** No condition on a trainer. */
  predicate AnyTrainer<N>(t: Trainer<N>) {
    true
  }

  /** A step that, on runnable trainers satisfying Q, completes exactly when the data holds
      the window at the offset, otherwise throws NoMoreTrainingDataException, and keeps Q
      when it completes. */
  ghost predicate StepsFind<N(!new)>(step: Trainer<N> -> Step<Trainer<N>, ()>, Q: Trainer<N> -> bool) {
    forall t: Trainer<N> {:trigger step(t)} :: Runnable(t) && t.offset >= 0 && Q(t) ==>
      && (step(t).out.Ok? <==> t.offset + t.sequenceLength + 1 <= |t.trainingSet.value.data|)
      && (step(t).out.Err? ==> step(t).out.error == NoMoreTrainingData)
      && (step(t).out.Ok? ==> Q(step(t).next))
  }

  /** With a pass that never throws, a step completes exactly when the data holds the
      window at the offset, and otherwise fails with NoMoreTrainingDataException. */
  lemma StepOkIff<N(!new)>(fb: Pass<N>)
    requires Succeeds(fb)
    ensures StepsFind(StepOf(fb), AnyTrainer)
  {
    forall t: Trainer<N> | Runnable(t) && t.offset >= 0
      ensures StepOf(fb)(t).out.Ok? <==> t.offset + t.sequenceLength + 1 <= |t.trainingSet.value.data|
      ensures StepOf(fb)(t).out.Err? ==> StepOf(fb)(t).out.error == NoMoreTrainingData
    {
      assert StepOf(fb)(t) == TrainStep(t, fb);
      var w := NextWindow(t);
      if w.Ok? {
        var r := fb(t.net.value, w.value.0, w.value.1);
        assert r.out.Ok?;
      }
    }
  }

  /** Iterating such a step from a trainer satisfying Q completes n steps exactly when the
      data holds the n windows from the offset on, that is offset + n strides + 1
      characters. */
  lemma {:induction false} IterateOkIff<N(!new)>(step: Trainer<N> -> Step<Trainer<N>, ()>, Q: Trainer<N> -> bool, t: Trainer<N>, n: nat)
    requires StepsCount(step) && StepsFind(step, Q) && Runnable(t) && t.offset >= 0 && Q(t)
    ensures Iterate(step, t, n).out.Ok? <==> n == 0 || t.offset + Stride(n, t.sequenceLength) + 1 <= |t.trainingSet.value.data|
    ensures Iterate(step, t, n).out.Err? ==> Iterate(step, t, n).out.error == NoMoreTrainingData
    decreases n
  {
    if n > 0 {
      var T := t.sequenceLength;
      StrideIsProduct(n - 1, T);
      var s := step(t);
      if s.out.Ok? {
        assert Counted(t, s.next, 1);
        IterateOkIff(step, Q, s.next, n - 1);
        assert s.next.offset == t.offset + T;
      }
    }
  }

  /** s ends a run of at most n steps from t that completed m < n steps, where the m
      windows from the offset were all in the data and the next one was not. */
  predicate StoppedAtEnd<N>(t: Trainer<N>, s: Step<Trainer<N>, ()>, n: nat)
    requires t.trainingSet.Some?
  {
    var m := s.next.totalSteps - t.totalSteps;
    && 0 <= m < n
    && (m == 0 || t.offset + Stride(m, t.sequenceLength) + 1 <= |t.trainingSet.value.data|)
    && |t.trainingSet.value.data| < t.offset + Stride(m + 1, t.sequenceLength) + 1
  }

  /** Where such an iteration throws, it completed m < n steps: the m windows from the
      offset were all in the data and the next one was not, so it stopped exactly at the
      end of the data. */
  lemma {:induction false} IterateStopsAtEnd<N(!new)>(step: Trainer<N> -> Step<Trainer<N>, ()>, Q: Trainer<N> -> bool, t: Trainer<N>, n: nat)
    requires StepsCount(step) && StepsFind(step, Q) && Runnable(t) && t.offset >= 0 && Q(t)
    requires Iterate(step, t, n).out.Err?
    ensures StoppedAtEnd(t, Iterate(step, t, n), n)
    decreases n
  {
    var s := step(t);
    if s.out.Ok? {
      assert Counted(t, s.next, 1);
      IterateStopsAtEnd(step, Q, s.next, n - 1);
    } else {
      assert Counted(t, s.next, 0);
    }
  }

  /** A step that keeps P of every runnable trainer, whether it completes or throws. */
  ghost predicate StepsKeep<N(!new)>(step: Trainer<N> -> Step<Trainer<N>, ()>, P: Trainer<N> -> bool) {
    forall t: Trainer<N> {:trigger step(t)} :: Runnable(t) && P(t) ==> P(step(t).next)
  }

  /** Iterating a step that keeps P keeps P. */
  lemma {:induction false} IterateKeeps<N(!new)>(step: Trainer<N> -> Step<Trainer<N>, ()>, P: Trainer<N> -> bool, t: Trainer<N>, n: nat)
    requires StepsCount(step) && StepsKeep(step, P) && Runnable(t) && P(t)
    ensures P(Iterate(step, t, n).next)
    decreases n
  {
    if n > 0 {
      var s := step(t);
      if s.out.Ok? {
        assert Counted(t, s.next, 1);
        IterateKeeps(step, P, s.next, n - 1);
      }
    }
  }

  /** The loop keeps what each of its steps keeps. */
  lemma LoopKeeps<N(!new)>(t: Trainer<N>, fb: Pass<N>, P: Trainer<N> -> bool, n: nat)
    requires Runnable(t) && P(t) && StepsKeep(StepOf(fb), P)
    ensures P(Loop(t, fb, n).next)
  {
    StepCounts(fb);
    IterateKeeps(StepOf(fb), P, t, n);
  }

  /** Where the loop of a pass whose steps find their windows throws, it completed m < n
      steps, the m windows from the offset were in the data and the next one was not. */
  lemma LoopStopsAtEnd<N(!new)>(t: Trainer<N>, fb: Pass<N>, Q: Trainer<N> -> bool, n: nat)
    requires Runnable(t) && t.offset >= 0 && Q(t) && StepsFind(StepOf(fb), Q)
    requires Loop(t, fb, n).out.Err?
    ensures StoppedAtEnd(t, Loop(t, fb, n), n)
  {
    StepCounts(fb);
    IterateStopsAtEnd(StepOf(fb), Q, t, n);
  }

  /** n steps of a pass whose steps find their windows on trainers satisfying Q complete
      exactly when the data holds the n windows from the offset on, and otherwise the loop
      stops with NoMoreTrainingDataException. */
  lemma LoopOkIffWhere<N(!new)>(t: Trainer<N>, fb: Pass<N>, Q: Trainer<N> -> bool, n: nat)
    requires Runnable(t) && t.offset >= 0 && Q(t) && StepsFind(StepOf(fb), Q)
    ensures Loop(t, fb, n).out.Ok? <==> n == 0 || t.offset + Stride(n, t.sequenceLength) + 1 <= |t.trainingSet.value.data|
    ensures Loop(t, fb, n).out.Err? ==> Loop(t, fb, n).out.error == NoMoreTrainingData
  {
    StepCounts(fb);
    IterateOkIff(StepOf(fb), Q, t, n);
  }

  /** With a pass that never throws, n steps complete exactly when the data holds the n
      windows from the offset on, and otherwise the loop stops with
      NoMoreTrainingDataException. */
  lemma LoopOkIff<N(!new)>(t: Trainer<N>, fb: Pass<N>, n: nat)
    requires Runnable(t) && t.offset >= 0 && Succeeds(fb)
    ensures Loop(t, fb, n).out.Ok? <==> n == 0 || t.offset + Stride(n, t.sequenceLength) + 1 <= |t.trainingSet.value.data|
    ensures Loop(t, fb, n).out.Err? ==> Loop(t, fb, n).out.error == NoMoreTrainingData
  {
    StepOkIff(fb);
    LoopOkIffWhere(t, fb, AnyTrainer, n);
  }

  /** After `loopAround`, n steps of a pass that never throws complete exactly when the
      data holds n windows from the start, and leave the offset at n * sequenceLength. */
  lemma LoopAroundThenTrain<N(!new)>(t: Trainer<N>, fb: Pass<N>, n: nat)
    requires TrainerInv(t) && t.initialized && Succeeds(fb) && n > 0
    ensures Train(LoopAround(t), fb, n).out.Ok? <==> n * t.sequenceLength + 1 <= |t.trainingSet.value.data|
    ensures Train(LoopAround(t), fb, n).out.Ok? ==> Train(LoopAround(t), fb, n).next.offset == n * t.sequenceLength
  {
    LoopOkIff(LoopAround(t), fb, n);
    TrainCounts(LoopAround(t), fb, n);
    StrideIsProduct(n, t.sequenceLength);
  }
}

=== FILE: trainingset.dfy ===
/** The training set of `net/StringTrainingSet.java`: a text and its alphabet, cut into
    windows of character indices where each target is the input one position later. */
module TrainingSets {
  import opened Outcomes
  import Alphabets

  datatype StringSet = StringSet(data: string, alphabet: Alphabets.Alphabet)

  /** The only training sets the private constructor builds: the alphabet is the
      alphabet of the data. */
  type TrainingSet = ts: StringSet | ts.alphabet == Alphabets.FromString(Some(ts.data))
    witness StringSet("", Alphabets.Symbols([]))

  /** `fromString`: null data reads as the empty string. */
  function FromString(data: Option<string>): (ts: TrainingSet)
    ensures data.None? ==> ts.data == ""
    ensures data.Some? ==> ts.data == data.value
    ensures forall c :: c in ts.alphabet.chars <==> c in ts.data
  {
    var d := if data.None? then "" else data.value;
    StringSet(d, Alphabets.FromString(Some(d)))
  }

  /** `size()`: the length of the data. */
  function Size(ts: TrainingSet): nat {
    |ts.data|
  }

  /** `vocabularySize()`: the size of the alphabet. */
  function VocabularySize(ts: TrainingSet): nat {
    Alphabets.Size(ts.alphabet)
  }

  /** The vocabulary counts the distinct characters of the data. */
  lemma VocabularyIsDistinctCount(data: Option<string>)
    ensures VocabularySize(FromString(data)) == |set c | c in FromString(data).data|
  {
    Alphabets.SizeIsDistinctCount(FromString(data).data);
  }

  /** ix and iy hold the window of length |ix| at lb: ix[t] stands for the character at
      lb + t and iy[t] for the one after it. */
  predicate WindowAt(ts: TrainingSet, lb: int, ix: seq<int>, iy: seq<int>) {
    && 0 <= lb && |ix| == |iy| && lb + |ix| < |ts.data|
    && Alphabets.AllBelow(ix, VocabularySize(ts)) && Alphabets.AllBelow(iy, VocabularySize(ts))
    && (forall t :: 0 <= t < |ix| ==> ts.alphabet.chars[ix[t]] == ts.data[lb + t])
    && (forall t :: 0 <= t < |iy| ==> ts.alphabet.chars[iy[t]] == ts.data[lb + t + 1])
  }

  /** The loop of `extract` once the bound check has passed: the indices of the
      characters lb .. lb + len, the first len as inputs and the last len as targets. A
      character missing from the alphabet would be reported as the RuntimeException
      "Data doesn't match the alphabet"; it cannot happen. */
  function Window(ts: TrainingSet, lb: nat, len: nat): (r: Result<(seq<int>, seq<int>)>)
    requires lb + len < |ts.data|
    ensures r.Ok? && WindowAt(ts, lb, r.value.0, r.value.1) && |r.value.0| == len
  {
    var text := ts.data[lb..lb + len + 1];
    assert forall t :: 0 <= t < |text| ==> text[t] in ts.alphabet.chars by {
      forall t | 0 <= t < |text| ensures text[t] in ts.alphabet.chars {
        assert text[t] == ts.data[lb + t];
      }
    }
    match Alphabets.CharsToIndices(ts.alphabet, Some(text))
    case Err(_) => assert false; Err(DataMismatch)
    case Ok(w) =>
      assert forall t :: 0 <= t < |text| ==> ts.alphabet.chars[w[t]] == ts.data[lb + t];
      Ok((w[..len], w[1..]))
  }

  /** The checks of `extract`, in order: null arrays, arrays of different lengths, a
      negative lower bound. */
  function CheckArguments(lb: int, ix: Option<seq<int>>, iy: Option<seq<int>>): (r: Result<nat>)
    ensures r.Ok? <==> ix.Some? && iy.Some? && |ix.value| == |iy.value| && lb >= 0
    ensures ix.None? || iy.None? ==> r == Err(NullPointer)
    ensures ix.Some? && iy.Some? && !r.Ok? ==> r == Err(IllegalArgument)
    ensures r.Ok? ==> r.value == |iy.value|
  {
    if ix.None? || iy.None? then Err(NullPointer)
    else if |ix.value| != |iy.value| then Err(IllegalArgument)
    else if lb < 0 then Err(IllegalArgument)
    else Ok(|iy.value|)
  }

  /** `extract(lowerBound, ix, iy)` as written: the arrays are filled in place, so the
      result is their new contents. Reports exhaustion when lowerBound + len + 1 reaches
      the data length, although the window needs only the characters up to
      lowerBound + len. */
  function ExtractAsWritten(ts: TrainingSet, lb: int, ix: Option<seq<int>>, iy: Option<seq<int>>): (r: Result<(seq<int>, seq<int>)>)
    ensures r.Ok? <==> CheckArguments(lb, ix, iy).Ok? && lb + |iy.value| + 1 < |ts.data|
    ensures CheckArguments(lb, ix, iy).Err? ==> r == Err(CheckArguments(lb, ix, iy).error)
    ensures r.Ok? ==> WindowAt(ts, lb, r.value.0, r.value.1) && |r.value.0| == |iy.value|
  {
    var len :- CheckArguments(lb, ix, iy);
    if lb + len + 1 >= |ts.data| then Err(NoMoreTrainingData)
    else Window(ts, lb, len)
  }

  /** `extract` as intended: exhaustion exactly when the window would run past the end of
      the data. */
  function Extract(ts: TrainingSet, lb: int, ix: Option<seq<int>>, iy: Option<seq<int>>): (r: Result<(seq<int>, seq<int>)>)
    ensures CheckArguments(lb, ix, iy).Err? ==> r == Err(CheckArguments(lb, ix, iy).error)
    ensures CheckArguments(lb, ix, iy).Ok? ==>
      (r.Ok? <==> lb + |iy.value| + 1 <= |ts.data|) && (r.Err? ==> r.error == NoMoreTrainingData)
    ensures r.Ok? ==> WindowAt(ts, lb, r.value.0, r.value.1) && |r.value.0| == |iy.value|
  {
    var len :- CheckArguments(lb, ix, iy);
    if lb + len + 1 > |ts.data| then Err(NoMoreTrainingData)
    else Window(ts, lb, len)
  }

  /** A window is fixed by the data: whatever the alphabet, the indices are those of the
      characters at lb .., so two windows at the same place agree. */
  lemma WindowUnique(ts: TrainingSet, lb: int, ix: seq<int>, iy: seq<int>, jx: seq<int>, jy: seq<int>)
    requires WindowAt(ts, lb, ix, iy) && WindowAt(ts, lb, jx, jy) && |ix| == |jx|
    ensures ix == jx && iy == jy
  {
    forall t | 0 <= t < |ix| ensures ix[t] == jx[t] && iy[t] == jy[t] {
      assert ts.alphabet.chars[ix[t]] == ts.alphabet.chars[jx[t]];
      assert ts.alphabet.chars[iy[t]] == ts.alphabet.chars[jy[t]];
    }
  }

  /** Targets are the inputs shifted by one: iy[t] == ix[t + 1]. */
  lemma WindowShifts(ts: TrainingSet, lb: int, ix: seq<int>, iy: seq<int>)
    requires WindowAt(ts, lb, ix, iy)
    ensures forall t :: 0 <= t < |ix| - 1 ==> iy[t] == ix[t + 1]
  {
    forall t | 0 <= t < |ix| - 1 ensures iy[t] == ix[t + 1] {
      assert ts.alphabet.chars[iy[t]] == ts.data[lb + t + 1] == ts.alphabet.chars[ix[t + 1]];
    }
  }

  /** Whenever the code as written extracts a window, the intended version extracts the
      same one; they differ only on the last window of the data. */
  lemma AsWrittenAgreesWhenOk(ts: TrainingSet, lb: int, ix: Option<seq<int>>, iy: Option<seq<int>>)
    ensures ExtractAsWritten(ts, lb, ix, iy).Ok? ==> Extract(ts, lb, ix, iy) == ExtractAsWritten(ts, lb, ix, iy)
    ensures ExtractAsWritten(ts, lb, ix, iy).Err? && Extract(ts, lb, ix, iy).Ok? ==>
      lb + |iy.value| + 1 == |ts.data| && ExtractAsWritten(ts, lb, ix, iy).error == NoMoreTrainingData
  {
  }

  /** On the text "ab" the window of length 1 at 0 exists (input 'a', target 'b'), but the
      code as written reports that the data is exhausted. */
  lemma AsWrittenMissesLastWindow()
    ensures ExtractAsWritten(FromString(Some("ab")), 0, Some([0]), Some([0])) == Err(NoMoreTrainingData)
    ensures Extract(FromString(Some("ab")), 0, Some([0]), Some([0])) == Ok(([0], [1]))
  {
    var ts := FromString(Some("ab"));
    Alphabets.FromStringIsSortedDistinct("ab", "ab");
    var w := Extract(ts, 0, Some([0]), Some([0])).value;
    assert ts.alphabet.chars == "ab";
    assert |w.0| == 1 && ts.alphabet.chars[w.0[0]] == 'a' && ts.alphabet.chars[w.1[0]] == 'b';
    assert w.0 == [0] && w.1 == [1];
  }
}

=== FILE: vectors.dfy ===
/** How the general matrix operators act on vectors.

    The layer code mixes row vectors (what `zeros(k)`, `oneHot` and `randn(k)` build) and
    column vectors (what `dot` returns) and relies on the implicit transposes of `dot`,
    `add` and `mul` to reconcile them. The lemmas here state, once, what those operators
    compute when every operand is a vector of the right length, whatever its orientation. */
module VectorAlgebra {
  import opened Outcomes
  import opened Matrices

  /** A vector of length k, in either orientation. */
  predicate IsVectorOf(a: Matrix, k: int) {
    IsVector(a) && Length(a) == k
  }

  /** A k x 1 column vector. */
  predicate IsColumnOf(a: Matrix, k: int) {
    a.cols == 1 && a.rows == k
  }

  /** The matrix-vector product in plain sequence terms. */
  function MatVec(w: Matrix, v: seq<real>): (r: seq<real>)
    requires |v| == w.cols
    ensures |r| == w.rows
  {
    seq(w.rows, i requires 0 <= i < w.rows => Inner(w.data[i], v))
  }

  /** Pointwise sum of two sequences of equal length. */
  function AddSeqs(u: seq<real>, v: seq<real>): (r: seq<real>)
    requires |u| == |v|
    ensures |r| == |u|
  {
    seq(|u|, i requires 0 <= i < |u| => u[i] + v[i])
  }

  /** Pointwise product of two sequences of equal length. */
  function MulSeqs(u: seq<real>, v: seq<real>): (r: seq<real>)
    requires |u| == |v|
    ensures |r| == |u|
  {
    seq(|u|, i requires 0 <= i < |u| => u[i] * v[i])
  }

  /** f applied to every element. */
  function Map(f: real -> real, u: seq<real>): (r: seq<real>)
    ensures |r| == |u|
  {
    seq(|u|, i requires 0 <= i < |u| => f(u[i]))
  }

  lemma ColumnVec(a: Matrix)
    requires a.cols == 1
    ensures IsVectorOf(a, a.rows)
    ensures forall i :: 0 <= i < a.rows ==> Vec(a)[i] == a.data[i][0]
  {
  }

  /** Every column vector is a vector of its height. */
  lemma ColumnIsVector(a: Matrix, k: int)
    requires IsColumnOf(a, k)
    ensures IsVectorOf(a, k)
  {
  }

  /** `dot(W, x)` for a vector x as long as W is wide is an H x 1 column holding W x. */
  lemma DotMatVec(w: Matrix, x: Matrix)
    requires IsVectorOf(x, w.cols)
    ensures Dot(w, x).Ok?
    ensures IsColumnOf(Dot(w, x).value, w.rows)
    ensures Vec(Dot(w, x).value) == MatVec(w, Vec(x))
  {
    var r := Dot(w, x).value;
    var v := Vec(x);
    if w.cols == x.rows {
      assert Column(x, 0) == v;
    } else {
      assert x.rows == 1 && w.cols == x.cols;
      assert x.data[0] == v;
    }
    assert Vec(r) == MatVec(w, v);
  }

  /** An element-wise sum or product of two vectors of equal length succeeds, keeps the
      receiver's shape and acts on the entries in index order. */
  lemma ZipVectors(op: Pointwise, a: Matrix, b: Matrix)
    requires op != Over
    requires IsVector(a) && IsVector(b) && Length(a) == Length(b)
    ensures Zip(op, a, b).Ok?
    ensures SameShape(Zip(op, a, b).value, a)
    ensures IsVectorOf(Zip(op, a, b).value, Length(a))
    ensures forall i :: 0 <= i < Length(a) ==> Vec(Zip(op, a, b).value)[i] == Combine(op, Vec(a)[i], Vec(b)[i])
  {
    var r := Zip(op, a, b).value;
    forall i | 0 <= i < Length(a)
      ensures Vec(r)[i] == Combine(op, Vec(a)[i], Vec(b)[i])
    {
    }
  }

  lemma AddVectors(a: Matrix, b: Matrix)
    requires IsVector(a) && IsVector(b) && Length(a) == Length(b)
    ensures Add(a, b).Ok?
    ensures SameShape(Add(a, b).value, a)
    ensures Vec(Add(a, b).value) == AddSeqs(Vec(a), Vec(b))
  {
    ZipVectors(Pointwise.Plus, a, b);
    var r := Add(a, b).value;
    assert forall i :: 0 <= i < Length(a) ==> Vec(r)[i] == AddSeqs(Vec(a), Vec(b))[i];
  }

  lemma MulVectors(a: Matrix, b: Matrix)
    requires IsVector(a) && IsVector(b) && Length(a) == Length(b)
    ensures Mul(a, b).Ok?
    ensures SameShape(Mul(a, b).value, a)
    ensures Vec(Mul(a, b).value) == MulSeqs(Vec(a), Vec(b))
  {
    assert Mul(a, b) == Zip(Pointwise.Times, a, b);
    ZipTimesVectors(a, b);
  }

  /** The element-wise product of two vectors through `Zip`, kept apart from the
      statement about `Mul` so that the entry-wise products are reasoned about once. */
  lemma ZipTimesVectors(a: Matrix, b: Matrix)
    requires IsVector(a) && IsVector(b) && Length(a) == Length(b)
    ensures Zip(Pointwise.Times, a, b).Ok?
    ensures SameShape(Zip(Pointwise.Times, a, b).value, a)
    ensures Vec(Zip(Pointwise.Times, a, b).value) == MulSeqs(Vec(a), Vec(b))
  {
    ZipVectors(Pointwise.Times, a, b);
    var r := Zip(Pointwise.Times, a, b).value;
    forall i | 0 <= i < Length(a)
      ensures Vec(r)[i] == MulSeqs(Vec(a), Vec(b))[i]
    {
      var x, y := Vec(a)[i], Vec(b)[i];
      assert Vec(r)[i] == Combine(Pointwise.Times, x, y) == x * y;
    }
  }

  /** `dot(u, v.T())` for a column u and any vector v is the outer product u v^T. */
  lemma OuterProduct(u: Matrix, v: Matrix)
    requires u.cols == 1 && IsVector(v)
    ensures Dot(u, Transpose(v)).Ok?
    ensures Dot(u, Transpose(v)).value.rows == u.rows
    ensures Dot(u, Transpose(v)).value.cols == Length(v)
    ensures forall i, j :: 0 <= i < u.rows && 0 <= j < Length(v) ==>
      Dot(u, Transpose(v)).value.data[i][j] == u.data[i][0] * Vec(v)[j]
  {
    var vt := Transpose(v);
    var r := Dot(u, vt).value;
    forall i, j | 0 <= i < u.rows && 0 <= j < Length(v)
      ensures r.data[i][j] == u.data[i][0] * Vec(v)[j]
    {
      if u.cols == vt.rows {
        assert u.data[i] == [u.data[i][0]];
        assert Column(vt, j) == [Vec(v)[j]];
        InnerSingle(u.data[i][0], Vec(v)[j]);
      }
    }
  }

  /** Element-wise maps keep the orientation and act on the entries in index order. */
  lemma ApplyVector(a: Matrix, f: real -> real)
    requires IsVector(a)
    ensures IsVectorOf(Apply(a, f), Length(a))
    ensures Vec(Apply(a, f)) == Map(f, Vec(a))
  {
  }

  /** Negation of a vector in index order. */
  lemma NegVector(a: Matrix)
    requires IsVector(a)
    ensures IsVectorOf(Neg(a), Length(a))
    ensures forall i :: 0 <= i < Length(a) ==> Vec(Neg(a))[i] == -Vec(a)[i]
  {
    var r := Neg(a);
    forall i | 0 <= i < Length(a)
      ensures Vec(r)[i] == -Vec(a)[i]
    {
    }
  }

  lemma OnesLikeVector(a: Matrix)
    requires IsVector(a)
    ensures IsVectorOf(OnesLike(a), Length(a))
    ensures forall i :: 0 <= i < Length(a) ==> Vec(OnesLike(a))[i] == 1.0
  {
  }

  lemma ZerosLikeVector(a: Matrix)
    requires IsVector(a)
    ensures IsVectorOf(ZerosLike(a), Length(a))
    ensures forall i :: 0 <= i < Length(a) ==> Vec(ZerosLike(a))[i] == 0.0
  {
  }
}
